=== FILE: README.md ===
# Fitness platform core, modelled in Dafny

This project models the server core of a fitness-challenge platform built on Express and Mongoose. Users belong to gyms, join challenges, log workout sessions, invite friends and earn badges. Three roles exist: a super administrator, a gym owner and a regular user.

What is modelled:

- **The stored documents.** Users, gyms, challenges, participations, invitations, badges and sessions are immutable records. Each Mongoose collection is a sequence of documents in insertion order. The schema defaults, `trim`/`lowercase` setters, `required`/`enum`/`min` validators and unique indexes are stated in the `*Schema` modules. The badge rule validator is modelled as declared, per rule, next to the list-level check its message describes; see "## Findings". The values of the challenge `DifficultyLevel` enumeration are a parameter, `levels`.
- **The service layer** (`*Service` modules). Every query or update becomes a pure function of the collection. `findByIdAndUpdate` replaces one element and `find().sort().limit().skip()` is filter, sort, skip and take. Among documents with equal keys the sort picks one fixed order, which the database does not promise; see "## Left out". `$addToSet`, `$pull`, `$inc`, `$set` and `$unset` are written out.
- **The badge rule engines.** `checkAndAssignBadges` in `BadgeAssignment` and `checkUserEligibility` in `BadgeService` are two different rule evaluators. `RuleEngines` relates them and pins down exactly where they disagree.
- **The middlewares.** The bearer-session gate is in `SessionMiddleware`; the role gates are in `RoleMiddleware`.
- **The controllers** (`*Controller` modules). Each handler is a function from the store and the request to a `Reply`: the store afterwards plus the HTTP status. Contracts state each status, the condition that yields it, and what the store looks like afterwards.

Shared conventions:

- A request parameter that the code passes to `isValidObjectId`, or that Mongoose casts to an ObjectId, is a `RawId`: either `ObjectId(id)` or `Malformed`. A malformed id reaching `findById` without a guard is a cast error, and the handler's catch turns it into a 500. An id taken from a request body and tested for truthiness first (`!userId`, `ownerId || …`) reaches the handlers through `Text.BodyId`: an absent or empty text is falsy, and is `None`, no id at all.
- JavaScript truthiness of optional body fields is `Common.Truthy`.
- `parseInt` with no radix, as the controllers call it on query strings, is `Numbers.ParseInt`.
- The loose comparisons `>`, `>=`, `<`, `<=`, `==` and `!=` of a document field with a rule's number, with JavaScript's conversion of strings, Dates, ObjectIds and arrays to numbers, are `Coercion.Compare`.
- Strict equality `!==` between an ObjectId object and another value is `JsEquality.StrictEquals`.
- The current time, the password hash and fresh ids are parameters, or are derived deterministically from the collection.

Where a handler's ownership test cannot succeed as written, or the badge schema's rule validator refuses every rule, both halves are modelled; see "## Findings". The member named `...AsWritten` keeps the code as written. The corrected member compares ids, or checks the rule list as a whole, and the other handlers use the corrected one.

## Model

| member | source | states |
|---|---|---|
| UserSchema.Insert | services/mongoose/schema/user.schema.ts:7-68 | a create fails validation exactly when the lower-cased, trimmed e-mail, the password or a trimmed name is empty. It is a duplicate-key error exactly when a stored user already has that normalised e-mail. Otherwise one user is appended with a fresh id and the normalised e-mail; role USER, active, score 0, no badges, friends or gym are the defaults |
| UserSchema.InsertKeepsEmailsUnique | services/mongoose/schema/user.schema.ts:7-13 | the unique index keeps e-mail addresses pairwise distinct across creates |
| UserSchema.FindUserById | services/mongoose/services/user.service.ts:43-48 | a malformed id finds nothing; a well-formed one finds the stored user with that id, and nothing exactly when no user has it |
| BadgeSchema.ParseBadgeType | models/badge.interface.ts:4-10 | a string is accepted exactly when it is one of the five enumeration values, and then names that value |
| BadgeSchema.ParseBadgeTypeName | models/badge.interface.ts:4-10 | every enumeration value is accepted as itself |
| BadgeSchema.Insert | services/mongoose/schema/badge.schema.ts:7-48 | the corrected schema, with the rule check on the list as its message says: a create fails validation exactly when the trimmed name or description is empty, the type is outside the enumeration, there is no rule, or points are negative. It is a duplicate-key error exactly when the trimmed name is taken. Otherwise the collection gains exactly one badge at its end: active, with the trimmed texts, the given type, rules, points and creator, and an id no stored badge has |
| BadgeSchema.InsertKeepsNamesUnique | services/mongoose/schema/badge.schema.ts:7-12 | the unique index keeps badge names pairwise distinct across creates |
| BadgeSchema.InsertAsWritten | services/mongoose/schema/badge.schema.ts:23-34 | the schema as declared, with `required` and the length validator on each rule: validation fails exactly when the declared checks fail, they pass only an empty rule list, and a stored badge therefore has no rule |
| BadgeSchema.NoRulePasses | services/mongoose/schema/badge.schema.ts:28-30 | the element validator refuses every rule: a rule has no `length`, and `undefined > 0` is false |
| BadgeSchema.EveryRuleRejected | services/mongoose/schema/badge.schema.ts:23-34 | every create the corrected schema stores, or refuses only for a taken name, the declared schema refuses as invalid |
| GymSchema.Insert | services/mongoose/schema/gym.schema.ts:7-54 | a create fails exactly when the trimmed name or the location is empty. Otherwise the gym is appended with a fresh id, PENDING unless a status is given, with no approving admin and no exercise types |
| InvitationSchema.Create | services/mongoose/schema/invitation.schema.ts:27-40 | a new invitation is appended PENDING, with a fresh id, the trimmed message, and an expiry of exactly seven days (604 800 000 ms) after its creation |
| ParticipationSchema.Create | services/mongoose/schema/participation.schema.ts:17-68 | a new participation is appended JOINED with progress 0 (inside the 0..100 bounds), no sessions, no calories, no completion date, and the given inviter |
| ChallengeSchema.ParseChallengeType | models/challenge.interface.ts:13-17 | a string is accepted exactly when it is one of the three challenge types |
| ChallengeSchema.Insert | services/mongoose/schema/challenge.schema.ts:7-123 | a create fails exactly when a required field or a goal is invalid, or the difficulty is not one of the enumeration's values. Otherwise the challenge is appended ACTIVE with 0 participants, the trimmed texts, the given difficulty, and the defaults INDIVIDUAL, 0 reward points, public, not invite-only, not team-based |
| BadgeService.AllBadges | services/mongoose/services/badge.service.ts:21-26 | all badges, a permutation of the collection, sorted by name |
| BadgeService.ActiveBadges | services/mongoose/services/badge.service.ts:28-33 | exactly the active badges, sorted by name |
| BadgeService.BadgesByType | services/mongoose/services/badge.service.ts:68-73 | exactly the active badges of the given type, sorted by name |
| BadgeService.BadgeById | services/mongoose/services/badge.service.ts:35-39 | finds the badge with the id, and nothing exactly when none has it |
| BadgeService.ToggleBadgeStatus | services/mongoose/services/badge.service.ts:59-66 | a missing badge gives null. Otherwise only that badge's `isActive` flips and every other document is unchanged |
| BadgeService.ToggleTwice | services/mongoose/services/badge.service.ts:59-66 | toggling twice restores the collection |
| BadgeService.UpdateBadge | services/mongoose/services/badge.service.ts:45-52 | an unknown id gives null. A duplicate-key error exactly when the new trimmed name is held by another badge. Otherwise each given field is written (name and description trimmed) and each absent one kept, as are the activity flag, creator, id and creation time; only that document changes |
| BadgeService.ApplyPatchIdempotent | services/mongoose/services/badge.service.ts:49-50 | writing the same fields twice gives the same badge as writing them once |
| BadgeService.UpdateBadgeTwice | services/mongoose/services/badge.service.ts:45-52 | a second identical update finds the updated badge, passes the unique index, and leaves the collection as it is |
| BadgeService.DeleteBadge | services/mongoose/services/badge.service.ts:54-57 | answers true exactly when a badge with the id existed, and then exactly the first badge with that id is cut out, the others keeping their order; otherwise nothing changes |
| BadgeService.DeleteBadgeRemovesOnlyIt | services/mongoose/services/badge.service.ts:54-57 | with unique ids, the deleted badge is no longer found, every other badge is kept, and nothing new appears |
| BadgeService.RulesPass | services/mongoose/services/badge.service.ts:82-110 | the rule loop, stopping at the first failure, answers true exactly when every rule passes: a missing statistic or an unknown operator fails |
| BadgeService.CheckUserEligibility | services/mongoose/services/badge.service.ts:75-118 | the eligible badges are exactly the active ones all of whose rules pass, kept in name order |
| BadgeAssignment.MissingFieldHolds | utils/checkAndAssignBadges.ts:29-37 | against a field the user record lacks (`undefined`), a rule holds exactly when its operator is `!=` |
| BadgeAssignment.UnknownOperatorFails | utils/checkAndAssignBadges.ts:38-40 | an operator outside the six comparisons makes the rule false |
| BadgeAssignment.EmptyBadgesEqualZero | utils/checkAndAssignBadges.ts:29-36 | the empty badge list reads as 0: a user without badges meets `badges == 0` and fails `badges != 0` |
| BadgeAssignment.ActivityDateCompared | utils/checkAndAssignBadges.ts:29-36 | the last activity date compares by its time under `>`, and under `==` equals no number, not even its own time |
| BadgeAssignment.RoleIsNaN | utils/checkAndAssignBadges.ts:29 | a role name converts to `NaN` |
| BadgeAssignment.RoleNeverCompares | utils/checkAndAssignBadges.ts:29-36 | every comparison but `!=` fails on the role |
| BadgeAssignment.AwardAll | utils/checkAndAssignBadges.ts:21-55 | the loop over the badges, granting as it goes, ends with the user `Awarded` describes: the qualifying badges the snapshot lacked are added once each, with their points |
| BadgeAssignment.CheckAndAssignBadges | utils/checkAndAssignBadges.ts:4-59 | an unknown or malformed user id changes nothing. Otherwise only that user changes, to the result of a run over all badges in name order, where each rule compares the user's stored field as JavaScript converts it: numbers as themselves, a Date as its time under the ordering operators, an array or a string through its text |
| BadgeAssignment.GrantedIff | utils/checkAndAssignBadges.ts:44-48 | a badge is granted exactly when it has rules, they all hold, and the user's snapshot does not list it |
| BadgeAssignment.EmptyRulesNeverGranted | utils/checkAndAssignBadges.ts:22-25 | a badge without rules is never granted |
| BadgeAssignment.AwardedOwnsQualifying | utils/checkAndAssignBadges.ts:44-53 | after a run the user holds every badge held before and every qualifying badge |
| BadgeAssignment.NoDoubleGrant | utils/checkAndAssignBadges.ts:46 | a second run never grants again a badge the first run granted |
| BadgeAssignment.AwardedKeepsOtherFields | utils/checkAndAssignBadges.ts:48-52 | a run changes no field that rules read except `totalScore` |
| BadgeAssignment.AwardedFixpoint | utils/checkAndAssignBadges.ts:21-55 | when no rule reads `totalScore`, a second run grants nothing and changes nothing |
| BadgeAssignment.RerunCanGrantMore | utils/checkAndAssignBadges.ts:28-52 | with a rule on `totalScore` a second run can grant more: the points of one badge lift the score over another's threshold, which was read from the stale snapshot |
| RuleEngines.StatsOf | services/mongoose/services/badge.service.ts:75-83 | the statistics object read off a user shows exactly the user's numeric fields |
| RuleEngines.NumericFields | services/mongoose/services/badge.service.ts:75-83 | exactly the five paths `totalScore`, `challengesCompleted`, `totalCaloriesBurned`, `streakDays` and `isActive` of a user read as numbers (the flag as 1 or 0) |
| RuleEngines.RuleVerdictsAgree | services/mongoose/services/badge.service.ts:82-107 | on any operator but `!=`, the two engines give the same verdict on a rule |
| RuleEngines.BadgeVerdictsAgree | services/mongoose/services/badge.service.ts:79-114 | on a non-empty rule list without `!=`, a badge qualifies in one engine exactly when it is eligible in the other |
| RuleEngines.NotEqualOperatorDiffers | services/mongoose/services/badge.service.ts:105-107 | `checkUserEligibility` rejects every `!=` rule (it falls to `default`), while `checkAndAssignBadges` evaluates it |
| RuleEngines.MissingFieldDiffers | services/mongoose/services/badge.service.ts:83-87 | a missing statistic fails in `checkUserEligibility`, while `checkAndAssignBadges` lets a `!=` rule hold on it |
| RuleEngines.EmptyRulesDiffer | utils/checkAndAssignBadges.ts:22-25 | an empty rule list is vacuously eligible for `checkUserEligibility` but never granted by `checkAndAssignBadges` |
| RuleEngines.InactiveBadgesDiffer | utils/checkAndAssignBadges.ts:11 | an inactive badge is never eligible, while `checkAndAssignBadges` grants it as if it were active |
| RuleEngines.CoercedFieldDiffers | services/mongoose/services/badge.service.ts:83-87 | a rule on a path that holds a string, a Date, an ObjectId or an array fails in `checkUserEligibility`, while `checkAndAssignBadges` holds it exactly when the converted comparison is true |
| RuleEngines.EmptyFriendsEqualZero | utils/checkAndAssignBadges.ts:36 | a user without friends meets `friends == 0`, the empty array reading as 0 |
| RuleEngines.SingleRule | utils/checkAndAssignBadges.ts:28-42 | a one-rule badge qualifies, in either engine, exactly when its rule holds there |
| RuleEngines.EnginesDisagree | utils/checkAndAssignBadges.ts:28-42 | for every user without friends and with a score other than 3, the two engines disagree on each of four badges: a `!=` rule, a rule on a missing path, an empty rule list, and `friends == 0` |
| UserService.FindUser | services/mongoose/services/user.service.ts:28-34 | finds a user with the normalised e-mail whose stored hash is the hash of the password when one is given. It finds nothing exactly when no stored user matches both |
| UserService.UpdateUser | services/mongoose/services/user.service.ts:50-55 | a malformed or unknown id gives null. Otherwise only the given names change, trimmed by the schema setters, and every other document is unchanged |
| UserService.AddBadgeToUser | services/mongoose/services/user.service.ts:70-81 | `$addToSet`: afterwards the user's badges are the old ones plus the new one, no duplicate is introduced, and nothing else changes |
| UserService.AddBadgeIdempotent | services/mongoose/services/user.service.ts:77 | adding the same badge twice leaves the collection as adding it once |
| UserService.UpdateUserScore | services/mongoose/services/user.service.ts:83-94 | `$inc`: the score grows by exactly the given points and nothing else changes |
| UserService.ScoreIncrementsAdd | services/mongoose/services/user.service.ts:90 | two increments in a row equal one increment by their sum |
| UserService.AddFriend | services/mongoose/services/user.service.ts:104-129 | null exactly when an id is malformed, the user is missing, or the friend is missing or inactive. Otherwise the friend is added to the user's set of friends and nothing else changes |
| UserService.AddFriendOneWay | services/mongoose/services/user.service.ts:120-126 | the friendship is one-way: every other user, the friend included, is unchanged |
| UserService.RemoveFriend | services/mongoose/services/user.service.ts:131-144 | `$pull`: the friend no longer appears, the other friends stay, and nothing else changes |
| UserService.AddThenRemoveFriend | services/mongoose/services/user.service.ts:104-144 | removing a friend just added leaves exactly the other friends the user had before |
| UserService.Friends | services/mongoose/services/user.service.ts:146-162 | an unknown user has no friends. Otherwise the result is exactly the active users the user's friend list names |
| UserService.UpdateUserStats | services/mongoose/services/user.service.ts:214-238 | the completed-challenge and calorie counters grow by the given amounts. The streak and last-activity date are overwritten only when given. Nothing else changes |
| UserService.EmptyStatsUpdateKeeps | services/mongoose/services/user.service.ts:214-238 | an update with no field leaves the collection as it was |
| UserService.Leaderboard | services/mongoose/services/user.service.ts:96-102 | only active users, highest score first. The length is the number of active users, capped by the limit's absolute value; 0 means no limit |
| UserService.LeaderboardKeepsBest | services/mongoose/services/user.service.ts:96-102 | an active user left off a limited board scores no more than anyone on it |
| UserService.UserListing | services/mongoose/services/user.service.ts:174-179 | exactly the users matching the role and activity filters, newest first, as many as there are matches |
| UserService.AllUsers | services/mongoose/services/user.service.ts:169-183 | a negative skip makes the query fail. Otherwise the result is the matching listing from position `skip` on, at most `limit` long (0 means no limit), whatever order `limit` and `skip` are chained in |
| UserService.AssignUserToGym | services/mongoose/services/user.service.ts:185-194 | `$set`: only the user's gym reference changes, to the gym |
| UserService.UsersByGym | services/mongoose/services/user.service.ts:196-202 | exactly the users whose gym reference is the gym |
| UserService.RemoveUserFromGym | services/mongoose/services/user.service.ts:204-212 | `$unset`: only the user's gym reference changes, to none |
| UserService.RemoveUndoesAssign | services/mongoose/services/user.service.ts:185-212 | removing from a gym a user just assigned who had no gym restores the collection |
| UserService.CountUsers | services/mongoose/services/user.service.ts:240-263 | the counts: the total is the collection's size; the active users, the inactive users (the total less the active), the super admins, the gym owners and the regular users are each the number of users with that flag or role; active plus inactive is the total, and the three role counts add up to the total |
| UserService.ActivityPartition | services/mongoose/services/user.service.ts:241-258 | active and inactive users partition the collection |
| UserService.RolesPartition | services/mongoose/services/user.service.ts:245-253 | the three roles partition the collection |
| GymService.GymById | services/mongoose/services/gym.service.ts:29-31 | finds the gym with the id, and nothing exactly when none has it |
| GymService.GymsByOwner | services/mongoose/services/gym.service.ts:44-48 | exactly the gyms whose owner is the given user |
| GymService.GymsByOwnerDistinct | services/mongoose/services/gym.service.ts:44-48 | when the stored ids are unique, the owner's gyms carry distinct ids |
| GymService.GymByOwnerId | services/mongoose/services/gym.service.ts:50-54 | `findOne`: some gym the user owns, and none exactly when the user owns no gym |
| GymService.PendingGyms | services/mongoose/services/gym.service.ts:56-61 | exactly the PENDING gyms |
| GymService.AssignToOwner | services/mongoose/services/gym.service.ts:63-79 | the gym gets the new owner, APPROVED, with the admin recorded as approver. Nothing else changes |
| GymService.Approve | services/mongoose/services/gym.service.ts:81-92 | APPROVED from any status with the admin recorded. Nothing else changes |
| GymService.Reject | services/mongoose/services/gym.service.ts:94-100 | REJECTED. A previously recorded approver stays, and nothing else changes |
| GymService.ApproveAfterReject | services/mongoose/services/gym.service.ts:81-100 | a rejected gym can be approved again: the approval workflow has no final state |
| GymService.ApplyPatchIdempotent | services/mongoose/services/gym.service.ts:102-109 | writing the same fields twice gives the same gym as writing them once |
| GymService.UpdateGym | services/mongoose/services/gym.service.ts:102-109 | an unknown id gives null. Otherwise each given field (name trimmed, location, description, capacity, equipment, difficulty levels) is written and each absent one kept, while id, status, owner, creator, approver, exercise types and creation time are kept. An empty patch changes nothing. Only that gym changes |
| GymService.UpdateGymTwice | services/mongoose/services/gym.service.ts:102-109 | a second identical update finds the same gym and changes nothing |
| GymService.DeleteGym | services/mongoose/services/gym.service.ts:111-114 | true exactly when a gym with the id existed, and then exactly the first gym with that id is cut out, the others keeping their order; otherwise nothing changes |
| GymService.DeleteGymRemovesOnlyIt | services/mongoose/services/gym.service.ts:111-114 | with unique ids, the deleted gym is no longer found, every other gym is kept, and nothing new appears |
| GymService.AssignTypeExercises | services/mongoose/services/gym.service.ts:116-127 | the exercise-type list is replaced whole, and nothing else changes |
| GymService.AddTypeExercise | services/mongoose/services/gym.service.ts:129-140 | `$addToSet`: the list gains the type once; it is unchanged if the type was already there, and no duplicate is introduced |
| GymService.RemoveTypeExercise | services/mongoose/services/gym.service.ts:142-153 | `$pull`: every occurrence of the type goes and the other types stay |
| GymService.AddThenRemove | services/mongoose/services/gym.service.ts:129-153 | adding then removing a type leaves exactly the other types the gym had |
| GymService.GymsByTypeExercise | services/mongoose/services/gym.service.ts:155-163 | exactly the APPROVED gyms whose list holds the type |
| ChallengeService.ChallengeById | services/mongoose/services/challenge.service.ts:50-57 | finds the challenge with the id, and nothing exactly when none has it |
| ChallengeService.ShiftParticipants | services/mongoose/services/challenge.service.ts:139-153 | `$inc` on the participant counter: it moves by exactly the delta and nothing else changes |
| ChallengeService.IncrementParticipants | services/mongoose/services/challenge.service.ts:139-145 | exactly one more participant, and nothing else changes |
| ChallengeService.DecrementParticipants | services/mongoose/services/challenge.service.ts:147-153 | exactly one fewer participant, with no lower bound; nothing else changes |
| ChallengeService.DecrementUndoesIncrement | services/mongoose/services/challenge.service.ts:139-153 | decrementing right after incrementing restores the collection |
| ChallengeService.DecrementBelowZero | services/mongoose/services/challenge.service.ts:147-153 | decrementing a challenge with no participant makes the counter -1 |
| ChallengeService.Activate | services/mongoose/services/challenge.service.ts:121-132 | ACTIVE, starting now and ending exactly one day later; nothing else changes |
| ChallengeService.ActivationIgnoresDuration | services/mongoose/services/challenge.service.ts:127 | the end date does not depend on the challenge's `duration`: every activation lasts one day |
| ChallengeService.AllChallenges | services/mongoose/services/challenge.service.ts:59-81 | exactly the challenges matching every given filter, newest first |
| ChallengeService.NoFilterListsAll | services/mongoose/services/challenge.service.ts:67-74 | with no filter every challenge is listed |
| ChallengeService.PrivateFilterApplied | services/mongoose/services/challenge.service.ts:73 | `isPublic: false` is applied as a filter (it is checked against `undefined`, not for truthiness), so public challenges are hidden |
| ChallengeService.PublicChallenges | services/mongoose/services/challenge.service.ts:83-88 | exactly the public ACTIVE challenges, newest first |
| ParticipationService.ParticipationById | services/mongoose/services/participation.service.ts:23-29 | finds the participation with the id, and nothing exactly when none has it |
| ParticipationService.UserChallengeParticipation | services/mongoose/services/participation.service.ts:45-47 | a participation of that user in that challenge, in any status, and none exactly when there is none |
| ParticipationService.UserParticipations | services/mongoose/services/participation.service.ts:31-36 | exactly the user's participations, newest first |
| ParticipationService.UpdateProgress | services/mongoose/services/participation.service.ts:49-64 | progress is written as given. At 100 or more the status is COMPLETED and `completedAt` is now. Strictly between 0 and 100 it is IN_PROGRESS. At 0 or below the status and `completedAt` are untouched. Nothing else changes, and an unknown id is refused |
| ParticipationService.StatusIgnoresPriorStatus | services/mongoose/services/participation.service.ts:52-58 | for a positive progress the new status depends on the progress only, so an ABANDONED or COMPLETED participation is overwritten |
| ParticipationService.Inc | services/mongoose/services/participation.service.ts:75-79 | `$inc` on a field that is not set counts from 0 |
| ParticipationService.AddWorkoutSession | services/mongoose/services/participation.service.ts:66-85 | the session is appended last. The calories and duration counters grow by the session's figures and the workout counter by one. Nothing else changes, and an unknown id is refused |
| ParticipationService.SumBySnoc | services/mongoose/services/participation.service.ts:74-79 | appending a session adds its figure to a sum over the sessions |
| ParticipationService.LoggingKeepsTotals | services/mongoose/services/participation.service.ts:66-85 | the counters stay equal to the sums over the logged sessions, from creation and through every logged session |
| ParticipationService.PushSkipsExerciseValidation | services/mongoose/services/participation.service.ts:70-82 | `findByIdAndUpdate` does not run the schema validators, so a session whose exercise lacks sets or reps is still stored |
| ParticipationService.Abandon | services/mongoose/services/participation.service.ts:103-109 | ABANDONED, and nothing else changes; an unknown id is refused |
| ParticipationService.LeaderKeyOrder | services/mongoose/services/participation.service.ts:120 | the sort key orders by progress descending, then `totalCaloriesBurned` descending |
| ParticipationService.Leaderboard | services/mongoose/services/participation.service.ts:116-122 | only participations in the challenge that are not ABANDONED; ten of them, or all when fewer qualify |
| ParticipationService.LeaderboardRanked | services/mongoose/services/participation.service.ts:120 | the board lists best first: by progress, then by `totalCaloriesBurned` |
| ParticipationService.LeaderboardKeepsBest | services/mongoose/services/participation.service.ts:116-122 | a qualifying participation left off the board ranks no higher than any listed one |
| ParticipationService.CaloriesSum | services/mongoose/services/participation.service.ts:137 | the JavaScript sum is NaN, modelled as none, exactly when some participation has no `totalCalories`; otherwise it is the sum of the participations' `totalCalories` |
| ParticipationService.UserStats | services/mongoose/services/participation.service.ts:124-144 | the total is the user's participation count. Completed counts only COMPLETED and active only IN_PROGRESS, so their sum is at most the total. The calorie sum is NaN exactly when one of the user's participations has no `totalCalories`, and otherwise it is the sum of those totals over the user's participations |
| ParticipationService.JoinBlanksCalorieSum | services/mongoose/services/participation.service.ts:137 | a fresh participation has no `totalCalories`, so after any join the user's calorie total is NaN |
| InvitationService.InvitationById | services/mongoose/services/invitation.service.ts:24-34 | none for a malformed id. Otherwise it finds the invitation with the id, and none exactly when there is none |
| InvitationService.UpdateStatus | services/mongoose/services/invitation.service.ts:59-75 | none for a malformed or unknown id. Otherwise only the status changes |
| InvitationService.UpdateStatusUnchecked | services/mongoose/services/invitation.service.ts:59-75 | there is no transition check: an ACCEPTED invitation can be set back to PENDING |
| InvitationService.ExistingInvitation | services/mongoose/services/invitation.service.ts:77-88 | only a PENDING invitation with the same challenge, sender and recipient matches; answered or expired ones never do |
| InvitationService.ExpireOld | services/mongoose/services/invitation.service.ts:90-98 | exactly the PENDING invitations with `expiresAt` strictly before now become EXPIRED, and every other one is unchanged |
| InvitationService.ExpireOldIdempotent | services/mongoose/services/invitation.service.ts:90-98 | after a sweep nothing is overdue, and a second sweep at the same time changes nothing |
| InvitationService.ExpireOldKeepsValid | services/mongoose/services/invitation.service.ts:90-98 | after a sweep every PENDING invitation expires now or later, and every invitation that was PENDING and not overdue is still there unchanged |
| InvitationService.ExpireOldKeepsCurrent | services/mongoose/services/invitation.service.ts:93-94 | a PENDING invitation expiring exactly now, or later, survives the sweep |
| InvitationService.Listing | services/mongoose/services/invitation.service.ts:42-56 | exactly the matching invitations, newest first |
| InvitationService.UserInvitations | services/mongoose/services/invitation.service.ts:36-48 | exactly the invitations addressed to the user, filtered by status only when one is given, newest first |
| InvitationService.SentInvitations | services/mongoose/services/invitation.service.ts:50-57 | exactly the invitations the user sent, newest first |
| InvitationService.DeleteInvitation | services/mongoose/services/invitation.service.ts:100-106 | false for a malformed id. True exactly when an invitation with the id existed, and then exactly the first one with that id is cut out, the others keeping their order; otherwise nothing changes |
| InvitationService.DeleteInvitationRemovesOnlyIt | services/mongoose/services/invitation.service.ts:100-106 | with unique ids, the deleted invitation is no longer found, every other invitation is kept, and nothing new appears |
| SessionService.CreateSession | services/mongoose/services/session.service.ts:17-19 | appends a session under a fresh id with the given user and expiry, keeping ids unique |
| SessionService.FindActiveSession | services/mongoose/services/session.service.ts:21-32 | none for a malformed id. Otherwise it returns only a session with that id whose expiry is strictly after now, and none exactly when there is no such session |
| SessionService.DeleteSession | services/mongoose/services/session.service.ts:34-40 | false for a malformed id. True exactly when a session with the id existed, and then one is removed; otherwise nothing changes |
| SessionService.DeleteEndsSession | services/mongoose/services/session.service.ts:21-40 | with unique ids, a deleted session is no longer found active |
| SessionService.CleanExpired | services/mongoose/services/session.service.ts:42-49 | exactly the sessions whose expiry is strictly before now are removed, and the count returned is how many there were |
| SessionService.ExpiredPartition | services/mongoose/services/session.service.ts:42-49 | the expired and the kept sessions together make up all of them |
| SessionService.ExpiryBoundary | services/mongoose/services/session.service.ts:26-29 | a session expiring exactly now is neither active nor swept |
| SessionService.CleanKeepsActive | services/mongoose/services/session.service.ts:42-49 | a sweep never changes the answer to an active-session lookup |
| RoleMiddleware.RoleGate | middlewares/role.middleware.ts:4-23 | 401 exactly when there is no user, 403 exactly when the user's role is outside the allow-list, and the request passes otherwise |
| RoleMiddleware.PresetsNest | middlewares/role.middleware.ts:25-43 | whoever passes the super-admin gate passes the gym-owner gate, and whoever passes that passes the user gate. The gym-owner and admin-or-owner gates always agree |
| RoleMiddleware.UserGateNeverForbids | middlewares/role.middleware.ts:37-43 | the user gate never answers 403, and every authenticated request passes it |
| RoleMiddleware.SuperAdminGateExact | middlewares/role.middleware.ts:25-35 | only SUPER_ADMIN passes the super-admin gate, and every role but USER passes the gym-owner gate |
| SessionMiddleware.BearerToken | middlewares/session.middleware.ts:15-22 | a token exactly when the header is present and starts with the case-sensitive `Bearer `, and the token is the rest of the header |
| SessionMiddleware.BearerRoundTrip | middlewares/session.middleware.ts:16-22 | a header built as `Bearer ` followed by a token yields that token back |
| SessionMiddleware.SessionGate | middlewares/session.middleware.ts:13-37 | every refusal is 401. A request is admitted exactly when its bearer token names an active session, and then the request carries that session and its user |
| SessionMiddleware.ActiveSessionAdmitted | middlewares/session.middleware.ts:13-37 | the printed id of any active session, sent as a bearer token, admits that very session |
| SessionMiddleware.LowerCaseSchemeRejected | middlewares/session.middleware.ts:16 | a `bearer ` header in lower case is refused whatever follows it |
| AuthController.Login | controllers/auth.controller.ts:12-49 | 400 exactly when the email or password is missing. 401 exactly when the credentials match no user or an inactive one. Otherwise 201 with one new session for that user, expiring exactly 15 days (1,296,000,000 ms) later. Nothing changes on a refusal |
| AuthController.Register | controllers/auth.controller.ts:51-84 | 400 exactly when any of email, password, first or last name is missing. 409, with nothing stored, exactly when the record is invalid or the email is taken. Otherwise one user is appended: a USER, active, score 0, with the normalised email and the hashed password |
| AuthController.RegisterIgnoresPrivileges | controllers/auth.controller.ts:64-72 | a role, active flag or score in the body has no effect on the outcome |
| AuthController.RegisterThenLogin | controllers/auth.controller.ts:12-84 | a user who has just registered can log in with the same email and password, and gets a session of their own |
| AuthController.Logout | controllers/auth.controller.ts:98-105 | 200, and the caller's session, if stored, is the one removed |
| AuthController.LogoutEndsSession | controllers/auth.controller.ts:98-105 | after logout the session no longer admits anyone |
| ChallengeController.ChallengeGym | controllers/challenge.controller.ts:61-79 | the gym of a new challenge: a GYM_OWNER's own gym, and 400 for an owner without one; 403 when a USER names a gym, and none otherwise; the named one for a SUPER_ADMIN |
| ChallengeController.CreateChallenge | controllers/challenge.controller.ts:29-107 | 400 exactly when a required field is missing, or the caller is a GYM_OWNER without a gym. 403 exactly when a USER names a gym. 201 exactly when those pass and the schema accepts the fields, the difficulty included. On 201 one challenge is appended under a fresh id: the caller is the creator, the trimmed title and the given difficulty are stored, it starts ACTIVE with no participant, and its gym is the owner's gym for a GYM_OWNER, none for a USER and the named one for a SUPER_ADMIN. Nothing changes otherwise |
| ChallengeController.UnknownDifficultyRefused | services/mongoose/schema/challenge.schema.ts:58-62 | a difficulty outside the enumeration passes the handler's checks and is refused by the schema: a 500, with nothing stored |
| ChallengeController.OwnerChallengeInOwnGym | controllers/challenge.controller.ts:63-71 | a challenge a GYM_OWNER creates belongs to a gym that owner owns |
| ChallengeController.JoinChallenge | controllers/challenge.controller.ts:170-219 | 404 exactly when the challenge is unknown. 400 exactly when the caller already has a participation in it, in any status, or the challenge is full (a non-zero maximum reached). Otherwise 201: one participation is created and the counter rises by one. Nothing changes on a refusal |
| ChallengeController.JoinNeverOverfills | controllers/challenge.controller.ts:193-199 | after a successful join a non-zero maximum is never exceeded |
| ChallengeController.JoinTwiceRejected | controllers/challenge.controller.ts:182-191 | a second join by the same user is refused with 400 and changes nothing |
| ChallengeController.CompletionEffects | controllers/challenge.controller.ts:270-282 | on completion the caller's stats gain one completed challenge and the calories, and then badge assignment runs; an unknown user is left alone |
| ChallengeController.UpdateProgress | controllers/challenge.controller.ts:233-293 | a progress outside 0..100 gives 400 before any lookup. 404 for a missing participation. 500 exactly when the participation's owner record is gone, as the populated `userId` is `null` and reading its `_id` throws. 404 for one owned by someone else. On 200 the progress update is applied. At 100 or more the completion effects reach the caller's user record, using the pre-update calories. Nothing else changes |
| ChallengeController.CompletionCountedTwice | controllers/challenge.controller.ts:270-282 | reporting 100 twice counts the challenge as completed twice |
| ChallengeController.AddWorkoutSessionAsWritten | controllers/challenge.controller.ts:296-336 | as written, a missing exercises field gives 400 and no valid id ever gives 200, because a string is compared with an id object |
| ChallengeController.AddWorkoutSession | controllers/challenge.controller.ts:296-336 | a missing exercises field gives 400. 404 for a missing participation. 500 exactly when its owner's record is gone, as `toString` of the `null` populated `userId` throws. 404 for someone else's. On 200 a session is appended with duration 0 and the posted calories (0 when absent), and only that participation changes |
| ChallengeController.WorkoutOwnerRefused | controllers/challenge.controller.ts:309 | the owner of a participation is refused as written and accepted by the corrected handler |
| ChallengeController.ActivateChallengeAsWritten | controllers/challenge.controller.ts:362-397 | as written, only a SUPER_ADMIN can ever activate, because the creator test compares a string with an id object |
| ChallengeController.ActivateChallenge | controllers/challenge.controller.ts:362-397 | 404 exactly when the challenge is unknown. 403 exactly when the caller is neither its creator nor a SUPER_ADMIN. On 200 it is ACTIVE for one day from now and nothing else changes |
| ChallengeController.ActivationCreatorRefused | controllers/challenge.controller.ts:374-376 | a creator who is not a SUPER_ADMIN is refused as written and allowed by the corrected handler |
| InvitationController.ExistingPersists | controllers/invitation.controller.ts:72-86 | once a PENDING invitation for a triple is stored, appending more invitations never hides it |
| InvitationController.AppendKeepsUnique | controllers/invitation.controller.ts:72-110 | appending an invitation whose triple has no PENDING invitation keeps at most one PENDING invitation per triple |
| InvitationController.LeavingPendingKeepsUnique | controllers/invitation.controller.ts:288-342 | moving an invitation out of PENDING keeps at most one PENDING invitation per triple |
| InvitationController.InviteEach | controllers/invitation.controller.ts:72-118 | the created invitations are appended to the stored ones. Every requested friend is either invited or skipped. Each created invitation is a PENDING CHALLENGE_INVITE from the caller for the challenge, to a requested friend |
| InvitationController.InviteEachCovers | controllers/invitation.controller.ts:72-118 | after the loop every requested friend has a PENDING invitation from the caller, or already participates |
| InvitationController.InviteEachKeepsUnique | controllers/invitation.controller.ts:72-118 | the loop never creates a second PENDING invitation for a triple, even when a friend is listed twice |
| InvitationController.RawIdsValues | controllers/invitation.controller.ts:57-67 | the ids of the requested friends, in the order requested |
| InvitationController.InviteToFound | controllers/invitation.controller.ts:43-118 | once the challenge is found: 403 unless the caller is its creator or a participant. 400, with nothing changed, when any requested id is not an active friend. Otherwise 201: only invitations are added, every requested friend is invited or skipped, and each created invitation is a PENDING CHALLENGE_INVITE from the caller, for the challenge, to one of the requested ids |
| InvitationController.InviteFriendsAsWritten | controllers/invitation.controller.ts:25-129 | as written, a missing or empty friend list gives 400 and changes nothing |
| InvitationController.InviteFriends | controllers/invitation.controller.ts:25-129 | 400 for a missing or empty list. 404 for an unknown challenge. 403 unless the caller is its creator or a participant. 400, with nothing created, when any requested id is not an active friend. Otherwise 201: only invitations are added, each friend is invited or skipped, and each created invitation is a PENDING CHALLENGE_INVITE from the caller |
| InvitationController.InviteFriendsCovers | controllers/invitation.controller.ts:72-118 | after a successful call every requested friend has a PENDING invitation from the caller or already participates, and triples stay unique |
| InvitationController.CreatorCannotInvite | controllers/invitation.controller.ts:43 | a creator who does not participate is refused as written, because the populated creator prints as a document; the corrected handler lets them invite |
| InvitationController.ChallengeUser | controllers/invitation.controller.ts:132-201 | 400 when no user is named, the id being absent or empty. 404 when the challenge, or an active target, is missing. 400 for oneself, a pending duplicate, or a target already participating. Otherwise 201 with one PENDING FRIEND_CHALLENGE appended, expiring seven days later, with the trimmed message or the default one. Nothing changes on a refusal |
| InvitationController.EmptyTargetRefused | controllers/invitation.controller.ts:135-140 | an empty `userId` is falsy: a 400 before the challenge is looked up, with nothing changed |
| InvitationController.ChallengeTwiceRefused | controllers/invitation.controller.ts:160-171 | a second identical challenge is refused with 400 and changes nothing, and triples stay unique |
| InvitationController.PendingInvitations | controllers/invitation.controller.ts:204-219 | the sweep runs first. Exactly the caller's PENDING invitations that are not overdue are listed, newest first |
| InvitationController.Answerable | controllers/invitation.controller.ts:238-259 | 404 for an unknown or malformed invitation. 500 when its recipient's record is gone, as the populated reference is `null` and reading its `_id` throws. 403 when the caller is not its recipient, 400 when it is not PENDING; otherwise the invitation may be answered |
| InvitationController.AcceptInvitation | controllers/invitation.controller.ts:238-313 | the guards come first. An overdue invitation becomes EXPIRED with 400. A challenge that is gone gives 500 with nothing written. A recipient who already participates gets ACCEPTED with 400. A sender who is gone gives 500 after the invitation is ACCEPTED. Otherwise it is ACCEPTED with 200: a JOINED participation invited by the sender is appended, and the challenge counter rises by one. Nothing else changes |
| InvitationController.DeclineInvitation | controllers/invitation.controller.ts:316-352 | the same guards. Otherwise only the invitation changes, to DECLINED, with 200 |
| InvitationController.AnswerIsFinal | controllers/invitation.controller.ts:238-352 | after a successful accept, a second accept or a decline is refused with 400 and changes nothing |
| InvitationController.DeclineIgnoresExpiry | controllers/invitation.controller.ts:262-268 | an overdue invitation cannot be accepted (it becomes EXPIRED) but can still be declined |
| InvitationController.AnswersKeepUnique | controllers/invitation.controller.ts:204-352 | accepting, declining and listing keep at most one PENDING invitation per triple |
| GymController.CreateGym | controllers/gym.controller.ts:29-76 | 403 exactly for a USER. 400 exactly when the name or location is missing. On 201 one gym is appended under a fresh id, with the trimmed name, the caller as creator, and the body's owner or else the caller as owner. It is APPROVED when a SUPER_ADMIN creates it and PENDING when a GYM_OWNER does. Nothing changes otherwise |
| GymController.EmptyOwnerIsCaller | controllers/gym.controller.ts:41-51 | an empty `ownerId` is falsy: the create is the one with no owner id, and a gym it stores is owned by the caller |
| GymController.CreatedGymPendingIffOwner | controllers/gym.controller.ts:47-50 | a new gym is among the pending gyms exactly when a GYM_OWNER created it |
| GymController.AssignedGym | controllers/gym.controller.ts:98-101 | the gym the caller's stored record points at is a stored gym |
| GymController.WithAssigned | controllers/gym.controller.ts:103-109 | the owned gyms are kept, and the assigned gym is listed, added only when not already present |
| GymController.WithAssignedDistinct | controllers/gym.controller.ts:103-109 | adding the assigned gym keeps the ids distinct |
| GymController.MyGyms | controllers/gym.controller.ts:88-118 | a GYM_OWNER's owned gyms plus the caller's assigned gym, and nothing else |
| GymController.MyGymsNoDuplicate | controllers/gym.controller.ts:103-109 | no gym is listed twice, even when the assigned gym is also owned |
| GymController.UpdateGym | controllers/gym.controller.ts:193-242 | 400 when no field is given. 404 exactly when the gym is unknown. On 200 each given field (name trimmed, location, description, capacity, equipment, difficulty levels) is written and each absent one kept, and the status, owner, creator, approver and exercise types are kept. Only that gym changes |
| GymController.UpdateGymIdempotent | controllers/gym.controller.ts:193-242 | sending the same update twice leaves the gyms as the first one did |
| GymController.AssignUserToGymAsWritten | controllers/gym.controller.ts:356-403 | as written, a GYM_OWNER never succeeds and changes nothing, because an id object is compared with `!==` |
| GymController.AssignUserToGym | controllers/gym.controller.ts:356-403 | 400 when no user is named, the id being absent or empty. 403 exactly when a GYM_OWNER acts on a gym someone else owns. 200 exactly when the gym and the user exist otherwise, and then only that user's gym is set |
| GymController.EmptyUserIdRefused | controllers/gym.controller.ts:359-364 | an empty `userId` is a 400 that changes nothing, as written and corrected |
| GymController.OwnerCannotAssign | controllers/gym.controller.ts:374 | an owner assigning a user to their own gym is refused as written and allowed by the corrected handler |
| GymController.GymUsersAsWritten | controllers/gym.controller.ts:446-472 | as written, a GYM_OWNER never gets the list |
| GymController.GymUsers | controllers/gym.controller.ts:446-472 | 404 exactly when the gym is unknown, 403 exactly for a GYM_OWNER of another gym; otherwise exactly the users assigned to the gym |
| GymController.OwnerCannotListMembers | controllers/gym.controller.ts:457 | an owner listing their own gym's members is refused as written and allowed by the corrected handler |
| GymController.RemoveUserFromGymAsWritten | controllers/gym.controller.ts:405-444 | as written, a GYM_OWNER never succeeds and changes nothing |
| GymController.RemoveUserFromGym | controllers/gym.controller.ts:405-444 | 404 exactly for an unknown user, 400 exactly when the user has no gym, 403 exactly when a GYM_OWNER's gym differs from the user's. Otherwise only that user's gym is cleared |
| GymController.OwnerCannotRemove | controllers/gym.controller.ts:421 | an owner removing a member of their own gym is refused as written and allowed by the corrected handler |
| GymController.RemoveTwiceRejected | controllers/gym.controller.ts:414-418 | a second removal of the same user is a 400 that changes nothing |
| GymController.AssignThenRemove | controllers/gym.controller.ts:356-444 | assigning a gymless user and then removing them restores the store |
| UserController.UpdateProfile | controllers/user.controller.ts:44-72 | 404 exactly when the caller's record is gone. Otherwise only `firstName` and `lastName` may change: each is set (trimmed) when the body has it, and nothing else of the caller or of the store changes |
| UserController.WhitelistIgnoresOtherKeys | controllers/user.controller.ts:46-53 | two bodies that agree on `firstName` and `lastName` have the same effect, whatever else they carry (role, score, badges, …) |
| UserController.Ranked | controllers/user.controller.ts:79-86 | one row per user, in order: rank is the position plus one, and the badge count is the length of the user's badge list |
| UserController.Leaderboard | controllers/user.controller.ts:74-92 | ranks 1, 2, 3, … with non-increasing scores, and every row is an active user's. There are as many rows as the limit's absolute value, or every active user when fewer |
| UserController.Board | controllers/user.controller.ts:77-86 | for a non-zero limit: ranks 1, 2, 3, … with non-increasing scores, every row an active user's, and as many rows as the limit's absolute value or every active user when fewer |
| UserController.BoardKeepsBest | controllers/user.controller.ts:77-86 | an active user missing from the board scores no more than any row on it |
| UserController.LeaderboardKeepsBest | controllers/user.controller.ts:76-86 | no active user left off the board outscores a row on it |
| UserController.LeaderboardDefaultsToTen | controllers/user.controller.ts:76 | an absent, non-numeric or zero limit shows ten rows, or every active user when fewer |
| UserController.LeaderboardHonoursLimit | controllers/user.controller.ts:76 | a positive decimal limit shows that many rows, or every active user when fewer |
| UserController.FilterOf | controllers/user.controller.ts:143-149 | the role filter is set exactly when the query's role is non-empty. The active filter is set exactly when the key is present, and it is true exactly when the text is `true` |
| UserController.ListPage | services/mongoose/services/user.service.ts:169-183 | a negative skip is an error. Otherwise the page is the listing from the skip on, and every user on it matches. Its length is what is left after the skip, cut to the limit's absolute value when the limit is non-zero |
| UserController.AllUsers | controllers/user.controller.ts:136-167 | page and limit default to 1 and 20 (for absent, non-numeric or zero values), and skip is (page − 1) × limit. On success the counts are those of the whole store. The page is the slice of the matching listing that starts at the skip, and it holds the limit's absolute value of users, or all that remain when fewer |
| UserController.PageOf | controllers/user.controller.ts:140-166 | for a given page and non-zero limit: 500 exactly for a negative skip; otherwise the counts of the whole store and the slice of the matching listing from the skip, as long as the limit allows |
| UserController.FirstPageByDefault | controllers/user.controller.ts:138-140 | with no paging parameters the answer is the first twenty matching users |
| UserController.AddFriendChecked | controllers/user.controller.ts:239-265 | the steps after the self-check: 404 exactly for an unknown friend, 400 exactly for an inactive one, 500 when the caller's own record is gone. On 200 only the caller's friend list changes, gaining the friend as a set member |
| UserController.AddFriendAsWritten | controllers/user.controller.ts:230-279 | as written, the self-check never fires, because a string is compared with an id object; it behaves as the checks from the lookup on |
| UserController.AddFriend | controllers/user.controller.ts:230-279 | 400 exactly for oneself or an inactive friend. 404 exactly for an unknown friend. 500 when the caller's own record is gone. On 200 only the caller's friend list changes, gaining the friend as a set member |
| UserController.SelfFriendAccepted | controllers/user.controller.ts:234 | as written, a user adding themselves succeeds and becomes their own friend; the corrected handler answers 400 |
| UserController.RemoveFriend | controllers/user.controller.ts:291-309 | 404 exactly for a malformed friend id or a missing caller. Otherwise only the caller's friend list changes, losing the friend |
| UserController.AddThenRemoveFriend | controllers/user.controller.ts:230-309 | removing a friend just added leaves exactly the caller's other friends |
| Text.TrimStart | services/mongoose/schema/user.schema.ts:21 | drops exactly the leading white space |
| Text.TrimEnd | services/mongoose/schema/user.schema.ts:21 | drops exactly the trailing white space |
| Text.Trim | services/mongoose/schema/user.schema.ts:21 | `trim: true`: the result is a contiguous part of the input with only white space around it, and it neither starts nor ends with white space |
| Text.TrimMiddle | services/mongoose/schema/user.schema.ts:21 | the trimmed text starts where the leading white space ends |
| Text.TrimIdempotent | services/mongoose/schema/user.schema.ts:21 | trimming twice is trimming once |
| Text.TrimAllSpace | services/mongoose/schema/gym.schema.ts:10 | a string of white space only trims to empty, which a required field then refuses |
| Text.LowerAscii | services/mongoose/schema/user.schema.ts:11 | `lowercase: true` on ASCII: each letter A to Z becomes its lower-case letter, so none is left, and every other character is kept |
| Text.ParseObjectId | services/mongoose/services/session.service.ts:22 | `isValidObjectId` on a string: a valid id exactly for 24 hexadecimal digits |
| Text.BodyId | controllers/gym.controller.ts:359-361 | a body id is no id at all exactly when it is falsy (absent or empty). Any other text is read as an ObjectId, a valid one exactly for 24 hexadecimal digits |
| Text.NatToHex | services/mongoose/services/session.service.ts:22 | the hexadecimal digits of a number read back as the number |
| Text.ObjectIdRoundTrip | services/mongoose/services/session.service.ts:22 | printing an id and reading it back gives the id |
| Numbers.ParseIntRoundTrip | controllers/user.controller.ts:76 | `parseInt` of a number's decimal text gives the number |
| Numbers.NumberOr | controllers/user.controller.ts:138-139 | `parseInt(q) \|\| d`: NaN and 0 both give the fallback, and any other number is kept |
| Numbers.NonNumericFallsBack | controllers/user.controller.ts:138-139 | a parameter with no decimal digit gives the fallback |
| JsEquality.ObjectNeverStrictlyEqual | controllers/challenge.controller.ts:309 | a strict comparison with an id object is false whatever the ids, which is what breaks the ownership checks as written |
| JsEquality.DocumentTextIsNotIdText | controllers/invitation.controller.ts:43 | the text of a populated document never equals the text of an id |
| JsEquality.IdTextsEqualIffIdsEqual | controllers/challenge.controller.ts:253-260 | comparing the texts of two ids decides whether the ids are equal, which the corrected checks rely on |
| Coercion.Compare | utils/checkAndAssignBadges.ts:31-41 | a verdict exactly for the six comparison operators, and none (the `default` branch) for any other |
| Coercion.CompareNumbers | utils/checkAndAssignBadges.ts:32-37 | on a number field the six operators are the integer comparisons |
| Coercion.NaNComparesFalse | utils/checkAndAssignBadges.ts:32-37 | a field that converts to `NaN` fails every comparison but `!=` |
| Coercion.StringToNumberNatText | utils/checkAndAssignBadges.ts:32-37 | the decimal text of a number converts back to that number |
| Coercion.DigitsNumber | utils/checkAndAssignBadges.ts:32-37 | a text of decimal digits converts to their value |
| Coercion.BlankIsZero | utils/checkAndAssignBadges.ts:32-37 | an empty or all-white-space text converts to 0 |
| Coercion.NumericTextChars | utils/checkAndAssignBadges.ts:32-37 | a text that converts to a number holds, once trimmed, only characters of a numeric literal |
| Coercion.NonNumericCharIsNaN | utils/checkAndAssignBadges.ts:32-37 | a trimmed text with a character outside the numeric literals converts to `NaN` |
| Coercion.JoinIds | utils/checkAndAssignBadges.ts:29 | an array of ids prints as the ids' texts joined by commas: empty for none, one id's text for one |
| Coercion.ArrayNumber | utils/checkAndAssignBadges.ts:32-37 | an empty array converts to 0, and an array of two or more ids to `NaN` |
| Coercion.EmptyArrayIsZero | utils/checkAndAssignBadges.ts:36-37 | an empty array is `== 0` and not `!= 0` |
| Coercion.DateOperands | utils/checkAndAssignBadges.ts:32-37 | a Date compares by its time under `>` and `<=`, and equals no number under `==` |
| BadgeController.CreateBadge | controllers/badge.controller.ts:46-87 | the handler over the corrected badge schema. 400 exactly when a required field is falsy (so 0 points is refused), the type is unknown, or the rules list is empty. 409 exactly when a valid badge's name is taken. 500 exactly when a blank name or description, or negative points, fails the schema. On 201 one active badge is appended with the trimmed name, the given type, rules and points, created by the caller. Nothing changes otherwise |
| BadgeController.CreateTwiceConflicts | controllers/badge.controller.ts:80-86 | with the corrected schema, creating the same badge twice gives 409 the second time, changing nothing, and badge names stay unique |
| BadgeController.CreateBadgeAsWritten | controllers/badge.controller.ts:46-87 | as written, over the declared schema: the 400s are those of the request checks, and every request that passes them is a 500 that stores nothing |
| BadgeController.CreateBadgeAsWrittenRefuses | controllers/badge.controller.ts:46-87 | the 400s agree, and every 201 or 409 of the corrected handler is a 500 as written |
| BadgeController.FirstBadgeRefused | controllers/badge.controller.ts:67-85 | on an empty collection, a well-formed badge with rules, a name, a description and positive points is created by the corrected handler and refused with 500 as written |
| BadgeController.WritePatch | controllers/badge.controller.ts:101-113 | 404 exactly for an unknown badge and 500 exactly when the new trimmed name is another badge's. On 200 each field of the patch is written (name and description trimmed) and each absent one kept, with the id, activity flag and creator; only that badge changes |
| BadgeController.UpdateBadge | controllers/badge.controller.ts:89-122 | 400 exactly when every field is falsy. 404 exactly when the badge is unknown. 500 exactly for a malformed id or a new trimmed name another badge holds. On 200 each truthy field is written (name and description trimmed) and each other one kept, with the id, activity flag and creator; only that badge changes |
| BadgeController.UpdateStoresUnknownType | controllers/badge.controller.ts:101-106 | an update is not checked against the type list, so a badge can be given a type that no listing by type ever returns |
| BadgeController.BadgesByType | controllers/badge.controller.ts:163-177 | 400 exactly for an unknown type; otherwise exactly the active badges of that type |
| BadgeController.EveryTypeListed | controllers/badge.controller.ts:167-170 | every badge type's own name is accepted by the listing |
| Numbers.ParseInt | controllers/user.controller.ts:76 | `parseInt` with no radix: NaN, modelled as none, unless the text holds a digit; the value read is stated by `ParseIntDecimal` and `ParseIntHex` |
| Numbers.ParseIntDecimal | controllers/user.controller.ts:76 | white space, an optional sign, then decimal digits: `parseInt` reads the value of the longest run of digits, negated after `-`, and ignores what follows |
| Numbers.ParseIntHex | controllers/user.controller.ts:76 | white space, an optional sign, `0x` or `0X`, then hex digits: `parseInt` reads the value of the longest run of hex digits in base 16, negated after `-`, and ignores what follows |
| Ordering.SortBy | services/mongoose/services/participation.service.ts:35 | `sort`: the same elements, as a permutation, in key order |
| Ordering.TakeSortedKeepsBest | services/mongoose/services/participation.service.ts:120-121 | `sort` then `limit`: an element left out ranks no higher than any kept |
| Collections.Limit | services/mongoose/services/user.service.ts:180 | `limit(n)`: 0 means no limit, and a negative n counts as its absolute value; a prefix is kept |
| Collections.AddToSet | services/mongoose/services/user.service.ts:70-81 | `$addToSet`: the element is present afterwards, nothing else is added, the list is unchanged when it was already there, and no duplicate appears |
| Collections.Pull | services/mongoose/services/user.service.ts:131-144 | `$pull`: every occurrence goes and every other element stays |

## Left out

- ParticipationService.AddWorkoutSession: Mongoose's default strict mode drops update paths the schema does not declare, so the `$inc` of `totalCalories`, `totalDuration` and `totalWorkouts` is discarded by the database. The model applies the update document as written instead, so its counters, and `LoggingKeepsTotals`, describe what the code asks for rather than what is stored. `totalCaloriesBurned`, which nothing writes on a participation, is a separate field. As `totalCalories` is thus never stored, the calorie sum of `getUserStats` is NaN for every user with at least one participation. The model reaches NaN only until a workout session is logged (`JoinBlanksCalorieSum`).
- ParticipationService.AddWorkoutSession: `$push` casts the session to the workout subschema. Its `notes` are trimmed, `caloriesBurned` defaults to 0, and the session's own `totalCalories` and `totalDuration`, which the subschema does not declare, are not stored. The model stores the session as given.
- Regex search (`searchChallenges`, `getGymByName`): their result depends on the regular-expression engine.
- `averageProgress` in `getUserStats`: it is a floating-point division. Only the counts and the calorie sum are modelled.
- `getChallengeParticipations`, `deleteParticipation` and `updatePersonalBest` are participation service calls that none of the modelled handlers make.
- `personalBest` and `teamId` on a participation are not modelled; `joinChallenge` passes `teamId` through unchecked.
- `updateChallenge` and `deleteChallenge` (challenge service), and `findSuperAdmin`, `desactivateUser`, `activateUser` and `deleteUser` (user service), with their handlers and the promote handlers. Each is a single `findByIdAndUpdate` or delete behind a 404 check, with no rule beyond what `UserService.UpdateUser` already states.
- These gym handlers are not modelled: `getAllGyms`, `getPendingGyms`, `assignGymToOwner`, `approveGym`, `rejectGym`, `deleteGym` and the three type-exercise handlers. Each wraps a modelled `GymService` call in a presence check and a 404.
- Thin handlers are not modelled: `getAllBadges`, `getActiveBadges`, `getBadgeById`, `deleteBadge`, `toggleBadgeStatus`, `getPublicChallenges`, `getChallengeById`, `getMyChallenges`, `getMyParticipations`, `getChallengeLeaderboard`, `getUserChallengeStats`, `getAllInvitations`, `getFriends` and `getProfile` (including its `|| 0` defaults). Each returns a modelled service result unchanged.
- `me` in the auth controller only echoes the request's user.
- The type-exercise catalogue: exercises are opaque ids.
- Start-up, the database connection, route wiring and logging.
- `populate`, `select` and `exec`: references are plain ids. Where a populated reference changes a comparison, `JsEquality` models the value the code compares.
- Concurrency: the badge check after a completion runs in the background in the source, and join and invite are check-then-act. The model runs each call to completion, in sequence.
- Every exception, apart from the cast error of a malformed id, the validation failure and the duplicate key named in the contracts, becomes the handler's catch-all 500. Exceptions of the database itself are not modelled.
- Body fields are modelled only with the JSON types the handlers expect: strings, numbers and arrays as the contracts name them. Sending a number where a string is expected, or a float where an integer is expected, is not modelled. Progress is an integer.
- The password hash is a parameter: `sha256` is foreign code.
- The clock is a parameter (`now`, in milliseconds).
- Fresh ids are derived from the collection: each is greater than every stored id.
- ObjectIds are natural numbers, printed as exactly 24 lower-case hex digits. Where the source casts an id or calls `isValidObjectId`, reading it accepts hex digits in either case. The 12-character form that `isValidObjectId` also accepts is not modelled.
- Ids compared as text: the friend check of `inviteFriends` looks each requested id up, with `Set.has`, among the lower-case `_id.toString()` texts of the caller's friends (controllers/invitation.controller.ts:58-60). The self-check of `challengeUser` compares `userId` with `req.user._id.toString()` by `===` (controllers/invitation.controller.ts:157). Both compare text, case-sensitively. The model receives these ids already read and compares them as ids, so an id written with upper-case hex digits counts there as the friend, or as the caller, it names, while the source refuses it as not a friend, or lets it past the self-check.
- Deleting a referenced document does not cascade, in the source or in the model. Where the source reads a populated reference whose document is gone, it gets `null`, and `._id` or `.toString()` on it throws, so the handler answers 500. `Answerable` and `AcceptInvitation` model this for the invitation's recipient, challenge and sender, and `ChallengeController.UpdateProgress` and `ChallengeController.AddWorkoutSession` for the participation's owner (controllers/challenge.controller.ts:253-255 and :309). The other such reads are not modelled, and there the model reads the plain id: the creator of a challenge in controllers/invitation.controller.ts:43 and controllers/challenge.controller.ts:375.
- Schema validators on updates: `findByIdAndUpdate` runs without `runValidators`, so updates are applied unchecked, as the model does. Validation is modelled on creates only.
- ChallengeController.UpdateProgress: the model takes `progress` as a number. When the body has none, `undefined < 0 || undefined > 100` is false, so the source passes the range check and goes on to a 200 that writes an undefined progress, which is not modelled.
- ParticipationService.Leaderboard: the contract states the filter and the length of the board. The order is stated by `LeaderboardRanked` and `LeaderboardKeepsBest` rather than in the function's own contract.
- Numbers.ParseInt: its own contract states only that a number read needs a digit. The value read is stated by `Numbers.ParseIntDecimal` and `Numbers.ParseIntHex`, which between them cover every text `parseInt` reads a number from.
- Text.LowerAscii: `toLowerCase` folds every Unicode upper-case letter, and a few into more than one character. The model folds only A to Z and keeps every other character, so an e-mail address with a non-ASCII capital is stored unfolded.
- Sorting: a `sort` on a key that two documents share leaves their order to the database. The model breaks ties in one fixed way, which no contract states, so every listing is one order the database may return, not the only one.
- The `DifficultyLevel` enumeration is defined in `models/exercise.interface.ts`, which is not part of this model. Its values are the parameter `levels` of `ChallengeSchema.Insert` and `ChallengeController.CreateChallenge`.
- Numbers are exact: JavaScript's doubles are modelled as exact rationals, with a number too large for a double not rounded to `Infinity`. Rule values, counters and scores are integers, as the handlers send them.
- Document internals a rule could name (`__v`, `$isNew`, methods, virtuals other than `id`) read as `undefined`. So do `updatedAt`, which the timestamps option writes but the model does not keep, and every path the user schema does not declare.
- A Date compared with `==` is converted through its `toString` text, which is `NaN` as a number; the model uses that outcome without modelling the text.

## Findings

| source | as written | input that shows it | evidently intended | confidence | as-written member | corrected member |
|---|---|---|---|---|---|---|
| controllers/challenge.controller.ts:309 | `participation.userId.toString() !== req.user._id` compares a string with an ObjectId object, so it is always true and every request gets 404 | the owner of an existing participation posts a workout session with an exercises array | the owner's session is logged | not executed | ChallengeController.AddWorkoutSessionAsWritten, with ChallengeController.WorkoutOwnerRefused | ChallengeController.AddWorkoutSession |
| controllers/challenge.controller.ts:374-376 | `challenge.createdBy.toString() !== req.user._id` is always true, so only a SUPER_ADMIN passes | a USER or GYM_OWNER who created the challenge activates it | the creator may activate their own challenge | not executed | ChallengeController.ActivateChallengeAsWritten, with ChallengeController.ActivationCreatorRefused | ChallengeController.ActivateChallenge |
| controllers/invitation.controller.ts:43 | `createdBy` has been populated by `getChallengeById`, so its `toString()` is the text of a document, never equal to the caller's id text | the creator of a challenge, not a participant, invites an active friend | the creator may invite | not executed | InvitationController.InviteFriendsAsWritten, with InvitationController.CreatorCannotInvite | InvitationController.InviteFriends |
| controllers/user.controller.ts:234 | `friendId === req.user._id` compares a route string with an ObjectId object, so the self-check never fires | a user sends their own id as `friendId` | 400 "Cannot add yourself as friend" | not executed | UserController.AddFriendAsWritten, with UserController.SelfFriendAccepted | UserController.AddFriend |
| controllers/gym.controller.ts:374 | `gym.ownerId !== req.user._id` compares two ObjectId objects, which are never the same object | a GYM_OWNER assigns an existing user to the gym they own | the owner may assign users to their own gym | not executed | GymController.AssignUserToGymAsWritten, with GymController.OwnerCannotAssign | GymController.AssignUserToGym |
| controllers/gym.controller.ts:421 | `user.gymId !== req.user.gymId` compares two ObjectId objects | a GYM_OWNER removes a user assigned to the owner's own gym | the owner may remove members of their own gym | not executed | GymController.RemoveUserFromGymAsWritten, with GymController.OwnerCannotRemove | GymController.RemoveUserFromGym |
| controllers/gym.controller.ts:457 | `gym.ownerId !== req.user._id` compares two ObjectId objects | a GYM_OWNER lists the users of the gym they own | the owner may list their own gym's users | not executed | GymController.GymUsersAsWritten, with GymController.OwnerCannotListMembers | GymController.GymUsers |
| services/mongoose/schema/badge.schema.ts:23-34 | `required` and the length validator sit inside the `rules: [ ]` brackets, so they apply to each rule. A rule object has no `length`, and `undefined > 0` is false, so every rule fails validation | a SUPER_ADMIN posts a badge with a name, a description, type SCORE, one rule on `totalScore` and 10 points | the badge is created with 201, and only an empty rule list is refused | not executed | BadgeController.CreateBadgeAsWritten, with BadgeController.FirstBadgeRefused, BadgeSchema.InsertAsWritten and BadgeSchema.EveryRuleRejected | BadgeController.CreateBadge, with BadgeSchema.Insert |

=== FILE: auth_controller.dfy ===
/** The authentication handlers: login opens a fifteen-day session,
    registration creates a plain active user, logout deletes the session. */
module AuthController {
  import opened Common
  import opened UserSchema
  import opened UserService
  import opened SessionService

  /** Fifteen days in milliseconds, the lifetime of a login session. */
  const SessionLifetime: int := 15 * DayMillis

  datatype LoginBody = LoginBody(email: Option<string>, password: Option<string>)

  datatype LoginReply = LoginReply(sessions: seq<Session>, status: Status, session: Option<Session>)

  /** `login`: 400 without an e-mail or a password, 401 when no user has
      these credentials or the user is inactive, otherwise 201 with a new
      session for that user expiring fifteen days from now. */
  function Login(users: seq<User>, sessions: seq<Session>, body: LoginBody, hash: string -> string, now: Millis)
    : (r: LoginReply)
    ensures r.status == BadRequest <==> !Truthy(body.email) || !Truthy(body.password)
    ensures r.status == Unauthorized <==>
      && Truthy(body.email) && Truthy(body.password)
      && (var u := FindUser(users, body.email.value, body.password, hash); u.None? || !u.value.isActive)
    ensures r.status != Created ==> r.sessions == sessions && r.session.None?
    ensures r.status == Created ==>
      var u := FindUser(users, body.email.value, body.password, hash).value;
      && u.isActive && u.password == hash(body.password.value)
      && r.session.Some?
      && r.sessions == sessions + [r.session.value]
      && r.session.value.user == u.id
      && r.session.value.expirationDate == now + 1_296_000_000
    ensures r.status in {BadRequest, Unauthorized, Created}
  {
    if !Truthy(body.email) || !Truthy(body.password) then LoginReply(sessions, BadRequest, None)
    else
      match FindUser(users, body.email.value, body.password, hash)
      case None => LoginReply(sessions, Unauthorized, None)
      case Some(u) =>
        if !u.isActive then LoginReply(sessions, Unauthorized, None)
        else
          var (sessions', s) := CreateSession(sessions, u.id, now + SessionLifetime, now);
          LoginReply(sessions', Created, Some(s))
  }

  /** The registration body; `role`, `isActive` and `totalScore` may be sent
      but are never used. */
  datatype RegisterBody = RegisterBody(
    email: Option<string>,
    password: Option<string>,
    firstName: Option<string>,
    lastName: Option<string>,
    role: Option<Role>,
    isActive: Option<bool>,
    totalScore: Option<int>)

  function RegisterFields(body: RegisterBody, hash: string -> string): UserFields
    requires body.email.Some? && body.password.Some? && body.firstName.Some? && body.lastName.Some?
  {
    UserFields(body.email.value, hash(body.password.value), body.firstName.value, body.lastName.value,
               Some(RegularUser), Some(true), Some(0))
  }

  /** `register`: 400 unless the four fields are all given; any failure of
      the insert (a taken e-mail, a blank name after trimming) is 409; a
      registered user is always an active USER with score 0. */
  function Register(users: seq<User>, body: RegisterBody, hash: string -> string, now: Millis)
    : (r: (seq<User>, Status))
    ensures r.1 == BadRequest <==>
      !Truthy(body.email) || !Truthy(body.password) || !Truthy(body.firstName) || !Truthy(body.lastName)
    ensures r.1 == Conflict ==> r.0 == users
    ensures r.1 == Conflict <==>
      && Truthy(body.email) && Truthy(body.password) && Truthy(body.firstName) && Truthy(body.lastName)
      && (!FieldsValid(RegisterFields(body, hash)) || EmailTaken(users, NormalizeEmail(body.email.value)))
    ensures r.1 == Created ==>
      && |r.0| == |users| + 1 && r.0[..|users|] == users
      && var u := r.0[|users|];
      && u.role == RegularUser && u.isActive && u.totalScore == 0
      && u.email == NormalizeEmail(body.email.value)
      && u.password == hash(body.password.value)
    ensures r.1 in {BadRequest, Conflict, Created}
  {
    if !Truthy(body.email) || !Truthy(body.password) || !Truthy(body.firstName) || !Truthy(body.lastName) then
      (users, BadRequest)
    else
      match Insert(users, RegisterFields(body, hash), now)
      case Failure(_) => (users, Conflict)
      case Success((users', _)) =>
        assert users'[..|users|] == users;
        (users', Created)
  }

  /** Whatever role, activity or score a registration asks for, the outcome
      is that of a registration that asks for none. */
  lemma RegisterIgnoresPrivileges(users: seq<User>, body: RegisterBody, hash: string -> string, now: Millis)
    ensures Register(users, body, hash, now) == Register(users, body.(role := None, isActive := None, totalScore := None), hash, now)
  {
  }

  /** A user who has just registered can log in with the same e-mail and
      password, and the session opened is theirs. */
  lemma RegisterThenLogin(users: seq<User>, sessions: seq<Session>, body: RegisterBody, hash: string -> string, now: Millis, later: Millis)
    requires Register(users, body, hash, now).1 == Created
    ensures var users' := Register(users, body, hash, now).0;
      var r := Login(users', sessions, LoginBody(body.email, body.password), hash, later);
      r.status == Created && r.session.value.user == users'[|users|].id
  {
    var users' := Register(users, body, hash, now).0;
    var u := users'[|users|];
    var email := body.email.value;
    assert !EmailTaken(users, NormalizeEmail(email));
    forall i | 0 <= i < |users|
      ensures !(users'[i].email == NormalizeEmail(email) && users'[i].password == hash(body.password.value))
    {
      assert users'[i] == users[i];
    }
    var p := (x: User) => x.email == NormalizeEmail(email) && (Truthy(body.password) ==> x.password == hash(body.password.value));
    assert p(users'[|users|]);
    var found := FindUser(users', email, body.password, hash);
    assert found == Some(u) by {
      var k := Collections.FindFirst(users', p).value;
      assert k == |users|;
    }
  }

  /** `logout`: the caller's session is deleted and the answer is 200. */
  function Logout(sessions: seq<Session>, session: Session): (r: (seq<Session>, Status))
    ensures r.1 == Ok
    ensures forall s :: s in r.0 ==> s in sessions
    ensures (exists i :: 0 <= i < |sessions| && sessions[i].id == session.id) ==> |r.0| == |sessions| - 1
  {
    (DeleteSession(sessions, ObjectId(session.id)).0, Ok)
  }

  /** After logout the session no longer admits anyone. */
  lemma LogoutEndsSession(sessions: seq<Session>, session: Session, now: Millis)
    requires IdsUnique(sessions)
    ensures FindActiveSession(Logout(sessions, session).0, ObjectId(session.id), now).None?
  {
    DeleteEndsSession(sessions, session.id, now);
  }
}

=== FILE: badge_assignment.dfy ===
/** Automatic badge assignment: every badge, active or not, in name order,
    whose rules all hold against a snapshot of the user and which the user
    does not already own, is added to the user's badges and its points to
    the user's score. */
module BadgeAssignment {
  import opened Common
  import opened Collections
  import opened Ordering
  import opened UserSchema
  import opened BadgeSchema
  import opened Coercion
  import Text

  /** `(user as any)[condition]` on the user document: the schema paths,
      `_id` and its string form `id`, and `createdAt`. Any other name reads
      as `undefined`. */
  function UserField(u: User, condition: string): FieldValue {
    if condition == "totalScore" then Number(u.totalScore)
    else if condition == "badges" then IdArray(u.badges)
    else ProfileField(Profile(u), condition)
  }

  /** The user without the two paths a badge run writes. */
  function Profile(u: User): User {
    u.(badges := [], totalScore := 0)
  }

  /** The paths other than `totalScore` and `badges`. */
  function ProfileField(u: User, condition: string): FieldValue {
    if condition == "challengesCompleted" then Number(u.challengesCompleted)
    else if condition == "totalCaloriesBurned" then Number(u.totalCaloriesBurned)
    else if condition == "streakDays" then Number(u.streakDays)
    else if condition == "isActive" then Boolean(u.isActive)
    else if condition == "email" then Str(u.email)
    else if condition == "password" then Str(u.password)
    else if condition == "firstName" then Str(u.firstName)
    else if condition == "lastName" then Str(u.lastName)
    else if condition == "role" then Str(u.role.Name())
    else if condition == "friends" then IdArray(u.friends)
    else if condition == "gymId" then (if u.gymId.Some? then ObjectIdValue(u.gymId.value) else Undefined)
    else if condition == "lastActivityDate" then
      (if u.lastActivityDate.Some? then Date(u.lastActivityDate.value) else Undefined)
    else if condition == "createdAt" then Date(u.createdAt)
    else if condition == "_id" then ObjectIdValue(u.id)
    else if condition == "id" then Str(IdText(u.id))
    else Undefined
  }

  /** The `switch` on the operator: the six loose comparisons of the field
      with the rule's number; the `default` branch is false. */
  predicate RuleHolds(u: User, r: Rule) {
    match Compare(UserField(u, r.condition), r.operator, r.value)
    case Some(verdict) => verdict
    case None => false
  }

  /** A missing field satisfies a rule exactly when the operator is `!=`. */
  lemma MissingFieldHolds(u: User, r: Rule)
    requires UserField(u, r.condition) == Undefined
    ensures RuleHolds(u, r) <==> r.operator == "!="
  {
  }

  /** An operator outside the six comparisons makes the rule false. */
  lemma UnknownOperatorFails(u: User, r: Rule)
    requires r.operator !in {">", ">=", "<", "<=", "==", "!="}
    ensures !RuleHolds(u, r)
  {
  }

  /** The empty badge list reads as 0: a user without badges meets
      `badges == 0` and fails `badges != 0`. */
  lemma EmptyBadgesEqualZero(u: User)
    requires u.badges == []
    ensures RuleHolds(u, Rule("badges", "==", 0)) && !RuleHolds(u, Rule("badges", "!=", 0))
  {
    assert UserField(u, "badges") == IdArray(u.badges);
    EmptyArrayIsZero(u.badges);
  }

  /** The last activity date compares by its time under `>`, but equals no
      number under `==`, not even its own time. */
  lemma ActivityDateCompared(u: User, w: int)
    requires u.lastActivityDate.Some?
    ensures RuleHolds(u, Rule("lastActivityDate", ">", w)) <==> u.lastActivityDate.value > w
    ensures !RuleHolds(u, Rule("lastActivityDate", "==", u.lastActivityDate.value))
  {
    var d := u.lastActivityDate.value;
    assert UserField(u, "lastActivityDate") == Date(d);
    DateOperands(d, w);
    DateOperands(d, d);
  }

  /** The role is no number: every comparison but `!=` fails on it. */
  lemma RoleNeverCompares(u: User, op: string, w: int)
    requires op in {">", ">=", "<", "<=", "=="}
    ensures !RuleHolds(u, Rule("role", op, w))
  {
    var x := Str(u.role.Name());
    RoleField(u, x);
    RoleIsNaN(u.role);
    NaNComparesFalse(x, op, w);
    HoldsOnField(u, Rule("role", op, w), x);
  }

  lemma RoleField(u: User, x: FieldValue)
    requires x == Str(u.role.Name())
    ensures UserField(u, "role") == x
  {
  }

  /** A rule holds exactly when the comparison with the field's value yields true. */
  lemma HoldsOnField(u: User, r: Rule, x: FieldValue)
    requires UserField(u, r.condition) == x
    ensures RuleHolds(u, r) <==> Compare(x, r.operator, r.value) == Some(true)
  {
  }

  /** A role name reads as `NaN`. */
  lemma RoleIsNaN(role: Role)
    ensures StringToNumber(role.Name()) == NaN
  {
    var t := role.Name();
    assert !Text.IsJsSpace(t[0]) && !Text.IsJsSpace(t[|t| - 1]);
    assert Text.TrimStart(t) == t;
    assert Text.Trim(t) == t;
    NonNumericCharIsNaN(t, 0);
  }

  /** A rule list that is present and non-empty, every rule of which holds. */
  predicate Qualifies(u: User, b: Badge) {
    |b.rules| > 0 && forall i :: 0 <= i < |b.rules| ==> RuleHolds(u, b.rules[i])
  }

  /** Qualifies, and is not already among the snapshot's badges. */
  predicate Grants(u: User, b: Badge) {
    Qualifies(u, b) && b.id !in u.badges
  }

  /** The badges a run grants, in the order it grants them. */
  function Granted(u: User, sorted: seq<Badge>): seq<Badge> {
    Filter(sorted, b => Grants(u, b))
  }

  function IdsOf(bs: seq<Badge>): (r: seq<Id>)
    ensures |r| == |bs|
    ensures forall i :: 0 <= i < |bs| ==> r[i] == bs[i].id
  {
    seq(|bs|, i requires 0 <= i < |bs| => bs[i].id)
  }

  function PointsOf(b: Badge): int {
    b.points
  }

  /** The user's badges after a run: each granted badge `$addToSet`-ed. */
  function AwardedBadges(u: User, sorted: seq<Badge>): seq<Id> {
    AddAll(u.badges, IdsOf(Granted(u, sorted)))
  }

  /** The user's score after a run: each granted badge's points `$inc`-ed. */
  function AwardedScore(u: User, sorted: seq<Badge>): int {
    u.totalScore + SumBy(Granted(u, sorted), PointsOf)
  }

  /** The stored user after a run over `sorted`. */
  function Awarded(u: User, sorted: seq<Badge>): User {
    u.(badges := AwardedBadges(u, sorted), totalScore := AwardedScore(u, sorted))
  }

  /** The grants of a list with one more badge at its end. */
  lemma GrantedSnoc(u: User, s: seq<Badge>, b: Badge)
    ensures Granted(u, s + [b]) == Granted(u, s) + (if Grants(u, b) then [b] else [])
  {
    FilterConcat(s, [b], x => Grants(u, x));
  }

  lemma AwardedBadgesSnoc(u: User, s: seq<Badge>, b: Badge)
    ensures AwardedBadges(u, s + [b]) ==
      if Grants(u, b) then AddToSet(AwardedBadges(u, s), b.id) else AwardedBadges(u, s)
  {
    GrantedSnoc(u, s, b);
    var g := Granted(u, s);
    if Grants(u, b) {
      assert IdsOf(g + [b]) == IdsOf(g) + [b.id];
      assert (IdsOf(g) + [b.id])[..|g|] == IdsOf(g);
    } else {
      assert Granted(u, s + [b]) == g;
    }
  }

  lemma AwardedScoreSnoc(u: User, s: seq<Badge>, b: Badge)
    ensures AwardedScore(u, s + [b]) ==
      if Grants(u, b) then AwardedScore(u, s) + b.points else AwardedScore(u, s)
  {
    GrantedSnoc(u, s, b);
    var g := Granted(u, s);
    if Grants(u, b) {
      assert (g + [b])[..|g|] == g;
    } else {
      assert Granted(u, s + [b]) == g;
    }
  }

  /** `addBadgeToUser` followed by `updateUserScore(points || 0)` on the
      stored user. */
  function GrantTo(w: User, b: Badge): User {
    w.(badges := AddToSet(w.badges, b.id), totalScore := w.totalScore + b.points)
  }

  /** One more badge at the end of the list: one more grant, or none. */
  lemma AwardedSnoc(u: User, s: seq<Badge>, b: Badge)
    ensures Awarded(u, s + [b]) == if Grants(u, b) then GrantTo(Awarded(u, s), b) else Awarded(u, s)
  {
    if Grants(u, b) {
      AwardedSnocGranted(u, s, b);
    } else {
      AwardedSnocSkipped(u, s, b);
    }
  }

  lemma AwardedSnocGranted(u: User, s: seq<Badge>, b: Badge)
    requires Grants(u, b)
    ensures Awarded(u, s + [b]) == GrantTo(Awarded(u, s), b)
  {
    AwardedBadgesSnoc(u, s, b);
    AwardedScoreSnoc(u, s, b);
  }

  lemma AwardedSnocSkipped(u: User, s: seq<Badge>, b: Badge)
    requires !Grants(u, b)
    ensures Awarded(u, s + [b]) == Awarded(u, s)
  {
    AwardedBadgesSnoc(u, s, b);
    AwardedScoreSnoc(u, s, b);
  }

  /** The loop over the sorted badges, against the snapshot `u`, updating
      the stored copy of the user. */
  method AwardAll(u: User, all: seq<Badge>) returns (current: User)
    ensures current == Awarded(u, all)
  {
    current := u;
    var i := 0;
    assert current == Awarded(u, all[..0]) by {
      assert all[..0] == [];
      assert Granted(u, []) == [];
    }
    while i < |all|
      invariant 0 <= i <= |all|
      invariant current == Awarded(u, all[..i])
    {
      var b := all[i];
      assert Awarded(u, all[..i + 1]) ==
        if Grants(u, b) then GrantTo(Awarded(u, all[..i]), b) else Awarded(u, all[..i])
      by {
        AwardedSnoc(u, all[..i], b);
        assert all[..i + 1] == all[..i] + [b];
      }
      // non-empty rules, all of them respected, not already owned
      if Grants(u, b) {
        current := GrantTo(current, b);
      }
      i := i + 1;
    }
    assert all[..|all|] == all;
  }

  /** `checkAndAssignBadges(userId)`: the badges are read once, sorted by
      name, and the user once; an invalid or unknown user changes nothing. */
  method CheckAndAssignBadges(users: seq<User>, badges: seq<Badge>, userId: RawId) returns (users': seq<User>)
    ensures FindUserById(users, userId).None? ==> users' == users
    ensures FindUserById(users, userId).Some? ==>
      var k := IndexOf(users, userId.id).value;
      users' == users[k := Awarded(users[k], SortBy(badges, NameKey))]
  {
    var all := SortBy(badges, NameKey);
    var found := FindUserById(users, userId);
    if found.None? {
      return users;
    }
    var k := IndexOf(users, userId.id).value;
    var current := AwardAll(users[k], all);
    users' := users[k := current];
  }

  /** A badge is granted exactly when it qualifies and the user lacks it. */
  lemma GrantedIff(u: User, sorted: seq<Badge>, i: nat)
    requires i < |sorted|
    ensures sorted[i] in Granted(u, sorted) <==> Grants(u, sorted[i])
  {
  }

  /** A badge without rules is never granted, whatever the user holds. */
  lemma EmptyRulesNeverGranted(u: User, sorted: seq<Badge>, b: Badge)
    requires |b.rules| == 0
    ensures b !in Granted(u, sorted)
  {
  }

  /** After a run the user owns every badge that qualified against the
      snapshot, and still owns every badge it owned before. */
  lemma AwardedOwnsQualifying(u: User, sorted: seq<Badge>)
    ensures forall i :: 0 <= i < |u.badges| ==> u.badges[i] in Awarded(u, sorted).badges
    ensures forall i :: 0 <= i < |sorted| && Qualifies(u, sorted[i]) ==>
      sorted[i].id in Awarded(u, sorted).badges
  {
    var g := Granted(u, sorted);
    forall i | 0 <= i < |sorted| && Qualifies(u, sorted[i])
      ensures sorted[i].id in Awarded(u, sorted).badges
    {
      if sorted[i].id !in u.badges {
        var m :| 0 <= m < |g| && g[m] == sorted[i];
        assert IdsOf(g)[m] == sorted[i].id;
      }
    }
  }

  /** A second run never grants again a badge the first run granted. */
  lemma NoDoubleGrant(u: User, sorted: seq<Badge>)
    ensures forall i :: 0 <= i < |Granted(u, sorted)| ==>
      !Grants(Awarded(u, sorted), Granted(u, sorted)[i])
  {
    var g := Granted(u, sorted);
    forall i | 0 <= i < |g| ensures !Grants(Awarded(u, sorted), g[i]) {
      assert IdsOf(g)[i] == g[i].id;
    }
  }

  /** Fields other than `badges` and `totalScore` read the same after a run. */
  lemma AwardedKeepsOtherFields(u: User, sorted: seq<Badge>, c: string)
    requires c != "totalScore" && c != "badges"
    ensures UserField(Awarded(u, sorted), c) == UserField(u, c)
  {
    assert Profile(Awarded(u, sorted)) == Profile(u);
  }

  /** No rule of the badges reads a field a run writes. */
  predicate NoAwardedFieldRule(sorted: seq<Badge>) {
    forall i, j :: 0 <= i < |sorted| && 0 <= j < |sorted[i].rules| ==>
      sorted[i].rules[j].condition != "totalScore" && sorted[i].rules[j].condition != "badges"
  }

  /** When no rule looks at `totalScore` or `badges`, a second run on the
      result grants nothing and changes nothing. */
  lemma AwardedFixpoint(u: User, sorted: seq<Badge>)
    requires NoAwardedFieldRule(sorted)
    ensures Granted(Awarded(u, sorted), sorted) == []
    ensures Awarded(Awarded(u, sorted), sorted) == Awarded(u, sorted)
  {
    var w := Awarded(u, sorted);
    AwardedOwnsQualifying(u, sorted);
    forall i | 0 <= i < |sorted| ensures !Grants(w, sorted[i]) {
      var b := sorted[i];
      forall j | 0 <= j < |b.rules| ensures RuleHolds(w, b.rules[j]) == RuleHolds(u, b.rules[j]) {
        AwardedKeepsOtherFields(u, sorted, b.rules[j].condition);
      }
      assert Qualifies(w, b) == Qualifies(u, b);
    }
    FilterNone(sorted, b => Grants(w, b));
    assert IdsOf([]) == [];
  }

  /** The grants of a run over two badges. */
  lemma GrantedPair(u: User, a: Badge, b: Badge)
    ensures Granted(u, [a, b]) == (if Grants(u, a) then [a] else []) + (if Grants(u, b) then [b] else [])
  {
    GrantedSnoc(u, [a], b);
    GrantedSnoc(u, [], a);
    assert [a, b] == [a] + [b] && [a] == [] + [a];
  }

  /** The points of a single granted badge. */
  lemma SumOfOne(b: Badge)
    ensures SumBy([b], PointsOf) == b.points
  {
    assert [b][..0] == [];
  }

  /** A run over two badges that grants only the first. */
  lemma RunGrantsFirst(u: User, a: Badge, b: Badge)
    requires Grants(u, a) && !Grants(u, b)
    ensures AwardedScore(u, [a, b]) == u.totalScore + a.points
    ensures a.id in AwardedBadges(u, [a, b])
  {
    GrantedPair(u, a, b);
    SumOfOne(a);
    assert IdsOf([a])[0] == a.id;
  }

  /** A run over two badges that grants only the second. */
  lemma RunGrantsSecond(u: User, a: Badge, b: Badge)
    requires !Grants(u, a) && Grants(u, b)
    ensures AwardedScore(u, [a, b]) == u.totalScore + b.points
  {
    GrantedPair(u, a, b);
    SumOfOne(b);
  }

  /** With a rule on `totalScore` a second run can grant more: the points of
      a first badge lift the score over the threshold of a second one. */
  lemma RerunCanGrantMore()
    ensures
      var u := User(1, "a@b.c", "h", "A", "B", RegularUser, true, [], 0, None, [], 0, 0, 0, None, 0);
      var first := Badge(10, "first", "d", "SCORE", [Rule("totalScore", ">=", 0)], 10, true, 1, 0);
      var second := Badge(11, "second", "d", "SCORE", [Rule("totalScore", ">=", 10)], 10, true, 1, 0);
      Awarded(Awarded(u, [first, second]), [first, second]) != Awarded(u, [first, second])
  {
    var u := User(1, "a@b.c", "h", "A", "B", RegularUser, true, [], 0, None, [], 0, 0, 0, None, 0);
    var first := Badge(10, "first", "d", "SCORE", [Rule("totalScore", ">=", 0)], 10, true, 1, 0);
    var second := Badge(11, "second", "d", "SCORE", [Rule("totalScore", ">=", 10)], 10, true, 1, 0);
    assert Grants(u, first) by {
      assert RuleHolds(u, first.rules[0]);
    }
    assert !Grants(u, second) by {
      assert !RuleHolds(u, second.rules[0]);
    }
    RunGrantsFirst(u, first, second);
    var w := Awarded(u, [first, second]);
    assert Grants(w, second) by {
      assert RuleHolds(w, second.rules[0]);
    }
    RunGrantsSecond(w, first, second);
  }
}

=== FILE: badge_controller.dfy ===
/** The badge handlers: the field checks of `createBadge` and `updateBadge`
    in front of the store, and the type check of `getBadgesByType`. */
module BadgeController {
  import opened Common
  import opened Store
  import opened BadgeSchema
  import BadgeService
  import UserSchema
  import Text

  /** The fields of a badge request; `None` stands for an absent field. */
  datatype BadgeBody = BadgeBody(
    name: Option<string>,
    description: Option<string>,
    kind: Option<string>,
    rules: Option<seq<Rule>>,
    points: Option<int>)

  /** `points` is truthy: present and not 0. */
  predicate PointsTruthy(b: BadgeBody) {
    b.points.Some? && b.points.value != 0
  }

  /** Some field of `createBadge` is falsy; an empty rule list is truthy. */
  predicate MissingField(b: BadgeBody) {
    !Truthy(b.name) || !Truthy(b.description) || !Truthy(b.kind) || b.rules.None? || !PointsTruthy(b)
  }

  /** `createBadge`: a falsy field (0 points included), a type outside the
      enumeration or an empty rule list is a 400; a taken name is a 409 and
      any other store refusal a 500. A new badge is active and records the
      caller as its creator. */
  function CreateBadge(db: Db, caller: UserSchema.User, b: BadgeBody, now: Millis): (r: Reply)
    ensures r.status == BadRequest <==> BodyRefused(b)
    ensures r.status in {BadRequest, Conflict, InternalError, Created}
    ensures r.status != BadRequest ==>
      var name := Text.Trim(b.name.value);
      && (r.status == Conflict <==> Text.Trim(b.description.value) != "" && name != "" && b.points.value > 0
                                    && BadgeSchema.NameTaken(db.badges, name))
      && (r.status == InternalError <==> name == "" || Text.Trim(b.description.value) == "" || b.points.value < 0)
    ensures r.status != Created ==> r.db == db
    ensures r.status == Created ==>
      var n := |db.badges|;
      && |r.db.badges| == n + 1
      && r.db == db.(badges := db.badges + [r.db.badges[n]])
      && var v := r.db.badges[n];
      && v.name == Text.Trim(b.name.value) && v.description == Text.Trim(b.description.value)
      && v.kind == b.kind.value && v.rules == b.rules.value
      && v.points == b.points.value && v.points > 0 && v.isActive && v.createdBy == caller.id
  {
    if BodyRefused(b) then Reply(db, BadRequest)
    else
      var f := BadgeFields(b.name.value, b.description.value, b.kind.value, b.rules.value, b.points.value, caller.id);
      match BadgeSchema.Insert(db.badges, f, now)
      case Failure(DuplicateKey) => Reply(db, Conflict)
      case Failure(ValidationFailed) => Reply(db, InternalError)
      case Success((badges', _)) => Reply(db.(badges := badges'), Created)
  }

  /** The request checks of `createBadge` that answer 400. */
  predicate BodyRefused(b: BadgeBody) {
    MissingField(b) || ParseBadgeType(b.kind.value).None? || |b.rules.value| == 0
  }

  /** `createBadge` over the badge schema as declared, whose per-element
      rule validator refuses every rule: what passes the request checks is
      a 500 and nothing is stored. */
  function CreateBadgeAsWritten(db: Db, caller: UserSchema.User, b: BadgeBody, now: Millis): (r: Reply)
    ensures r.status == BadRequest <==> BodyRefused(b)
    ensures r.status != BadRequest ==> r == Reply(db, InternalError)
  {
    if BodyRefused(b) then Reply(db, BadRequest)
    else
      var f := BadgeFields(b.name.value, b.description.value, b.kind.value, b.rules.value, b.points.value, caller.id);
      match BadgeSchema.InsertAsWritten(db.badges, f, now)
      case Failure(DuplicateKey) => Reply(db, Conflict)
      case Failure(ValidationFailed) => Reply(db, InternalError)
      case Success((badges', _)) => Reply(db.(badges := badges'), Created)
  }

  /** Where the two differ: every request the corrected handler answers with
      201 or 409 is a 500 as written, and the 400s agree. */
  lemma CreateBadgeAsWrittenRefuses(db: Db, caller: UserSchema.User, b: BadgeBody, now: Millis)
    ensures CreateBadge(db, caller, b, now).status == BadRequest <==> CreateBadgeAsWritten(db, caller, b, now).status == BadRequest
    ensures CreateBadge(db, caller, b, now).status in {Created, Conflict} ==>
      CreateBadgeAsWritten(db, caller, b, now) == Reply(db, InternalError)
  {
  }

  /** On an empty collection, any well-formed request, such as one rule on
      `totalScore`, a name, a description and ten points, is created by the
      corrected handler and refused with a 500 as written. */
  lemma FirstBadgeRefused(db: Db, caller: UserSchema.User, b: BadgeBody, now: Millis)
    requires db.badges == []
    requires !BodyRefused(b) && b.points.value > 0
    requires Text.Trim(b.name.value) != "" && Text.Trim(b.description.value) != ""
    ensures CreateBadge(db, caller, b, now).status == Created
    ensures CreateBadgeAsWritten(db, caller, b, now) == Reply(db, InternalError)
  {
    assert !BadgeSchema.NameTaken(db.badges, Text.Trim(b.name.value));
  }

  /** Creating the same badge twice is refused with a 409 the second time,
      and the names stay unique. */
  lemma CreateTwiceConflicts(db: Db, caller: UserSchema.User, b: BadgeBody, now: Millis, later: Millis)
    requires CreateBadge(db, caller, b, now).status == Created
    ensures var db' := CreateBadge(db, caller, b, now).db;
      && (BadgeSchema.NamesUnique(db.badges) ==> BadgeSchema.NamesUnique(db'.badges))
      && CreateBadge(db', caller, b, later) == Reply(db', Conflict)
  {
    var f := BadgeFields(b.name.value, b.description.value, b.kind.value, b.rules.value, b.points.value, caller.id);
    if BadgeSchema.NamesUnique(db.badges) {
      BadgeSchema.InsertKeepsNamesUnique(db.badges, f, now);
    }
    var db' := CreateBadge(db, caller, b, now).db;
    assert db'.badges[|db.badges|].name == Text.Trim(b.name.value);
  }

  /** The truthy fields of an `updateBadge` request. */
  function PatchOf(b: BadgeBody): BadgeService.BadgePatch {
    BadgeService.BadgePatch(
      if Truthy(b.name) then b.name else None,
      if Truthy(b.description) then b.description else None,
      if Truthy(b.kind) then b.kind else None,
      b.rules,
      if PointsTruthy(b) then b.points else None)
  }

  /** Writes a non-empty patch to the badge with the given id. */
  function WritePatch(db: Db, id: Id, p: BadgeService.BadgePatch): (r: Reply)
    ensures r.status in {InternalError, NotFound, Ok}
    ensures r.status != Ok ==> r.db == db
    ensures r.status == NotFound <==> BadgeService.BadgeById(db.badges, id).None?
    ensures r.status == InternalError <==> BadgeService.PatchNameTaken(db.badges, id, p)
    ensures r.status == Ok ==>
      var k := BadgeService.IndexOfBadge(db.badges, id).value;
      && |r.db.badges| == |db.badges|
      && r.db == db.(badges := db.badges[k := r.db.badges[k]])
      && var v := r.db.badges[k];
      && v.id == db.badges[k].id && v.isActive == db.badges[k].isActive && v.createdBy == db.badges[k].createdBy
      && v.kind == p.kind.GetOr(db.badges[k].kind)
      && v.points == p.points.GetOr(db.badges[k].points)
      && v.rules == p.rules.GetOr(db.badges[k].rules)
      && v.name == (if p.name.Some? then Text.Trim(p.name.value) else db.badges[k].name)
      && v.description == (if p.description.Some? then Text.Trim(p.description.value) else db.badges[k].description)
  {
    match BadgeService.UpdateBadge(db.badges, id, p)
    case Failure(_) => Reply(db, InternalError)
    case Success(None) => Reply(db, NotFound)
    case Success(Some((badges', _))) => Reply(db.(badges := badges'), Ok)
  }

  /** `updateBadge`: a request with no truthy field is a 400; otherwise the
      truthy fields are written, the type without any check against the
      enumeration. An unknown badge is a 404, a name another badge holds a
      500. */
  function UpdateBadge(db: Db, id: RawId, b: BadgeBody): (r: Reply)
    ensures r.status == BadRequest <==>
      !Truthy(b.name) && !Truthy(b.description) && !Truthy(b.kind) && b.rules.None? && !PointsTruthy(b)
    ensures r.status in {BadRequest, InternalError, NotFound, Ok}
    ensures r.status != Ok ==> r.db == db
    ensures r.status != BadRequest && id.ObjectId? ==>
      (r.status == NotFound <==> BadgeService.BadgeById(db.badges, id.id).None?)
    ensures r.status == Ok ==> id.ObjectId?
    ensures r.status == InternalError <==>
      r.status != BadRequest && (!id.ObjectId? || BadgeService.PatchNameTaken(db.badges, id.id, PatchOf(b)))
    ensures r.status == Ok && id.ObjectId? ==>
      var k := BadgeService.IndexOfBadge(db.badges, id.id).value;
      && |r.db.badges| == |db.badges|
      && r.db == db.(badges := db.badges[k := r.db.badges[k]])
      && var v := r.db.badges[k];
      && v.id == db.badges[k].id && v.isActive == db.badges[k].isActive && v.createdBy == db.badges[k].createdBy
      && v.kind == (if Truthy(b.kind) then b.kind.value else db.badges[k].kind)
      && v.points == (if PointsTruthy(b) then b.points.value else db.badges[k].points)
      && v.rules == (if b.rules.Some? then b.rules.value else db.badges[k].rules)
      && v.name == (if Truthy(b.name) then Text.Trim(b.name.value) else db.badges[k].name)
      && v.description == (if Truthy(b.description) then Text.Trim(b.description.value) else db.badges[k].description)
  {
    if !Truthy(b.name) && !Truthy(b.description) && !Truthy(b.kind) && b.rules.None? && !PointsTruthy(b) then
      Reply(db, BadRequest)
    else if !id.ObjectId? then Reply(db, InternalError)
    else WritePatch(db, id.id, PatchOf(b))
  }

  /** An update can store a type outside the enumeration, and the badge
      then drops out of every by-type listing. */
  lemma UpdateStoresUnknownType(db: Db, id: Id, kind: string)
    requires BadgeSchema.NamesUnique(db.badges)
    requires BadgeService.BadgeById(db.badges, id).Some?
    requires kind != "" && ParseBadgeType(kind).None?
    ensures var r := UpdateBadge(db, ObjectId(id), BadgeBody(None, None, Some(kind), None, None));
      && r.status == Ok
      && var v := r.db.badges[BadgeService.IndexOfBadge(db.badges, id).value];
      && ParseBadgeType(v.kind).None?
      && forall t: BadgeType :: v !in BadgeService.BadgesByType(r.db.badges, t)
  {
    var k := BadgeService.IndexOfBadge(db.badges, id).value;
    var p := PatchOf(BadgeBody(None, None, Some(kind), None, None));
    assert BadgeService.ApplyPatch(db.badges[k], p).name == db.badges[k].name;
    assert forall i :: 0 <= i < |db.badges| && i != k ==> db.badges[i].name != db.badges[k].name;
  }

  /** `getBadgesByType`: a type outside the enumeration is a 400; otherwise
      exactly the active badges of that type, by name. */
  function BadgesByType(db: Db, kind: string): (r: (Status, seq<Badge>))
    ensures r.0 == BadRequest <==> ParseBadgeType(kind).None?
    ensures r.0 in {BadRequest, Ok}
    ensures r.0 == BadRequest ==> r.1 == []
    ensures r.0 == Ok ==> forall v :: v in r.1 <==> v in db.badges && v.isActive && v.kind == kind
  {
    match ParseBadgeType(kind)
    case None => (BadRequest, [])
    case Some(t) => (Ok, BadgeService.BadgesByType(db.badges, t))
  }

  /** Every enumeration value is accepted. */
  lemma EveryTypeListed(db: Db, t: BadgeType)
    ensures BadgesByType(db, t.Name()).0 == Ok
  {
    ParseBadgeTypeName(t);
  }
}

=== FILE: badge_schema.dfy ===
/** The badge document: its type enumeration, its rule list and the
    validators, defaults and unique name index of the badge schema. */
module BadgeSchema {
  import opened Common
  import opened Collections
  import Text
  import Ordering
  import Coercion

  datatype BadgeType = Achievement | Streak | Score | Challenge | Social {
    /** The enumeration's string value. */
    function Name(): string {
      match this
      case Achievement => "ACHIEVEMENT"
      case Streak => "STREAK"
      case Score => "SCORE"
      case Challenge => "CHALLENGE"
      case Social => "SOCIAL"
    }
  }

  /** `Object.values(BadgeType).includes(s)`, as the enumeration member it names. */
  function ParseBadgeType(s: string): (r: Option<BadgeType>)
    ensures r.Some? ==> r.value.Name() == s
    ensures r.None? <==> forall t: BadgeType :: t.Name() != s
  {
    if s == "ACHIEVEMENT" then Some(Achievement)
    else if s == "STREAK" then Some(Streak)
    else if s == "SCORE" then Some(Score)
    else if s == "CHALLENGE" then Some(Challenge)
    else if s == "SOCIAL" then Some(Social)
    else None
  }

  /** Every enumeration value is recognised as itself. */
  lemma ParseBadgeTypeName(t: BadgeType)
    ensures ParseBadgeType(t.Name()) == Some(t)
  {
  }

  /** `{condition, operator, value}`: compare the user field named
      `condition` with `value` using `operator`. */
  datatype Rule = Rule(condition: string, operator: string, value: int)

  datatype Badge = Badge(
    id: Id,
    name: string,
    description: string,
    kind: string,              // the `type` field; an update may store any string
    rules: seq<Rule>,
    points: int,
    isActive: bool,
    createdBy: Id,
    createdAt: Millis)

  /** The fields a create supplies. */
  datatype BadgeFields = BadgeFields(
    name: string,
    description: string,
    kind: string,
    rules: seq<Rule>,
    points: int,
    createdBy: Id)

  /** The schema validators, on the values after trimming: `required` name
      and description, the `BadgeType` enumeration, at least one rule and
      `min: 0` points. */
  predicate FieldsValid(f: BadgeFields) {
    && Text.Trim(f.name) != ""
    && Text.Trim(f.description) != ""
    && ParseBadgeType(f.kind).Some?
    && |f.rules| > 0
    && f.points >= 0
  }

  predicate NamesUnique(badges: seq<Badge>) {
    forall i, j :: 0 <= i < j < |badges| ==> badges[i].name != badges[j].name
  }

  predicate NameTaken(badges: seq<Badge>, name: string) {
    exists i :: 0 <= i < |badges| && badges[i].name == name
  }

  /** `badgeModel.create`: validation, then the unique index on `name`. The
      rule list must hold at least one rule, as the validator's message
      says; see `InsertAsWritten` for the validator as declared. */
  function Insert(badges: seq<Badge>, f: BadgeFields, now: Millis): (r: Result<(seq<Badge>, Badge), WriteError>)
    ensures !FieldsValid(f) <==> r == Failure(ValidationFailed)
    ensures r == Failure(DuplicateKey) <==> FieldsValid(f) && NameTaken(badges, Text.Trim(f.name))
    ensures r.Success? ==>
      var (badges', b) := r.value;
      && badges' == badges + [b]
      && (forall i :: 0 <= i < |badges| ==> badges[i].id != b.id)
      && b.name == Text.Trim(f.name) && b.description == Text.Trim(f.description)
      && b.kind == f.kind && b.rules == f.rules && b.points == f.points
      && b.createdBy == f.createdBy
      && b.isActive
      && |b.rules| > 0 && b.points >= 0 && ParseBadgeType(b.kind).Some?
  {
    if !FieldsValid(f) then Failure(ValidationFailed)
    else if NameTaken(badges, Text.Trim(f.name)) then Failure(DuplicateKey)
    else Success(Appended(badges, f, now))
  }

  /** The stored badge: a fresh id, the trimmed texts, active by default. */
  function Appended(badges: seq<Badge>, f: BadgeFields, now: Millis): (r: (seq<Badge>, Badge))
    ensures r.0 == badges + [r.1]
    ensures forall i :: 0 <= i < |badges| ==> badges[i].id != r.1.id
    ensures r.1 == Badge(r.1.id, Text.Trim(f.name), Text.Trim(f.description), f.kind, f.rules, f.points,
                         true, f.createdBy, now)
  {
    var b := Badge(FreshId(badges, (x: Badge) => x.id), Text.Trim(f.name), Text.Trim(f.description),
                   f.kind, f.rules, f.points, true, f.createdBy, now);
    (badges + [b], b)
  }

  /** The `length` a rule object shows: it has none. */
  function RuleLength(r: Rule): Coercion.FieldValue {
    Coercion.Undefined
  }

  /** `rules.length > 0` run, as declared, on one element of the list. */
  predicate RuleElementPasses(r: Rule) {
    Coercion.Compare(RuleLength(r), ">", 0) == Some(true)
  }

  /** The validators as declared: `required` and `validate` sit inside the
      `rules: [ ... ]` brackets, so they belong to each element, and the list
      itself may be empty. */
  predicate FieldsValidAsWritten(f: BadgeFields) {
    && Text.Trim(f.name) != ""
    && Text.Trim(f.description) != ""
    && ParseBadgeType(f.kind).Some?
    && (forall i :: 0 <= i < |f.rules| ==> RuleElementPasses(f.rules[i]))
    && f.points >= 0
  }

  /** `badgeModel.create` with the rule validator applied per element:
      every rule fails it, so only a badge without rules can be stored. */
  function InsertAsWritten(badges: seq<Badge>, f: BadgeFields, now: Millis): (r: Result<(seq<Badge>, Badge), WriteError>)
    ensures r == Failure(ValidationFailed) <==> !FieldsValidAsWritten(f)
    ensures FieldsValidAsWritten(f) ==> |f.rules| == 0
    ensures r == Failure(DuplicateKey) <==> FieldsValidAsWritten(f) && NameTaken(badges, Text.Trim(f.name))
    ensures r.Success? ==> r.value == Appended(badges, f, now) && r.value.1.rules == []
  {
    OnlyEmptyRuleListsPass(f);
    if !FieldsValidAsWritten(f) then Failure(ValidationFailed)
    else if NameTaken(badges, Text.Trim(f.name)) then Failure(DuplicateKey)
    else Success(Appended(badges, f, now))
  }

  /** No rule passes the element validator. */
  lemma NoRulePasses(r: Rule)
    ensures !RuleElementPasses(r)
  {
    Coercion.NaNComparesFalse(RuleLength(r), ">", 0);
  }

  /** The declared validators pass only an empty rule list. */
  lemma OnlyEmptyRuleListsPass(f: BadgeFields)
    ensures FieldsValidAsWritten(f) ==> |f.rules| == 0
  {
    if |f.rules| > 0 {
      NoRulePasses(f.rules[0]);
    }
  }

  /** Every create the intended schema accepts, or refuses only for its
      name, the declared schema refuses as invalid. */
  lemma EveryRuleRejected(badges: seq<Badge>, f: BadgeFields, now: Millis)
    requires FieldsValid(f)
    ensures Insert(badges, f, now).Success? || Insert(badges, f, now) == Failure(DuplicateKey)
    ensures InsertAsWritten(badges, f, now) == Failure(ValidationFailed)
  {
    NoRulePasses(f.rules[0]);
  }

  /** The unique index keeps badge names unique. */
  lemma InsertKeepsNamesUnique(badges: seq<Badge>, f: BadgeFields, now: Millis)
    requires NamesUnique(badges)
    ensures Insert(badges, f, now).Success? ==> NamesUnique(Insert(badges, f, now).value.0)
  {
    var r := Insert(badges, f, now);
    if r.Success? {
      var badges' := r.value.0;
      forall i, j | 0 <= i < j < |badges'| ensures badges'[i].name != badges'[j].name {
        if j == |badges| {
          assert !NameTaken(badges, r.value.1.name);
          assert badges'[i] == badges[i];
        } else {
          assert badges'[i] == badges[i] && badges'[j] == badges[j];
        }
      }
    }
  }

  /** Sort key of `sort({name: 1})`. */
  function NameKey(b: Badge): seq<int> {
    Ordering.CodePoints(b.name)
  }
}

=== FILE: badge_service.dfy ===
/** The badge service: name-ordered listings, the active/type filters,
    partial updates, the status toggle, deletion and the eligibility report
    computed from caller-supplied statistics. */
module BadgeService {
  import opened Common
  import opened Collections
  import opened Ordering
  import opened BadgeSchema
  import Text

  /** `getAllBadges`: every badge, by name. */
  function AllBadges(badges: seq<Badge>): (r: seq<Badge>)
    ensures multiset(r) == multiset(badges)
    ensures SortedBy(r, NameKey)
  {
    SortBy(badges, NameKey)
  }

  /** `getActiveBadges`: the active badges, by name. */
  function ActiveBadges(badges: seq<Badge>): (r: seq<Badge>)
    ensures forall b :: b in r <==> b in badges && b.isActive
    ensures SortedBy(r, NameKey)
  {
    var a := Filter(badges, (b: Badge) => b.isActive);
    var r := SortBy(a, NameKey);
    assert forall b :: b in r <==> b in multiset(a);
    r
  }

  /** `getBadgesByType(type)`: the active badges of that type, by name. */
  function BadgesByType(badges: seq<Badge>, t: BadgeType): (r: seq<Badge>)
    ensures forall b :: b in r <==> b in badges && b.isActive && b.kind == t.Name()
    ensures SortedBy(r, NameKey)
  {
    var a := Filter(badges, (b: Badge) => b.isActive && b.kind == t.Name());
    var r := SortBy(a, NameKey);
    assert forall b :: b in r <==> b in multiset(a);
    r
  }

  function IndexOfBadge(badges: seq<Badge>, id: Id): Option<nat> {
    FindFirst(badges, (b: Badge) => b.id == id)
  }

  /** `findById(id)`. */
  function BadgeById(badges: seq<Badge>, id: Id): (r: Option<Badge>)
    ensures r.Some? ==> r.value in badges && r.value.id == id
    ensures r.None? <==> forall i :: 0 <= i < |badges| ==> badges[i].id != id
  {
    match IndexOfBadge(badges, id)
    case None => None
    case Some(k) => Some(badges[k])
  }

  /** `toggleBadgeStatus(id)`: `None` for an unknown id; otherwise `isActive`
      flips and nothing else changes. */
  function ToggleBadgeStatus(badges: seq<Badge>, id: Id): (r: Option<(seq<Badge>, Badge)>)
    ensures r.None? <==> forall i :: 0 <= i < |badges| ==> badges[i].id != id
    ensures r.Some? ==>
      var k := IndexOfBadge(badges, id).value;
      && r.value.1 == badges[k].(isActive := !badges[k].isActive)
      && |r.value.0| == |badges|
      && r.value.0[k] == r.value.1
      && (forall i :: 0 <= i < |badges| && i != k ==> r.value.0[i] == badges[i])
  {
    UpdateFirst(badges, (b: Badge) => b.id == id, (b: Badge) => b.(isActive := !b.isActive))
  }

  /** Toggling twice restores the collection. */
  lemma ToggleTwice(badges: seq<Badge>, id: Id)
    requires ToggleBadgeStatus(badges, id).Some?
    ensures ToggleBadgeStatus(ToggleBadgeStatus(badges, id).value.0, id).Some?
    ensures ToggleBadgeStatus(ToggleBadgeStatus(badges, id).value.0, id).value.0 == badges
  {
    var k := IndexOfBadge(badges, id).value;
    var once := ToggleBadgeStatus(badges, id).value.0;
    assert IndexOfBadge(once, id) == Some(k) by {
      assert once[k].id == id;
      assert forall j :: 0 <= j < k ==> once[j] == badges[j];
    }
    var twice := ToggleBadgeStatus(once, id).value.0;
    assert twice[k] == badges[k];
    assert twice == badges;
  }

  /** The fields of `updateBadge` that were truthy in the request. */
  datatype BadgePatch = BadgePatch(
    name: Option<string>,
    description: Option<string>,
    kind: Option<string>,
    rules: Option<seq<Rule>>,
    points: Option<int>)

  function ApplyPatch(b: Badge, p: BadgePatch): Badge {
    b.(name := if p.name.Some? then Text.Trim(p.name.value) else b.name,
       description := if p.description.Some? then Text.Trim(p.description.value) else b.description,
       kind := p.kind.GetOr(b.kind),
       rules := p.rules.GetOr(b.rules),
       points := p.points.GetOr(b.points))
  }

  /** The badge with the id exists, and the name it would carry after the
      patch is held by another badge. */
  predicate PatchNameTaken(badges: seq<Badge>, id: Id, p: BadgePatch) {
    && IndexOfBadge(badges, id).Some?
    && var k := IndexOfBadge(badges, id).value;
       var name := if p.name.Some? then Text.Trim(p.name.value) else badges[k].name;
       exists i :: 0 <= i < |badges| && i != k && badges[i].name == name
  }

  /** `findByIdAndUpdate(id, updateData, {new: true})`: the set fields are
      written (through the trim setters, without validators); a new name that
      another badge holds violates the unique index. */
  function UpdateBadge(badges: seq<Badge>, id: Id, p: BadgePatch): (r: Result<Option<(seq<Badge>, Badge)>, WriteError>)
    ensures r.Success? && r.value.None? <==> forall i :: 0 <= i < |badges| ==> badges[i].id != id
    ensures r.Failure? ==> r.error == DuplicateKey
    ensures r.Failure? <==> PatchNameTaken(badges, id, p)
    ensures r.Success? && r.value.Some? ==>
      var k := IndexOfBadge(badges, id).value;
      var b := r.value.value.1;
      && b.id == id && b.isActive == badges[k].isActive && b.createdBy == badges[k].createdBy
      && b.createdAt == badges[k].createdAt
      && (p.name.Some? ==> b.name == Text.Trim(p.name.value)) && (p.name.None? ==> b.name == badges[k].name)
      && (p.description.Some? ==> b.description == Text.Trim(p.description.value))
      && (p.description.None? ==> b.description == badges[k].description)
      && (p.kind.Some? ==> b.kind == p.kind.value) && (p.kind.None? ==> b.kind == badges[k].kind)
      && (p.rules.Some? ==> b.rules == p.rules.value) && (p.rules.None? ==> b.rules == badges[k].rules)
      && (p.points.Some? ==> b.points == p.points.value) && (p.points.None? ==> b.points == badges[k].points)
      && r.value.value.0 == badges[k := b]
  {
    match IndexOfBadge(badges, id)
    case None => Success(None)
    case Some(k) =>
      var b := ApplyPatch(badges[k], p);
      if exists i :: 0 <= i < |badges| && i != k && badges[i].name == b.name then Failure(DuplicateKey)
      else Success(Some((badges[k := b], b)))
  }

  /** Applying a patch a second time changes nothing. */
  lemma ApplyPatchIdempotent(b: Badge, p: BadgePatch)
    ensures ApplyPatch(ApplyPatch(b, p), p) == ApplyPatch(b, p)
  {
    var once := ApplyPatch(b, p);
    var twice := ApplyPatch(once, p);
    if p.name.Some? {
      Text.TrimIdempotent(p.name.value);
    }
    assert twice.name == once.name;
    if p.description.Some? {
      Text.TrimIdempotent(p.description.value);
    }
    assert twice.description == once.description;
    assert twice.kind == once.kind && twice.rules == once.rules && twice.points == once.points;
  }

  /** A second identical update finds the updated badge, passes the unique
      index, and leaves the collection as it is. */
  lemma UpdateBadgeTwice(badges: seq<Badge>, id: Id, p: BadgePatch)
    requires UpdateBadge(badges, id, p).Success? && UpdateBadge(badges, id, p).value.Some?
    ensures var (once, b) := UpdateBadge(badges, id, p).value.value;
      UpdateBadge(once, id, p) == Success(Some((once, b)))
  {
    var k := IndexOfBadge(badges, id).value;
    var (once, b) := UpdateBadge(badges, id, p).value.value;
    assert b == ApplyPatch(badges[k], p);
    FindFirstAfterReplace(badges, (x: Badge) => x.id == id, k, b);
    ApplyPatchIdempotent(badges[k], p);
    assert once[k := b] == once;
    assert forall i :: 0 <= i < |once| && i != k ==> once[i] == badges[i];
  }

  /** `deleteBadge(id)`: true exactly when a badge was removed. */
  function DeleteBadge(badges: seq<Badge>, id: Id): (r: (seq<Badge>, bool))
    ensures r.1 <==> exists i :: 0 <= i < |badges| && badges[i].id == id
    ensures r.1 ==> |r.0| == |badges| - 1
    ensures r.1 ==>
      var k := IndexOfBadge(badges, id).value;
      && k < |badges| && badges[k].id == id && (forall j :: 0 <= j < k ==> badges[j].id != id)
      && r.0 == badges[..k] + badges[k + 1..]
    ensures !r.1 ==> r.0 == badges
  {
    match RemoveFirst(badges, (b: Badge) => b.id == id)
    case None => (badges, false)
    case Some(rest) => (rest, true)
  }

  /** With unique ids, the deleted badge is no longer found, every other
      badge is kept, and nothing new appears. */
  lemma DeleteBadgeRemovesOnlyIt(badges: seq<Badge>, id: Id)
    requires forall i, j :: 0 <= i < j < |badges| ==> badges[i].id != badges[j].id
    ensures var r := DeleteBadge(badges, id).0;
      && BadgeById(r, id).None?
      && (forall i :: 0 <= i < |badges| && badges[i].id != id ==> badges[i] in r)
      && (forall b :: b in r ==> b in badges)
  {
    if DeleteBadge(badges, id).1 {
      RemoveFirstKeepsOthers(badges, (b: Badge) => b.id == id);
    }
  }

  // ---------------------------------------------------------------------
  // checkUserEligibility

  /** One rule against the statistics object: a condition missing from it,
      or an operator outside `>=`, `<=`, `==`, `>`, `<`, fails the rule. */
  predicate RulePasses(stats: map<string, int>, r: Rule) {
    && r.condition in stats
    && var v := stats[r.condition];
       if r.operator == ">=" then v >= r.value
       else if r.operator == "<=" then v <= r.value
       else if r.operator == "==" then v == r.value
       else if r.operator == ">" then v > r.value
       else if r.operator == "<" then v < r.value
       else false
  }

  /** Every rule passes; an empty rule list passes vacuously. */
  predicate Eligible(stats: map<string, int>, b: Badge) {
    forall i :: 0 <= i < |b.rules| ==> RulePasses(stats, b.rules[i])
  }

  /** The rule loop of one badge, stopping at the first failing rule. */
  method RulesPass(stats: map<string, int>, rules: seq<Rule>) returns (isEligible: bool)
    ensures isEligible <==> forall i :: 0 <= i < |rules| ==> RulePasses(stats, rules[i])
  {
    isEligible := true;
    var j := 0;
    while j < |rules|
      invariant 0 <= j <= |rules|
      invariant isEligible
      invariant forall m :: 0 <= m < j ==> RulePasses(stats, rules[m])
    {
      var rule := rules[j];
      if rule.condition !in stats {
        isEligible := false;
        break;
      }
      var userValue := stats[rule.condition];
      if rule.operator == ">=" {
        if !(userValue >= rule.value) { isEligible := false; }
      } else if rule.operator == "<=" {
        if !(userValue <= rule.value) { isEligible := false; }
      } else if rule.operator == "==" {
        if !(userValue == rule.value) { isEligible := false; }
      } else if rule.operator == ">" {
        if !(userValue > rule.value) { isEligible := false; }
      } else if rule.operator == "<" {
        if !(userValue < rule.value) { isEligible := false; }
      } else {
        isEligible := false;
      }
      if !isEligible {
        break;
      }
      j := j + 1;
    }
  }

  /** `checkUserEligibility(userId, userStats)`: the active badges, by name,
      whose every rule passes against `userStats`. */
  method CheckUserEligibility(badges: seq<Badge>, stats: map<string, int>) returns (eligible: seq<Badge>)
    ensures eligible == Filter(ActiveBadges(badges), b => Eligible(stats, b))
    ensures forall b :: b in eligible <==> b in badges && b.isActive && Eligible(stats, b)
    ensures SortedBy(eligible, NameKey)
  {
    var active := ActiveBadges(badges);
    eligible := EligibleAmong(active, stats);
    EligibleActive(badges, stats);
  }

  /** The loop of `checkUserEligibility` over the active badges: those whose
      every rule passes, in the order given. */
  method EligibleAmong(active: seq<Badge>, stats: map<string, int>) returns (eligible: seq<Badge>)
    ensures eligible == Filter(active, b => Eligible(stats, b))
  {
    var p := (b: Badge) => Eligible(stats, b);
    eligible := [];
    var i := 0;
    while i < |active|
      invariant 0 <= i <= |active|
      invariant eligible == Filter(active[..i], p)
    {
      var badge := active[i];
      var isEligible := RulesPass(stats, badge.rules);
      FilterPrefixStep(active, i, p);
      if isEligible {
        eligible := eligible + [badge];
      }
      i := i + 1;
    }
    assert active[..|active|] == active;
  }

  /** The eligible active badges keep the name order and are exactly the
      active badges whose rules pass. */
  lemma EligibleActive(badges: seq<Badge>, stats: map<string, int>)
    ensures var e := Filter(ActiveBadges(badges), b => Eligible(stats, b));
      SortedBy(e, NameKey) && forall b :: b in e <==> b in badges && b.isActive && Eligible(stats, b)
  {
    var active := ActiveBadges(badges);
    var p := (b: Badge) => Eligible(stats, b);
    FilterSorted(active, p, NameKey);
    FilterMembers(active, p);
  }
}

=== FILE: challenge_controller.dfy ===
/** The challenge handlers: creation with its gym rules, joining with the
    capacity check, progress updates with the side effects of completion,
    workout logging, and activation. The caller is the user document the
    session middleware attached to the request. */
module ChallengeController {
  import opened Common
  import opened Collections
  import opened Store
  import opened UserSchema
  import opened GymSchema
  import opened ChallengeSchema
  import opened ParticipationSchema
  import GymService
  import ChallengeService
  import ParticipationService
  import UserService
  import BadgeSchema
  import BadgeAssignment
  import Ordering
  import JsEquality
  import Text

  // ---------------------------------------------------------------------
  // createChallenge

  /** The body of a create request; `rewardPoints` is `rewards.points`. */
  datatype ChallengeBody = ChallengeBody(
    title: Option<string>,
    description: Option<string>,
    gymId: Option<Id>,
    exercises: Option<seq<Id>>,
    goals: Option<seq<Goal>>,
    difficulty: Option<string>,
    kind: Option<string>,
    duration: Option<int>,
    maxParticipants: Option<int>,
    rewardPoints: Option<int>,
    isPublic: Option<bool>,
    inviteOnly: Option<bool>,
    teamBased: Option<bool>)

  /** One of the six required fields is falsy; an array, even an empty one,
      is truthy, and a duration of 0 is not. */
  predicate MissingRequired(b: ChallengeBody) {
    || !Truthy(b.title) || !Truthy(b.description) || b.exercises.None? || b.goals.None?
    || !Truthy(b.difficulty) || b.duration.None? || b.duration.value == 0
  }

  function ChallengeFieldsOf(b: ChallengeBody, creator: Id, gymId: Option<Id>): ChallengeFields
    requires !MissingRequired(b)
  {
    ChallengeFields(b.title.value, b.description.value, creator, gymId, b.exercises.value, b.goals.value,
                    b.difficulty.value, b.kind, b.duration.value, b.maxParticipants, b.rewardPoints,
                    b.isPublic, b.inviteOnly, b.teamBased)
  }

  /** The gym a new challenge is attached to: a GYM_OWNER's (first) gym,
      and an owner without one is refused; a USER may not name a gym at
      all; a SUPER_ADMIN's choice is kept. */
  function ChallengeGym(db: Db, caller: User, b: ChallengeBody): (r: Result<Option<Id>, Status>)
    ensures r == Failure(BadRequest) <==> caller.role == GymOwner && GymService.GymByOwnerId(db.gyms, caller.id).None?
    ensures r == Failure(Forbidden) <==> caller.role == RegularUser && b.gymId.Some?
    ensures r.Failure? ==> r.error in {BadRequest, Forbidden}
    ensures r.Success? ==>
      && (caller.role == GymOwner ==> r.value == Some(GymService.GymByOwnerId(db.gyms, caller.id).value.id))
      && (caller.role == RegularUser ==> r.value.None?)
      && (caller.role == SuperAdmin ==> r.value == b.gymId)
  {
    if caller.role == GymOwner then
      match GymService.GymByOwnerId(db.gyms, caller.id)
      case None => Failure(BadRequest)
      case Some(g) => Success(Some(g.id))
    else if caller.role == RegularUser && b.gymId.Some? then Failure(Forbidden)
    else Success(b.gymId)
  }

  /** `createChallenge`: the required fields first, then the gym rules; a
      schema failure, such as a difficulty outside `levels` (the values of
      `DifficultyLevel`), is a 500. */
  function CreateChallenge(db: Db, caller: User, b: ChallengeBody, levels: set<string>, now: Millis): (r: Reply)
    ensures r.status == BadRequest <==>
      MissingRequired(b) || (caller.role == GymOwner && GymService.GymByOwnerId(db.gyms, caller.id).None?)
    ensures r.status == Forbidden <==> !MissingRequired(b) && caller.role == RegularUser && b.gymId.Some?
    ensures r.status in {BadRequest, Forbidden, InternalError, Created}
    ensures r.status == Created <==>
      && !MissingRequired(b) && ChallengeGym(db, caller, b).Success?
      && ChallengeSchema.FieldsValid(ChallengeFieldsOf(b, caller.id, ChallengeGym(db, caller, b).value), levels)
    ensures !r.status.Created? ==> r.db == db
    ensures r.status.Created? ==>
      var n := |db.challenges|;
      && |r.db.challenges| == n + 1
      && r.db == db.(challenges := db.challenges + [r.db.challenges[n]])
      && var c := r.db.challenges[n];
      && c.createdBy == caller.id && c.status == Active && c.currentParticipants == 0
      && c.title == Text.Trim(b.title.value) && c.difficulty == b.difficulty.value && c.difficulty in levels
      && (forall i :: 0 <= i < n ==> db.challenges[i].id != c.id)
      && (caller.role == GymOwner ==> c.gymId == Some(GymService.GymByOwnerId(db.gyms, caller.id).value.id))
      && (caller.role == RegularUser ==> c.gymId.None?)
      && (caller.role == SuperAdmin ==> c.gymId == b.gymId)
  {
    if MissingRequired(b) then Reply(db, BadRequest)
    else
      var gymId := ChallengeGym(db, caller, b);
      if gymId.Failure? then Reply(db, gymId.error)
      else
        match ChallengeSchema.Insert(db.challenges, ChallengeFieldsOf(b, caller.id, gymId.value), levels, now)
        case Failure(_) => Reply(db, InternalError)
        case Success((challenges', _)) => Reply(db.(challenges := challenges'), Created)
  }

  /** A difficulty outside the enumeration gets past the handler's checks
      and is refused by the schema: a 500, and nothing is stored. */
  lemma UnknownDifficultyRefused(db: Db, caller: User, b: ChallengeBody, levels: set<string>, now: Millis)
    requires !MissingRequired(b) && ChallengeGym(db, caller, b).Success?
    requires b.difficulty.value !in levels
    ensures CreateChallenge(db, caller, b, levels, now) == Reply(db, InternalError)
  {
    assert !ChallengeSchema.FieldsValid(ChallengeFieldsOf(b, caller.id, ChallengeGym(db, caller, b).value), levels);
  }

  /** A challenge a GYM_OWNER creates belongs to a gym that owner owns. */
  lemma OwnerChallengeInOwnGym(db: Db, caller: User, b: ChallengeBody, levels: set<string>, now: Millis)
    requires caller.role == GymOwner
    requires CreateChallenge(db, caller, b, levels, now).status == Created
    ensures var c := CreateChallenge(db, caller, b, levels, now).db.challenges[|db.challenges|];
      exists g :: g in db.gyms && g.ownerId == caller.id && c.gymId == Some(g.id)
  {
    var g := GymService.GymByOwnerId(db.gyms, caller.id).value;
    assert g in db.gyms && g.ownerId == caller.id;
  }

  // ---------------------------------------------------------------------
  // joinChallenge

  /** `challenge.maxParticipants && currentParticipants >= maxParticipants`:
      an absent or zero maximum means no limit. */
  predicate Full(c: Challenge) {
    c.maxParticipants.Some? && c.maxParticipants.value != 0 && c.currentParticipants >= c.maxParticipants.value
  }

  /** The database after a successful join: one new participation of the
      caller and one more participant on the challenge, nothing else. */
  predicate JoinedEffect(db: Db, db': Db, callerId: Id, challengeId: Id) {
    && ChallengeService.IndexOfChallenge(db.challenges, challengeId).Some?
    && var k := ChallengeService.IndexOfChallenge(db.challenges, challengeId).value;
    && var c := db.challenges[k];
    && db'.challenges == db.challenges[k := c.(currentParticipants := c.currentParticipants + 1)]
    && |db'.participations| == |db.participations| + 1
    && db'.participations[..|db.participations|] == db.participations
    && var p := db'.participations[|db.participations|];
    && p.userId == callerId && p.challengeId == challengeId && p.status == Joined && p.invitedBy.None?
    && (forall i :: 0 <= i < |db.participations| ==> db.participations[i].id != p.id)
    && db'.(challenges := db.challenges, participations := db.participations) == db
  }

  /** `joinChallenge`: an unknown challenge is a 404; an existing
      participation of the caller in it, in any status, or a full challenge
      is a 400; otherwise the caller joins. A malformed id makes the lookup
      throw, which is a 500. */
  function JoinChallenge(db: Db, caller: User, challengeId: RawId, now: Millis): (r: Reply)
    ensures !challengeId.ObjectId? ==> r == Reply(db, InternalError)
    ensures challengeId.ObjectId? ==>
      var c := ChallengeService.ChallengeById(db.challenges, challengeId.id);
      var existing := ParticipationService.UserChallengeParticipation(db.participations, caller.id, challengeId.id);
      && (r.status == NotFound <==> c.None?)
      && (r.status == BadRequest <==> c.Some? && (existing.Some? || Full(c.value)))
      && (r.status == Created <==> c.Some? && existing.None? && !Full(c.value))
      && (!r.status.Created? ==> r.db == db)
      && (r.status.Created? ==> JoinedEffect(db, r.db, caller.id, challengeId.id))
  {
    if !challengeId.ObjectId? then Reply(db, InternalError)
    else
      var id := challengeId.id;
      match ChallengeService.ChallengeById(db.challenges, id)
      case None => Reply(db, NotFound)
      case Some(c) =>
        if ParticipationService.UserChallengeParticipation(db.participations, caller.id, id).Some? then Reply(db, BadRequest)
        else if Full(c) then Reply(db, BadRequest)
        else
          var (parts', _) := ParticipationSchema.Create(db.participations, caller.id, id, None, now);
          var (challenges', _) := ChallengeService.IncrementParticipants(db.challenges, id).value;
          Reply(db.(challenges := challenges', participations := parts'), Created)
  }

  /** A successful join never takes a challenge with a maximum above it. */
  lemma JoinNeverOverfills(db: Db, caller: User, challengeId: Id, now: Millis)
    requires JoinChallenge(db, caller, ObjectId(challengeId), now).status == Created
    ensures var k := ChallengeService.IndexOfChallenge(db.challenges, challengeId).value;
      var c' := JoinChallenge(db, caller, ObjectId(challengeId), now).db.challenges[k];
      c'.maxParticipants.Some? && c'.maxParticipants.value != 0 ==>
        c'.currentParticipants <= c'.maxParticipants.value
  {
  }

  /** After a successful join the same user cannot join again: the new
      participation blocks it, whatever later happens to its status. */
  lemma {:induction false} JoinTwiceRejected(db: Db, caller: User, challengeId: Id, now: Millis, later: Millis)
    requires JoinChallenge(db, caller, ObjectId(challengeId), now).status == Created
    ensures var db' := JoinChallenge(db, caller, ObjectId(challengeId), now).db;
      JoinChallenge(db', caller, ObjectId(challengeId), later) == Reply(db', BadRequest)
  {
    var db' := JoinChallenge(db, caller, ObjectId(challengeId), now).db;
    var k := ChallengeService.IndexOfChallenge(db.challenges, challengeId).value;
    FindFirstAfterReplace(db.challenges, (c: Challenge) => c.id == challengeId, k, db'.challenges[k]);
    assert ChallengeService.ChallengeById(db'.challenges, challengeId).Some?;
    var n := |db.participations|;
    assert db'.participations[n].userId == caller.id && db'.participations[n].challengeId == challengeId;
    assert ParticipationService.UserChallengeParticipation(db'.participations, caller.id, challengeId).Some?;
  }

  // ---------------------------------------------------------------------
  // updateProgress

  /** `checkAndAssignBadges(userId)` on the stored users: the user's own
      record is replaced by the result of a run over all badges in name
      order; an unknown user changes nothing. */
  function AssignBadges(users: seq<User>, badges: seq<BadgeSchema.Badge>, userId: Id): seq<User> {
    match IndexOf(users, userId)
    case None => users
    case Some(k) => users[k := BadgeAssignment.Awarded(users[k], Ordering.SortBy(badges, BadgeSchema.NameKey))]
  }

  /** The caller's record once a challenge is completed: one more completed
      challenge, the participation's calories added, and the last activity
      now. */
  function Completed(u: User, calories: Option<int>, now: Millis): User {
    u.(challengesCompleted := u.challengesCompleted + 1,
       totalCaloriesBurned := u.totalCaloriesBurned + calories.GetOr(0),
       lastActivityDate := Some(now))
  }

  /** `updateUserStats(caller, {challengesCompleted: 1, totalCaloriesBurned,
      lastActivityDate: now})` followed by the badge check. */
  function CompletionEffects(users: seq<User>, badges: seq<BadgeSchema.Badge>, callerId: Id,
                             calories: Option<int>, now: Millis): (r: seq<User>)
    ensures IndexOf(users, callerId).None? ==> r == users
    ensures IndexOf(users, callerId).Some? ==>
      var k := IndexOf(users, callerId).value;
      r == users[k := BadgeAssignment.Awarded(Completed(users[k], calories, now),
                                              Ordering.SortBy(badges, BadgeSchema.NameKey))]
  {
    match UserService.UpdateUserStats(users, callerId, UserService.StatsUpdate(Some(1), calories, None, Some(now)))
    case None => users
    case Some((users', u)) =>
      CompletionStep(users, badges, callerId, calories, now, users', u);
      AssignBadges(users', badges, callerId)
  }

  /** The stats update finds the caller where it was and stores the
      completed record, which the badge check then rewrites. */
  lemma CompletionStep(users: seq<User>, badges: seq<BadgeSchema.Badge>, callerId: Id,
                       calories: Option<int>, now: Millis, users': seq<User>, u: User)
    requires UserService.UpdateUserStats(users, callerId, UserService.StatsUpdate(Some(1), calories, None, Some(now)))
             == Some((users', u))
    ensures IndexOf(users, callerId).Some?
    ensures var k := IndexOf(users, callerId).value;
      AssignBadges(users', badges, callerId)
      == users[k := BadgeAssignment.Awarded(Completed(users[k], calories, now), Ordering.SortBy(badges, BadgeSchema.NameKey))]
  {
    StatsCompleted(users, callerId, calories, now, users', u);
    var k := IndexOf(users, callerId).value;
    AssignAfterStore(users, badges, callerId, k, u, users');
  }

  /** The stats update of a completion stores the completed record in place. */
  lemma StatsCompleted(users: seq<User>, callerId: Id, calories: Option<int>, now: Millis, users': seq<User>, u: User)
    requires UserService.UpdateUserStats(users, callerId, UserService.StatsUpdate(Some(1), calories, None, Some(now)))
             == Some((users', u))
    ensures IndexOf(users, callerId).Some?
    ensures var k := IndexOf(users, callerId).value;
      u == Completed(users[k], calories, now) && users' == users[k := u]
  {
  }

  /** The badge check after a record is stored in place rewrites that record. */
  lemma AssignAfterStore(users: seq<User>, badges: seq<BadgeSchema.Badge>, callerId: Id, k: nat, u: User, users': seq<User>)
    requires IndexOf(users, callerId) == Some(k) && u.id == callerId && users' == users[k := u]
    ensures AssignBadges(users', badges, callerId)
      == users[k := BadgeAssignment.Awarded(u, Ordering.SortBy(badges, BadgeSchema.NameKey))]
  {
    FindFirstAfterReplace(users, (x: User) => x.id == callerId, k, u);
    assert IndexOf(users', callerId) == Some(k);
    ReplaceTwice(users, k, u, BadgeAssignment.Awarded(u, Ordering.SortBy(badges, BadgeSchema.NameKey)));
  }

  lemma ReplaceTwice<T>(s: seq<T>, k: nat, u: T, a: T)
    requires k < |s|
    ensures s[k := u][k := a] == s[k := a]
  {
  }

  /** Progress outside 0..100 (compared as numbers). */
  predicate ProgressOutOfRange(progress: int) {
    progress < 0 || progress > 100
  }

  /** `updateProgress`: the range check comes before any read; a missing
      participation and one of another user are both a 404. The
      participation is read with its `userId` populated, so one whose
      owner's record is gone reads `_id` of `null` and throws (500). A progress of
      100 counts one more completed challenge for the caller, adds the
      participation's calories as they were before the update, and runs the
      badge check, even when the participation was already COMPLETED. */
  function UpdateProgress(db: Db, caller: User, participationId: RawId, progress: int, now: Millis): (r: Reply)
    ensures ProgressOutOfRange(progress) ==> r == Reply(db, BadRequest)
    ensures !ProgressOutOfRange(progress) && !participationId.ObjectId? ==> r == Reply(db, InternalError)
    ensures !ProgressOutOfRange(progress) && participationId.ObjectId? ==>
      var found := ParticipationService.ParticipationById(db.participations, participationId.id);
      var ownerGone := found.Some? && IndexOf(db.users, found.value.userId).None?;
      && (r.status == InternalError <==> ownerGone)
      && (r.status == NotFound <==> found.None? || (!ownerGone && found.value.userId != caller.id))
      && (r.status == Ok <==> found.Some? && !ownerGone && found.value.userId == caller.id)
      && (!r.status.Ok? ==> r.db == db)
      && (r.status.Ok? ==>
        var k := ParticipationService.IndexOfParticipation(db.participations, participationId.id).value;
        && r.db.participations == db.participations[k := ParticipationService.Progressed(db.participations[k], progress, now)]
        && (progress < 100 ==> r.db.users == db.users)
        && (progress >= 100 ==>
              r.db.users == CompletionEffects(db.users, db.badges, caller.id, found.value.totalCalories, now))
        && r.db.(participations := db.participations, users := db.users) == db)
  {
    if ProgressOutOfRange(progress) then Reply(db, BadRequest)
    else if !participationId.ObjectId? then Reply(db, InternalError)
    else
      var id := participationId.id;
      match ParticipationService.ParticipationById(db.participations, id)
      case None => Reply(db, NotFound)
      case Some(p) =>
        if IndexOf(db.users, p.userId).None? then Reply(db, InternalError)
        else if p.userId != caller.id then Reply(db, NotFound)
        else
          var (parts', _) := ParticipationService.UpdateProgress(db.participations, id, progress, now).value;
          var users' := if progress >= 100 then CompletionEffects(db.users, db.badges, caller.id, p.totalCalories, now)
                        else db.users;
          Reply(db.(participations := parts', users := users'), Ok)
  }

  /** Nothing stops a participation from being completed twice: two
      updates to 100 count two completed challenges for the caller. */
  lemma {:induction false} CompletionCountedTwice(db: Db, caller: User, participationId: Id, now: Millis, later: Millis)
    requires UpdateProgress(db, caller, ObjectId(participationId), 100, now).status == Ok
    requires IndexOf(db.users, caller.id).Some?
    ensures var db1 := UpdateProgress(db, caller, ObjectId(participationId), 100, now).db;
      var db2 := UpdateProgress(db1, caller, ObjectId(participationId), 100, later);
      var k := IndexOf(db.users, caller.id).value;
      && db2.status == Ok
      && db2.db.users[k].challengesCompleted == db.users[k].challengesCompleted + 2
  {
    var db1 := UpdateProgress(db, caller, ObjectId(participationId), 100, now).db;
    var j := ParticipationService.IndexOfParticipation(db.participations, participationId).value;
    var p1 := ParticipationService.Progressed(db.participations[j], 100, now);
    FindFirstAfterReplace(db.participations, (p: Participation) => p.id == participationId, j, p1);
    assert ParticipationService.ParticipationById(db1.participations, participationId) == Some(p1);
    var k := IndexOf(db.users, caller.id).value;
    var sorted := Ordering.SortBy(db.badges, BadgeSchema.NameKey);
    var u1 := BadgeAssignment.Awarded(Completed(db.users[k], db.participations[j].totalCalories, now), sorted);
    FindFirstAfterReplace(db.users, (x: User) => x.id == caller.id, k, u1);
    assert IndexOf(db1.users, caller.id) == Some(k);
  }

  // ---------------------------------------------------------------------
  // addWorkoutSession

  /** The body of a workout request; `exercises` is `None` when it is
      missing or not an array. */
  datatype WorkoutBody = WorkoutBody(exercises: Option<seq<ExerciseEntry>>, caloriesBurned: Option<int>, notes: Option<string>)

  /** The session the handler builds: dated now, no duration, and the
      calories given (`caloriesBurned || 0`). */
  function SessionOf(b: WorkoutBody, now: Millis): WorkoutSession
    requires b.exercises.Some?
  {
    WorkoutSession(now, b.exercises.value, 0, b.caloriesBurned.GetOr(0), b.notes)
  }

  /** The ownership test of `addWorkoutSession` as written:
      `participation.userId.toString() !== req.user._id`, where `userId`
      has been populated with the user document and `_id` is an ObjectId. */
  predicate NotOwnerAsWritten(p: Participation, caller: User) {
    !JsEquality.StrictEquals(JsEquality.JsString(JsEquality.ToText(JsEquality.PopulatedDocument(p.userId))),
                             JsEquality.ObjectIdObject(caller.id))
  }

  /** `addWorkoutSession` with the ownership test as written. */
  function AddWorkoutSessionAsWritten(db: Db, caller: User, participationId: RawId, b: WorkoutBody, now: Millis): (r: Reply)
    ensures b.exercises.None? ==> r == Reply(db, BadRequest)
    ensures b.exercises.Some? && participationId.ObjectId? ==> r.status != Ok
  {
    match b.exercises
    case None => Reply(db, BadRequest)
    case Some(exercises) =>
      match participationId
      case Malformed => Reply(db, InternalError)
      case ObjectId(id) =>
        match ParticipationService.ParticipationById(db.participations, id)
        case None => Reply(db, NotFound)
        case Some(p) =>
          if IndexOf(db.users, p.userId).None? then Reply(db, InternalError)
          else if NotOwnerAsWritten(p, caller) then Reply(db, NotFound)
          else
            var session := WorkoutSession(now, exercises, 0, b.caloriesBurned.GetOr(0), b.notes);
            match ParticipationService.AddWorkoutSession(db.participations, id, session)
            case None => Reply(db, NotFound)
            case Some((parts', _)) => Reply(db.(participations := parts'), Ok)
  }

  /** `addWorkoutSession` with the ownership test comparing ids: a missing
      exercises array is a 400, a missing participation a 404. The
      participation is read with its `userId` populated, so one whose
      owner's record is gone throws on `null.toString()` (500). Another
      user's participation is a 404; otherwise the session is appended and
      the totals grow. */
  function AddWorkoutSession(db: Db, caller: User, participationId: RawId, b: WorkoutBody, now: Millis): (r: Reply)
    ensures b.exercises.None? ==> r == Reply(db, BadRequest)
    ensures b.exercises.Some? && !participationId.ObjectId? ==> r == Reply(db, InternalError)
    ensures b.exercises.Some? && participationId.ObjectId? ==>
      var found := ParticipationService.ParticipationById(db.participations, participationId.id);
      var ownerGone := found.Some? && IndexOf(db.users, found.value.userId).None?;
      && (r.status == InternalError <==> ownerGone)
      && (r.status == NotFound <==> found.None? || (!ownerGone && found.value.userId != caller.id))
      && (r.status == Ok <==> found.Some? && !ownerGone && found.value.userId == caller.id)
      && (!r.status.Ok? ==> r.db == db)
      && (r.status.Ok? ==>
        var k := ParticipationService.IndexOfParticipation(db.participations, participationId.id).value;
        && |r.db.participations| == |db.participations|
        && var p := r.db.participations[k];
        && r.db == db.(participations := db.participations[k := p])
        && p.workoutSessions == db.participations[k].workoutSessions + [SessionOf(b, now)]
        && p.totalWorkouts == Some(db.participations[k].totalWorkouts.GetOr(0) + 1)
        && p.totalCalories == Some(db.participations[k].totalCalories.GetOr(0) + b.caloriesBurned.GetOr(0))
        && p.totalDuration == Some(db.participations[k].totalDuration.GetOr(0)))
  {
    if b.exercises.None? then Reply(db, BadRequest)
    else if !participationId.ObjectId? then Reply(db, InternalError)
    else
      var id := participationId.id;
      match ParticipationService.ParticipationById(db.participations, id)
      case None => Reply(db, NotFound)
      case Some(p) =>
        if IndexOf(db.users, p.userId).None? then Reply(db, InternalError)
        else if p.userId != caller.id then Reply(db, NotFound)
        else
          var (parts', _) := ParticipationService.AddWorkoutSession(db.participations, id, SessionOf(b, now)).value;
          Reply(db.(participations := parts'), Ok)
  }

  /** As written, the owner of a participation, whose record is stored as
      the signed-in caller's is, cannot log a workout on it:
      the populated user document never equals the caller's ObjectId, so
      the owner gets a 404 where the id comparison lets the session in. */
  lemma WorkoutOwnerRefused(db: Db, caller: User, participationId: Id, b: WorkoutBody, now: Millis)
    requires b.exercises.Some?
    requires ParticipationService.ParticipationById(db.participations, participationId).Some?
    requires ParticipationService.ParticipationById(db.participations, participationId).value.userId == caller.id
    requires IndexOf(db.users, caller.id).Some?
    ensures AddWorkoutSessionAsWritten(db, caller, ObjectId(participationId), b, now).status == NotFound
    ensures AddWorkoutSession(db, caller, ObjectId(participationId), b, now).status == Ok
  {
    JsEquality.ObjectNeverStrictlyEqual(
      JsEquality.JsString(JsEquality.ToText(JsEquality.PopulatedDocument(caller.id))), caller.id);
  }

  // ---------------------------------------------------------------------
  // activateChallenge

  /** The authorisation test of `activateChallenge` as written:
      `challenge.createdBy.toString() !== req.user._id && role !== SUPER_ADMIN`,
      where `createdBy` has been populated and `_id` is an ObjectId. */
  predicate RefusedAsWritten(c: Challenge, caller: User) {
    && !JsEquality.StrictEquals(JsEquality.JsString(JsEquality.ToText(JsEquality.PopulatedDocument(c.createdBy))),
                                JsEquality.ObjectIdObject(caller.id))
    && caller.role != SuperAdmin
  }

  /** `activateChallenge` with the authorisation test as written. */
  function ActivateChallengeAsWritten(db: Db, caller: User, challengeId: RawId, now: Millis): (r: Reply)
    ensures challengeId.ObjectId? && caller.role != SuperAdmin ==> r.status != Ok
  {
    if !challengeId.ObjectId? then Reply(db, InternalError)
    else
      match ChallengeService.ChallengeById(db.challenges, challengeId.id)
      case None => Reply(db, NotFound)
      case Some(c) =>
        if RefusedAsWritten(c, caller) then Reply(db, Forbidden)
        else Reply(db.(challenges := ChallengeService.Activate(db.challenges, challengeId.id, now).value.0), Ok)
  }

  /** `activateChallenge` with the creator test comparing ids: only the
      creator or a SUPER_ADMIN may activate, and activation starts a
      one-day window now. */
  function ActivateChallenge(db: Db, caller: User, challengeId: RawId, now: Millis): (r: Reply)
    ensures !challengeId.ObjectId? ==> r == Reply(db, InternalError)
    ensures challengeId.ObjectId? ==>
      var found := ChallengeService.ChallengeById(db.challenges, challengeId.id);
      && (r.status == NotFound <==> found.None?)
      && (r.status == Forbidden <==> found.Some? && found.value.createdBy != caller.id && caller.role != SuperAdmin)
      && (r.status == Ok <==> found.Some? && (found.value.createdBy == caller.id || caller.role == SuperAdmin))
      && (!r.status.Ok? ==> r.db == db)
      && (r.status.Ok? ==>
        var k := ChallengeService.IndexOfChallenge(db.challenges, challengeId.id).value;
        && |r.db.challenges| == |db.challenges|
        && var c := r.db.challenges[k];
        && r.db == db.(challenges := db.challenges[k := c])
        && c.status == Active && c.startDate == Some(now) && c.endDate == Some(now + DayMillis))
  {
    if !challengeId.ObjectId? then Reply(db, InternalError)
    else
      match ChallengeService.ChallengeById(db.challenges, challengeId.id)
      case None => Reply(db, NotFound)
      case Some(c) =>
        if c.createdBy != caller.id && caller.role != SuperAdmin then Reply(db, Forbidden)
        else Reply(db.(challenges := ChallengeService.Activate(db.challenges, challengeId.id, now).value.0), Ok)
  }

  /** As written, a creator who is not a SUPER_ADMIN cannot activate their
      own challenge: 403 where the id comparison answers 200. */
  lemma ActivationCreatorRefused(db: Db, caller: User, challengeId: Id, now: Millis)
    requires caller.role != SuperAdmin
    requires ChallengeService.ChallengeById(db.challenges, challengeId).Some?
    requires ChallengeService.ChallengeById(db.challenges, challengeId).value.createdBy == caller.id
    ensures ActivateChallengeAsWritten(db, caller, ObjectId(challengeId), now).status == Forbidden
    ensures ActivateChallenge(db, caller, ObjectId(challengeId), now).status == Ok
  {
  }
}

=== FILE: challenge_schema.dfy ===
/** The challenge document: its status and type enumerations, its goals and
    the validators and defaults of the challenge schema. */
module ChallengeSchema {
  import opened Common
  import opened Collections
  import Text

  datatype ChallengeStatus = Draft | Active | Finished | Cancelled {
    /** The enumeration's string value. */
    function Name(): string {
      match this
      case Draft => "DRAFT"
      case Active => "ACTIVE"
      case Finished => "COMPLETED"
      case Cancelled => "CANCELLED"
    }
  }

  datatype ChallengeType = Individual | Group | Competitive {
    /** The enumeration's string value. */
    function Name(): string {
      match this
      case Individual => "INDIVIDUAL"
      case Group => "GROUP"
      case Competitive => "COMPETITIVE"
    }
  }

  /** The `ChallengeType` value a string names, if any. */
  function ParseChallengeType(s: string): (r: Option<ChallengeType>)
    ensures r.Some? ==> r.value.Name() == s
    ensures r.None? <==> forall t: ChallengeType :: t.Name() != s
  {
    if s == "INDIVIDUAL" then Some(Individual)
    else if s == "GROUP" then Some(Group)
    else if s == "COMPETITIVE" then Some(Competitive)
    else None
  }

  /** The goal types the schema enumerates. */
  predicate IsGoalType(s: string) {
    s == "TIME" || s == "REPS" || s == "WEIGHT" || s == "DISTANCE" || s == "CALORIES"
  }

  datatype Goal = Goal(kind: string, target: int, unit: string)

  /** A goal the schema accepts: a known type and a non-empty unit. */
  predicate GoalValid(g: Goal) {
    IsGoalType(g.kind) && g.unit != ""
  }

  datatype Challenge = Challenge(
    id: Id,
    title: string,
    description: string,
    createdBy: Id,
    gymId: Option<Id>,
    exercises: seq<Id>,
    goals: seq<Goal>,
    difficulty: string,
    kind: ChallengeType,
    status: ChallengeStatus,
    duration: int,
    startDate: Option<Millis>,
    endDate: Option<Millis>,
    maxParticipants: Option<int>,
    currentParticipants: int,
    rewardPoints: int,
    isPublic: bool,
    inviteOnly: bool,
    teamBased: bool,
    createdAt: Millis)

  /** The fields a create supplies; an absent one takes its schema default. */
  datatype ChallengeFields = ChallengeFields(
    title: string,
    description: string,
    createdBy: Id,
    gymId: Option<Id>,
    exercises: seq<Id>,
    goals: seq<Goal>,
    difficulty: string,
    kind: Option<string>,
    duration: int,
    maxParticipants: Option<int>,
    rewardPoints: Option<int>,
    isPublic: Option<bool>,
    inviteOnly: Option<bool>,
    teamBased: Option<bool>)

  /** The schema validators: trimmed title and description present, every
      goal valid, a difficulty among `levels`, the values of the
      `DifficultyLevel` enumeration, and a known type when one is given. */
  predicate FieldsValid(f: ChallengeFields, levels: set<string>) {
    && Text.Trim(f.title) != ""
    && Text.Trim(f.description) != ""
    && (forall i :: 0 <= i < |f.goals| ==> GoalValid(f.goals[i]))
    && f.difficulty != "" && f.difficulty in levels
    && (f.kind.None? || ParseChallengeType(f.kind.value).Some?)
  }

  /** `challengeModel.create`: a new challenge is ACTIVE (not DRAFT), has no
      participants, is INDIVIDUAL, public, open and solo unless told
      otherwise, and rewards 0 points by default. */
  function Insert(challenges: seq<Challenge>, f: ChallengeFields, levels: set<string>, now: Millis)
    : (r: Result<(seq<Challenge>, Challenge), WriteError>)
    ensures r.Failure? <==> !FieldsValid(f, levels)
    ensures r.Failure? ==> r.error == ValidationFailed
    ensures r.Success? ==>
      var (challenges', c) := r.value;
      && challenges' == challenges + [c]
      && (forall i :: 0 <= i < |challenges| ==> challenges[i].id != c.id)
      && c.title == Text.Trim(f.title) && c.description == Text.Trim(f.description)
      && c.createdBy == f.createdBy && c.gymId == f.gymId
      && c.status == Active && c.currentParticipants == 0
      && c.kind == (if f.kind.Some? then ParseChallengeType(f.kind.value).value else Individual)
      && c.rewardPoints == (if f.rewardPoints.Some? then f.rewardPoints.value else 0)
      && c.isPublic == (if f.isPublic.Some? then f.isPublic.value else true)
      && c.inviteOnly == (if f.inviteOnly.Some? then f.inviteOnly.value else false)
      && c.teamBased == (if f.teamBased.Some? then f.teamBased.value else false)
      && c.startDate.None? && c.endDate.None?
      && c.maxParticipants == f.maxParticipants && c.duration == f.duration
      && c.difficulty == f.difficulty && c.difficulty in levels
  {
    if !FieldsValid(f, levels) then Failure(ValidationFailed)
    else
      var kind := if f.kind.Some? then ParseChallengeType(f.kind.value).value else Individual;
      var c := Challenge(
        FreshId(challenges, (x: Challenge) => x.id), Text.Trim(f.title), Text.Trim(f.description),
        f.createdBy, f.gymId, f.exercises, f.goals, f.difficulty, kind, Active, f.duration,
        None, None, f.maxParticipants, 0, f.rewardPoints.GetOr(0),
        f.isPublic.GetOr(true), f.inviteOnly.GetOr(false), f.teamBased.GetOr(false), now);
      Success((challenges + [c], c))
  }
}

=== FILE: challenge_service.dfy ===
/** The challenge service: lookup, the participant counter, activation and
    the filtered listings. */
module ChallengeService {
  import opened Common
  import opened Collections
  import opened Ordering
  import opened ChallengeSchema

  function IndexOfChallenge(challenges: seq<Challenge>, id: Id): Option<nat> {
    FindFirst(challenges, (c: Challenge) => c.id == id)
  }

  /** `getChallengeById(id)`. */
  function ChallengeById(challenges: seq<Challenge>, id: Id): (r: Option<Challenge>)
    ensures r.Some? ==> r.value in challenges && r.value.id == id
    ensures r.None? <==> forall i :: 0 <= i < |challenges| ==> challenges[i].id != id
  {
    match IndexOfChallenge(challenges, id)
    case None => None
    case Some(k) => Some(challenges[k])
  }

  /** `$inc: {currentParticipants: delta}` on the challenge with this id. */
  function ShiftParticipants(challenges: seq<Challenge>, id: Id, delta: int): (r: Option<(seq<Challenge>, Challenge)>)
    ensures r.None? <==> forall i :: 0 <= i < |challenges| ==> challenges[i].id != id
    ensures r.Some? ==>
      var k := IndexOfChallenge(challenges, id).value;
      && r.value.1.currentParticipants == challenges[k].currentParticipants + delta
      && r.value.1.(currentParticipants := challenges[k].currentParticipants) == challenges[k]
      && r.value.0 == challenges[k := r.value.1]
  {
    UpdateFirst(challenges, (c: Challenge) => c.id == id,
                (c: Challenge) => c.(currentParticipants := c.currentParticipants + delta))
  }

  /** `incrementParticipants(id)`: exactly one more participant. */
  function IncrementParticipants(challenges: seq<Challenge>, id: Id): (r: Option<(seq<Challenge>, Challenge)>)
    ensures r.None? <==> forall i :: 0 <= i < |challenges| ==> challenges[i].id != id
    ensures r.Some? ==>
      var k := IndexOfChallenge(challenges, id).value;
      && r.value.1.currentParticipants == challenges[k].currentParticipants + 1
      && r.value.1.(currentParticipants := challenges[k].currentParticipants) == challenges[k]
      && r.value.0 == challenges[k := r.value.1]
  {
    ShiftParticipants(challenges, id, 1)
  }

  /** `decrementParticipants(id)`: exactly one fewer, with no lower bound. */
  function DecrementParticipants(challenges: seq<Challenge>, id: Id): (r: Option<(seq<Challenge>, Challenge)>)
    ensures r.None? <==> forall i :: 0 <= i < |challenges| ==> challenges[i].id != id
    ensures r.Some? ==>
      var k := IndexOfChallenge(challenges, id).value;
      && r.value.1.currentParticipants == challenges[k].currentParticipants - 1
      && r.value.1.(currentParticipants := challenges[k].currentParticipants) == challenges[k]
      && r.value.0 == challenges[k := r.value.1]
  {
    ShiftParticipants(challenges, id, -1)
  }

  /** Decrementing undoes incrementing. */
  lemma DecrementUndoesIncrement(challenges: seq<Challenge>, id: Id)
    requires IncrementParticipants(challenges, id).Some?
    ensures DecrementParticipants(IncrementParticipants(challenges, id).value.0, id).Some?
    ensures DecrementParticipants(IncrementParticipants(challenges, id).value.0, id).value.0 == challenges
  {
    var k := IndexOfChallenge(challenges, id).value;
    var once := IncrementParticipants(challenges, id).value.0;
    assert IndexOfChallenge(once, id) == Some(k) by {
      assert once[k].id == id;
      assert forall j :: 0 <= j < k ==> once[j] == challenges[j];
    }
    var twice := DecrementParticipants(once, id).value.0;
    assert twice[k] == challenges[k];
    assert twice == challenges;
  }

  /** Nothing stops the counter at zero: decrementing a challenge without
      participants leaves it at -1. */
  lemma DecrementBelowZero(challenges: seq<Challenge>, id: Id)
    requires forall i :: 0 <= i < |challenges| && challenges[i].id == id ==> challenges[i].currentParticipants == 0
    requires exists i :: 0 <= i < |challenges| && challenges[i].id == id
    ensures DecrementParticipants(challenges, id).value.1.currentParticipants == -1
  {
    var k := IndexOfChallenge(challenges, id).value;
    assert challenges[k].id == id;
  }

  /** `activateChallenge(id)`: ACTIVE from now for one day, whatever the
      challenge's own duration says; nothing else changes. */
  function Activate(challenges: seq<Challenge>, id: Id, now: Millis): (r: Option<(seq<Challenge>, Challenge)>)
    ensures r.None? <==> forall i :: 0 <= i < |challenges| ==> challenges[i].id != id
    ensures r.Some? ==>
      var k := IndexOfChallenge(challenges, id).value;
      var c := r.value.1;
      && c.status == Active
      && c.startDate == Some(now)
      && c.endDate == Some(now + DayMillis)
      && c.(status := challenges[k].status, startDate := challenges[k].startDate, endDate := challenges[k].endDate) == challenges[k]
      && r.value.0 == challenges[k := c]
  {
    UpdateFirst(challenges, (c: Challenge) => c.id == id,
                (c: Challenge) => c.(status := Active, startDate := Some(now), endDate := Some(now + DayMillis)))
  }

  /** The activation window is one day long for every challenge: two
      challenges of different durations activated at the same time end together. */
  lemma ActivationIgnoresDuration(challenges: seq<Challenge>, a: Id, b: Id, now: Millis)
    requires Activate(challenges, a, now).Some? && Activate(challenges, b, now).Some?
    ensures Activate(challenges, a, now).value.1.endDate == Activate(challenges, b, now).value.1.endDate
    ensures Activate(challenges, a, now).value.1.endDate.value - Activate(challenges, a, now).value.1.startDate.value == DayMillis
  {
  }

  /** The filters of `getAllChallenges`; an absent (or falsy) one imposes
      nothing, while `isPublic` is applied whenever it is given, `false` included. */
  datatype ChallengeFilter = ChallengeFilter(
    difficulty: Option<string>,
    kind: Option<ChallengeType>,
    status: Option<ChallengeStatus>,
    gymId: Option<Id>,
    isPublic: Option<bool>,
    createdBy: Option<Id>)

  predicate Matches(c: Challenge, f: ChallengeFilter) {
    && (f.difficulty.Some? && f.difficulty.value != "" ==> c.difficulty == f.difficulty.value)
    && (f.kind.Some? ==> c.kind == f.kind.value)
    && (f.status.Some? ==> c.status == f.status.value)
    && (f.gymId.Some? ==> c.gymId == f.gymId)
    && (f.isPublic.Some? ==> c.isPublic == f.isPublic.value)
    && (f.createdBy.Some? ==> c.createdBy == f.createdBy.value)
  }

  /** Sort key of `sort({createdAt: -1})`. */
  function NewestFirst(c: Challenge): seq<int> {
    [-c.createdAt]
  }

  /** `getAllChallenges(filters)`: the challenges meeting every supplied
      filter, newest first. */
  function AllChallenges(challenges: seq<Challenge>, f: ChallengeFilter): (r: seq<Challenge>)
    ensures forall c :: c in r <==> c in challenges && Matches(c, f)
    ensures forall i, j :: 0 <= i < j < |r| ==> r[i].createdAt >= r[j].createdAt
  {
    var p := (c: Challenge) => Matches(c, f);
    var r := SortBy(Filter(challenges, p), NewestFirst);
    SortFilterMembers(challenges, p, NewestFirst);
    forall i, j | 0 <= i < j < |r| ensures r[i].createdAt >= r[j].createdAt {
      LexLeqSingle(-r[i].createdAt, -r[j].createdAt);
    }
    r
  }

  /** With no filter every challenge is listed. */
  lemma NoFilterListsAll(challenges: seq<Challenge>, c: Challenge)
    requires c in challenges
    ensures c in AllChallenges(challenges, ChallengeFilter(None, None, None, None, None, None))
  {
  }

  /** `isPublic: false` is a filter like any other: it hides the public ones. */
  lemma PrivateFilterApplied(challenges: seq<Challenge>, c: Challenge)
    requires c.isPublic
    ensures c !in AllChallenges(challenges, ChallengeFilter(None, None, None, None, Some(false), None))
  {
  }

  /** `getPublicChallenges()`: exactly the public, ACTIVE challenges, newest first. */
  function PublicChallenges(challenges: seq<Challenge>): (r: seq<Challenge>)
    ensures forall c :: c in r <==> c in challenges && c.isPublic && c.status == Active
    ensures forall i, j :: 0 <= i < j < |r| ==> r[i].createdAt >= r[j].createdAt
  {
    AllChallenges(challenges, ChallengeFilter(None, None, Some(Active), None, Some(true), None))
  }
}

=== FILE: coercion.dfy ===
/** JavaScript's conversion of a value to a number, as the loose operators
    `<`, `<=`, `>`, `>=`, `==` and `!=` apply it when one side is a number:
    the values a user document's paths hold (numbers, booleans, strings,
    Dates, ObjectIds and arrays of ObjectIds), the `StringToNumber`
    operation of ECMA-262 on the text they turn into, and the six
    comparisons. Finite numbers are exact reals: the rounding to a double
    is not modelled. */
module Coercion {
  import opened Common
  import Text
  import Numbers

  /** A JavaScript number. */
  datatype Num = Finite(v: real) | NaN | Infinity(negative: bool)

  function Pow10(n: nat): (r: nat)
    ensures r > 0
  {
    if n == 0 then 1 else 10 * Pow10(n - 1)
  }

  /** `m × 10^e`. */
  function Scaled(m: nat, e: int): real {
    if e >= 0 then (m * Pow10(e)) as real else m as real / Pow10(-e) as real
  }

  predicate IsDecimalDigit(c: char) {
    '0' <= c <= '9'
  }

  predicate AllDecimal(s: string) {
    forall i :: 0 <= i < |s| ==> IsDecimalDigit(s[i])
  }

  /** A digit of the base (2, 8, 10 or 16); hex letters in either case. */
  predicate InBase(c: char, base: nat) {
    Numbers.IsDigitIn(c, 16) && Numbers.DigitValue(c) < base
  }

  /** An `ExponentPart` (`e` or `E`, an optional sign, digits) as the power
      of ten it denotes; the empty text denotes 0, anything else `None`. */
  function Exponent(s: string): (r: Option<int>)
    ensures |s| == 0 ==> r == Some(0)
    ensures r.Some? && |s| > 0 ==> s[0] == 'e' || s[0] == 'E'
  {
    if |s| == 0 then Some(0)
    else if s[0] != 'e' && s[0] != 'E' then None
    else
      var signed := |s| > 1 && (s[1] == '+' || s[1] == '-');
      var digits := if signed then s[2..] else s[1..];
      if |digits| == 0 || !AllDecimal(digits) then None
      else
        var e: int := Numbers.DigitsValue(digits, 10);
        Some(if signed && s[1] == '-' then -e else e)
  }

  /** `StrUnsignedDecimalLiteral`: `Infinity`, or decimal digits with an
      optional `.` fraction and an optional exponent, with at least one
      digit before or after the point. */
  function UnsignedDecimal(u: string): Num {
    if u == "Infinity" then Infinity(false)
    else
      var n := Numbers.DigitPrefix(u, 10);
      var whole := u[..n];
      var rest := u[n..];
      var pointed := |rest| > 0 && rest[0] == '.';
      var fraction := if pointed then rest[1..][..Numbers.DigitPrefix(rest[1..], 10)] else "";
      var after := if pointed then rest[1 + |fraction|..] else rest;
      if |whole| + |fraction| == 0 then NaN
      else
        match Exponent(after)
        case None => NaN
        case Some(e) => Finite(Scaled(Numbers.DigitsValue(whole + fraction, 10), e - |fraction|))
  }

  function Negated(x: Num): Num {
    match x
    case Finite(v) => Finite(-v)
    case NaN => NaN
    case Infinity(negative) => Infinity(!negative)
  }

  /** The base a `0x`, `0o` or `0b` prefix (either case) selects. */
  function NonDecimalBase(t: string): (r: Option<nat>)
    ensures r.Some? ==> |t| >= 2 && t[0] == '0' && r.value in {2, 8, 16}
  {
    if |t| >= 2 && t[0] == '0' then
      if t[1] == 'x' || t[1] == 'X' then Some(16)
      else if t[1] == 'o' || t[1] == 'O' then Some(8)
      else if t[1] == 'b' || t[1] == 'B' then Some(2)
      else None
    else None
  }

  /** `StringToNumber`: white space around the literal is ignored and blank
      text is 0; a prefixed binary, octal or hex integer takes no sign; a
      decimal literal may carry one sign; anything else is `NaN`. */
  function StringToNumber(s: string): Num {
    var t := Text.Trim(s);
    if t == "" then Finite(0.0)
    else
      match NonDecimalBase(t)
      case Some(base) =>
        var d := t[2..];
        if |d| > 0 && forall i :: 0 <= i < |d| ==> InBase(d[i], base)
        then Finite(Numbers.DigitsValue(d, base) as real)
        else NaN
      case None =>
        if t[0] == '-' then Negated(UnsignedDecimal(t[1..]))
        else if t[0] == '+' then UnsignedDecimal(t[1..])
        else UnsignedDecimal(t)
  }

  // ---------------------------------------------------------------------
  // Properties of StringToNumber

  /** The decimal text of a number reads back as that number. */
  lemma StringToNumberNatText(n: nat)
    ensures StringToNumber(Numbers.NatText(n)) == Finite(n as real)
  {
    DigitsNumber(Numbers.NatText(n));
  }

  /** A run of decimal digits reads as its value. */
  lemma DigitsNumber(d: string)
    requires |d| > 0 && AllDecimal(d)
    ensures StringToNumber(d) == Finite(Numbers.DigitsValue(d, 10) as real)
  {
    DigitsTrim(d);
    assert NonDecimalBase(d).None? by {
      if |d| >= 2 {
        assert IsDecimalDigit(d[1]);
      }
    }
    assert d[0] != '-' && d[0] != '+' by {
      assert IsDecimalDigit(d[0]);
    }
    UnsignedDecimalDigits(d);
  }

  /** Digits have no white space to trim. */
  lemma DigitsTrim(d: string)
    requires |d| > 0 && AllDecimal(d)
    ensures Text.Trim(d) == d
  {
    Numbers.TrimStartKeeps(d);
    assert !Text.IsJsSpace(d[|d| - 1]) by {
      assert IsDecimalDigit(d[|d| - 1]);
    }
  }

  /** A run of decimal digits is read as a whole number. */
  lemma UnsignedDecimalDigits(d: string)
    requires |d| > 0 && AllDecimal(d)
    ensures UnsignedDecimal(d) == Finite(Numbers.DigitsValue(d, 10) as real)
  {
    assert d != "Infinity" by {
      assert IsDecimalDigit(d[0]);
    }
    Numbers.DigitPrefixAll(d, 10);
    var n := Numbers.DigitPrefix(d, 10);
    assert n == |d|;
    assert d[..n] == d && d[n..] == "";
    assert d + "" == d;
    assert Exponent("") == Some(0);
    assert Scaled(Numbers.DigitsValue(d, 10), 0) == Numbers.DigitsValue(d, 10) as real;
  }

  /** Blank text is 0. */
  lemma BlankIsZero(s: string)
    requires forall i :: 0 <= i < |s| ==> Text.IsJsSpace(s[i])
    ensures StringToNumber(s) == Finite(0.0)
  {
    Text.TrimAllSpace(s);
  }

  /** The characters a numeric literal can be made of. */
  predicate NumericChar(c: char) {
    Text.IsHexDigit(c) || c == '.' || c == '+' || c == '-' || c == 'x' || c == 'X'
    || c == 'o' || c == 'O' || c == 'I' || c == 'n' || c == 'i' || c == 't' || c == 'y'
  }

  lemma UnsignedDecimalChars(u: string)
    requires UnsignedDecimal(u) != NaN
    ensures forall i :: 0 <= i < |u| ==> NumericChar(u[i])
  {
    if u != "Infinity" {
      var n := Numbers.DigitPrefix(u, 10);
      var rest := u[n..];
      var pointed := |rest| > 0 && rest[0] == '.';
      var after := if pointed then rest[1 + Numbers.DigitPrefix(rest[1..], 10)..] else rest;
      var k := |u| - |after|;
      DecimalExponent(u, n, rest, after);
      ExponentChars(after);
      DecimalLayout(u, n, rest, after, k);
      WholeChars(u, n);
      if pointed {
        FractionChars(u, n, rest, k);
      }
      TailChars(u, k, after);
      PiecewiseChars(u, n, k);
    }
  }

  /** Where the exponent part starts: after the whole digits, and after the
      point and the fraction digits when there is a point. */
  lemma DecimalLayout(u: string, n: nat, rest: string, after: string, k: int)
    requires n == Numbers.DigitPrefix(u, 10) && rest == u[n..]
    requires after == if |rest| > 0 && rest[0] == '.' then rest[1 + Numbers.DigitPrefix(rest[1..], 10)..] else rest
    requires k == |u| - |after|
    ensures n <= k <= |u| && after == u[k..]
    ensures !(|rest| > 0 && rest[0] == '.') ==> k == n
    ensures |rest| > 0 && rest[0] == '.' ==> k == n + 1 + Numbers.DigitPrefix(rest[1..], 10)
  {
  }

  lemma WholeChars(u: string, n: nat)
    requires n == Numbers.DigitPrefix(u, 10)
    ensures forall i :: 0 <= i < n ==> NumericChar(u[i])
  {
    forall i | 0 <= i < n ensures NumericChar(u[i]) {
      assert Numbers.IsDigitIn(u[i], 10);
    }
  }

  lemma TailChars(u: string, k: int, after: string)
    requires 0 <= k <= |u| && after == u[k..]
    requires forall i :: 0 <= i < |after| ==> NumericChar(after[i])
    ensures forall i :: k <= i < |u| ==> NumericChar(u[i])
  {
    forall i | k <= i < |u| ensures NumericChar(u[i]) {
      assert u[i] == after[i - k];
    }
  }

  lemma PiecewiseChars(u: string, n: nat, k: nat)
    requires n <= k <= |u|
    requires forall i :: 0 <= i < n ==> NumericChar(u[i])
    requires forall i :: n <= i < k ==> NumericChar(u[i])
    requires forall i :: k <= i < |u| ==> NumericChar(u[i])
    ensures forall i :: 0 <= i < |u| ==> NumericChar(u[i])
  {
  }

  lemma FractionChars(u: string, n: nat, rest: string, k: nat)
    requires n < |u| && rest == u[n..] && rest[0] == '.'
    requires k == n + 1 + Numbers.DigitPrefix(rest[1..], 10)
    ensures forall i :: n <= i < k ==> NumericChar(u[i])
  {
    forall i | n < i < k ensures NumericChar(u[i]) {
      assert u[i] == rest[1..][i - n - 1];
    }
  }

  lemma DecimalExponent(u: string, n: nat, rest: string, after: string)
    requires u != "Infinity" && UnsignedDecimal(u) != NaN
    requires n == Numbers.DigitPrefix(u, 10) && rest == u[n..]
    requires after == if |rest| > 0 && rest[0] == '.' then rest[1 + Numbers.DigitPrefix(rest[1..], 10)..] else rest
    ensures Exponent(after).Some?
  {
  }

  lemma ExponentChars(s: string)
    requires Exponent(s).Some?
    ensures forall i :: 0 <= i < |s| ==> NumericChar(s[i])
  {
    if |s| > 0 {
      var signed := |s| > 1 && (s[1] == '+' || s[1] == '-');
      var digits := if signed then s[2..] else s[1..];
      forall i | 0 <= i < |s| ensures NumericChar(s[i]) {
        if i > 0 && !(signed && i == 1) {
          assert s[i] == digits[i - (|s| - |digits|)];
        }
      }
    }
  }

  /** A text that is not `NaN` is made, inside its surrounding white space,
      of the characters of numeric literals only. */
  lemma NumericTextChars(s: string)
    requires StringToNumber(s) != NaN
    ensures forall i :: 0 <= i < |Text.Trim(s)| ==> NumericChar(Text.Trim(s)[i])
  {
    var t := Text.Trim(s);
    if t != "" {
      match NonDecimalBase(t)
      case Some(base) =>
        PrefixedChars(t, base);
      case None =>
        if t[0] == '-' || t[0] == '+' {
          SignedDecimalChars(t);
        } else {
          UnsignedDecimalChars(t);
        }
    }
  }

  lemma PrefixedChars(t: string, base: nat)
    requires NonDecimalBase(t) == Some(base)
    requires forall i :: 0 <= i < |t[2..]| ==> InBase(t[2..][i], base)
    ensures forall i :: 0 <= i < |t| ==> NumericChar(t[i])
  {
    var d := t[2..];
    forall i | 0 <= i < |t| ensures NumericChar(t[i]) {
      if i >= 2 {
        assert InBase(d[i - 2], base);
      }
    }
  }

  lemma SignedDecimalChars(t: string)
    requires |t| > 0 && (t[0] == '-' || t[0] == '+') && UnsignedDecimal(t[1..]) != NaN
    ensures forall i :: 0 <= i < |t| ==> NumericChar(t[i])
  {
    UnsignedDecimalChars(t[1..]);
    SignTailChars(t);
  }

  lemma SignTailChars(t: string)
    requires |t| > 0 && (t[0] == '-' || t[0] == '+')
    requires forall i :: 0 <= i < |t[1..]| ==> NumericChar(t[1..][i])
    ensures forall i :: 0 <= i < |t| ==> NumericChar(t[i])
  {
    forall i | 1 <= i < |t| ensures NumericChar(t[i]) {
      assert t[i] == t[1..][i - 1];
    }
  }

  /** A character that no numeric literal contains (a comma, a letter past
      `f` other than those of `Infinity` and the base prefixes) makes the
      text `NaN`. */
  lemma NonNumericCharIsNaN(s: string, k: nat)
    requires k < |Text.Trim(s)| && !NumericChar(Text.Trim(s)[k])
    ensures StringToNumber(s) == NaN
  {
    if StringToNumber(s) != NaN {
      NumericTextChars(s);
    }
  }

  // ---------------------------------------------------------------------
  // The values of a document's paths

  /** What a path of a user document holds when read as `doc[name]`. */
  datatype FieldValue =
    | Undefined
    | Number(n: int)
    | Boolean(b: bool)
    | Str(s: string)
    | Date(ms: Millis)
    | ObjectIdValue(id: Id)
    | IdArray(ids: seq<Id>)

  /** `ObjectId.prototype.toString`: 24 lower-case hex digits of the
      identifier, taken as a 12-byte value. */
  function IdText(id: Id): (s: string)
    ensures |s| == Text.ObjectIdHexLength
    ensures forall i :: 0 <= i < |s| ==> Text.IsHexDigit(s[i])
  {
    Text.NatToHex(id % Text.Pow16(Text.ObjectIdHexLength), Text.ObjectIdHexLength)
  }

  /** `Array.prototype.join(",")` over the elements' `toString`. */
  function JoinIds(ids: seq<Id>): (s: string)
    ensures |ids| == 0 ==> s == ""
    ensures |ids| == 1 ==> s == IdText(ids[0])
    ensures |ids| >= 2 ==> |s| > Text.ObjectIdHexLength && s[Text.ObjectIdHexLength] == ','
    ensures forall i :: 0 <= i < |s| ==> Text.IsHexDigit(s[i]) || s[i] == ','
  {
    if |ids| == 0 then ""
    else if |ids| == 1 then IdText(ids[0])
    else
      var head := IdText(ids[0]) + ",";
      var s := head + JoinIds(ids[1..]);
      assert forall i :: 0 <= i < |head| ==> s[i] == head[i];
      assert forall i :: |head| <= i < |s| ==> s[i] == JoinIds(ids[1..])[i - |head|];
      s
  }

  /** `ToNumber(ToPrimitive(x, number))`: the number a relational operator
      compares. A Date gives its time value, an ObjectId and an array their
      text. */
  function ToNumber(x: FieldValue): Num {
    match x
    case Undefined => NaN
    case Number(n) => Finite(n as real)
    case Boolean(b) => Finite(if b then 1.0 else 0.0)
    case Str(s) => StringToNumber(s)
    case Date(ms) => Finite(ms as real)
    case ObjectIdValue(id) => StringToNumber(IdText(id))
    case IdArray(ids) => StringToNumber(JoinIds(ids))
  }

  /** The number `x == n` compares `n` with. `undefined` equals no number,
      and a Date under the default hint becomes its `toString` text, which
      begins with the name of a weekday (or reads `Invalid Date`) and so is
      `NaN`. */
  function LooseOperand(x: FieldValue): Num {
    match x
    case Undefined => NaN
    case Date(_) => NaN
    case _ => ToNumber(x)
  }

  predicate Below(x: Num, w: int) {
    match x
    case Finite(v) => v < w as real
    case NaN => false
    case Infinity(negative) => negative
  }

  predicate Above(x: Num, w: int) {
    match x
    case Finite(v) => v > w as real
    case NaN => false
    case Infinity(negative) => !negative
  }

  predicate SameNumber(x: Num, w: int) {
    x.Finite? && x.v == w as real
  }

  /** `x op w` for the six comparison operators; `None` for any other. */
  function Compare(x: FieldValue, op: string, w: int): (r: Option<bool>)
    ensures r.None? <==> op !in {">", ">=", "<", "<=", "==", "!="}
  {
    Verdict(ToNumber(x), LooseOperand(x), op, w)
  }

  /** The comparison on the converted operands: `relational` for `<`, `<=`,
      `>`, `>=`, and `loose` for `==` and `!=`. */
  function Verdict(relational: Num, loose: Num, op: string, w: int): (r: Option<bool>)
    ensures r.None? <==> op !in {">", ">=", "<", "<=", "==", "!="}
  {
    if op == ">" then Some(Above(relational, w))
    else if op == ">=" then Some(Above(relational, w) || SameNumber(relational, w))
    else if op == "<" then Some(Below(relational, w))
    else if op == "<=" then Some(Below(relational, w) || SameNumber(relational, w))
    else if op == "==" then Some(SameNumber(loose, w))
    else if op == "!=" then Some(!SameNumber(loose, w))
    else None
  }

  /** On numbers the six operators are the integer comparisons. */
  lemma CompareNumbers(n: int, op: string, w: int)
    requires op in {">", ">=", "<", "<=", "==", "!="}
    ensures Compare(Number(n), op, w) == Some(
      if op == ">" then n > w else if op == ">=" then n >= w
      else if op == "<" then n < w else if op == "<=" then n <= w
      else if op == "==" then n == w else n != w)
  {
  }

  /** A value with no number (`undefined`, or `NaN` text) fails every
      comparison except `!=`. */
  lemma NaNComparesFalse(x: FieldValue, op: string, w: int)
    requires ToNumber(x) == NaN && LooseOperand(x) == NaN
    requires op in {">", ">=", "<", "<=", "==", "!="}
    ensures Compare(x, op, w) == Some(op == "!=")
  {
  }

  /** An empty array reads as 0, an array of two or more identifiers as
      `NaN`. */
  lemma ArrayNumber(ids: seq<Id>)
    ensures |ids| == 0 ==> ToNumber(IdArray(ids)) == Finite(0.0)
    ensures |ids| >= 2 ==> ToNumber(IdArray(ids)) == NaN && LooseOperand(IdArray(ids)) == NaN
  {
    var s := JoinIds(ids);
    if |ids| == 0 {
      assert Text.Trim(s) == "";
    } else if |ids| >= 2 {
      NoSpaceTrims(s);
      NonNumericCharIsNaN(s, Text.ObjectIdHexLength);
    }
  }

  /** An empty array reads as 0 under `==` and `!=`, as `[] == 0` does. */
  lemma EmptyArrayIsZero(ids: seq<Id>)
    requires |ids| == 0
    ensures Compare(IdArray(ids), "==", 0) == Some(true)
    ensures Compare(IdArray(ids), "!=", 0) == Some(false)
  {
    var x := IdArray(ids);
    ArrayNumber(ids);
    assert LooseOperand(x) == Finite(0.0);
    ZeroVerdicts(ToNumber(x), LooseOperand(x));
  }

  /** A loose operand of 0 is `== 0` and not `!= 0`. */
  lemma ZeroVerdicts(relational: Num, loose: Num)
    requires loose == Finite(0.0)
    ensures Verdict(relational, loose, "==", 0) == Some(true)
    ensures Verdict(relational, loose, "!=", 0) == Some(false)
  {
  }

  /** A Date compares by its time value under `<` and `>`, and equals no
      number under `==`. */
  lemma DateOperands(ms: Millis, w: int)
    ensures Compare(Date(ms), ">", w) == Some(ms > w)
    ensures Compare(Date(ms), "<=", w) == Some(ms <= w)
    ensures Compare(Date(ms), "==", w) == Some(false)
    ensures Compare(Date(ms), "!=", w) == Some(true)
  {
  }

  /** Text made of hex digits and commas has no white space to trim. */
  lemma NoSpaceTrims(s: string)
    requires forall i :: 0 <= i < |s| ==> Text.IsHexDigit(s[i]) || s[i] == ','
    ensures Text.Trim(s) == s
  {
    if |s| > 0 {
      assert !Text.IsJsSpace(s[0]);
      assert Text.TrimStart(s) == s;
      assert !Text.IsJsSpace(s[|s| - 1]);
    }
  }
}

=== FILE: collections.dfy ===
/** Queries and atomic array updates of a document store, over sequences
    kept in insertion (natural) order. */
module Collections {
  import opened Common

  /** Index of the first element satisfying `p` (`findOne`). */
  function FindFirst<T>(s: seq<T>, p: T -> bool): (r: Option<nat>)
    ensures r.Some? ==> r.value < |s| && p(s[r.value])
    ensures r.Some? ==> forall j :: 0 <= j < r.value ==> !p(s[j])
    ensures r.None? <==> forall j :: 0 <= j < |s| ==> !p(s[j])
  {
    if |s| == 0 then None
    else if p(s[0]) then Some(0)
    else
      match FindFirst(s[1..], p)
      case None => None
      case Some(k) => Some(k + 1)
  }

  /** `findOneAndUpdate(filter, change, {new: true})`: the first matching
      document is replaced by `change` of it; `None` when nothing matches. */
  function UpdateFirst<T>(s: seq<T>, p: T -> bool, change: T -> T): (r: Option<(seq<T>, T)>)
    ensures r.None? <==> FindFirst(s, p).None?
    ensures r.Some? ==>
      var k := FindFirst(s, p).value;
      r.value.1 == change(s[k]) && r.value.0 == s[k := change(s[k])]
  {
    match FindFirst(s, p)
    case None => None
    case Some(k) => Some((s[k := change(s[k])], change(s[k])))
  }

  /** `updateMany(filter, change)`. */
  function UpdateAll<T>(s: seq<T>, p: T -> bool, change: T -> T): (r: seq<T>)
    ensures |r| == |s|
    ensures forall i :: 0 <= i < |s| ==> r[i] == if p(s[i]) then change(s[i]) else s[i]
  {
    seq(|s|, i requires 0 <= i < |s| => if p(s[i]) then change(s[i]) else s[i])
  }

  /** `findOneAndDelete(filter)`: the collection without its first matching
      document; `None` when nothing matches. */
  function RemoveFirst<T>(s: seq<T>, p: T -> bool): (r: Option<seq<T>>)
    ensures r.None? <==> FindFirst(s, p).None?
    ensures r.Some? ==>
      var k := FindFirst(s, p).value;
      r.value == s[..k] + s[k + 1..]
  {
    match FindFirst(s, p)
    case None => None
    case Some(k) => Some(s[..k] + s[k + 1..])
  }

  /** Removing the first match keeps every other element: the rest holds
      only elements of `s` and every element that does not match, and when
      no two elements match, none that matches is left. */
  lemma RemoveFirstKeepsOthers<T>(s: seq<T>, p: T -> bool)
    requires RemoveFirst(s, p).Some?
    ensures var r := RemoveFirst(s, p).value;
      && (forall i :: 0 <= i < |r| ==> r[i] in s)
      && (forall i :: 0 <= i < |s| && !p(s[i]) ==> s[i] in r)
      && ((forall i, j :: 0 <= i < j < |s| && p(s[i]) ==> !p(s[j])) ==> forall i :: 0 <= i < |r| ==> !p(r[i]))
  {
    var k := FindFirst(s, p).value;
    var r := RemoveFirst(s, p).value;
    assert r == s[..k] + s[k + 1..];
    assert forall i :: 0 <= i < k ==> r[i] == s[i];
    assert forall i :: k <= i < |r| ==> r[i] == s[i + 1];
    forall i | 0 <= i < |s| && !p(s[i]) ensures s[i] in r {
      if i < k {
        assert r[i] == s[i];
      } else {
        assert r[i - 1] == s[i];
      }
    }
  }

  /** The elements satisfying `p`, in their original order (`find(filter)`). */
  function Filter<T>(s: seq<T>, p: T -> bool): (r: seq<T>)
    ensures |r| <= |s|
    ensures forall i :: 0 <= i < |r| ==> p(r[i])
    ensures forall i :: 0 <= i < |r| ==> r[i] in s
    ensures forall i :: 0 <= i < |s| && p(s[i]) ==> s[i] in r
  {
    if |s| == 0 then []
    else (if p(s[0]) then [s[0]] else []) + Filter(s[1..], p)
  }

  /** Filtering keeps distinct keys distinct. */
  lemma {:induction false} FilterKeepsKeysDistinct<T>(s: seq<T>, p: T -> bool, key: T -> int)
    requires forall i, j :: 0 <= i < j < |s| ==> key(s[i]) != key(s[j])
    ensures forall i, j :: 0 <= i < j < |Filter(s, p)| ==> key(Filter(s, p)[i]) != key(Filter(s, p)[j])
  {
    if |s| > 0 {
      var tail := s[1..];
      FilterKeepsKeysDistinct(tail, p, key);
      var rest := Filter(tail, p);
      var r := Filter(s, p);
      if p(s[0]) {
        assert r == [s[0]] + rest;
        forall i, j | 0 <= i < j < |r| ensures key(r[i]) != key(r[j]) {
          assert r[j] == rest[j - 1];
          if i == 0 {
            var k :| 0 <= k < |tail| && tail[k] == rest[j - 1];
            assert s[k + 1] == r[j];
          } else {
            assert r[i] == rest[i - 1];
          }
        }
      } else {
        assert r == rest;
      }
    }
  }

  /** `countDocuments(filter)`. */
  function Count<T>(s: seq<T>, p: T -> bool): nat {
    |Filter(s, p)|
  }

  /** The first `n` elements (`limit(n)` with `n > 0`). */
  function Take<T>(s: seq<T>, n: nat): (r: seq<T>)
    ensures |r| == (if n < |s| then n else |s|)
    ensures forall i :: 0 <= i < |r| ==> r[i] == s[i]
  {
    if n < |s| then s[..n] else s
  }

  /** `skip(n)`: everything after the first `n` elements. */
  function Skip<T>(s: seq<T>, n: nat): (r: seq<T>)
    ensures |r| == (if n < |s| then |s| - n else 0)
    ensures forall i :: 0 <= i < |r| ==> r[i] == s[n + i]
  {
    if n < |s| then s[n..] else []
  }

  /** `limit(n)` of a query: 0 means no limit and a negative limit is taken
      by its absolute value. */
  function Limit<T>(s: seq<T>, n: int): (r: seq<T>)
    ensures n == 0 ==> r == s
    ensures n != 0 ==> var m := if n < 0 then -n else n; |r| == (if m < |s| then m else |s|)
    ensures forall i :: 0 <= i < |r| ==> r[i] == s[i]
  {
    if n == 0 then s else Take(s, if n < 0 then -n else n)
  }

  /** Sum of `f` over the elements, accumulated from the left. */
  function SumBy<T>(s: seq<T>, f: T -> int): int {
    if |s| == 0 then 0 else SumBy(s[..|s| - 1], f) + f(s[|s| - 1])
  }

  /** `$addToSet` applied to each element of `xs` in turn. */
  function AddAll<T(==)>(s: seq<T>, xs: seq<T>): (r: seq<T>)
    ensures forall i :: 0 <= i < |s| ==> s[i] in r
    ensures forall i :: 0 <= i < |xs| ==> xs[i] in r
    ensures forall i :: 0 <= i < |r| ==> r[i] in s || r[i] in xs
  {
    if |xs| == 0 then s
    else AddToSet(AddAll(s, xs[..|xs| - 1]), xs[|xs| - 1])
  }

  /** Identifier larger than every identifier in the collection, so a
      document created with it is new. */
  function FreshId<T>(s: seq<T>, idOf: T -> Id): (r: Id)
    ensures forall i :: 0 <= i < |s| ==> idOf(s[i]) < r
  {
    if |s| == 0 then 0
    else
      var rest := FreshId(s[1..], idOf);
      if idOf(s[0]) < rest then rest else idOf(s[0]) + 1
  }

  predicate NoDup<T(==)>(s: seq<T>) {
    forall i, j :: 0 <= i < j < |s| ==> s[i] != s[j]
  }

  /** `$addToSet`: append unless already present. */
  function AddToSet<T(==)>(s: seq<T>, x: T): (r: seq<T>)
    ensures x in r
    ensures forall i :: 0 <= i < |s| ==> s[i] in r
    ensures forall i :: 0 <= i < |r| ==> r[i] in s || r[i] == x
    ensures x in s ==> r == s
    ensures x !in s ==> |r| == |s| + 1 && r[..|s|] == s
    ensures NoDup(s) ==> NoDup(r)
  {
    if x in s then s else s + [x]
  }

  /** `$pull`: remove every occurrence. */
  function Pull<T(==)>(s: seq<T>, x: T): (r: seq<T>)
    ensures x !in r
    ensures forall i :: 0 <= i < |r| ==> r[i] in s
    ensures forall i :: 0 <= i < |s| && s[i] != x ==> s[i] in r
    ensures x !in s ==> r == s
  {
    var r := Filter(s, y => y != x);
    if x !in s then FilterAll(s, y => y != x); r else r
  }

  /** Replacing the first match by another match keeps it the first match. */
  lemma FindFirstAfterReplace<T>(s: seq<T>, p: T -> bool, k: nat, x: T)
    requires FindFirst(s, p) == Some(k) && p(x)
    ensures FindFirst(s[k := x], p) == Some(k)
  {
    var t := s[k := x];
    forall j | 0 <= j < k
      ensures !p(t[j])
    {
      assert t[j] == s[j];
    }
    assert p(t[k]);
  }

  /** Appending a document leaves an existing first match where it was, and
      makes the new document the first match when there was none. */
  lemma FindFirstAfterAppend<T>(s: seq<T>, p: T -> bool, x: T)
    ensures FindFirst(s, p).Some? ==> FindFirst(s + [x], p) == FindFirst(s, p)
    ensures FindFirst(s, p).None? && p(x) ==> FindFirst(s + [x], p) == Some(|s|)
  {
    var t := s + [x];
    assert forall j :: 0 <= j < |s| ==> t[j] == s[j];
    if FindFirst(s, p).Some? {
      var k := FindFirst(s, p).value;
      assert p(t[k]);
      var m := FindFirst(t, p).value;
      assert m == k;
    } else if p(x) {
      assert p(t[|s|]);
      var m := FindFirst(t, p).value;
      assert m == |s|;
    }
  }

  /** Searching a filtered collection with a stronger predicate finds the
      same element as searching the whole collection. */
  lemma {:induction false} FindInFilter<T>(s: seq<T>, p: T -> bool, q: T -> bool)
    requires forall x :: p(x) ==> q(x)
    ensures FindFirst(Filter(s, q), p).Some? <==> FindFirst(s, p).Some?
    ensures FindFirst(s, p).Some? ==>
      Filter(s, q)[FindFirst(Filter(s, q), p).value] == s[FindFirst(s, p).value]
  {
    if |s| > 0 {
      var t := s[1..];
      FindInFilter(t, p, q);
      assert s == [s[0]] + t;
      if p(s[0]) {
        FindInFilterMatch(s[0], t, p, q);
      } else if q(s[0]) {
        FindInFilterKept(s[0], t, p, q);
      } else {
        FindInFilterDropped(s[0], t, p, q);
      }
    }
  }

  /** The search of `FindInFilter` agrees on `s`. */
  ghost predicate FindAgrees<T>(s: seq<T>, p: T -> bool, q: T -> bool) {
    (FindFirst(Filter(s, q), p).Some? <==> FindFirst(s, p).Some?) &&
    (FindFirst(s, p).Some? ==>
      Filter(s, q)[FindFirst(Filter(s, q), p).value] == s[FindFirst(s, p).value])
  }

  lemma FindInFilterMatch<T>(x: T, t: seq<T>, p: T -> bool, q: T -> bool)
    requires p(x) && q(x)
    ensures FindAgrees([x] + t, p, q)
  {
    var s := [x] + t;
    assert s[1..] == t;
    var f := Filter(t, q);
    assert Filter(s, q) == [x] + f;
    FindFirstCons(x, t, p);
    FindFirstCons(x, f, p);
  }

  lemma FindInFilterKept<T>(x: T, t: seq<T>, p: T -> bool, q: T -> bool)
    requires !p(x) && q(x) && FindAgrees(t, p, q)
    ensures FindAgrees([x] + t, p, q)
  {
    var s := [x] + t;
    assert s[1..] == t;
    var f := Filter(t, q);
    assert Filter(s, q) == [x] + f;
    FindFirstCons(x, t, p);
    FindFirstCons(x, f, p);
    if FindFirst(t, p).Some? {
      var k := FindFirst(f, p).value;
      var m := FindFirst(t, p).value;
      assert Filter(s, q)[k + 1] == f[k] && s[m + 1] == t[m];
    }
  }

  lemma FindInFilterDropped<T>(x: T, t: seq<T>, p: T -> bool, q: T -> bool)
    requires !p(x) && !q(x) && FindAgrees(t, p, q)
    ensures FindAgrees([x] + t, p, q)
  {
    var s := [x] + t;
    assert s[1..] == t;
    assert Filter(s, q) == Filter(t, q);
    FindFirstCons(x, t, p);
    if FindFirst(t, p).Some? {
      var m := FindFirst(t, p).value;
      assert s[m + 1] == t[m];
    }
  }

  /** The first match in a sequence with one more element in front. */
  lemma FindFirstCons<T>(x: T, t: seq<T>, p: T -> bool)
    ensures FindFirst([x] + t, p) ==
      if p(x) then Some(0)
      else if FindFirst(t, p).Some? then Some(FindFirst(t, p).value + 1)
      else None
  {
    assert ([x] + t)[1..] == t;
  }

  /** Filtering with a predicate every element meets changes nothing. */
  lemma {:induction false} FilterAll<T>(s: seq<T>, p: T -> bool)
    requires forall i :: 0 <= i < |s| ==> p(s[i])
    ensures Filter(s, p) == s
  {
    if |s| > 0 {
      FilterAll(s[1..], p);
      assert s == [s[0]] + s[1..];
    }
  }

  /** Filtering keeps a duplicate-free sequence duplicate-free. */
  lemma {:induction false} FilterNoDup<T>(s: seq<T>, p: T -> bool)
    requires NoDup(s)
    ensures NoDup(Filter(s, p))
  {
    if |s| > 0 {
      var t := s[1..];
      assert NoDup(t) by {
        forall i, j | 0 <= i < j < |t| ensures t[i] != t[j] {
          assert t[i] == s[i + 1] && t[j] == s[j + 1];
        }
      }
      FilterNoDup(t, p);
      var ft := Filter(t, p);
      if p(s[0]) {
        assert s[0] !in t by {
          forall k | 0 <= k < |t| ensures t[k] != s[0] {
            assert t[k] == s[k + 1];
          }
        }
        assert s[0] !in ft;
        var r := [s[0]] + ft;
        assert Filter(s, p) == r;
        forall i, j | 0 <= i < j < |r| ensures r[i] != r[j] {
          if i == 0 {
            assert r[j] == ft[j - 1];
          } else {
            assert r[i] == ft[i - 1] && r[j] == ft[j - 1];
          }
        }
      } else {
        assert Filter(s, p) == ft;
      }
    }
  }

  /** Filtering distributes over concatenation. */
  lemma {:induction false} FilterConcat<T>(a: seq<T>, b: seq<T>, p: T -> bool)
    ensures Filter(a + b, p) == Filter(a, p) + Filter(b, p)
  {
    if |a| > 0 {
      FilterConcat(a[1..], b, p);
      assert (a + b)[1..] == a[1..] + b;
    } else {
      assert a + b == b;
    }
  }

  /** The filter holds exactly the elements that meet the predicate. */
  lemma FilterMembers<T>(s: seq<T>, p: T -> bool)
    ensures forall x :: x in Filter(s, p) <==> x in s && p(x)
  {
    var r := Filter(s, p);
    forall x | x in r ensures x in s && p(x) {
      var k :| 0 <= k < |r| && r[k] == x;
    }
    forall x | x in s && p(x) ensures x in r {
      var k :| 0 <= k < |s| && s[k] == x;
    }
  }

  /** The filter of the first `i + 1` elements extends that of the first `i`. */
  lemma FilterPrefixStep<T>(s: seq<T>, i: nat, p: T -> bool)
    requires i < |s|
    ensures Filter(s[..i + 1], p) == Filter(s[..i], p) + (if p(s[i]) then [s[i]] else [])
  {
    assert s[..i + 1] == s[..i] + [s[i]];
    FilterConcat(s[..i], [s[i]], p);
    assert Filter([s[i]], p) == (if p(s[i]) then [s[i]] else []) + Filter([], p);
  }

  /** Filtering with a predicate no element meets leaves nothing. */
  lemma {:induction false} FilterNone<T>(s: seq<T>, p: T -> bool)
    requires forall i :: 0 <= i < |s| ==> !p(s[i])
    ensures Filter(s, p) == []
  {
    if |s| > 0 {
      FilterNone(s[1..], p);
    }
  }

  /** Elements satisfying two disjoint predicates together number at most
      the length of the sequence. */
  lemma {:induction false} CountDisjoint<T>(s: seq<T>, p: T -> bool, q: T -> bool)
    requires forall i :: 0 <= i < |s| ==> !(p(s[i]) && q(s[i]))
    ensures Count(s, p) + Count(s, q) <= |s|
  {
    if |s| > 0 {
      CountDisjoint(s[1..], p, q);
      assert Count(s, p) == (if p(s[0]) then 1 else 0) + Count(s[1..], p);
      assert Count(s, q) == (if q(s[0]) then 1 else 0) + Count(s[1..], q);
    }
  }
}

=== FILE: common.dfy ===
/** Shared vocabulary of the model: identifiers, time, optional values and
    the HTTP status codes the controllers answer with. */
module Common {

  /** A stored document's identity (a Mongo ObjectId, modelled as a number). */
  type Id = nat

  /** Wall-clock time in milliseconds since the epoch (`Date.getTime()`). */
  type Millis = int

  datatype Option<+T> = None | Some(value: T) {
    function GetOr(default: T): T {
      match this
      case Some(v) => v
      case None => default
    }
  }

  datatype Result<+T, +E> = Success(value: T) | Failure(error: E)

  /** Why the store refused an insert: a unique index was violated (driver
      error code 11000) or a schema validator failed. */
  datatype WriteError = DuplicateKey | ValidationFailed

  /** An identifier as it arrives in a request: either something that parses
      as an ObjectId or a malformed string. A body id the handlers test for
      truthiness first is an `Option<RawId>`, `None` when it is falsy
      (see `Text.BodyId`). */
  datatype RawId = ObjectId(id: Id) | Malformed

  /** `isValidObjectId` of mongoose. */
  predicate IsValidObjectId(r: RawId) {
    r.ObjectId?
  }

  /** The status codes the handlers use. */
  datatype Status =
    | Ok
    | Created
    | BadRequest
    | Unauthorized
    | Forbidden
    | NotFound
    | Conflict
    | InternalError
  {
    function Code(): int {
      match this
      case Ok => 200
      case Created => 201
      case BadRequest => 400
      case Unauthorized => 401
      case Forbidden => 403
      case NotFound => 404
      case Conflict => 409
      case InternalError => 500
    }

    /** 2xx answers. */
    predicate IsSuccess() {
      Ok? || Created?
    }
  }

  /** Truthiness of an optional request string: present and non-empty. */
  predicate Truthy(s: Option<string>) {
    s.Some? && s.value != ""
  }

  /** The milliseconds in one day, `24 * 60 * 60 * 1000`. */
  const DayMillis: int := 86_400_000
}

=== FILE: gym_controller.dfy ===
/** The gym handlers: creation with a role-dependent status, the caller's
    gyms, partial updates, and the owner-scoped assignment of users to a
    gym. Three owner checks compare two ObjectId objects with `!==`; each is
    modelled twice, as written and with the ids compared. */
module GymController {
  import opened Common
  import opened Collections
  import opened Store
  import opened UserSchema
  import opened GymSchema
  import GymService
  import UserService
  import JsEquality
  import Text

  // ---------------------------------------------------------------------
  // createGym

  /** The `createGym` body; `None` stands for an absent field, and for an
      absent or empty owner id (`Text.BodyId`), which `ownerId || req.user._id`
      passes over. An owner id that is not an ObjectId makes the create fail
      its cast. */
  datatype GymBody = GymBody(
    name: Option<string>,
    location: Option<string>,
    description: Option<string>,
    ownerId: Option<RawId>)

  /** The owner of a new gym: the `ownerId` of the body, else the caller. */
  function OwnerOf(caller: User, b: GymBody): Id
    requires b.ownerId != Some(Malformed)
  {
    if b.ownerId.Some? then b.ownerId.value.id else caller.id
  }

  /** `createGym`: only SUPER_ADMIN and GYM_OWNER create (403), a name and a
      location are required (400), and a store refusal is a 500. A gym made
      by a SUPER_ADMIN is APPROVED at once; one made by a GYM_OWNER waits
      for approval. The caller is always the creator and, unless the body
      names another, the owner. */
  function CreateGym(db: Db, caller: User, b: GymBody, now: Millis): (r: Reply)
    ensures r.status == Forbidden <==> caller.role == RegularUser
    ensures r.status == BadRequest <==> caller.role != RegularUser && (!Truthy(b.name) || !Truthy(b.location))
    ensures r.status == Created <==>
      && caller.role != RegularUser && Truthy(b.name) && Truthy(b.location)
      && b.ownerId != Some(Malformed) && Text.Trim(b.name.value) != ""
    ensures r.status in {Forbidden, BadRequest, InternalError, Created}
    ensures r.status != Created ==> r.db == db
    ensures r.status == Created ==>
      var n := |db.gyms|;
      && |r.db.gyms| == n + 1
      && r.db == db.(gyms := db.gyms + [r.db.gyms[n]])
      && var g := r.db.gyms[n];
      && (forall i :: 0 <= i < n ==> db.gyms[i].id != g.id)
      && g.name == Text.Trim(b.name.value) && g.location == b.location.value
      && g.createdBy == caller.id
      && g.ownerId == OwnerOf(caller, b)
      && g.status == (if caller.role == SuperAdmin then Approved else PendingApproval)
      && g.approvedByAdmin.None? && g.assignedTypeExercises == []
  {
    if caller.role != SuperAdmin && caller.role != GymOwner then
      assert caller.role == RegularUser;
      Reply(db, Forbidden)
    else if !Truthy(b.name) || !Truthy(b.location) then Reply(db, BadRequest)
    else if b.ownerId == Some(Malformed) then Reply(db, InternalError)
    else
      var status := if caller.role == SuperAdmin then Approved else PendingApproval;
      var f := GymFields(b.name.value, b.location.value, b.description, Some(status), caller.id, OwnerOf(caller, b));
      match GymSchema.Insert(db.gyms, f, now)
      case Failure(_) => Reply(db, InternalError)
      case Success((gyms', _)) => Reply(db.(gyms := gyms'), Created)
  }

  /** A gym a GYM_OWNER creates is listed among the pending gyms until an
      admin acts; one a SUPER_ADMIN creates never is. */
  lemma CreatedGymPendingIffOwner(db: Db, caller: User, b: GymBody, now: Millis)
    requires CreateGym(db, caller, b, now).status == Created
    ensures var gyms' := CreateGym(db, caller, b, now).db.gyms;
      var g := gyms'[|db.gyms|];
      g in GymService.PendingGyms(gyms') <==> caller.role == GymOwner
  {
  }

  /** An empty `ownerId` is falsy, so `ownerId || req.user._id` makes the
      caller the owner: the create is the one without an owner id, and a
      gym it stores is the caller's. */
  lemma EmptyOwnerIsCaller(db: Db, caller: User, name: Option<string>, location: Option<string>,
                           description: Option<string>, now: Millis)
    ensures var r := CreateGym(db, caller, GymBody(name, location, description, Text.BodyId(Some(""))), now);
      && r == CreateGym(db, caller, GymBody(name, location, description, None), now)
      && (r.status == Created ==> r.db.gyms[|db.gyms|].ownerId == caller.id)
  {
  }

  // ---------------------------------------------------------------------
  // getMyGyms

  /** The gym the caller's stored record points at, when it exists. */
  function AssignedGym(db: Db, caller: User): (r: Option<Gym>)
    ensures r.Some? ==> r.value in db.gyms
  {
    match FindUserById(db.users, ObjectId(caller.id))
    case None => None
    case Some(u) => if u.gymId.Some? then GymService.GymById(db.gyms, u.gymId.value) else None
  }

  /** The gyms owned, then the assigned gym unless one with its id is
      already there (`gyms.some(gym => gym._id.toString() === ...)`). */
  function WithAssigned(owned: seq<Gym>, extra: Option<Gym>): (r: seq<Gym>)
    ensures forall g :: g in owned ==> g in r
    ensures forall g :: g in r ==> g in owned || Some(g) == extra
    ensures extra.Some? ==> exists i :: 0 <= i < |r| && r[i].id == extra.value.id
  {
    match extra
    case None => owned
    case Some(a) =>
      if exists i :: 0 <= i < |owned| && owned[i].id == a.id then owned
      else
        var r := owned + [a];
        assert r[|owned|] == a;
        r
  }

  /** Adding the assigned gym keeps the ids distinct. */
  lemma WithAssignedDistinct(owned: seq<Gym>, extra: Option<Gym>)
    requires forall i, j :: 0 <= i < j < |owned| ==> owned[i].id != owned[j].id
    ensures var r := WithAssigned(owned, extra); forall i, j :: 0 <= i < j < |r| ==> r[i].id != r[j].id
  {
    var r := WithAssigned(owned, extra);
    if r != owned {
      var a := extra.value;
      assert r == owned + [a];
      forall i, j | 0 <= i < j < |r| ensures r[i].id != r[j].id {
        assert r[i] == owned[i];
        if j < |owned| {
          assert r[j] == owned[j];
        }
      }
    }
  }

  /** `getMyGyms`: a GYM_OWNER's own gyms, then the gym the caller is
      assigned to unless a gym with its id is already listed. */
  function MyGyms(db: Db, caller: User): (r: seq<Gym>)
    ensures forall g :: g in r ==>
      (caller.role == GymOwner && g in db.gyms && g.ownerId == caller.id) || Some(g) == AssignedGym(db, caller)
    ensures caller.role == GymOwner ==> forall g :: g in db.gyms && g.ownerId == caller.id ==> g in r
    ensures AssignedGym(db, caller).Some? ==> exists i :: 0 <= i < |r| && r[i].id == AssignedGym(db, caller).value.id
  {
    var owned := if caller.role == GymOwner then GymService.GymsByOwner(db.gyms, caller.id) else [];
    WithAssigned(owned, AssignedGym(db, caller))
  }

  /** The assigned gym is never listed twice, even when the caller also owns it. */
  lemma MyGymsNoDuplicate(db: Db, caller: User)
    requires GymService.IdsUnique(db.gyms)
    ensures var r := MyGyms(db, caller); forall i, j :: 0 <= i < j < |r| ==> r[i].id != r[j].id
  {
    GymService.GymsByOwnerDistinct(db.gyms, caller.id);
    var owned := if caller.role == GymOwner then GymService.GymsByOwner(db.gyms, caller.id) else [];
    WithAssignedDistinct(owned, AssignedGym(db, caller));
  }

  // ---------------------------------------------------------------------
  // updateGym

  /** `updateGym`: a request with no truthy field is a 400; otherwise only
      the given fields are written, so the approval state, owner, creator
      and exercise types stay. */
  function UpdateGym(db: Db, gymId: RawId, p: GymService.GymPatch): (r: Reply)
    ensures GymService.PatchEmpty(p) ==> r == Reply(db, BadRequest)
    ensures !GymService.PatchEmpty(p) && !gymId.ObjectId? ==> r == Reply(db, InternalError)
    ensures !GymService.PatchEmpty(p) && gymId.ObjectId? ==>
      && (r.status == NotFound <==> GymService.GymById(db.gyms, gymId.id).None?)
      && (r.status == Ok <==> GymService.GymById(db.gyms, gymId.id).Some?)
      && (r.status == NotFound ==> r.db == db)
      && (r.status == Ok ==>
        var k := GymService.IndexOfGym(db.gyms, gymId.id).value;
        var before := db.gyms[k];
        && |r.db.gyms| == |db.gyms|
        && r.db == db.(gyms := db.gyms[k := r.db.gyms[k]])
        && var g := r.db.gyms[k];
        && g.id == before.id && g.status == before.status && g.ownerId == before.ownerId && g.createdBy == before.createdBy
        && g.approvedByAdmin == before.approvedByAdmin && g.assignedTypeExercises == before.assignedTypeExercises
        && (p.location.Some? ==> g.location == p.location.value)
        && (p.location.None? ==> g.location == before.location)
        && (p.name.Some? ==> g.name == Text.Trim(p.name.value))
        && (p.name.None? ==> g.name == before.name)
        && (p.description.Some? ==> g.description == p.description)
        && (p.description.None? ==> g.description == before.description)
        && (p.capacity.Some? ==> g.capacity == p.capacity)
        && (p.capacity.None? ==> g.capacity == before.capacity)
        && (p.equipment.Some? ==> g.equipment == p.equipment.value)
        && (p.equipment.None? ==> g.equipment == before.equipment)
        && (p.difficultyLevels.Some? ==> g.difficultyLevels == p.difficultyLevels.value)
        && (p.difficultyLevels.None? ==> g.difficultyLevels == before.difficultyLevels))
  {
    if GymService.PatchEmpty(p) then Reply(db, BadRequest)
    else if !gymId.ObjectId? then Reply(db, InternalError)
    else
      match GymService.UpdateGym(db.gyms, gymId.id, p)
      case None => Reply(db, NotFound)
      case Some((gyms', _)) => Reply(db.(gyms := gyms'), Ok)
  }

  /** Sending the same update twice leaves the gyms as the first did. */
  lemma UpdateGymIdempotent(db: Db, gymId: Id, p: GymService.GymPatch)
    requires UpdateGym(db, ObjectId(gymId), p).status == Ok
    ensures var once := UpdateGym(db, ObjectId(gymId), p).db;
      UpdateGym(once, ObjectId(gymId), p) == Reply(once, Ok)
  {
    GymService.UpdateGymTwice(db.gyms, gymId, p);
  }

  // ---------------------------------------------------------------------
  // assignUserToGym and getGymUsers

  /** The owner test as written: `gym.ownerId !== req.user._id` on two
      ObjectId objects. */
  predicate NotOwnerAsWritten(g: Gym, caller: User) {
    !JsEquality.StrictEquals(JsEquality.ObjectIdObject(g.ownerId), JsEquality.ObjectIdObject(caller.id))
  }

  /** A GYM_OWNER acting on a gym someone else owns. */
  predicate ForeignOwner(g: Gym, caller: User) {
    caller.role == GymOwner && g.ownerId != caller.id
  }

  /** The write of `assignUserToGym` once the gym passed its checks: a user
      id that is not an ObjectId fails the cast (500), an unknown user is a
      404, and otherwise only the user's gym reference changes. */
  function AssignToFound(db: Db, gymId: Id, userId: RawId): (r: Reply)
  {
    if !userId.ObjectId? then Reply(db, InternalError)
    else
      match UserService.AssignUserToGym(db.users, userId.id, gymId)
      case None => Reply(db, NotFound)
      case Some((users', _)) => Reply(db.(users := users'), Ok)
  }

  /** `assignUserToGym` with the owner test as written. */
  function AssignUserToGymAsWritten(db: Db, caller: User, gymId: RawId, userId: Option<RawId>): (r: Reply)
    ensures caller.role == GymOwner ==> r.status != Ok && r.db == db
  {
    if userId.None? then Reply(db, BadRequest)
    else if !gymId.ObjectId? then Reply(db, InternalError)
    else
      match GymService.GymById(db.gyms, gymId.id)
      case None => Reply(db, NotFound)
      case Some(g) =>
        JsEquality.ObjectNeverStrictlyEqual(JsEquality.ObjectIdObject(g.ownerId), caller.id);
        if caller.role == GymOwner && NotOwnerAsWritten(g, caller) then Reply(db, Forbidden)
        else AssignToFound(db, gymId.id, userId.value)
  }

  /** `assignUserToGym` with the owner test comparing ids: no user id (400;
      `userId` is `None` for an absent or empty id, as `Text.BodyId` reads it),
      an unknown gym (404), a GYM_OWNER of another gym (403), an unknown
      user (404); otherwise the user's gym becomes this gym and nothing else
      changes. */
  function AssignUserToGym(db: Db, caller: User, gymId: RawId, userId: Option<RawId>): (r: Reply)
    ensures userId.None? ==> r == Reply(db, BadRequest)
    ensures userId.Some? && !gymId.ObjectId? ==> r == Reply(db, InternalError)
    ensures userId.Some? && gymId.ObjectId? ==>
      var found := GymService.GymById(db.gyms, gymId.id);
      var target := FindUserById(db.users, userId.value);
      && (r.status == Forbidden <==> found.Some? && ForeignOwner(found.value, caller))
      && (r.status == Ok <==> found.Some? && !ForeignOwner(found.value, caller) && target.Some?)
      && (r.status != Ok ==> r.db == db)
      && (r.status == Ok ==>
        var k := IndexOf(db.users, userId.value.id).value;
        r.db == db.(users := db.users[k := db.users[k].(gymId := Some(gymId.id))]))
  {
    if userId.None? then Reply(db, BadRequest)
    else if !gymId.ObjectId? then Reply(db, InternalError)
    else
      match GymService.GymById(db.gyms, gymId.id)
      case None => Reply(db, NotFound)
      case Some(g) =>
        if ForeignOwner(g, caller) then Reply(db, Forbidden)
        else AssignToFound(db, gymId.id, userId.value)
  }

  /** An empty `userId` is falsy: the request is a 400 and nothing changes,
      as with no id at all. */
  lemma EmptyUserIdRefused(db: Db, caller: User, gymId: RawId)
    ensures AssignUserToGym(db, caller, gymId, Text.BodyId(Some(""))) == Reply(db, BadRequest)
    ensures AssignUserToGymAsWritten(db, caller, gymId, Text.BodyId(Some(""))) == Reply(db, BadRequest)
  {
  }

  /** As written, a GYM_OWNER cannot assign a user even to the gym they
      own, where the id comparison lets the assignment through. */
  lemma OwnerCannotAssign(db: Db, caller: User, gymId: Id, userId: Id)
    requires caller.role == GymOwner
    requires GymService.GymById(db.gyms, gymId).Some? && GymService.GymById(db.gyms, gymId).value.ownerId == caller.id
    requires FindUserById(db.users, ObjectId(userId)).Some?
    ensures AssignUserToGymAsWritten(db, caller, ObjectId(gymId), Some(ObjectId(userId))).status == Forbidden
    ensures AssignUserToGym(db, caller, ObjectId(gymId), Some(ObjectId(userId))).status == Ok
  {
    var g := GymService.GymById(db.gyms, gymId).value;
    JsEquality.ObjectNeverStrictlyEqual(JsEquality.ObjectIdObject(g.ownerId), caller.id);
  }

  datatype UsersReply = UsersReply(status: Status, users: seq<User>)

  /** `getGymUsers` with the owner test as written. */
  function GymUsersAsWritten(db: Db, caller: User, gymId: RawId): (r: UsersReply)
    ensures caller.role == GymOwner ==> r.status != Ok && r.users == []
  {
    if !gymId.ObjectId? then UsersReply(InternalError, [])
    else
      match GymService.GymById(db.gyms, gymId.id)
      case None => UsersReply(NotFound, [])
      case Some(g) =>
        JsEquality.ObjectNeverStrictlyEqual(JsEquality.ObjectIdObject(g.ownerId), caller.id);
        if caller.role == GymOwner && NotOwnerAsWritten(g, caller) then UsersReply(Forbidden, [])
        else UsersReply(Ok, UserService.UsersByGym(db.users, gymId.id))
  }

  /** `getGymUsers` with the owner test comparing ids: the members of the
      gym, refused to a GYM_OWNER of another gym. */
  function GymUsers(db: Db, caller: User, gymId: RawId): (r: UsersReply)
    ensures !gymId.ObjectId? ==> r == UsersReply(InternalError, [])
    ensures gymId.ObjectId? ==>
      var found := GymService.GymById(db.gyms, gymId.id);
      && (r.status == NotFound <==> found.None?)
      && (r.status == Forbidden <==> found.Some? && ForeignOwner(found.value, caller))
      && (r.status == Ok <==> found.Some? && !ForeignOwner(found.value, caller))
      && (r.status != Ok ==> r.users == [])
      && (r.status == Ok ==> forall u :: u in r.users <==> u in db.users && u.gymId == Some(gymId.id))
  {
    if !gymId.ObjectId? then UsersReply(InternalError, [])
    else
      match GymService.GymById(db.gyms, gymId.id)
      case None => UsersReply(NotFound, [])
      case Some(g) =>
        if ForeignOwner(g, caller) then UsersReply(Forbidden, [])
        else UsersReply(Ok, UserService.UsersByGym(db.users, gymId.id))
  }

  /** As written, a GYM_OWNER cannot list the members of the gym they own. */
  lemma OwnerCannotListMembers(db: Db, caller: User, gymId: Id)
    requires caller.role == GymOwner
    requires GymService.GymById(db.gyms, gymId).Some? && GymService.GymById(db.gyms, gymId).value.ownerId == caller.id
    ensures GymUsersAsWritten(db, caller, ObjectId(gymId)).status == Forbidden
    ensures GymUsers(db, caller, ObjectId(gymId)).status == Ok
  {
    var g := GymService.GymById(db.gyms, gymId).value;
    JsEquality.ObjectNeverStrictlyEqual(JsEquality.ObjectIdObject(g.ownerId), caller.id);
  }

  // ---------------------------------------------------------------------
  // removeUserFromGym

  /** The gym test as written: `user.gymId !== req.user.gymId`, an ObjectId
      object against the caller's (or `undefined`). */
  predicate OtherGymAsWritten(u: User, caller: User)
    requires u.gymId.Some?
  {
    !(caller.gymId.Some? &&
      JsEquality.StrictEquals(JsEquality.ObjectIdObject(u.gymId.value), JsEquality.ObjectIdObject(caller.gymId.value)))
  }

  /** The write of `removeUserFromGym` once the checks passed. */
  function RemoveFound(db: Db, u: User): (r: Reply)
  {
    match UserService.RemoveUserFromGym(db.users, u.id)
    case None => Reply(db, Ok)
    case Some((users', _)) => Reply(db.(users := users'), Ok)
  }

  /** `removeUserFromGym` with the gym test as written. */
  function RemoveUserFromGymAsWritten(db: Db, caller: User, userId: RawId): (r: Reply)
    ensures caller.role == GymOwner ==> r.status != Ok && r.db == db
  {
    match FindUserById(db.users, userId)
    case None => Reply(db, NotFound)
    case Some(u) =>
      if u.gymId.None? then Reply(db, BadRequest)
      else
        JsEquality.ObjectNeverStrictlyEqual(JsEquality.ObjectIdObject(u.gymId.value), caller.gymId.GetOr(0));
        if caller.role == GymOwner && OtherGymAsWritten(u, caller) then Reply(db, Forbidden)
        else RemoveFound(db, u)
  }

  /** `removeUserFromGym` with the gym test comparing ids: an unknown user
      is a 404, a user in no gym a 400, a GYM_OWNER outside the user's gym
      a 403; otherwise the user's gym reference is removed and nothing else
      changes. */
  function RemoveUserFromGym(db: Db, caller: User, userId: RawId): (r: Reply)
    ensures var found := FindUserById(db.users, userId);
      && (r.status == NotFound <==> found.None?)
      && (r.status == BadRequest <==> found.Some? && found.value.gymId.None?)
      && (r.status == Forbidden <==> found.Some? && found.value.gymId.Some? && caller.role == GymOwner
                                     && found.value.gymId != caller.gymId)
      && (r.status != Ok ==> r.db == db)
      && (r.status == Ok ==>
        var k := IndexOf(db.users, userId.id).value;
        r.db == db.(users := db.users[k := db.users[k].(gymId := None)]))
  {
    match FindUserById(db.users, userId)
    case None => Reply(db, NotFound)
    case Some(u) =>
      if u.gymId.None? then Reply(db, BadRequest)
      else if caller.role == GymOwner && u.gymId != caller.gymId then Reply(db, Forbidden)
      else RemoveFound(db, u)
  }

  /** As written, a GYM_OWNER cannot remove a member even from their own gym. */
  lemma OwnerCannotRemove(db: Db, caller: User, userId: Id)
    requires caller.role == GymOwner
    requires FindUserById(db.users, ObjectId(userId)).Some?
    requires FindUserById(db.users, ObjectId(userId)).value.gymId.Some?
    requires FindUserById(db.users, ObjectId(userId)).value.gymId == caller.gymId
    ensures RemoveUserFromGymAsWritten(db, caller, ObjectId(userId)).status == Forbidden
    ensures RemoveUserFromGym(db, caller, ObjectId(userId)).status == Ok
  {
    var u := FindUserById(db.users, ObjectId(userId)).value;
    JsEquality.ObjectNeverStrictlyEqual(JsEquality.ObjectIdObject(u.gymId.value), caller.gymId.GetOr(0));
  }

  /** Removing is final: a second removal of the same user is a 400. */
  lemma RemoveTwiceRejected(db: Db, caller: User, userId: Id)
    requires RemoveUserFromGym(db, caller, ObjectId(userId)).status == Ok
    ensures var db' := RemoveUserFromGym(db, caller, ObjectId(userId)).db;
      RemoveUserFromGym(db', caller, ObjectId(userId)) == Reply(db', BadRequest)
  {
    var db' := RemoveUserFromGym(db, caller, ObjectId(userId)).db;
    var k := IndexOf(db.users, userId).value;
    FindFirstAfterReplace(db.users, (x: User) => x.id == userId, k, db'.users[k]);
    assert IndexOf(db'.users, userId) == Some(k);
  }

  /** A SUPER_ADMIN who assigns a user with no gym and then removes them
      leaves the users as they were. */
  lemma AssignThenRemove(db: Db, caller: User, gymId: Id, userId: Id)
    requires caller.role == SuperAdmin
    requires AssignUserToGym(db, caller, ObjectId(gymId), Some(ObjectId(userId))).status == Ok
    requires FindUserById(db.users, ObjectId(userId)).value.gymId.None?
    ensures var db' := AssignUserToGym(db, caller, ObjectId(gymId), Some(ObjectId(userId))).db;
      RemoveUserFromGym(db', caller, ObjectId(userId)) == Reply(db, Ok)
  {
    UserService.RemoveUndoesAssign(db.users, userId, gymId);
    var db' := AssignUserToGym(db, caller, ObjectId(gymId), Some(ObjectId(userId))).db;
    var k := IndexOf(db.users, userId).value;
    FindFirstAfterReplace(db.users, (x: User) => x.id == userId, k, db'.users[k]);
    assert IndexOf(db'.users, userId) == Some(k);
  }
}

=== FILE: gym_schema.dfy ===
/** The gym document: its approval status, owner and creator, and the
    exercise types assigned to it, with the validators and defaults of the
    gym schema. */
module GymSchema {
  import opened Common
  import opened Collections
  import Text

  datatype GymStatus = PendingApproval | Approved | Rejected {
    /** The enumeration's string value. */
    function Name(): string {
      match this
      case PendingApproval => "PENDING"
      case Approved => "APPROVED"
      case Rejected => "REJECTED"
    }
  }

  datatype Gym = Gym(
    id: Id,
    name: string,
    location: string,
    description: Option<string>,
    capacity: Option<int>,
    equipment: seq<string>,
    difficultyLevels: seq<string>,
    createdBy: Id,
    ownerId: Id,
    status: GymStatus,
    approvedByAdmin: Option<Id>,
    assignedTypeExercises: seq<Id>,
    createdAt: Millis)

  /** The fields a create supplies; an absent status takes the default. */
  datatype GymFields = GymFields(
    name: string,
    location: string,
    description: Option<string>,
    status: Option<GymStatus>,
    createdBy: Id,
    ownerId: Id)

  /** The `required` validators: a name (after trimming) and a location. */
  predicate FieldsValid(f: GymFields) {
    Text.Trim(f.name) != "" && f.location != ""
  }

  /** `gymModel.create`: a gym is PENDING unless a status is given, and starts
      with no assigned exercise types. */
  function Insert(gyms: seq<Gym>, f: GymFields, now: Millis): (r: Result<(seq<Gym>, Gym), WriteError>)
    ensures r.Failure? <==> !FieldsValid(f)
    ensures r.Failure? ==> r.error == ValidationFailed
    ensures r.Success? ==>
      var (gyms', g) := r.value;
      && gyms' == gyms + [g]
      && (forall i :: 0 <= i < |gyms| ==> gyms[i].id != g.id)
      && g.name == Text.Trim(f.name) && g.location == f.location && g.description == f.description
      && g.createdBy == f.createdBy && g.ownerId == f.ownerId
      && g.status == (if f.status.Some? then f.status.value else PendingApproval)
      && g.approvedByAdmin.None? && g.assignedTypeExercises == []
  {
    if !FieldsValid(f) then Failure(ValidationFailed)
    else
      var g := Gym(FreshId(gyms, (x: Gym) => x.id), Text.Trim(f.name), f.location, f.description,
                   None, [], [], f.createdBy, f.ownerId, f.status.GetOr(PendingApproval), None, [], now);
      Success((gyms + [g], g))
  }
}

=== FILE: gym_service.dfy ===
/** The gym service: lookups by id and owner, the approval workflow, partial
    updates, deletion and the exercise-type list operations. */
module GymService {
  import opened Common
  import opened Collections
  import opened GymSchema
  import Text

  function IndexOfGym(gyms: seq<Gym>, id: Id): Option<nat> {
    FindFirst(gyms, (g: Gym) => g.id == id)
  }

  /** `getGymById(id)`. */
  function GymById(gyms: seq<Gym>, id: Id): (r: Option<Gym>)
    ensures r.Some? ==> r.value in gyms && r.value.id == id
    ensures r.None? <==> forall i :: 0 <= i < |gyms| ==> gyms[i].id != id
  {
    match IndexOfGym(gyms, id)
    case None => None
    case Some(k) => Some(gyms[k])
  }

  /** Mongo ids are unique within a collection. */
  predicate IdsUnique(gyms: seq<Gym>) {
    forall i, j :: 0 <= i < j < |gyms| ==> gyms[i].id != gyms[j].id
  }

  function OwnedBy(ownerId: Id): Gym -> bool {
    (g: Gym) => g.ownerId == ownerId
  }

  /** `getGymsByOwner(ownerId)`: the owner's gyms, in store order. */
  function GymsByOwner(gyms: seq<Gym>, ownerId: Id): (r: seq<Gym>)
    ensures forall g :: g in r <==> g in gyms && g.ownerId == ownerId
    ensures forall i :: 0 <= i < |r| ==> r[i].ownerId == ownerId
  {
    var r := Filter(gyms, OwnedBy(ownerId));
    assert forall g :: g in gyms && g.ownerId == ownerId ==> g in r by {
      forall g | g in gyms && g.ownerId == ownerId ensures g in r {
        var i :| 0 <= i < |gyms| && gyms[i] == g;
      }
    }
    r
  }

  /** An owner's gyms have distinct ids. */
  lemma GymsByOwnerDistinct(gyms: seq<Gym>, ownerId: Id)
    requires IdsUnique(gyms)
    ensures var r := GymsByOwner(gyms, ownerId); forall i, j :: 0 <= i < j < |r| ==> r[i].id != r[j].id
  {
    FilterKeepsKeysDistinct(gyms, OwnedBy(ownerId), (g: Gym) => g.id);
  }

  /** `getGymByOwnerId(ownerId)`: the first gym the owner holds. */
  function GymByOwnerId(gyms: seq<Gym>, ownerId: Id): (r: Option<Gym>)
    ensures r.Some? ==> r.value in gyms && r.value.ownerId == ownerId
    ensures r.None? <==> forall i :: 0 <= i < |gyms| ==> gyms[i].ownerId != ownerId
  {
    match FindFirst(gyms, (g: Gym) => g.ownerId == ownerId)
    case None => None
    case Some(k) => Some(gyms[k])
  }

  /** `getPendingGyms()`: exactly the PENDING gyms. */
  function PendingGyms(gyms: seq<Gym>): (r: seq<Gym>)
    ensures forall g :: g in r <==> g in gyms && g.status == PendingApproval
  {
    var r := Filter(gyms, (g: Gym) => g.status == PendingApproval);
    assert forall g :: g in gyms && g.status == PendingApproval ==> g in r by {
      forall g | g in gyms && g.status == PendingApproval ensures g in r {
        var i :| 0 <= i < |gyms| && gyms[i] == g;
      }
    }
    r
  }

  /** `findByIdAndUpdate(id, ...)` with the update written as `change`. */
  function UpdateGymWith(gyms: seq<Gym>, id: Id, change: Gym -> Gym): (r: Option<(seq<Gym>, Gym)>)
    ensures r.None? <==> forall i :: 0 <= i < |gyms| ==> gyms[i].id != id
    ensures r.Some? ==>
      var k := IndexOfGym(gyms, id).value;
      r.value == (gyms[k := change(gyms[k])], change(gyms[k]))
  {
    UpdateFirst(gyms, (g: Gym) => g.id == id, change)
  }

  /** `assignGymToOwner(gymId, ownerId, adminId)`: new owner, APPROVED, with
      the approving admin recorded. */
  function AssignToOwner(gyms: seq<Gym>, id: Id, ownerId: Id, adminId: Id): (r: Option<(seq<Gym>, Gym)>)
    ensures r.None? <==> forall i :: 0 <= i < |gyms| ==> gyms[i].id != id
    ensures r.Some? ==>
      var k := IndexOfGym(gyms, id).value;
      && r.value.1.ownerId == ownerId && r.value.1.status == Approved && r.value.1.approvedByAdmin == Some(adminId)
      && r.value.1.(ownerId := gyms[k].ownerId, status := gyms[k].status, approvedByAdmin := gyms[k].approvedByAdmin) == gyms[k]
      && r.value.0 == gyms[k := r.value.1]
  {
    UpdateGymWith(gyms, id, (g: Gym) => g.(ownerId := ownerId, status := Approved, approvedByAdmin := Some(adminId)))
  }

  /** `approveGym(gymId, adminId)`: APPROVED from any status, with the admin recorded. */
  function Approve(gyms: seq<Gym>, id: Id, adminId: Id): (r: Option<(seq<Gym>, Gym)>)
    ensures r.None? <==> forall i :: 0 <= i < |gyms| ==> gyms[i].id != id
    ensures r.Some? ==>
      var k := IndexOfGym(gyms, id).value;
      && r.value.1.status == Approved && r.value.1.approvedByAdmin == Some(adminId)
      && r.value.1.(status := gyms[k].status, approvedByAdmin := gyms[k].approvedByAdmin) == gyms[k]
      && r.value.0 == gyms[k := r.value.1]
  {
    UpdateGymWith(gyms, id, (g: Gym) => g.(status := Approved, approvedByAdmin := Some(adminId)))
  }

  /** `rejectGym(gymId)`: REJECTED; the recorded approver, if any, stays. */
  function Reject(gyms: seq<Gym>, id: Id): (r: Option<(seq<Gym>, Gym)>)
    ensures r.None? <==> forall i :: 0 <= i < |gyms| ==> gyms[i].id != id
    ensures r.Some? ==>
      var k := IndexOfGym(gyms, id).value;
      && r.value.1.status == Rejected
      && r.value.1.approvedByAdmin == gyms[k].approvedByAdmin
      && r.value.1.(status := gyms[k].status) == gyms[k]
      && r.value.0 == gyms[k := r.value.1]
  {
    UpdateGymWith(gyms, id, (g: Gym) => g.(status := Rejected))
  }

  /** A rejected gym can be approved again: the workflow has no final state. */
  lemma ApproveAfterReject(gyms: seq<Gym>, id: Id, adminId: Id)
    requires Reject(gyms, id).Some?
    ensures Approve(Reject(gyms, id).value.0, id, adminId).Some?
    ensures Approve(Reject(gyms, id).value.0, id, adminId).value.1.status == Approved
  {
    var k := IndexOfGym(gyms, id).value;
    var rejected := Reject(gyms, id).value.0;
    assert rejected[k].id == id;
  }

  /** The truthy fields of an `updateGym` request. */
  datatype GymPatch = GymPatch(
    name: Option<string>,
    location: Option<string>,
    description: Option<string>,
    capacity: Option<int>,
    equipment: Option<seq<string>>,
    difficultyLevels: Option<seq<string>>)

  predicate PatchEmpty(p: GymPatch) {
    p.name.None? && p.location.None? && p.description.None? && p.capacity.None?
    && p.equipment.None? && p.difficultyLevels.None?
  }

  function ApplyPatch(g: Gym, p: GymPatch): Gym {
    g.(name := if p.name.Some? then Text.Trim(p.name.value) else g.name,
       location := p.location.GetOr(g.location),
       description := if p.description.Some? then p.description else g.description,
       capacity := if p.capacity.Some? then p.capacity else g.capacity,
       equipment := p.equipment.GetOr(g.equipment),
       difficultyLevels := p.difficultyLevels.GetOr(g.difficultyLevels))
  }

  /** Applying a patch a second time changes nothing. */
  lemma ApplyPatchIdempotent(g: Gym, p: GymPatch)
    ensures ApplyPatch(ApplyPatch(g, p), p) == ApplyPatch(g, p)
  {
    var once := ApplyPatch(g, p);
    var twice := ApplyPatch(once, p);
    if p.name.Some? {
      Text.TrimIdempotent(p.name.value);
    }
    assert twice.name == once.name;
    assert twice.location == once.location && twice.description == once.description;
    assert twice.capacity == once.capacity && twice.equipment == once.equipment;
    assert twice.difficultyLevels == once.difficultyLevels;
  }

  /** `updateGym(gymId, updateData)`: the given fields are written and the
      status, owner, creator and exercise types are untouched. */
  function UpdateGym(gyms: seq<Gym>, id: Id, p: GymPatch): (r: Option<(seq<Gym>, Gym)>)
    ensures r.None? <==> forall i :: 0 <= i < |gyms| ==> gyms[i].id != id
    ensures r.Some? ==>
      var k := IndexOfGym(gyms, id).value;
      var g := r.value.1;
      && g.status == gyms[k].status && g.ownerId == gyms[k].ownerId && g.createdBy == gyms[k].createdBy
      && g.approvedByAdmin == gyms[k].approvedByAdmin && g.assignedTypeExercises == gyms[k].assignedTypeExercises
      && g.id == id && g.createdAt == gyms[k].createdAt
      && (p.name.Some? ==> g.name == Text.Trim(p.name.value)) && (p.name.None? ==> g.name == gyms[k].name)
      && (p.location.Some? ==> g.location == p.location.value) && (p.location.None? ==> g.location == gyms[k].location)
      && (p.description.Some? ==> g.description == p.description) && (p.description.None? ==> g.description == gyms[k].description)
      && (p.capacity.Some? ==> g.capacity == p.capacity) && (p.capacity.None? ==> g.capacity == gyms[k].capacity)
      && (p.equipment.Some? ==> g.equipment == p.equipment.value)
      && (p.equipment.None? ==> g.equipment == gyms[k].equipment)
      && (p.difficultyLevels.Some? ==> g.difficultyLevels == p.difficultyLevels.value)
      && (p.difficultyLevels.None? ==> g.difficultyLevels == gyms[k].difficultyLevels)
      && (PatchEmpty(p) ==> g == gyms[k])
      && r.value.0 == gyms[k := g]
  {
    UpdateGymWith(gyms, id, (g: Gym) => ApplyPatch(g, p))
  }

  /** A second identical update finds the updated gym and leaves it as is. */
  lemma UpdateGymTwice(gyms: seq<Gym>, id: Id, p: GymPatch)
    requires UpdateGym(gyms, id, p).Some?
    ensures var (once, g) := UpdateGym(gyms, id, p).value;
      UpdateGym(once, id, p) == Some((once, g))
  {
    var k := IndexOfGym(gyms, id).value;
    var (once, g) := UpdateGym(gyms, id, p).value;
    assert g == ApplyPatch(gyms[k], p);
    FindFirstAfterReplace(gyms, (x: Gym) => x.id == id, k, g);
    ApplyPatchIdempotent(gyms[k], p);
    assert once[k := g] == once;
  }

  /** `deleteGym(gymId)`: true exactly when a gym was removed. */
  function DeleteGym(gyms: seq<Gym>, id: Id): (r: (seq<Gym>, bool))
    ensures r.1 <==> exists i :: 0 <= i < |gyms| && gyms[i].id == id
    ensures r.1 ==> |r.0| == |gyms| - 1
    ensures r.1 ==>
      var k := IndexOfGym(gyms, id).value;
      && k < |gyms| && gyms[k].id == id && (forall j :: 0 <= j < k ==> gyms[j].id != id)
      && r.0 == gyms[..k] + gyms[k + 1..]
    ensures !r.1 ==> r.0 == gyms
  {
    match RemoveFirst(gyms, (g: Gym) => g.id == id)
    case None => (gyms, false)
    case Some(rest) => (rest, true)
  }

  /** With unique ids, the deleted gym is no longer found, every other gym
      is kept, and nothing new appears. */
  lemma DeleteGymRemovesOnlyIt(gyms: seq<Gym>, id: Id)
    requires IdsUnique(gyms)
    ensures var r := DeleteGym(gyms, id).0;
      && GymById(r, id).None?
      && (forall i :: 0 <= i < |gyms| && gyms[i].id != id ==> gyms[i] in r)
      && (forall g :: g in r ==> g in gyms)
  {
    if DeleteGym(gyms, id).1 {
      RemoveFirstKeepsOthers(gyms, (g: Gym) => g.id == id);
    }
  }

  /** `assignTypeExercisesToGym(gymId, ids)`: the list is replaced whole. */
  function AssignTypeExercises(gyms: seq<Gym>, id: Id, exerciseIds: seq<Id>): (r: Option<(seq<Gym>, Gym)>)
    ensures r.None? <==> forall i :: 0 <= i < |gyms| ==> gyms[i].id != id
    ensures r.Some? ==>
      var k := IndexOfGym(gyms, id).value;
      && r.value.1.assignedTypeExercises == exerciseIds
      && r.value.1.(assignedTypeExercises := gyms[k].assignedTypeExercises) == gyms[k]
      && r.value.0 == gyms[k := r.value.1]
  {
    UpdateGymWith(gyms, id, (g: Gym) => g.(assignedTypeExercises := exerciseIds))
  }

  /** `addTypeExerciseToGym(gymId, e)`: `$addToSet`, never a duplicate. */
  function AddTypeExercise(gyms: seq<Gym>, id: Id, e: Id): (r: Option<(seq<Gym>, Gym)>)
    ensures r.None? <==> forall i :: 0 <= i < |gyms| ==> gyms[i].id != id
    ensures r.Some? ==>
      var k := IndexOfGym(gyms, id).value;
      var list := r.value.1.assignedTypeExercises;
      && e in list
      && (forall x :: x in list <==> x in gyms[k].assignedTypeExercises || x == e)
      && (e in gyms[k].assignedTypeExercises ==> list == gyms[k].assignedTypeExercises)
      && (NoDup(gyms[k].assignedTypeExercises) ==> NoDup(list))
      && r.value.1.(assignedTypeExercises := gyms[k].assignedTypeExercises) == gyms[k]
      && r.value.0 == gyms[k := r.value.1]
  {
    UpdateGymWith(gyms, id, (g: Gym) => g.(assignedTypeExercises := AddToSet(g.assignedTypeExercises, e)))
  }

  /** `removeTypeExerciseFromGym(gymId, e)`: `$pull`, every occurrence goes. */
  function RemoveTypeExercise(gyms: seq<Gym>, id: Id, e: Id): (r: Option<(seq<Gym>, Gym)>)
    ensures r.None? <==> forall i :: 0 <= i < |gyms| ==> gyms[i].id != id
    ensures r.Some? ==>
      var k := IndexOfGym(gyms, id).value;
      var list := r.value.1.assignedTypeExercises;
      && e !in list
      && (forall x :: x in list <==> x in gyms[k].assignedTypeExercises && x != e)
      && r.value.1.(assignedTypeExercises := gyms[k].assignedTypeExercises) == gyms[k]
      && r.value.0 == gyms[k := r.value.1]
  {
    UpdateGymWith(gyms, id, (g: Gym) => g.(assignedTypeExercises := Pull(g.assignedTypeExercises, e)))
  }

  /** Adding an exercise type and removing it again leaves the other types as
      they were and this one absent. */
  lemma AddThenRemove(gyms: seq<Gym>, id: Id, e: Id)
    requires AddTypeExercise(gyms, id, e).Some?
    ensures RemoveTypeExercise(AddTypeExercise(gyms, id, e).value.0, id, e).Some?
    ensures var k := IndexOfGym(gyms, id).value;
      var list := RemoveTypeExercise(AddTypeExercise(gyms, id, e).value.0, id, e).value.1.assignedTypeExercises;
      forall x :: x in list <==> x in gyms[k].assignedTypeExercises && x != e
  {
    var k := IndexOfGym(gyms, id).value;
    var added := AddTypeExercise(gyms, id, e).value.0;
    assert IndexOfGym(added, id) == Some(k) by {
      assert added[k].id == id;
      assert forall j :: 0 <= j < k ==> added[j] == gyms[j];
    }
  }

  /** `getGymsByTypeExercise(e)`: the APPROVED gyms whose list holds `e`. */
  function GymsByTypeExercise(gyms: seq<Gym>, e: Id): (r: seq<Gym>)
    ensures forall g :: g in r <==> g in gyms && g.status == Approved && e in g.assignedTypeExercises
  {
    var r := Filter(gyms, (g: Gym) => g.status == Approved && e in g.assignedTypeExercises);
    assert forall g :: g in gyms && g.status == Approved && e in g.assignedTypeExercises ==> g in r by {
      forall g | g in gyms && g.status == Approved && e in g.assignedTypeExercises ensures g in r {
        var i :| 0 <= i < |gyms| && gyms[i] == g;
      }
    }
    r
  }
}

=== FILE: invitation_controller.dfy ===
/** The invitation handlers: inviting friends to a challenge, challenging
    one user, listing the pending invitations after the expiry sweep, and
    accepting or declining. Across all of them at most one PENDING
    invitation exists per (challenge, sender, recipient). */
module InvitationController {
  import opened Common
  import opened Collections
  import opened Store
  import opened UserSchema
  import opened ChallengeSchema
  import opened ParticipationSchema
  import opened InvitationSchema
  import ChallengeService
  import ParticipationService
  import InvitationService
  import UserService
  import JsEquality
  import Text

  /** At most one PENDING invitation per (challenge, sender, recipient). */
  predicate PendingTriplesUnique(invs: seq<Invitation>) {
    forall i, j :: 0 <= i < j < |invs| && invs[i].status == Pending && invs[j].status == Pending ==>
      !InvitationService.SameTriple(invs[j], invs[i].challengeId, invs[i].fromUserId, invs[i].toUserId)
  }

  /** A pending invitation found in a collection is still found once more
      invitations are appended. */
  lemma ExistingPersists(a: seq<Invitation>, b: seq<Invitation>, challengeId: Id, fromUserId: Id, toUserId: Id)
    ensures InvitationService.ExistingInvitation(a, challengeId, fromUserId, toUserId).Some? ==>
      InvitationService.ExistingInvitation(a + b, challengeId, fromUserId, toUserId).Some?
  {
    if InvitationService.ExistingInvitation(a, challengeId, fromUserId, toUserId).Some? {
      var v := InvitationService.ExistingInvitation(a, challengeId, fromUserId, toUserId).value;
      var i :| 0 <= i < |a| && a[i] == v;
      assert (a + b)[i] == v;
    }
  }

  /** Appending a PENDING invitation for a triple that has none keeps the
      triples unique. */
  lemma AppendKeepsUnique(invs: seq<Invitation>, v: Invitation)
    requires InvitationService.ExistingInvitation(invs, v.challengeId, v.fromUserId, v.toUserId).None?
    ensures PendingTriplesUnique(invs) ==> PendingTriplesUnique(invs + [v])
  {
    if !PendingTriplesUnique(invs) { return; }
    var t := invs + [v];
    forall i, j | 0 <= i < j < |t| && t[i].status == Pending && t[j].status == Pending
      ensures !InvitationService.SameTriple(t[j], t[i].challengeId, t[i].fromUserId, t[i].toUserId)
    {
      if j == |invs| {
        assert t[i] == invs[i];
      } else {
        assert t[i] == invs[i] && t[j] == invs[j];
      }
    }
  }

  /** Moving an invitation out of PENDING keeps the triples unique. */
  lemma LeavingPendingKeepsUnique(invs: seq<Invitation>, k: nat, status: InvitationStatus)
    requires PendingTriplesUnique(invs) && k < |invs| && status != Pending
    ensures PendingTriplesUnique(invs[k := invs[k].(status := status)])
  {
    var t := invs[k := invs[k].(status := status)];
    forall i, j | 0 <= i < j < |t| && t[i].status == Pending && t[j].status == Pending
      ensures !InvitationService.SameTriple(t[j], t[i].challengeId, t[i].fromUserId, t[i].toUserId)
    {
      assert t[i] == invs[i] && t[j] == invs[j];
    }
  }

  // ---------------------------------------------------------------------
  // inviteFriendsToChallenge

  /** The ids of the caller's active friends (`getFriends`). */
  function FriendIds(users: seq<User>, callerId: Id): set<Id> {
    set v | v in UserService.Friends(users, ObjectId(callerId)) :: v.id
  }

  /** A requested id that is not one of the caller's active friends. */
  predicate NotAFriend(users: seq<User>, callerId: Id, f: RawId) {
    !f.ObjectId? || f.id !in FriendIds(users, callerId)
  }

  /** The result of the per-friend loop: the invitations collection, the
      invitations created and the friends skipped, in request order. */
  datatype InviteOutcome = InviteOutcome(invitations: seq<Invitation>, created: seq<Invitation>, skipped: seq<Id>)

  /** The loop over the friends: a friend with a PENDING invitation from the
      caller for this challenge, or already participating in it, is skipped;
      every other friend gets one new CHALLENGE_INVITE. */
  function InviteEach(invs: seq<Invitation>, parts: seq<Participation>, challengeId: Id, fromUserId: Id,
                      friends: seq<Id>, message: Option<string>, now: Millis): (r: InviteOutcome)
    ensures r.invitations == invs + r.created
    ensures |r.created| + |r.skipped| == |friends|
    ensures forall i :: 0 <= i < |r.created| ==>
      && r.created[i].challengeId == challengeId && r.created[i].fromUserId == fromUserId
      && r.created[i].kind == ChallengeInvite && r.created[i].status == Pending
      && r.created[i].toUserId in friends
    ensures forall i :: 0 <= i < |r.skipped| ==> r.skipped[i] in friends
    decreases |friends|
  {
    if |friends| == 0 then InviteOutcome(invs, [], [])
    else
      var f := friends[0];
      if || InvitationService.ExistingInvitation(invs, challengeId, fromUserId, f).Some?
         || ParticipationService.UserChallengeParticipation(parts, f, challengeId).Some? then
        var rest := InviteEach(invs, parts, challengeId, fromUserId, friends[1..], message, now);
        SkipStep(invs, challengeId, fromUserId, friends, rest);
        InviteOutcome(rest.invitations, rest.created, [f] + rest.skipped)
      else
        var (invs1, v) := InvitationSchema.Create(invs, challengeId, fromUserId, f, ChallengeInvite, message, now);
        var rest := InviteEach(invs1, parts, challengeId, fromUserId, friends[1..], message, now);
        CreateStep(invs, v, challengeId, fromUserId, friends, rest);
        InviteOutcome(rest.invitations, [v] + rest.created, rest.skipped)
  }

  /** What one pass of the loop over `friends` leaves behind. */
  predicate OutcomeOf(invs: seq<Invitation>, challengeId: Id, fromUserId: Id, friends: seq<Id>, r: InviteOutcome) {
    && r.invitations == invs + r.created
    && |r.created| + |r.skipped| == |friends|
    && (forall i :: 0 <= i < |r.created| ==>
      && r.created[i].challengeId == challengeId && r.created[i].fromUserId == fromUserId
      && r.created[i].kind == ChallengeInvite && r.created[i].status == Pending
      && r.created[i].toUserId in friends)
    && (forall i :: 0 <= i < |r.skipped| ==> r.skipped[i] in friends)
  }

  /** A friend already covered is skipped: the rest of the loop's outcome
      extends to the whole list. */
  lemma SkipStep(invs: seq<Invitation>, challengeId: Id, fromUserId: Id, friends: seq<Id>, rest: InviteOutcome)
    requires |friends| > 0
    requires OutcomeOf(invs, challengeId, fromUserId, friends[1..], rest)
    ensures OutcomeOf(invs, challengeId, fromUserId, friends,
                      InviteOutcome(rest.invitations, rest.created, [friends[0]] + rest.skipped))
  {
    TailMembers(friends);
  }

  /** A friend invited before the rest of the loop: the new invitation heads
      the created list. */
  lemma CreateStep(invs: seq<Invitation>, v: Invitation, challengeId: Id, fromUserId: Id, friends: seq<Id>,
                   rest: InviteOutcome)
    requires |friends| > 0
    requires v.challengeId == challengeId && v.fromUserId == fromUserId && v.toUserId == friends[0]
    requires v.kind == ChallengeInvite && v.status == Pending
    requires OutcomeOf(invs + [v], challengeId, fromUserId, friends[1..], rest)
    ensures OutcomeOf(invs, challengeId, fromUserId, friends,
                      InviteOutcome(rest.invitations, [v] + rest.created, rest.skipped))
  {
    TailMembers(friends);
    assert rest.invitations == invs + ([v] + rest.created);
  }

  lemma TailMembers<T>(s: seq<T>)
    requires |s| > 0
    ensures forall x :: x in s[1..] ==> x in s
  {
  }

  /** After the loop every listed friend has a PENDING invitation from the
      caller for the challenge, or participates in it. */
  lemma {:induction false} InviteEachCovers(invs: seq<Invitation>, parts: seq<Participation>, challengeId: Id,
                                            fromUserId: Id, friends: seq<Id>, message: Option<string>, now: Millis)
    ensures var r := InviteEach(invs, parts, challengeId, fromUserId, friends, message, now);
      forall i :: 0 <= i < |friends| ==>
        || InvitationService.ExistingInvitation(r.invitations, challengeId, fromUserId, friends[i]).Some?
        || ParticipationService.UserChallengeParticipation(parts, friends[i], challengeId).Some?
    decreases |friends|
  {
    if |friends| > 0 {
      var r := InviteEach(invs, parts, challengeId, fromUserId, friends, message, now);
      var f := friends[0];
      if || InvitationService.ExistingInvitation(invs, challengeId, fromUserId, f).Some?
         || ParticipationService.UserChallengeParticipation(parts, f, challengeId).Some? {
        InviteEachCovers(invs, parts, challengeId, fromUserId, friends[1..], message, now);
        var rest := InviteEach(invs, parts, challengeId, fromUserId, friends[1..], message, now);
        assert r.invitations == rest.invitations == invs + rest.created;
        ExistingPersists(invs, rest.created, challengeId, fromUserId, f);
        CoversStep(r.invitations, parts, challengeId, fromUserId, friends);
      } else {
        var (invs1, v) := InvitationSchema.Create(invs, challengeId, fromUserId, f, ChallengeInvite, message, now);
        InviteEachCovers(invs1, parts, challengeId, fromUserId, friends[1..], message, now);
        var rest := InviteEach(invs1, parts, challengeId, fromUserId, friends[1..], message, now);
        assert InvitationService.ExistingInvitation(invs1, challengeId, fromUserId, f).Some? by {
          assert invs1[|invs|] == v;
        }
        assert r.invitations == rest.invitations == invs1 + rest.created;
        ExistingPersists(invs1, rest.created, challengeId, fromUserId, f);
        CoversStep(r.invitations, parts, challengeId, fromUserId, friends);
      }
    }
  }

  /** A friend with a PENDING invitation from the caller, or already taking part. */
  predicate Covered(invs: seq<Invitation>, parts: seq<Participation>, challengeId: Id, fromUserId: Id, f: Id) {
    || InvitationService.ExistingInvitation(invs, challengeId, fromUserId, f).Some?
    || ParticipationService.UserChallengeParticipation(parts, f, challengeId).Some?
  }

  /** Coverage of the head and of the tail is coverage of the whole list. */
  lemma CoversStep(invs: seq<Invitation>, parts: seq<Participation>, challengeId: Id, fromUserId: Id, friends: seq<Id>)
    requires |friends| > 0
    requires Covered(invs, parts, challengeId, fromUserId, friends[0])
    requires forall i :: 0 <= i < |friends[1..]| ==> Covered(invs, parts, challengeId, fromUserId, friends[1..][i])
    ensures forall i :: 0 <= i < |friends| ==> Covered(invs, parts, challengeId, fromUserId, friends[i])
  {
    forall i | 1 <= i < |friends| ensures Covered(invs, parts, challengeId, fromUserId, friends[i]) {
      assert friends[i] == friends[1..][i - 1];
    }
  }

  /** The loop never creates a second PENDING invitation for a triple. */
  lemma {:induction false} InviteEachKeepsUnique(invs: seq<Invitation>, parts: seq<Participation>, challengeId: Id,
                                                 fromUserId: Id, friends: seq<Id>, message: Option<string>, now: Millis)
    requires PendingTriplesUnique(invs)
    ensures PendingTriplesUnique(InviteEach(invs, parts, challengeId, fromUserId, friends, message, now).invitations)
    decreases |friends|
  {
    if |friends| > 0 {
      var f := friends[0];
      if || InvitationService.ExistingInvitation(invs, challengeId, fromUserId, f).Some?
         || ParticipationService.UserChallengeParticipation(parts, f, challengeId).Some? {
        InviteEachKeepsUnique(invs, parts, challengeId, fromUserId, friends[1..], message, now);
      } else {
        var (invs1, v) := InvitationSchema.Create(invs, challengeId, fromUserId, f, ChallengeInvite, message, now);
        AppendKeepsUnique(invs, v);
        InviteEachKeepsUnique(invs1, parts, challengeId, fromUserId, friends[1..], message, now);
      }
    }
  }

  datatype InviteReply = InviteReply(db: Db, status: Status, created: seq<Invitation>, skipped: seq<Id>)

  /** Every requested id is a valid id of one of the caller's active friends. */
  predicate AllFriends(users: seq<User>, callerId: Id, friendIds: seq<RawId>) {
    forall i :: 0 <= i < |friendIds| ==> !NotAFriend(users, callerId, friendIds[i])
  }

  function RawIdsValues(friendIds: seq<RawId>): (r: seq<Id>)
    requires forall i :: 0 <= i < |friendIds| ==> friendIds[i].ObjectId?
    ensures |r| == |friendIds|
    ensures forall i :: 0 <= i < |r| ==> friendIds[i] == ObjectId(r[i])
    ensures forall x :: x in r ==> ObjectId(x) in friendIds
  {
    var r := seq(|friendIds|, i requires 0 <= i < |friendIds| => friendIds[i].id);
    assert forall x :: x in r ==> ObjectId(x) in friendIds by {
      forall x | x in r ensures ObjectId(x) in friendIds {
        var j :| 0 <= j < |r| && r[j] == x;
        assert friendIds[j] == ObjectId(r[j]);
      }
    }
    r
  }

  /** Everything after the challenge lookup, given the outcome of the
      creator test: a caller who is neither creator nor participant is
      refused, a list naming anyone but an active friend is refused as a
      whole, and otherwise the loop runs. */
  function InviteToFound(db: Db, caller: User, c: Challenge, isCreator: bool, friendIds: seq<RawId>,
                         message: Option<string>, now: Millis): (r: InviteReply)
    ensures var may := isCreator || ParticipationService.UserChallengeParticipation(db.participations, caller.id, c.id).Some?;
      && (r.status == Forbidden <==> !may)
      && (r.status == BadRequest <==> may && !AllFriends(db.users, caller.id, friendIds))
      && (r.status == Created <==> may && AllFriends(db.users, caller.id, friendIds))
      && (!r.status.Created? ==> r.db == db && r.created == [])
    ensures r.status.Created? ==>
      && r.db == db.(invitations := db.invitations + r.created)
      && |r.created| + |r.skipped| == |friendIds|
      && forall i :: 0 <= i < |r.created| ==>
        && r.created[i].challengeId == c.id && r.created[i].fromUserId == caller.id
        && r.created[i].kind == ChallengeInvite && r.created[i].status == Pending
        && ObjectId(r.created[i].toUserId) in friendIds
  {
    if !isCreator && ParticipationService.UserChallengeParticipation(db.participations, caller.id, c.id).None? then
      InviteReply(db, Forbidden, [], [])
    else if !AllFriends(db.users, caller.id, friendIds) then
      InviteReply(db, BadRequest, [], [])
    else
      var out := InviteEach(db.invitations, db.participations, c.id, caller.id, RawIdsValues(friendIds), message, now);
      InviteReply(db.(invitations := out.invitations), Created, out.created, out.skipped)
  }

  /** The creator test as written: `challenge.createdBy.toString() ===
      req.user._id.toString()`, where `createdBy` has been populated. */
  predicate IsCreatorAsWritten(c: Challenge, caller: User) {
    JsEquality.StrictEquals(JsEquality.JsString(JsEquality.ToText(JsEquality.PopulatedDocument(c.createdBy))),
                            JsEquality.JsString(JsEquality.ToText(JsEquality.ObjectIdObject(caller.id))))
  }

  /** `inviteFriendsToChallenge` with the creator test as written. */
  function InviteFriendsAsWritten(db: Db, caller: User, challengeId: RawId, friendIds: Option<seq<RawId>>,
                                  message: Option<string>, now: Millis): (r: InviteReply)
    ensures friendIds.None? || |friendIds.value| == 0 ==> r.status == BadRequest && r.db == db
  {
    if friendIds.None? || |friendIds.value| == 0 then InviteReply(db, BadRequest, [], [])
    else if !challengeId.ObjectId? then InviteReply(db, InternalError, [], [])
    else
      match ChallengeService.ChallengeById(db.challenges, challengeId.id)
      case None => InviteReply(db, NotFound, [], [])
      case Some(c) => InviteToFound(db, caller, c, IsCreatorAsWritten(c, caller), friendIds.value, message, now)
  }

  /** The caller may invite to the challenge: its creator, or a participant. */
  predicate MayInvite(db: Db, caller: User, c: Challenge) {
    c.createdBy == caller.id || ParticipationService.UserChallengeParticipation(db.participations, caller.id, c.id).Some?
  }

  /** `inviteFriendsToChallenge` with the creator test comparing ids: a
      missing or empty list is a 400, an unknown challenge a 404, a caller
      who is neither creator nor participant a 403, and a list naming
      anyone but an active friend a 400 with nothing created. Otherwise the
      answer is 201, and every requested friend is either invited or
      skipped. */
  function InviteFriends(db: Db, caller: User, challengeId: RawId, friendIds: Option<seq<RawId>>,
                         message: Option<string>, now: Millis): (r: InviteReply)
    ensures friendIds.None? || |friendIds.value| == 0 ==> r == InviteReply(db, BadRequest, [], [])
    ensures friendIds.Some? && |friendIds.value| > 0 && !challengeId.ObjectId? ==> r == InviteReply(db, InternalError, [], [])
    ensures friendIds.Some? && |friendIds.value| > 0 && challengeId.ObjectId? ==>
      var c := ChallengeService.ChallengeById(db.challenges, challengeId.id);
      && (r.status == NotFound <==> c.None?)
      && (r.status == Forbidden <==> c.Some? && !MayInvite(db, caller, c.value))
      && (r.status == BadRequest <==> c.Some? && MayInvite(db, caller, c.value) && !AllFriends(db.users, caller.id, friendIds.value))
      && (r.status == Created <==> c.Some? && MayInvite(db, caller, c.value) && AllFriends(db.users, caller.id, friendIds.value))
      && (!r.status.Created? ==> r.db == db && r.created == [])
      && (r.status.Created? ==>
        && r.db == db.(invitations := db.invitations + r.created)
        && |r.created| + |r.skipped| == |friendIds.value|
        && forall i :: 0 <= i < |r.created| ==>
          && r.created[i].challengeId == challengeId.id && r.created[i].fromUserId == caller.id
          && r.created[i].kind == ChallengeInvite && r.created[i].status == Pending
          && ObjectId(r.created[i].toUserId) in friendIds.value)
  {
    if friendIds.None? || |friendIds.value| == 0 then InviteReply(db, BadRequest, [], [])
    else if !challengeId.ObjectId? then InviteReply(db, InternalError, [], [])
    else
      match ChallengeService.ChallengeById(db.challenges, challengeId.id)
      case None => InviteReply(db, NotFound, [], [])
      case Some(c) =>
        InviteToFound(db, caller, c, c.createdBy == caller.id, friendIds.value, message, now)
  }

  /** After a successful invitation every requested friend holds a PENDING
      invitation from the caller for the challenge or already takes part,
      and no triple has two PENDING invitations. */
  lemma InviteFriendsCovers(db: Db, caller: User, challengeId: Id, friendIds: seq<RawId>, message: Option<string>, now: Millis)
    requires PendingTriplesUnique(db.invitations)
    requires InviteFriends(db, caller, ObjectId(challengeId), Some(friendIds), message, now).status == Created
    ensures var db' := InviteFriends(db, caller, ObjectId(challengeId), Some(friendIds), message, now).db;
      && PendingTriplesUnique(db'.invitations)
      && forall i :: 0 <= i < |friendIds| ==>
        && friendIds[i].ObjectId?
        && (|| InvitationService.ExistingInvitation(db'.invitations, challengeId, caller.id, friendIds[i].id).Some?
            || ParticipationService.UserChallengeParticipation(db.participations, friendIds[i].id, challengeId).Some?)
  {
    var c := ChallengeService.ChallengeById(db.challenges, challengeId).value;
    var ids := RawIdsValues(friendIds);
    InviteEachCovers(db.invitations, db.participations, c.id, caller.id, ids, message, now);
    InviteEachKeepsUnique(db.invitations, db.participations, c.id, caller.id, ids, message, now);
  }

  /** As written, the creator of a challenge who has not joined it cannot
      invite: the populated creator prints as an object, never as the
      caller's id, so the creator gets a 403 where the id comparison
      proceeds to the invitations. */
  lemma CreatorCannotInvite(db: Db, caller: User, challengeId: Id, friendIds: seq<RawId>, message: Option<string>, now: Millis)
    requires |friendIds| > 0 && AllFriends(db.users, caller.id, friendIds)
    requires ChallengeService.ChallengeById(db.challenges, challengeId).Some?
    requires ChallengeService.ChallengeById(db.challenges, challengeId).value.createdBy == caller.id
    requires ParticipationService.UserChallengeParticipation(db.participations, caller.id, challengeId).None?
    ensures InviteFriendsAsWritten(db, caller, ObjectId(challengeId), Some(friendIds), message, now).status == Forbidden
    ensures InviteFriends(db, caller, ObjectId(challengeId), Some(friendIds), message, now).status == Created
  {
    var c := ChallengeService.ChallengeById(db.challenges, challengeId).value;
    JsEquality.DocumentTextIsNotIdText(c.createdBy, caller.id);
  }

  // ---------------------------------------------------------------------
  // challengeUser

  /** `${firstName} ${lastName} vous défie!`, the message of a challenge sent without one. */
  function DefaultChallengeMessage(caller: User): string {
    caller.firstName + " " + caller.lastName + " vous d\U{E9}fie!"
  }

  /** `challengeUser`, in the order of its checks: no target id (400;
      `userId` is `None` for an absent or empty id, as `Text.BodyId` reads it), an
      unknown challenge (404), a missing or inactive target (404), the
      caller themself (400), a PENDING invitation already sent (400), a
      target already taking part (400); only then one FRIEND_CHALLENGE. */
  function ChallengeUser(db: Db, caller: User, challengeId: RawId, userId: Option<RawId>,
                         message: Option<string>, now: Millis): (r: Reply)
    ensures userId.None? ==> r == Reply(db, BadRequest)
    ensures userId.Some? && !challengeId.ObjectId? ==> r == Reply(db, InternalError)
    ensures userId.Some? && challengeId.ObjectId? ==>
      var cid := challengeId.id;
      var found := ChallengeService.ChallengeById(db.challenges, cid);
      var target := FindUserById(db.users, userId.value);
      var reachable := found.Some? && target.Some? && target.value.isActive;
      var obstacle := reachable &&
        (|| target.value.id == caller.id
         || InvitationService.ExistingInvitation(db.invitations, cid, caller.id, target.value.id).Some?
         || ParticipationService.UserChallengeParticipation(db.participations, target.value.id, cid).Some?);
      && (r.status == NotFound <==> !reachable)
      && (r.status == BadRequest <==> obstacle)
      && (r.status == Created <==> reachable && !obstacle)
      && (!r.status.Created? ==> r.db == db)
      && (r.status.Created? ==>
        var n := |db.invitations|;
        && |r.db.invitations| == n + 1
        && r.db == db.(invitations := db.invitations + [r.db.invitations[n]])
        && var v := r.db.invitations[n];
        && v.challengeId == cid && v.fromUserId == caller.id && v.toUserId == target.value.id
        && v.kind == FriendChallenge && v.status == Pending && v.expiresAt == now + InvitationLifetime
        && v.message.Some?
        && (Truthy(message) ==> v.message.value == Text.Trim(message.value))
        && (!Truthy(message) ==> v.message.value == Text.Trim(DefaultChallengeMessage(caller))))
  {
    if userId.None? then Reply(db, BadRequest)
    else if !challengeId.ObjectId? then Reply(db, InternalError)
    else
      var cid := challengeId.id;
      if ChallengeService.ChallengeById(db.challenges, cid).None? then Reply(db, NotFound)
      else
        match FindUserById(db.users, userId.value)
        case None => Reply(db, NotFound)
        case Some(target) =>
          if !target.isActive then Reply(db, NotFound)
          else if target.id == caller.id then Reply(db, BadRequest)
          else if InvitationService.ExistingInvitation(db.invitations, cid, caller.id, target.id).Some? then Reply(db, BadRequest)
          else if ParticipationService.UserChallengeParticipation(db.participations, target.id, cid).Some? then Reply(db, BadRequest)
          else
            var text := if Truthy(message) then message.value else DefaultChallengeMessage(caller);
            var (invs', _) := InvitationSchema.Create(db.invitations, cid, caller.id, target.id, FriendChallenge, Some(text), now);
            Reply(db.(invitations := invs'), Created)
  }

  /** An empty `userId` is falsy: the request is a 400 before the challenge
      is looked up, and nothing changes. */
  lemma EmptyTargetRefused(db: Db, caller: User, challengeId: RawId, message: Option<string>, now: Millis)
    ensures ChallengeUser(db, caller, challengeId, Text.BodyId(Some("")), message, now) == Reply(db, BadRequest)
  {
  }

  /** A challenge sent keeps the PENDING triples unique, and sending the same
      challenge again is refused while the first is pending. */
  lemma ChallengeTwiceRefused(db: Db, caller: User, challengeId: Id, userId: Id, message: Option<string>, now: Millis, later: Millis)
    requires ChallengeUser(db, caller, ObjectId(challengeId), Some(ObjectId(userId)), message, now).status == Created
    ensures var db' := ChallengeUser(db, caller, ObjectId(challengeId), Some(ObjectId(userId)), message, now).db;
      && (PendingTriplesUnique(db.invitations) ==> PendingTriplesUnique(db'.invitations))
      && ChallengeUser(db', caller, ObjectId(challengeId), Some(ObjectId(userId)), message, later) == Reply(db', BadRequest)
  {
    var db' := ChallengeUser(db, caller, ObjectId(challengeId), Some(ObjectId(userId)), message, now).db;
    var n := |db.invitations|;
    var v := db'.invitations[n];
    AppendKeepsUnique(db.invitations, v);
    assert InvitationService.ExistingInvitation(db'.invitations, challengeId, caller.id, userId).Some? by {
      assert db'.invitations[n].status == Pending;
    }
  }

  // ---------------------------------------------------------------------
  // getPendingInvitations

  datatype ListReply = ListReply(db: Db, invitations: seq<Invitation>)

  /** `getPendingInvitations`: the sweep runs first, so every invitation
      listed is addressed to the caller, PENDING and not yet overdue, and
      every such invitation is listed, newest first. */
  function PendingInvitations(db: Db, caller: User, now: Millis): (r: ListReply)
    ensures r.db == db.(invitations := InvitationService.ExpireOld(db.invitations, now))
    ensures forall v :: v in r.invitations ==> v.toUserId == caller.id && v.status == Pending && v.expiresAt >= now
    ensures forall v :: v in db.invitations && v.toUserId == caller.id && v.status == Pending && v.expiresAt >= now ==>
      v in r.invitations
    ensures forall i, j :: 0 <= i < j < |r.invitations| ==> r.invitations[i].createdAt >= r.invitations[j].createdAt
  {
    var swept := InvitationService.ExpireOld(db.invitations, now);
    var list := InvitationService.UserInvitations(swept, caller.id, Some(Pending));
    InvitationService.ExpireOldKeepsValid(db.invitations, now);
    ListReply(db.(invitations := swept), list)
  }

  // ---------------------------------------------------------------------
  // acceptInvitation and declineInvitation

  /** The invitation is read with its references populated: one whose
      document is gone reads as `null`, and taking `._id` of it throws. */
  predicate UserGone(db: Db, id: Id) {
    IndexOf(db.users, id).None?
  }

  /** The invitation addressed to the caller and still PENDING, as both
      answers require; a failure stands for the 404, 500, 403 and 400
      before any write. */
  function Answerable(db: Db, caller: User, invitationId: RawId): (r: Result<Invitation, Status>)
    ensures var found := InvitationService.InvitationById(db.invitations, invitationId);
      && (found.None? ==> r == Failure(NotFound))
      && (found.Some? && UserGone(db, found.value.toUserId) ==> r == Failure(InternalError))
      && (found.Some? && !UserGone(db, found.value.toUserId) && found.value.toUserId != caller.id ==> r == Failure(Forbidden))
      && (found.Some? && !UserGone(db, found.value.toUserId) && found.value.toUserId == caller.id ==>
            r == if found.value.status != Pending then Failure(BadRequest) else Success(found.value))
  {
    match InvitationService.InvitationById(db.invitations, invitationId)
    case None => Failure(NotFound)
    case Some(v) =>
      if UserGone(db, v.toUserId) then Failure(InternalError)
      else if v.toUserId != caller.id then Failure(Forbidden)
      else if v.status != Pending then Failure(BadRequest)
      else Success(v)
  }

  /** The invitations with the answered one set to `status`. */
  function SetStatus(db: Db, invitationId: RawId, status: InvitationStatus): seq<Invitation> {
    match InvitationService.UpdateStatus(db.invitations, invitationId, status)
    case None => db.invitations
    case Some((invs', _)) => invs'
  }

  /** `acceptInvitation`: past its expiry (strictly) the invitation becomes
      EXPIRED and the answer is 400; a challenge that is gone throws (500)
      before any write; a recipient already taking part gets it ACCEPTED and
      a 400; a sender who is gone throws (500) once it is ACCEPTED;
      otherwise it is ACCEPTED, the recipient joins the challenge as invited
      by the sender, and the challenge counts one more participant, without
      any capacity check. */
  function AcceptInvitation(db: Db, caller: User, invitationId: RawId, now: Millis): (r: Reply)
    ensures Answerable(db, caller, invitationId).Failure? ==> r == Reply(db, Answerable(db, caller, invitationId).error)
    ensures Answerable(db, caller, invitationId).Success? ==>
      var v := Answerable(db, caller, invitationId).value;
      var k := InvitationService.IndexOfInvitation(db.invitations, invitationId.id).value;
      var participating := ParticipationService.UserChallengeParticipation(db.participations, caller.id, v.challengeId).Some?;
      var challengeGone := ChallengeService.ChallengeById(db.challenges, v.challengeId).None?;
      && (v.expiresAt < now ==> r == Reply(db.(invitations := db.invitations[k := v.(status := Expired)]), BadRequest))
      && (v.expiresAt >= now && challengeGone ==> r == Reply(db, InternalError))
      && (v.expiresAt >= now && !challengeGone && participating ==>
            r == Reply(db.(invitations := db.invitations[k := v.(status := Accepted)]), BadRequest))
      && (v.expiresAt >= now && !challengeGone && !participating && UserGone(db, v.fromUserId) ==>
            r == Reply(db.(invitations := db.invitations[k := v.(status := Accepted)]), InternalError))
      && (v.expiresAt >= now && !challengeGone && !participating && !UserGone(db, v.fromUserId) ==>
        && r.status == Ok
        && r.db.invitations == db.invitations[k := v.(status := Accepted)]
        && |r.db.participations| == |db.participations| + 1
        && r.db.participations[..|db.participations|] == db.participations
        && var p := r.db.participations[|db.participations|];
        && p.userId == caller.id && p.challengeId == v.challengeId && p.invitedBy == Some(v.fromUserId)
        && p.status == Joined
        && (var j := ChallengeService.IndexOfChallenge(db.challenges, v.challengeId).value;
            var c := db.challenges[j];
            r.db.challenges == db.challenges[j := c.(currentParticipants := c.currentParticipants + 1)])
        && r.db.(invitations := db.invitations, participations := db.participations, challenges := db.challenges) == db)
  {
    match Answerable(db, caller, invitationId)
    case Failure(status) => Reply(db, status)
    case Success(v) =>
      if v.expiresAt < now then Reply(db.(invitations := SetStatus(db, invitationId, Expired)), BadRequest)
      else if ChallengeService.ChallengeById(db.challenges, v.challengeId).None? then Reply(db, InternalError)
      else if ParticipationService.UserChallengeParticipation(db.participations, caller.id, v.challengeId).Some? then
        Reply(db.(invitations := SetStatus(db, invitationId, Accepted)), BadRequest)
      else if UserGone(db, v.fromUserId) then Reply(db.(invitations := SetStatus(db, invitationId, Accepted)), InternalError)
      else
        var (parts', _) := ParticipationSchema.Create(db.participations, caller.id, v.challengeId, Some(v.fromUserId), now);
        var challenges' :=
          match ChallengeService.IncrementParticipants(db.challenges, v.challengeId)
          case None => db.challenges
          case Some((cs, _)) => cs;
        Reply(db.(invitations := SetStatus(db, invitationId, Accepted), participations := parts', challenges := challenges'), Ok)
  }

  /** `declineInvitation`: the same 404, 403 and 400, then DECLINED; there
      is no expiry check. */
  function DeclineInvitation(db: Db, caller: User, invitationId: RawId): (r: Reply)
    ensures Answerable(db, caller, invitationId).Failure? ==> r == Reply(db, Answerable(db, caller, invitationId).error)
    ensures Answerable(db, caller, invitationId).Success? ==>
      var v := Answerable(db, caller, invitationId).value;
      var k := InvitationService.IndexOfInvitation(db.invitations, invitationId.id).value;
      r == Reply(db.(invitations := db.invitations[k := v.(status := Declined)]), Ok)
  {
    match Answerable(db, caller, invitationId)
    case Failure(status) => Reply(db, status)
    case Success(v) => Reply(db.(invitations := SetStatus(db, invitationId, Declined)), Ok)
  }

  /** An answered invitation cannot be answered again: after a successful
      accept, both a second accept and a decline are refused with 400. */
  lemma AnswerIsFinal(db: Db, caller: User, invitationId: Id, now: Millis, later: Millis)
    requires AcceptInvitation(db, caller, ObjectId(invitationId), now).status == Ok
    ensures var db' := AcceptInvitation(db, caller, ObjectId(invitationId), now).db;
      && AcceptInvitation(db', caller, ObjectId(invitationId), later) == Reply(db', BadRequest)
      && DeclineInvitation(db', caller, ObjectId(invitationId)) == Reply(db', BadRequest)
  {
    var db' := AcceptInvitation(db, caller, ObjectId(invitationId), now).db;
    var v := Answerable(db, caller, ObjectId(invitationId)).value;
    var k := InvitationService.IndexOfInvitation(db.invitations, invitationId).value;
    FindFirstAfterReplace(db.invitations, (x: Invitation) => x.id == invitationId, k, v.(status := Accepted));
    assert InvitationService.InvitationById(db'.invitations, ObjectId(invitationId)) == Some(v.(status := Accepted));
    assert db'.users == db.users;
    assert Answerable(db', caller, ObjectId(invitationId)) == Failure(BadRequest);
  }

  /** An overdue invitation can still be declined, while accepting it
      marks it EXPIRED and refuses. */
  lemma DeclineIgnoresExpiry(db: Db, caller: User, invitationId: Id, now: Millis)
    requires Answerable(db, caller, ObjectId(invitationId)).Success?
    requires Answerable(db, caller, ObjectId(invitationId)).value.expiresAt < now
    ensures AcceptInvitation(db, caller, ObjectId(invitationId), now).status == BadRequest
    ensures DeclineInvitation(db, caller, ObjectId(invitationId)).status == Ok
    ensures var k := InvitationService.IndexOfInvitation(db.invitations, invitationId).value;
      && AcceptInvitation(db, caller, ObjectId(invitationId), now).db.invitations[k].status == Expired
      && DeclineInvitation(db, caller, ObjectId(invitationId)).db.invitations[k].status == Declined
  {
  }

  /** Answering an invitation, and the expiry sweep, keep at most one
      PENDING invitation per triple. */
  lemma AnswersKeepUnique(db: Db, caller: User, invitationId: RawId, now: Millis)
    requires PendingTriplesUnique(db.invitations)
    ensures PendingTriplesUnique(AcceptInvitation(db, caller, invitationId, now).db.invitations)
    ensures PendingTriplesUnique(DeclineInvitation(db, caller, invitationId).db.invitations)
    ensures PendingTriplesUnique(PendingInvitations(db, caller, now).db.invitations)
  {
    if Answerable(db, caller, invitationId).Success? {
      var k := InvitationService.IndexOfInvitation(db.invitations, invitationId.id).value;
      LeavingPendingKeepsUnique(db.invitations, k, Expired);
      LeavingPendingKeepsUnique(db.invitations, k, Accepted);
      LeavingPendingKeepsUnique(db.invitations, k, Declined);
    }
    var swept := InvitationService.ExpireOld(db.invitations, now);
    forall i, j | 0 <= i < j < |swept| && swept[i].status == Pending && swept[j].status == Pending
      ensures !InvitationService.SameTriple(swept[j], swept[i].challengeId, swept[i].fromUserId, swept[i].toUserId)
    {
      assert swept[i] == db.invitations[i] && swept[j] == db.invitations[j];
    }
  }
}

=== FILE: invitation_schema.dfy ===
/** The invitation document: who invites whom to which challenge, its
    lifecycle status and its expiry, with the defaults of the invitation schema. */
module InvitationSchema {
  import opened Common
  import opened Collections
  import Text

  datatype InvitationStatus = Pending | Accepted | Declined | Expired {
    /** The enumeration's string value. */
    function Name(): string {
      match this
      case Pending => "PENDING"
      case Accepted => "ACCEPTED"
      case Declined => "DECLINED"
      case Expired => "EXPIRED"
    }
  }

  datatype InvitationType = ChallengeInvite | FriendChallenge {
    /** The enumeration's string value. */
    function Name(): string {
      match this
      case ChallengeInvite => "CHALLENGE_INVITE"
      case FriendChallenge => "FRIEND_CHALLENGE"
    }
  }

  datatype Invitation = Invitation(
    id: Id,
    challengeId: Id,
    fromUserId: Id,
    toUserId: Id,
    kind: InvitationType,
    status: InvitationStatus,
    message: Option<string>,
    expiresAt: Millis,
    createdAt: Millis)

  /** Seven days in milliseconds, the default lifetime of an invitation. */
  const InvitationLifetime: int := 7 * DayMillis

  /** `invitationModel.create({challengeId, fromUserId, toUserId, type, message})`:
      a new invitation is PENDING and expires seven days after its creation. */
  function Create(invs: seq<Invitation>, challengeId: Id, fromUserId: Id, toUserId: Id,
                  kind: InvitationType, message: Option<string>, now: Millis)
    : (r: (seq<Invitation>, Invitation))
    ensures r.0 == invs + [r.1]
    ensures forall i :: 0 <= i < |invs| ==> invs[i].id != r.1.id
    ensures r.1.challengeId == challengeId && r.1.fromUserId == fromUserId && r.1.toUserId == toUserId
    ensures r.1.kind == kind
    ensures r.1.status == Pending
    ensures r.1.expiresAt == now + 604_800_000
    ensures r.1.createdAt == now
    ensures message.Some? ==> r.1.message == Some(Text.Trim(message.value))
  {
    var msg := if message.Some? then Some(Text.Trim(message.value)) else None;
    var inv := Invitation(FreshId(invs, (x: Invitation) => x.id), challengeId, fromUserId, toUserId,
                          kind, Pending, msg, now + InvitationLifetime, now);
    (invs + [inv], inv)
  }
}

=== FILE: invitation_service.dfy ===
/** The invitation service: lookup, the status write, the duplicate test,
    the lazy expiry sweep, the listings and deletion. */
module InvitationService {
  import opened Common
  import opened Collections
  import opened Ordering
  import opened InvitationSchema

  function IndexOfInvitation(invs: seq<Invitation>, id: Id): Option<nat> {
    FindFirst(invs, (v: Invitation) => v.id == id)
  }

  /** `getInvitationById(id)`: `None` for a malformed id. */
  function InvitationById(invs: seq<Invitation>, id: RawId): (r: Option<Invitation>)
    ensures r.Some? ==> id.ObjectId? && r.value in invs && r.value.id == id.id
    ensures r.None? <==> !id.ObjectId? || forall i :: 0 <= i < |invs| ==> invs[i].id != id.id
  {
    if !id.ObjectId? then None
    else
      match IndexOfInvitation(invs, id.id)
      case None => None
      case Some(k) => Some(invs[k])
  }

  /** `updateInvitationStatus(id, status)`: `None` for a malformed or unknown
      id; otherwise only the status changes, whatever it was before. */
  function UpdateStatus(invs: seq<Invitation>, id: RawId, status: InvitationStatus)
    : (r: Option<(seq<Invitation>, Invitation)>)
    ensures r.None? <==> !id.ObjectId? || forall i :: 0 <= i < |invs| ==> invs[i].id != id.id
    ensures r.Some? ==>
      var k := IndexOfInvitation(invs, id.id).value;
      && r.value.1 == invs[k].(status := status)
      && r.value.0 == invs[k := r.value.1]
  {
    if !id.ObjectId? then None
    else UpdateFirst(invs, (v: Invitation) => v.id == id.id, (v: Invitation) => v.(status := status))
  }

  /** There is no transition check: an ACCEPTED invitation can be put back to PENDING. */
  lemma UpdateStatusUnchecked(invs: seq<Invitation>, id: Id)
    requires exists i :: 0 <= i < |invs| && invs[i].id == id && invs[i].status == Accepted
    requires forall i, j :: 0 <= i < j < |invs| ==> invs[i].id != invs[j].id
    ensures UpdateStatus(invs, ObjectId(id), Pending).Some?
    ensures UpdateStatus(invs, ObjectId(id), Pending).value.1.status == Pending
  {
  }

  /** The (challenge, sender, recipient) triple of an invitation. */
  predicate SameTriple(v: Invitation, challengeId: Id, fromUserId: Id, toUserId: Id) {
    v.challengeId == challengeId && v.fromUserId == fromUserId && v.toUserId == toUserId
  }

  /** `getExistingInvitation(challengeId, from, to)`: a PENDING invitation for
      the same triple; accepted, declined and expired ones never count. */
  function ExistingInvitation(invs: seq<Invitation>, challengeId: Id, fromUserId: Id, toUserId: Id)
    : (r: Option<Invitation>)
    ensures r.Some? ==> r.value in invs && r.value.status == Pending && SameTriple(r.value, challengeId, fromUserId, toUserId)
    ensures r.None? <==> forall i :: 0 <= i < |invs| ==>
      !(invs[i].status == Pending && SameTriple(invs[i], challengeId, fromUserId, toUserId))
  {
    match FindFirst(invs, (v: Invitation) => v.status == Pending && SameTriple(v, challengeId, fromUserId, toUserId))
    case None => None
    case Some(k) => Some(invs[k])
  }

  /** Overdue: still PENDING with `expiresAt` strictly before now. */
  predicate Overdue(v: Invitation, now: Millis) {
    v.status == Pending && v.expiresAt < now
  }

  /** `expireOldInvitations()`: exactly the overdue invitations become
      EXPIRED; every other invitation is left as it was. */
  function ExpireOld(invs: seq<Invitation>, now: Millis): (r: seq<Invitation>)
    ensures |r| == |invs|
    ensures forall i :: 0 <= i < |invs| && invs[i].status == Pending && invs[i].expiresAt < now ==>
      r[i] == invs[i].(status := Expired)
    ensures forall i :: 0 <= i < |invs| && !(invs[i].status == Pending && invs[i].expiresAt < now) ==>
      r[i] == invs[i]
  {
    UpdateAll(invs, (v: Invitation) => Overdue(v, now), (v: Invitation) => v.(status := Expired))
  }

  /** After a sweep every PENDING invitation is still valid at `now`, and
      every invitation that was PENDING and valid is kept as it was. */
  lemma ExpireOldKeepsValid(invs: seq<Invitation>, now: Millis)
    ensures forall v :: v in ExpireOld(invs, now) && v.status == Pending ==> v.expiresAt >= now
    ensures forall v :: v in invs && v.status == Pending && v.expiresAt >= now ==> v in ExpireOld(invs, now)
  {
    var swept := ExpireOld(invs, now);
    forall v | v in swept && v.status == Pending ensures v.expiresAt >= now {
      var i :| 0 <= i < |swept| && swept[i] == v;
    }
    forall v | v in invs && v.status == Pending && v.expiresAt >= now ensures v in swept {
      var i :| 0 <= i < |invs| && invs[i] == v;
      assert swept[i] == v;
    }
  }

  /** After a sweep no invitation is overdue, and a second sweep at the same
      time changes nothing. */
  lemma ExpireOldIdempotent(invs: seq<Invitation>, now: Millis)
    ensures forall i :: 0 <= i < |invs| ==> !Overdue(ExpireOld(invs, now)[i], now)
    ensures ExpireOld(ExpireOld(invs, now), now) == ExpireOld(invs, now)
  {
    var once := ExpireOld(invs, now);
    assert forall i :: 0 <= i < |invs| ==> !Overdue(once[i], now);
    var twice := ExpireOld(once, now);
    assert forall i :: 0 <= i < |invs| ==> twice[i] == once[i];
  }

  /** An invitation that has not yet reached its expiry survives the sweep as
      PENDING, including one expiring exactly now. */
  lemma ExpireOldKeepsCurrent(invs: seq<Invitation>, now: Millis, i: nat)
    requires i < |invs| && invs[i].status == Pending && invs[i].expiresAt >= now
    ensures ExpireOld(invs, now)[i] == invs[i]
  {
  }

  /** Sort key of `sort({createdAt: -1})`. */
  function NewestFirst(v: Invitation): seq<int> {
    [-v.createdAt]
  }

  /** Filter, then newest first. */
  function Listing(invs: seq<Invitation>, p: Invitation -> bool): (r: seq<Invitation>)
    ensures forall v :: v in r <==> v in invs && p(v)
    ensures forall i, j :: 0 <= i < j < |r| ==> r[i].createdAt >= r[j].createdAt
  {
    var r := SortBy(Filter(invs, p), NewestFirst);
    SortFilterMembers(invs, p, NewestFirst);
    assert forall i, j :: 0 <= i < j < |r| ==> r[i].createdAt >= r[j].createdAt by {
      forall i, j | 0 <= i < j < |r| ensures r[i].createdAt >= r[j].createdAt {
        assert LexLeq(NewestFirst(r[i]), NewestFirst(r[j]));
        LexLeqSingle(-r[i].createdAt, -r[j].createdAt);
      }
    }
    r
  }

  /** `getUserInvitations(userId, status?)`: the invitations addressed to the
      user, of the given status when one is given, newest first. */
  function UserInvitations(invs: seq<Invitation>, userId: Id, status: Option<InvitationStatus>): (r: seq<Invitation>)
    ensures forall v :: v in r <==> v in invs && v.toUserId == userId && (status.Some? ==> v.status == status.value)
    ensures forall i, j :: 0 <= i < j < |r| ==> r[i].createdAt >= r[j].createdAt
  {
    Listing(invs, (v: Invitation) => v.toUserId == userId && (status.Some? ==> v.status == status.value))
  }

  /** `getSentInvitations(userId)`: exactly the invitations the user sent, newest first. */
  function SentInvitations(invs: seq<Invitation>, userId: Id): (r: seq<Invitation>)
    ensures forall v :: v in r <==> v in invs && v.fromUserId == userId
    ensures forall i, j :: 0 <= i < j < |r| ==> r[i].createdAt >= r[j].createdAt
  {
    Listing(invs, (v: Invitation) => v.fromUserId == userId)
  }

  /** `deleteInvitation(id)`: false for a malformed id, and true exactly when
      an invitation was removed. */
  function DeleteInvitation(invs: seq<Invitation>, id: RawId): (r: (seq<Invitation>, bool))
    ensures r.1 <==> id.ObjectId? && exists i :: 0 <= i < |invs| && invs[i].id == id.id
    ensures r.1 ==> |r.0| == |invs| - 1
    ensures r.1 ==>
      var k := IndexOfInvitation(invs, id.id).value;
      && k < |invs| && invs[k].id == id.id && (forall j :: 0 <= j < k ==> invs[j].id != id.id)
      && r.0 == invs[..k] + invs[k + 1..]
    ensures !r.1 ==> r.0 == invs
  {
    if !id.ObjectId? then (invs, false)
    else
      match RemoveFirst(invs, (v: Invitation) => v.id == id.id)
      case None => (invs, false)
      case Some(rest) => (rest, true)
  }

  /** With unique ids, the deleted invitation is no longer found, every
      other invitation is kept, and nothing new appears. */
  lemma DeleteInvitationRemovesOnlyIt(invs: seq<Invitation>, id: Id)
    requires forall i, j :: 0 <= i < j < |invs| ==> invs[i].id != invs[j].id
    ensures var r := DeleteInvitation(invs, ObjectId(id)).0;
      && InvitationById(r, ObjectId(id)).None?
      && (forall i :: 0 <= i < |invs| && invs[i].id != id ==> invs[i] in r)
      && (forall v :: v in r ==> v in invs)
  {
    if DeleteInvitation(invs, ObjectId(id)).1 {
      RemoveFirstKeepsOthers(invs, (v: Invitation) => v.id == id);
    }
  }
}

=== FILE: js_equality.dfy ===
/** JavaScript's strict equality on the values the ownership checks
    compare: strings, ObjectId objects, and referenced documents that a
    query has populated. */
module JsEquality {
  import opened Common
  import Text

  /** A value a handler holds: a plain string (a route or body parameter,
      or the result of `toString()`), an `ObjectId` object read from a
      document, or a populated document standing where an id was stored. */
  datatype JsValue = JsString(text: string) | ObjectIdObject(id: Id) | PopulatedDocument(id: Id)

  /** The 24 hexadecimal digits of an ObjectId; an ObjectId has 96 bits, so
      a larger model id is taken modulo 16^24. */
  function HexId(id: Id): (s: string)
    ensures |s| == Text.ObjectIdHexLength
    ensures forall i :: 0 <= i < |s| ==> Text.IsHexDigit(s[i])
  {
    Text.NatToHex(id % Text.Pow16(Text.ObjectIdHexLength), Text.ObjectIdHexLength)
  }

  /** `String(v)`: an ObjectId prints as its hex digits; a document prints
      as an object literal, which starts with `{` (the fields after `_id`
      are not modelled). */
  function ToText(v: JsValue): (s: string)
    ensures v.PopulatedDocument? ==> |s| > 0 && s[0] == '{'
    ensures v.ObjectIdObject? ==> s == HexId(v.id)
  {
    match v
    case JsString(t) => t
    case ObjectIdObject(id) => HexId(id)
    case PopulatedDocument(id) => "{ _id: new ObjectId(\"" + HexId(id) + "\") }"
  }

  /** `a === b`. Two strings are equal when their texts are; objects are
      equal only to themselves, and every object these handlers compare
      comes from its own query, so no two of them are the same object. */
  predicate StrictEquals(a: JsValue, b: JsValue) {
    a.JsString? && b.JsString? && a.text == b.text
  }

  /** An object is never `===` to anything else in these handlers: a check
      `x === caller._id` is false whatever ids are involved. */
  lemma ObjectNeverStrictlyEqual(a: JsValue, id: Id)
    ensures !StrictEquals(a, ObjectIdObject(id))
    ensures !StrictEquals(ObjectIdObject(id), a)
  {
  }

  /** The text of a populated document never equals the text of an id. */
  lemma DocumentTextIsNotIdText(docId: Id, id: Id)
    ensures ToText(PopulatedDocument(docId)) != ToText(ObjectIdObject(id))
  {
    var t := ToText(ObjectIdObject(id));
    assert Text.IsHexDigit(t[0]);
  }

  /** Comparing the texts of two ObjectIds does decide whether the ids are
      equal (for ids of at most 96 bits). */
  lemma IdTextsEqualIffIdsEqual(a: Id, b: Id)
    requires a < Text.Pow16(Text.ObjectIdHexLength) && b < Text.Pow16(Text.ObjectIdHexLength)
    ensures ToText(ObjectIdObject(a)) == ToText(ObjectIdObject(b)) <==> a == b
  {
    var w := Text.ObjectIdHexLength;
    var m := Text.Pow16(w);
    SmallModulo(a, m);
    SmallModulo(b, m);
    HexInjective(a, b, w);
  }

  lemma SmallModulo(a: nat, m: nat)
    requires a < m
    ensures a % m == a
  {
  }

  lemma HexInjective(a: nat, b: nat, w: nat)
    requires a < Text.Pow16(w) && b < Text.Pow16(w)
    ensures Text.NatToHex(a, w) == Text.NatToHex(b, w) <==> a == b
  {
  }
}

=== FILE: numbers.dfy ===
/** `parseInt(s)` with no radix, as the controllers read numeric query
    parameters, and the `|| default` that follows it. */
module Numbers {
  import opened Common
  import Text

  predicate IsDigitIn(c: char, base: nat) {
    if base == 16 then Text.IsHexDigit(c) else '0' <= c <= '9'
  }

  function DigitValue(c: char): nat {
    if '0' <= c <= '9' then c as int - '0' as int
    else if 'a' <= c <= 'f' then c as int - 'a' as int + 10
    else if 'A' <= c <= 'F' then c as int - 'A' as int + 10
    else 0
  }

  /** Length of the longest prefix made of digits of the base. */
  function DigitPrefix(s: string, base: nat): (n: nat)
    ensures n <= |s|
    ensures forall i :: 0 <= i < n ==> IsDigitIn(s[i], base)
    ensures n < |s| ==> !IsDigitIn(s[n], base)
  {
    if |s| == 0 || !IsDigitIn(s[0], base) then 0 else 1 + DigitPrefix(s[1..], base)
  }

  /** Value of a digit string, most significant first. */
  function DigitsValue(s: string, base: nat): nat {
    if |s| == 0 then 0 else DigitsValue(s[..|s| - 1], base) * base + DigitValue(s[|s| - 1])
  }

  /** The digits after the sign: a `0x` or `0X` prefix selects base 16, and
      the longest run of digits that follows is read. */
  function ParseUnsigned(u: string): (r: Option<nat>)
    ensures r.Some? ==> |u| > 0 && '0' <= u[0] <= '9'
  {
    var hex := |u| >= 2 && u[0] == '0' && (u[1] == 'x' || u[1] == 'X');
    var base := if hex then 16 else 10;
    var v := if hex then u[2..] else u;
    var n := DigitPrefix(v, base);
    if n == 0 then None else Some(DigitsValue(v[..n], base))
  }

  /** The text after one optional leading sign. */
  function AfterSign(t: string): (u: string)
    ensures |u| <= |t| && u == t[|t| - |u|..] && |t| - |u| <= 1
  {
    if |t| > 0 && (t[0] == '-' || t[0] == '+') then t[1..] else t
  }

  predicate Negative(t: string) {
    |t| > 0 && t[0] == '-'
  }

  /** `parseInt(s)`: leading white space and one sign are skipped before the
      digits; with no digit the result is NaN, modelled as `None`. */
  function ParseInt(s: string): (r: Option<int>)
    ensures r.Some? ==> exists i :: 0 <= i < |s| && '0' <= s[i] <= '9'
  {
    SignedValue(Text.TrimStart(s))
  }

  /** The number at the start of `t`, after one optional sign. */
  function SignedValue(t: string): Option<int> {
    match ParseUnsigned(AfterSign(t))
    case None => None
    case Some(value) =>
      var v: int := value;
      Some(if Negative(t) then -v else v)
  }

  function DecimalDigit(d: nat): (c: char)
    requires d < 10
    ensures '0' <= c <= '9' && DigitValue(c) == d
  {
    ('0' as int + d) as char
  }

  /** The decimal text of a natural number, as `String(n)` writes it. */
  function NatText(n: nat): (s: string)
    ensures |s| > 0 && forall i :: 0 <= i < |s| ==> '0' <= s[i] <= '9'
    ensures DigitsValue(s, 10) == n
  {
    var s := (if n < 10 then "" else NatText(n / 10)) + [DecimalDigit(n % 10)];
    assert s[..|s| - 1] == (if n < 10 then "" else NatText(n / 10));
    s
  }

  /** The decimal text of an integer, with a leading `-` when negative. */
  function IntText(n: int): string {
    if n < 0 then "-" + NatText(-n) else NatText(n)
  }

  /** Reading back the decimal text of a number gives the number. */
  lemma ParseIntRoundTrip(n: int)
    ensures ParseInt(IntText(n)) == Some(n)
  {
    if n < 0 {
      assert IntText(n)[1..] == NatText(-n);
      ParseSignedDigits(IntText(n));
    } else {
      ParseDigits(NatText(n));
    }
  }

  lemma ParseDigits(d: string)
    requires |d| > 0 && forall i :: 0 <= i < |d| ==> '0' <= d[i] <= '9'
    ensures ParseInt(d) == Some(DigitsValue(d, 10))
  {
    TrimStartKeeps(d);
    assert AfterSign(d) == d && !Negative(d);
    ParseUnsignedDecimal(d);
  }

  lemma ParseSignedDigits(s: string)
    requires |s| > 1 && s[0] == '-' && forall i :: 1 <= i < |s| ==> '0' <= s[i] <= '9'
    ensures ParseInt(s) == Some(-(DigitsValue(s[1..], 10) as int))
  {
    TrimStartKeeps(s);
    var d := s[1..];
    assert Negative(s) && AfterSign(s) == d;
    ParseUnsignedDecimal(d);
    var v: int := DigitsValue(d, 10);
    assert ParseUnsigned(AfterSign(Text.TrimStart(s))) == Some(v);
  }

  /** A string not starting with white space is its own `trimStart`. */
  lemma TrimStartKeeps(s: string)
    requires |s| > 0 && (s[0] == '-' || '0' <= s[0] <= '9')
    ensures Text.TrimStart(s) == s
  {
    assert !Text.IsJsSpace(s[0]);
  }

  /** A string of decimal digits reads as its value. */
  lemma ParseUnsignedDecimal(d: string)
    requires |d| > 0 && forall i :: 0 <= i < |d| ==> '0' <= d[i] <= '9'
    ensures ParseUnsigned(d) == Some(DigitsValue(d, 10))
  {
    assert !(|d| >= 2 && d[0] == '0' && (d[1] == 'x' || d[1] == 'X')) by {
      if |d| >= 2 {
        assert '0' <= d[1] <= '9';
      }
    }
    DigitPrefixAll(d, 10);
    assert d[..DigitPrefix(d, 10)] == d;
  }

  lemma {:induction false} DigitPrefixAll(s: string, base: nat)
    requires forall i :: 0 <= i < |s| ==> IsDigitIn(s[i], base)
    ensures DigitPrefix(s, base) == |s|
  {
    if |s| > 0 {
      DigitPrefixAll(s[1..], base);
    }
  }

  /** What `parseInt` reads, decimal case: white space, one optional sign,
      then the longest run of decimal digits; what follows is ignored. */
  lemma ParseIntDecimal(w: string, sign: string, d: string, rest: string, n: nat)
    requires forall i :: 0 <= i < |w| ==> Text.IsJsSpace(w[i])
    requires sign == "" || sign == "+" || sign == "-"
    requires |d| > 0 && forall i :: 0 <= i < |d| ==> '0' <= d[i] <= '9'
    requires |rest| > 0 ==> !('0' <= rest[0] <= '9')
    requires !(d == "0" && |rest| > 0 && (rest[0] == 'x' || rest[0] == 'X'))
    requires n == DigitsValue(d, 10)
    ensures ParseInt(w + sign + d + rest) == Some(if sign == "-" then -(n as int) else n)
  {
    ParseUnsignedDecimalPrefix(d, rest);
    ReadWithTail(w, sign, d, rest, n);
  }

  /** What `parseInt` reads, hexadecimal case: white space, one optional
      sign, `0x` or `0X`, then the longest run of hex digits. */
  lemma ParseIntHex(w: string, sign: string, x: char, d: string, rest: string, n: nat)
    requires forall i :: 0 <= i < |w| ==> Text.IsJsSpace(w[i])
    requires sign == "" || sign == "+" || sign == "-"
    requires x == 'x' || x == 'X'
    requires |d| > 0 && forall i :: 0 <= i < |d| ==> IsDigitIn(d[i], 16)
    requires |rest| > 0 ==> !IsDigitIn(rest[0], 16)
    requires n == DigitsValue(d, 16)
    ensures ParseInt(w + sign + ['0', x] + d + rest) == Some(if sign == "-" then -(n as int) else n)
  {
    ParseUnsignedHexPrefix(x, d, rest);
    ReadWithTail(w, sign, ['0', x] + d, rest, n);
    RegroupMiddle(w, sign, ['0', x], d, rest);
  }

  /** Four texts joined in a row, grouped from the right. */
  lemma Regroup(a: string, b: string, c: string, e: string)
    ensures a + b + c + e == a + (b + (c + e))
  {
  }

  /** Five texts joined in a row, the middle two grouped. */
  lemma RegroupMiddle(a: string, b: string, c: string, d: string, e: string)
    ensures a + b + c + d + e == a + b + (c + d) + e
  {
  }

  /** Leading white space does not change what `parseInt` reads. */
  lemma ParseIntAfterSpace(w: string, t: string)
    requires forall i :: 0 <= i < |w| ==> Text.IsJsSpace(w[i])
    requires |t| > 0 && !Text.IsJsSpace(t[0])
    ensures ParseInt(w + t) == SignedValue(t)
  {
    TrimStartSpaces(w, t);
  }

  /** White space, one optional sign, a text `parseInt` reads as `n` and a tail. */
  lemma ReadWithTail(w: string, sign: string, d: string, rest: string, n: nat)
    requires forall i :: 0 <= i < |w| ==> Text.IsJsSpace(w[i])
    requires sign == "" || sign == "+" || sign == "-"
    requires ParseUnsigned(d + rest) == Some(n)
    ensures ParseInt(w + sign + d + rest) == Some(if sign == "-" then -(n as int) else n)
  {
    SignedDigitsAfterSpace(w, sign, d + rest, n);
    Regroup(w, sign, d, rest);
  }

  /** White space, one optional sign, then a text `parseInt` reads as `n`. */
  lemma SignedDigitsAfterSpace(w: string, sign: string, u: string, n: nat)
    requires forall i :: 0 <= i < |w| ==> Text.IsJsSpace(w[i])
    requires sign == "" || sign == "+" || sign == "-"
    requires ParseUnsigned(u) == Some(n)
    ensures ParseInt(w + (sign + u)) == Some(if sign == "-" then -(n as int) else n)
  {
    SignedAfterSign(sign, u);
    ReadAfterSpace(w, sign + u, Some(if sign == "-" then -(n as int) else n));
  }

  /** `ParseIntAfterSpace` with the value read named in advance. */
  lemma ReadAfterSpace(w: string, t: string, v: Option<int>)
    requires forall i :: 0 <= i < |w| ==> Text.IsJsSpace(w[i])
    requires |t| > 0 && !Text.IsJsSpace(t[0])
    requires SignedValue(t) == v
    ensures ParseInt(w + t) == v
  {
    ParseIntAfterSpace(w, t);
  }

  /** One optional sign in front of unsigned digits. */
  lemma SignedAfterSign(sign: string, u: string)
    requires sign == "" || sign == "+" || sign == "-"
    requires ParseUnsigned(u).Some?
    ensures |sign + u| > 0 && !Text.IsJsSpace((sign + u)[0])
    ensures SignedValue(sign + u) ==
      var v: int := ParseUnsigned(u).value; Some(if sign == "-" then -v else v)
  {
    if sign == "" {
      NoSignBeforeDigits(u);
      assert sign + u == u;
    } else if sign == "+" {
      SignBeforeDigits('+', u);
      assert sign + u == ['+'] + u;
    } else {
      SignBeforeDigits('-', u);
      assert sign + u == ['-'] + u;
    }
  }

  /** Unsigned digits read as they are. */
  lemma NoSignBeforeDigits(u: string)
    requires ParseUnsigned(u).Some?
    ensures |u| > 0 && !Text.IsJsSpace(u[0])
    ensures SignedValue(u) == Some(ParseUnsigned(u).value as int)
  {
    assert '0' <= u[0] <= '9';
    assert AfterSign(u) == u && !Negative(u);
  }

  /** A `+` or `-` in front of unsigned digits is the sign read. */
  lemma SignBeforeDigits(c: char, u: string)
    requires c == '+' || c == '-'
    requires ParseUnsigned(u).Some?
    ensures !Text.IsJsSpace(([c] + u)[0])
    ensures SignedValue([c] + u) ==
      var v: int := ParseUnsigned(u).value; Some(if c == '-' then -v else v)
  {
    var t := [c] + u;
    assert t[1..] == u;
    assert AfterSign(t) == u;
    assert Negative(t) <==> c == '-';
  }

  /** Decimal digits not forming a `0x` prefix, read up to the first non-digit. */
  lemma ParseUnsignedDecimalPrefix(d: string, rest: string)
    requires |d| > 0 && forall i :: 0 <= i < |d| ==> '0' <= d[i] <= '9'
    requires |rest| > 0 ==> !('0' <= rest[0] <= '9')
    requires !(d == "0" && |rest| > 0 && (rest[0] == 'x' || rest[0] == 'X'))
    ensures ParseUnsigned(d + rest) == Some(DigitsValue(d, 10))
  {
    var u := d + rest;
    assert !(|u| >= 2 && u[0] == '0' && (u[1] == 'x' || u[1] == 'X')) by {
      if |d| >= 2 {
        assert u[1] == d[1];
      } else if |u| >= 2 {
        assert d == [d[0]] && u[1] == rest[0];
      }
    }
    DigitPrefixOf(d, rest, 10);
    assert u[..|d|] == d;
    ParseUnsignedDecimalAt(u, d);
  }

  lemma ParseUnsignedDecimalAt(u: string, d: string)
    requires !(|u| >= 2 && u[0] == '0' && (u[1] == 'x' || u[1] == 'X'))
    requires DigitPrefix(u, 10) == |d| && |d| > 0 && u[..|d|] == d
    ensures ParseUnsigned(u) == Some(DigitsValue(d, 10))
  {
  }

  /** `0x` and hex digits, read up to the first non-hex-digit. */
  lemma ParseUnsignedHexPrefix(x: char, d: string, rest: string)
    requires x == 'x' || x == 'X'
    requires |d| > 0 && forall i :: 0 <= i < |d| ==> IsDigitIn(d[i], 16)
    requires |rest| > 0 ==> !IsDigitIn(rest[0], 16)
    ensures ParseUnsigned(['0', x] + d + rest) == Some(DigitsValue(d, 16))
  {
    HexSlices(x, d, rest);
    DigitPrefixOf(d, rest, 16);
    ParseUnsignedHexAt(['0', x] + d + rest, d);
  }

  lemma HexSlices(x: char, d: string, rest: string)
    ensures var u := ['0', x] + d + rest;
      |u| >= 2 && u[0] == '0' && u[1] == x && u[2..] == d + rest && (d + rest)[..|d|] == d
  {
  }

  lemma ParseUnsignedHexAt(u: string, d: string)
    requires |u| >= 2 && u[0] == '0' && (u[1] == 'x' || u[1] == 'X')
    requires DigitPrefix(u[2..], 16) == |d| && |d| > 0 && u[2..][..|d|] == d
    ensures ParseUnsigned(u) == Some(DigitsValue(d, 16))
  {
  }

  /** Leading white space is skipped up to the first other character. */
  lemma {:induction false} TrimStartSpaces(w: string, t: string)
    requires forall i :: 0 <= i < |w| ==> Text.IsJsSpace(w[i])
    requires |t| > 0 && !Text.IsJsSpace(t[0])
    ensures Text.TrimStart(w + t) == t
  {
    if |w| == 0 {
      assert w + t == t;
    } else {
      assert (w + t)[1..] == w[1..] + t;
      TrimStartSpaces(w[1..], t);
    }
  }

  /** The digit run of `d + rest` is `d` when `rest` does not go on with a digit. */
  lemma {:induction false} DigitPrefixOf(d: string, rest: string, base: nat)
    requires forall i :: 0 <= i < |d| ==> IsDigitIn(d[i], base)
    requires |rest| > 0 ==> !IsDigitIn(rest[0], base)
    ensures DigitPrefix(d + rest, base) == |d|
  {
    if |d| == 0 {
      assert d + rest == rest;
    } else {
      assert (d + rest)[1..] == d[1..] + rest;
      DigitPrefixOf(d[1..], rest, base);
    }
  }

  /** `parseInt(q) || fallback`: NaN and 0 both give the fallback. */
  function NumberOr(parsed: Option<int>, fallback: int): (r: int)
    ensures parsed.Some? && parsed.value != 0 ==> r == parsed.value
    ensures parsed.None? || parsed.value == 0 ==> r == fallback
  {
    if parsed.Some? && parsed.value != 0 then parsed.value else fallback
  }

  /** A query parameter read with `parseInt(req.query.x as string) || fallback`;
      an absent parameter reads as the text "undefined", which is NaN. */
  function QueryNumber(q: Option<string>, fallback: int): (r: int)
    ensures q.None? ==> r == fallback
    ensures fallback != 0 ==> r != 0
  {
    NumberOr(if q.Some? then ParseInt(q.value) else None, fallback)
  }

  /** A parameter without any decimal digit falls back to the default. */
  lemma NonNumericFallsBack(q: string, fallback: int)
    requires forall i :: 0 <= i < |q| ==> !('0' <= q[i] <= '9')
    ensures QueryNumber(Some(q), fallback) == fallback
  {
  }
}

=== FILE: ordering.dfy ===
/** The `sort(...)` of a document query: an insertion sort by a
    lexicographically compared key. A descending field becomes a negated key
    component; a string field becomes its sequence of code points (byte-wise
    comparison of UTF-8 agrees with code-point order). */
module Ordering {
  import opened Collections

  /** Lexicographic order on integer keys; a proper prefix comes first. */
  predicate LexLeq(a: seq<int>, b: seq<int>)
    decreases |a|
  {
    |a| == 0 || (|b| > 0 && (a[0] < b[0] || (a[0] == b[0] && LexLeq(a[1..], b[1..]))))
  }

  lemma {:induction false} LexLeqRefl(a: seq<int>)
    ensures LexLeq(a, a)
    decreases |a|
  {
    if |a| > 0 {
      LexLeqRefl(a[1..]);
    }
  }

  lemma {:induction false} LexLeqTotal(a: seq<int>, b: seq<int>)
    ensures LexLeq(a, b) || LexLeq(b, a)
    decreases |a|
  {
    if |a| > 0 && |b| > 0 && a[0] == b[0] {
      LexLeqTotal(a[1..], b[1..]);
    }
  }

  lemma {:induction false} LexLeqTrans(a: seq<int>, b: seq<int>, c: seq<int>)
    requires LexLeq(a, b) && LexLeq(b, c)
    ensures LexLeq(a, c)
    decreases |a|
  {
    if |a| > 0 && a[0] == b[0] && b[0] == c[0] {
      LexLeqTrans(a[1..], b[1..], c[1..]);
    }
  }

  /** Key of a string: its code points. */
  function CodePoints(s: string): (r: seq<int>)
    ensures |r| == |s|
    ensures forall i :: 0 <= i < |s| ==> r[i] == s[i] as int
  {
    if |s| == 0 then [] else [s[0] as int] + CodePoints(s[1..])
  }

  /** Non-decreasing in `key` from left to right. */
  ghost predicate SortedBy<T>(s: seq<T>, key: T -> seq<int>) {
    forall i, j :: 0 <= i < j < |s| ==> LexLeq(key(s[i]), key(s[j]))
  }

  /** Place `x` before the first element it does not come after. */
  function InsertBy<T>(x: T, s: seq<T>, key: T -> seq<int>): (r: seq<T>)
    ensures |r| == |s| + 1
    ensures multiset(r) == multiset(s) + multiset{x}
  {
    if |s| == 0 then [x]
    else if LexLeq(key(x), key(s[0])) then [x] + s
    else
      assert s == [s[0]] + s[1..];
      [s[0]] + InsertBy(x, s[1..], key)
  }

  /** Every element of an insertion result is bounded below when `x` and
      every element of `s` are. */
  lemma InsertByLowerBound<T>(x: T, s: seq<T>, key: T -> seq<int>, lo: seq<int>)
    requires LexLeq(lo, key(x))
    requires forall i :: 0 <= i < |s| ==> LexLeq(lo, key(s[i]))
    ensures forall i :: 0 <= i < |InsertBy(x, s, key)| ==> LexLeq(lo, key(InsertBy(x, s, key)[i]))
  {
    var r := InsertBy(x, s, key);
    forall i | 0 <= i < |r| ensures LexLeq(lo, key(r[i])) {
      assert r[i] in multiset(r);
      if r[i] != x {
        assert r[i] in multiset(s);
        var m :| 0 <= m < |s| && s[m] == r[i];
      }
    }
  }

  /** A sorted sequence whose head is at most every element of a sorted tail. */
  lemma ConsSorted<T>(h: T, t: seq<T>, key: T -> seq<int>)
    requires SortedBy(t, key)
    requires forall i :: 0 <= i < |t| ==> LexLeq(key(h), key(t[i]))
    ensures SortedBy([h] + t, key)
  {
    var r := [h] + t;
    forall i, j | 0 <= i < j < |r| ensures LexLeq(key(r[i]), key(r[j])) {
      if i == 0 {
        assert r[j] == t[j - 1];
      } else {
        assert r[i] == t[i - 1] && r[j] == t[j - 1];
      }
    }
  }

  lemma {:induction false} InsertBySorted<T>(x: T, s: seq<T>, key: T -> seq<int>)
    requires SortedBy(s, key)
    ensures SortedBy(InsertBy(x, s, key), key)
  {
    if |s| == 0 {
    } else if LexLeq(key(x), key(s[0])) {
      forall i | 0 <= i < |s| ensures LexLeq(key(x), key(s[i])) {
        if i > 0 {
          LexLeqTrans(key(x), key(s[0]), key(s[i]));
        }
      }
      ConsSorted(x, s, key);
    } else {
      var t := s[1..];
      assert SortedBy(t, key) by {
        forall i, j | 0 <= i < j < |t| ensures LexLeq(key(t[i]), key(t[j])) {
          assert t[i] == s[i + 1] && t[j] == s[j + 1];
        }
      }
      InsertBySorted(x, t, key);
      LexLeqTotal(key(x), key(s[0]));
      forall i | 0 <= i < |t| ensures LexLeq(key(s[0]), key(t[i])) {
        assert t[i] == s[i + 1];
      }
      InsertByLowerBound(x, t, key, key(s[0]));
      ConsSorted(s[0], InsertBy(x, t, key), key);
    }
  }

  /** Insertion sort: a sorted permutation of `s`. */
  function SortBy<T>(s: seq<T>, key: T -> seq<int>): (r: seq<T>)
    ensures |r| == |s|
    ensures multiset(r) == multiset(s)
    ensures SortedBy(r, key)
  {
    if |s| == 0 then []
    else
      var t := SortBy(s[1..], key);
      SortStep(s, t, key);
      InsertBy(s[0], t, key)
  }

  /** Inserting the head into the sorted tail sorts the whole sequence. */
  lemma SortStep<T>(s: seq<T>, t: seq<T>, key: T -> seq<int>)
    requires |s| > 0 && |t| == |s| - 1
    requires multiset(t) == multiset(s[1..]) && SortedBy(t, key)
    ensures |InsertBy(s[0], t, key)| == |s|
    ensures multiset(InsertBy(s[0], t, key)) == multiset(s)
    ensures SortedBy(InsertBy(s[0], t, key), key)
  {
    InsertBySorted(s[0], t, key);
    assert s == [s[0]] + s[1..];
  }

  /** Sorting the matches of a filter keeps exactly the matches. */
  lemma SortFilterMembers<T>(s: seq<T>, p: T -> bool, key: T -> seq<int>)
    ensures forall x :: x in SortBy(Filter(s, p), key) <==> x in s && p(x)
  {
    var a := Filter(s, p);
    forall x ensures x in SortBy(a, key) <==> x in s && p(x) {
      assert x in SortBy(a, key) <==> x in multiset(a);
      if x in s && p(x) {
        var i :| 0 <= i < |s| && s[i] == x;
      }
    }
  }

  /** On one-component keys the order is the order of the integers. */
  lemma LexLeqSingle(a: int, b: int)
    ensures LexLeq([a], [b]) <==> a <= b
  {
    assert [a][1..] == [] && [b][1..] == [];
  }

  /** A sorted sequence stays sorted after filtering. */
  lemma {:induction false} FilterSorted<T>(s: seq<T>, p: T -> bool, key: T -> seq<int>)
    requires SortedBy(s, key)
    ensures SortedBy(Filter(s, p), key)
  {
    if |s| > 0 {
      var t := s[1..];
      assert SortedBy(t, key) by {
        forall i, j | 0 <= i < j < |t| ensures LexLeq(key(t[i]), key(t[j])) {
          assert t[i] == s[i + 1] && t[j] == s[j + 1];
        }
      }
      FilterSorted(t, p, key);
      var ft := Filter(t, p);
      if p(s[0]) {
        assert Filter(s, p) == [s[0]] + ft;
        forall i | 0 <= i < |ft| ensures LexLeq(key(s[0]), key(ft[i])) {
          var m :| 0 <= m < |t| && t[m] == ft[i];
          assert t[m] == s[m + 1];
        }
        ConsSorted(s[0], ft, key);
      } else {
        assert Filter(s, p) == ft;
      }
    }
  }

  /** A prefix of a sorted sequence is sorted. */
  lemma TakeSorted<T>(s: seq<T>, n: nat, key: T -> seq<int>)
    requires SortedBy(s, key)
    ensures SortedBy(Take(s, n), key)
  {
  }

  /** `sort(key).limit(n)` keeps a best `n`: an element it leaves out ranks no
      better than any element it keeps. */
  lemma TakeSortedKeepsBest<T>(s: seq<T>, key: T -> seq<int>, n: nat, x: T)
    requires x in s && x !in Take(SortBy(s, key), n)
    ensures forall y :: y in Take(SortBy(s, key), n) ==> LexLeq(key(y), key(x))
  {
    var sorted := SortBy(s, key);
    var kept := Take(sorted, n);
    assert x in multiset(sorted);
    var j :| 0 <= j < |sorted| && sorted[j] == x;
    assert j >= |kept|;
    forall y | y in kept ensures LexLeq(key(y), key(x)) {
      var i :| 0 <= i < |kept| && kept[i] == y;
      assert sorted[i] == y;
    }
  }
}

=== FILE: participation_schema.dfy ===
/** The participation document: one user's enrolment in one challenge, its
    status and progress, the workout sessions logged against it and their
    running totals, with the defaults of the participation schema. */
module ParticipationSchema {
  import opened Common
  import opened Collections

  datatype ParticipationStatus = Joined | InProgress | Completed | Abandoned {
    /** The enumeration's string value. */
    function Name(): string {
      match this
      case Joined => "JOINED"
      case InProgress => "IN_PROGRESS"
      case Completed => "COMPLETED"
      case Abandoned => "ABANDONED"
    }
  }

  /** One exercise line of a workout session as the request supplied it. */
  datatype ExerciseEntry = ExerciseEntry(exerciseId: Id, sets: Option<int>, reps: Option<int>)

  datatype WorkoutSession = WorkoutSession(
    date: Millis,
    exercises: seq<ExerciseEntry>,
    totalDuration: int,
    totalCalories: int,
    notes: Option<string>)

  /** The running totals `totalCalories`, `totalDuration` and `totalWorkouts`
      are not schema paths: they are absent until the first workout session
      increments them. `totalCaloriesBurned` is the schema's own field. */
  datatype Participation = Participation(
    id: Id,
    userId: Id,
    challengeId: Id,
    status: ParticipationStatus,
    joinedAt: Millis,
    completedAt: Option<Millis>,
    progress: int,
    workoutSessions: seq<WorkoutSession>,
    totalCaloriesBurned: int,
    totalCalories: Option<int>,
    totalDuration: Option<int>,
    totalWorkouts: Option<int>,
    invitedBy: Option<Id>,
    createdAt: Millis)

  /** The schema's requirement on a stored exercise line: sets and reps present. */
  predicate ExerciseStorable(e: ExerciseEntry) {
    e.sets.Some? && e.reps.Some?
  }

  /** The `min: 0, max: 100` bounds of `progress`. */
  predicate ProgressInRange(p: Participation) {
    0 <= p.progress <= 100
  }

  /** `participationModel.create({userId, challengeId, invitedBy})`: the new
      document starts JOINED at progress 0, with no sessions and no totals. */
  function Create(parts: seq<Participation>, userId: Id, challengeId: Id, invitedBy: Option<Id>, now: Millis)
    : (r: (seq<Participation>, Participation))
    ensures r.0 == parts + [r.1]
    ensures forall i :: 0 <= i < |parts| ==> parts[i].id != r.1.id
    ensures r.1.userId == userId && r.1.challengeId == challengeId && r.1.invitedBy == invitedBy
    ensures r.1.status == Joined && r.1.progress == 0 && r.1.totalCaloriesBurned == 0
    ensures r.1.workoutSessions == [] && r.1.completedAt.None? && r.1.joinedAt == now
    ensures r.1.totalCalories.None? && r.1.totalDuration.None? && r.1.totalWorkouts.None?
    ensures ProgressInRange(r.1)
  {
    var p := Participation(FreshId(parts, (x: Participation) => x.id), userId, challengeId, Joined, now,
                           None, 0, [], 0, None, None, None, invitedBy, now);
    (parts + [p], p)
  }
}

=== FILE: participation_service.dfy ===
/** The participation service: progress updates and the status they imply,
    workout sessions and their running totals, abandoning, the per-challenge
    leaderboard and the per-user statistics. */
module ParticipationService {
  import opened Common
  import opened Collections
  import opened Ordering
  import opened ParticipationSchema

  function IndexOfParticipation(parts: seq<Participation>, id: Id): Option<nat> {
    FindFirst(parts, (p: Participation) => p.id == id)
  }

  /** `getParticipationById(id)`. */
  function ParticipationById(parts: seq<Participation>, id: Id): (r: Option<Participation>)
    ensures r.Some? ==> r.value in parts && r.value.id == id
    ensures r.None? <==> forall i :: 0 <= i < |parts| ==> parts[i].id != id
  {
    match IndexOfParticipation(parts, id)
    case None => None
    case Some(k) => Some(parts[k])
  }

  /** `getUserChallengeParticipation(userId, challengeId)`: the first
      participation of that user in that challenge, whatever its status. */
  function UserChallengeParticipation(parts: seq<Participation>, userId: Id, challengeId: Id): (r: Option<Participation>)
    ensures r.Some? ==> r.value in parts && r.value.userId == userId && r.value.challengeId == challengeId
    ensures r.None? <==> forall i :: 0 <= i < |parts| ==> !(parts[i].userId == userId && parts[i].challengeId == challengeId)
  {
    match FindFirst(parts, (p: Participation) => p.userId == userId && p.challengeId == challengeId)
    case None => None
    case Some(k) => Some(parts[k])
  }

  /** Sort key of `sort({createdAt: -1})`. */
  function NewestFirst(p: Participation): seq<int> {
    [-p.createdAt]
  }

  /** `getUserParticipations(userId)`: the user's participations, newest first. */
  function UserParticipations(parts: seq<Participation>, userId: Id): (r: seq<Participation>)
    ensures forall p :: p in r <==> p in parts && p.userId == userId
    ensures forall i, j :: 0 <= i < j < |r| ==> r[i].createdAt >= r[j].createdAt
  {
    var mine := (p: Participation) => p.userId == userId;
    var r := SortBy(Filter(parts, mine), NewestFirst);
    SortFilterMembers(parts, mine, NewestFirst);
    assert forall i, j :: 0 <= i < j < |r| ==> r[i].createdAt >= r[j].createdAt by {
      forall i, j | 0 <= i < j < |r| ensures r[i].createdAt >= r[j].createdAt {
        assert LexLeq(NewestFirst(r[i]), NewestFirst(r[j]));
        LexLeqSingle(-r[i].createdAt, -r[j].createdAt);
      }
    }
    r
  }

  // ---------------------------------------------------------------------
  // updateProgress

  /** The update document of `updateProgress(id, progress)` applied to `p`. */
  function Progressed(p: Participation, progress: int, now: Millis): Participation {
    if progress >= 100 then p.(progress := progress, status := Completed, completedAt := Some(now))
    else if progress > 0 then p.(progress := progress, status := InProgress)
    else p.(progress := progress)
  }

  /** `updateProgress(id, progress)`: progress is written; at 100 or more the
      participation is COMPLETED with `completedAt` = now, above 0 it is
      IN_PROGRESS, otherwise its status is kept. Nothing else changes. */
  function UpdateProgress(parts: seq<Participation>, id: Id, progress: int, now: Millis)
    : (r: Option<(seq<Participation>, Participation)>)
    ensures r.None? <==> forall i :: 0 <= i < |parts| ==> parts[i].id != id
    ensures r.Some? ==>
      var k := IndexOfParticipation(parts, id).value;
      var (parts', p) := r.value;
      && parts' == parts[k := p]
      && p.progress == progress
      && (progress >= 100 ==> p.status == Completed && p.completedAt == Some(now))
      && (0 < progress < 100 ==> p.status == InProgress && p.completedAt == parts[k].completedAt)
      && (progress <= 0 ==> p.status == parts[k].status && p.completedAt == parts[k].completedAt)
      && p.(progress := parts[k].progress, status := parts[k].status, completedAt := parts[k].completedAt) == parts[k]
  {
    UpdateFirst(parts, (p: Participation) => p.id == id, (p: Participation) => Progressed(p, progress, now))
  }

  /** The new status depends on the new progress alone: whatever two
      participations held before, a positive progress leaves them with the
      same status, so a COMPLETED or ABANDONED one can be moved back. */
  lemma StatusIgnoresPriorStatus(p: Participation, q: Participation, progress: int, now: Millis)
    requires progress > 0
    ensures Progressed(p, progress, now).status == Progressed(q, progress, now).status
    ensures progress < 100 ==> Progressed(p, progress, now).status == InProgress
  {
  }

  // ---------------------------------------------------------------------
  // addWorkoutSession

  function CaloriesOf(s: WorkoutSession): int { s.totalCalories }
  function DurationOf(s: WorkoutSession): int { s.totalDuration }

  /** `$inc` on a path: an absent value counts as 0. */
  function Inc(v: Option<int>, delta: int): (r: Option<int>)
    ensures r.Some? && r.value == v.GetOr(0) + delta
  {
    Some(v.GetOr(0) + delta)
  }

  function Logged(p: Participation, session: WorkoutSession): Participation {
    p.(workoutSessions := p.workoutSessions + [session],
       totalCalories := Inc(p.totalCalories, session.totalCalories),
       totalDuration := Inc(p.totalDuration, session.totalDuration),
       totalWorkouts := Inc(p.totalWorkouts, 1))
  }

  /** `addWorkoutSession(id, session)`: `$push` of the session (without the
      schema's validators) and `$inc` of the three totals. */
  function AddWorkoutSession(parts: seq<Participation>, id: Id, session: WorkoutSession)
    : (r: Option<(seq<Participation>, Participation)>)
    ensures r.None? <==> forall i :: 0 <= i < |parts| ==> parts[i].id != id
    ensures r.Some? ==>
      var k := IndexOfParticipation(parts, id).value;
      var (parts', p) := r.value;
      && parts' == parts[k := p]
      && p.workoutSessions == parts[k].workoutSessions + [session]
      && p.totalCalories == Some(parts[k].totalCalories.GetOr(0) + session.totalCalories)
      && p.totalDuration == Some(parts[k].totalDuration.GetOr(0) + session.totalDuration)
      && p.totalWorkouts == Some(parts[k].totalWorkouts.GetOr(0) + 1)
      && p.(workoutSessions := parts[k].workoutSessions, totalCalories := parts[k].totalCalories,
            totalDuration := parts[k].totalDuration, totalWorkouts := parts[k].totalWorkouts) == parts[k]
  {
    UpdateFirst(parts, (p: Participation) => p.id == id, (p: Participation) => Logged(p, session))
  }

  /** The running totals agree with the logged sessions. */
  predicate TotalsConsistent(p: Participation) {
    && p.totalWorkouts.GetOr(0) == |p.workoutSessions|
    && p.totalCalories.GetOr(0) == SumBy(p.workoutSessions, CaloriesOf)
    && p.totalDuration.GetOr(0) == SumBy(p.workoutSessions, DurationOf)
  }

  lemma SumBySnoc<T>(s: seq<T>, x: T, f: T -> int)
    ensures SumBy(s + [x], f) == SumBy(s, f) + f(x)
  {
    assert (s + [x])[..|s|] == s;
  }

  /** A new participation is consistent, and logging a session keeps it so:
      the totals are the sums over the session list. */
  lemma LoggingKeepsTotals(parts: seq<Participation>, id: Id, session: WorkoutSession, userId: Id, challengeId: Id, now: Millis)
    requires forall i :: 0 <= i < |parts| ==> TotalsConsistent(parts[i])
    ensures TotalsConsistent(Create(parts, userId, challengeId, None, now).1)
    ensures AddWorkoutSession(parts, id, session).Some? ==>
      forall i :: 0 <= i < |parts| ==> TotalsConsistent(AddWorkoutSession(parts, id, session).value.0[i])
  {
    var r := AddWorkoutSession(parts, id, session);
    if r.Some? {
      var k := IndexOfParticipation(parts, id).value;
      var q := parts[k];
      SumBySnoc(q.workoutSessions, session, CaloriesOf);
      SumBySnoc(q.workoutSessions, session, DurationOf);
      assert TotalsConsistent(r.value.1);
    }
  }

  /** The schema's sets/reps requirement is not enforced by `$push`: a
      session whose exercise lines lack them is stored all the same. */
  lemma PushSkipsExerciseValidation(parts: seq<Participation>, id: Id, session: WorkoutSession)
    requires exists i :: 0 <= i < |parts| && parts[i].id == id
    requires exists j :: 0 <= j < |session.exercises| && !ExerciseStorable(session.exercises[j])
    ensures AddWorkoutSession(parts, id, session).Some?
    ensures session in AddWorkoutSession(parts, id, session).value.1.workoutSessions
  {
    var p := AddWorkoutSession(parts, id, session).value.1;
    assert p.workoutSessions[|p.workoutSessions| - 1] == session;
  }

  // ---------------------------------------------------------------------
  // abandonChallenge

  /** `abandonChallenge(id)`: status ABANDONED and nothing else. */
  function Abandon(parts: seq<Participation>, id: Id): (r: Option<(seq<Participation>, Participation)>)
    ensures r.None? <==> forall i :: 0 <= i < |parts| ==> parts[i].id != id
    ensures r.Some? ==>
      var k := IndexOfParticipation(parts, id).value;
      && r.value.1.status == Abandoned
      && r.value.1.(status := parts[k].status) == parts[k]
      && r.value.0 == parts[k := r.value.1]
  {
    UpdateFirst(parts, (p: Participation) => p.id == id, (p: Participation) => p.(status := Abandoned))
  }

  // ---------------------------------------------------------------------
  // getLeaderboard

  /** Sort key of `sort({progress: -1, totalCaloriesBurned: -1})`. */
  function LeaderKey(p: Participation): seq<int> {
    [-p.progress, -p.totalCaloriesBurned]
  }

  /** `a` may be listed before `b`: more progress, or as much progress and
      at least as many calories. */
  predicate RanksAbove(a: Participation, b: Participation) {
    a.progress > b.progress || (a.progress == b.progress && a.totalCaloriesBurned >= b.totalCaloriesBurned)
  }

  lemma LeaderKeyOrder(a: Participation, b: Participation)
    ensures LexLeq(LeaderKey(a), LeaderKey(b)) <==> RanksAbove(a, b)
  {
    var ka, kb := LeaderKey(a), LeaderKey(b);
    assert ka[1..][1..] == [];
    assert LexLeq(ka[1..][1..], kb[1..][1..]);
    assert LexLeq(ka[1..], kb[1..]) <==> a.totalCaloriesBurned >= b.totalCaloriesBurned;
  }

  /** On the board of a challenge: not abandoned. */
  predicate OnBoard(p: Participation, challengeId: Id) {
    p.challengeId == challengeId && p.status != Abandoned
  }

  /** `getLeaderboard(challengeId)`: at most ten of the challenge's
      participations that are not ABANDONED. */
  function Leaderboard(parts: seq<Participation>, challengeId: Id): (r: seq<Participation>)
    ensures forall p :: p in r ==> p in parts && OnBoard(p, challengeId)
    ensures |r| == (var n := Count(parts, (p: Participation) => OnBoard(p, challengeId)); if n < 10 then n else 10)
  {
    var onBoard := (p: Participation) => OnBoard(p, challengeId);
    var board := Filter(parts, onBoard);
    var sorted := SortBy(board, LeaderKey);
    var r := Take(sorted, 10);
    assert forall p :: p in r ==> p in parts && OnBoard(p, challengeId) by {
      forall p | p in r ensures p in parts && OnBoard(p, challengeId) {
        assert p in multiset(sorted);
        assert p in board;
      }
    }
    assert |sorted| == |board| == Count(parts, onBoard);
    r
  }

  /** The leaderboard lists best first: by progress, then by calories. */
  lemma LeaderboardRanked(parts: seq<Participation>, challengeId: Id)
    ensures var r := Leaderboard(parts, challengeId);
      forall i, j :: 0 <= i < j < |r| ==> RanksAbove(r[i], r[j])
  {
    var board := Filter(parts, (p: Participation) => OnBoard(p, challengeId));
    var sorted := SortBy(board, LeaderKey);
    var r := Leaderboard(parts, challengeId);
    assert r == Take(sorted, 10);
    forall i, j | 0 <= i < j < |r| ensures RanksAbove(r[i], r[j]) {
      assert r[i] == sorted[i] && r[j] == sorted[j];
      LeaderKeyOrder(r[i], r[j]);
    }
  }

  /** The leaderboard keeps a best ten: a participation on the board but not
      listed ranks no better than every listed one. */
  lemma LeaderboardKeepsBest(parts: seq<Participation>, challengeId: Id, p: Participation)
    requires p in parts && OnBoard(p, challengeId)
    requires p !in Leaderboard(parts, challengeId)
    ensures forall q :: q in Leaderboard(parts, challengeId) ==> RanksAbove(q, p)
  {
    var board := Filter(parts, (x: Participation) => OnBoard(x, challengeId));
    var r := Leaderboard(parts, challengeId);
    assert r == Take(SortBy(board, LeaderKey), 10);
    assert p in board;
    TakeSortedKeepsBest(board, LeaderKey, 10, p);
    forall q | q in r ensures RanksAbove(q, p) {
      LeaderKeyOrder(q, p);
    }
  }

  // ---------------------------------------------------------------------
  // getUserStats

  /** `reduce((sum, p) => sum + p.totalCalories, 0)`: a participation without
      the total makes the sum NaN, modelled as `None`. */
  function CaloriesSum(s: seq<Participation>): (r: Option<int>)
    ensures r.None? <==> exists i :: 0 <= i < |s| && s[i].totalCalories.None?
    ensures r.Some? ==> r.value == SumBy(s, TotalCaloriesOf)
  {
    if |s| == 0 then Some(0)
    else
      var rest := CaloriesSum(s[..|s| - 1]);
      var last := s[|s| - 1].totalCalories;
      assert forall i :: 0 <= i < |s| - 1 ==> s[..|s| - 1][i] == s[i];
      if rest.Some? && last.Some? then Some(rest.value + last.value) else None
  }

  /** A participation's calorie total, 0 when it has none. */
  function TotalCaloriesOf(p: Participation): int {
    if p.totalCalories.Some? then p.totalCalories.value else 0
  }

  /** The counts of `getUserStats`; the average progress is left out. */
  datatype ParticipationStats = ParticipationStats(
    totalChallenges: nat,
    completedChallenges: nat,
    activeChallenges: nat,
    totalCaloriesBurned: Option<int>)

  function Mine(parts: seq<Participation>, userId: Id): seq<Participation> {
    Filter(parts, (p: Participation) => p.userId == userId)
  }

  /** `getUserStats(userId)`: COMPLETED and IN_PROGRESS are counted apart and
      JOINED in neither, so the two counts never exceed the total. */
  function UserStats(parts: seq<Participation>, userId: Id): (r: ParticipationStats)
    ensures r.totalChallenges == |Mine(parts, userId)|
    ensures r.completedChallenges + r.activeChallenges <= r.totalChallenges
    ensures r.completedChallenges == Count(Mine(parts, userId), (p: Participation) => p.status == Completed)
    ensures r.activeChallenges == Count(Mine(parts, userId), (p: Participation) => p.status == InProgress)
    ensures r.totalCaloriesBurned.None? <==> exists p :: p in parts && p.userId == userId && p.totalCalories.None?
    ensures r.totalCaloriesBurned.Some? ==> r.totalCaloriesBurned.value == SumBy(Mine(parts, userId), TotalCaloriesOf)
  {
    var mine := Mine(parts, userId);
    CountDisjoint(mine, (p: Participation) => p.status == Completed, (p: Participation) => p.status == InProgress);
    var sum := CaloriesSum(mine);
    assert sum.None? <==> exists p :: p in parts && p.userId == userId && p.totalCalories.None? by {
      if sum.None? {
        var i :| 0 <= i < |mine| && mine[i].totalCalories.None?;
        assert mine[i] in parts;
      }
    }
    ParticipationStats(|mine|,
                       Count(mine, (p: Participation) => p.status == Completed),
                       Count(mine, (p: Participation) => p.status == InProgress),
                       sum)
  }

  /** Joining a challenge adds one to the user's total and, as the new
      participation has no calorie total yet, turns the calorie sum into NaN
      until a workout session is logged on it. */
  lemma JoinBlanksCalorieSum(parts: seq<Participation>, userId: Id, challengeId: Id, now: Millis)
    ensures var parts' := Create(parts, userId, challengeId, None, now).0;
      && UserStats(parts', userId).totalChallenges == UserStats(parts, userId).totalChallenges + 1
      && UserStats(parts', userId).totalCaloriesBurned.None?
  {
    var (parts', p) := Create(parts, userId, challengeId, None, now);
    FilterConcat(parts, [p], (x: Participation) => x.userId == userId);
    assert Mine(parts', userId) == Mine(parts, userId) + [p];
    assert p in parts';
  }
}

=== FILE: role_middleware.dfy ===
/** The role gate placed after the session gate on every protected route,
    and its four presets. */
module RoleMiddleware {
  import opened Common
  import opened UserSchema

  /** What a middleware does with a request: pass it on, or answer it. */
  datatype Verdict = Next | Stop(status: Status)

  /** `roleMiddleware(...allowedRoles)`: no user is 401, a role outside the
      list is 403, and any other request passes on. */
  function RoleGate(user: Option<User>, allowed: set<Role>): (v: Verdict)
    ensures v == Stop(Unauthorized) <==> user.None?
    ensures v == Stop(Forbidden) <==> user.Some? && user.value.role !in allowed
    ensures v == Next <==> user.Some? && user.value.role in allowed
  {
    if user.None? then Stop(Unauthorized)
    else if user.value.role !in allowed then Stop(Forbidden)
    else Next
  }

  /** `superAdminMiddleware()`. */
  const SuperAdminRoles: set<Role> := {SuperAdmin}
  /** `gymOwnerMiddleware()`. */
  const GymOwnerRoles: set<Role> := {SuperAdmin, GymOwner}
  /** `AdminOrGymOwnerMiddleware()`. */
  const AdminOrGymOwnerRoles: set<Role> := {SuperAdmin, GymOwner}
  /** `userMiddleware()`. */
  const UserRoles: set<Role> := {SuperAdmin, GymOwner, RegularUser}

  /** The presets nest: whoever passes a stricter gate passes the looser
      ones, and the two owner presets are the same gate. */
  lemma PresetsNest(user: Option<User>)
    ensures RoleGate(user, SuperAdminRoles) == Next ==> RoleGate(user, GymOwnerRoles) == Next
    ensures RoleGate(user, GymOwnerRoles) == Next ==> RoleGate(user, UserRoles) == Next
    ensures RoleGate(user, GymOwnerRoles) == RoleGate(user, AdminOrGymOwnerRoles)
  {
  }

  /** `userMiddleware` never answers 403: an authenticated request passes. */
  lemma UserGateNeverForbids(user: Option<User>)
    ensures RoleGate(user, UserRoles) != Stop(Forbidden)
    ensures user.Some? ==> RoleGate(user, UserRoles) == Next
  {
    if user.Some? {
      assert user.value.role in UserRoles by {
        match user.value.role
        case SuperAdmin =>
        case GymOwner =>
        case RegularUser =>
      }
    }
  }

  /** Only a super admin passes the super-admin gate. */
  lemma SuperAdminGateExact(user: User)
    ensures RoleGate(Some(user), SuperAdminRoles) == Next <==> user.role == SuperAdmin
    ensures RoleGate(Some(user), GymOwnerRoles) == Next <==> user.role != RegularUser
  {
  }
}

=== FILE: rule_engines.dfy ===
/** The two evaluators of badge rules side by side: the assignment run
    (`RuleHolds`, `Qualifies`, `Grants`) and the eligibility report
    (`RulePasses`, `Eligible`). They agree on the five shared comparisons
    over the numeric fields and over absent ones, and differ in five ways,
    each stated here. */
module RuleEngines {
  import opened Common
  import opened Collections
  import opened UserSchema
  import opened BadgeSchema
  import opened BadgeAssignment
  import opened BadgeService
  import opened Coercion

  /** A field that holds a number, with booleans as 1 and 0. */
  function NumericField(u: User, c: string): Option<int> {
    match UserField(u, c)
    case Number(n) => Some(n)
    case Boolean(b) => Some(if b then 1 else 0)
    case _ => None
  }

  /** The paths of a user document that hold numbers or booleans. */
  function StatKeys(): set<string> {
    {"totalScore", "challengesCompleted", "totalCaloriesBurned", "streakDays", "isActive"}
  }

  /** Exactly the five statistics paths read as numbers. */
  lemma NumericFields(u: User, c: string)
    ensures NumericField(u, c).Some? <==> c in StatKeys()
  {
  }

  /** A statistics object that shows exactly the numeric fields of `u`. */
  ghost predicate StatsMatch(stats: map<string, int>, u: User) {
    forall c :: (c in stats <==> NumericField(u, c).Some?) && (c in stats ==> stats[c] == NumericField(u, c).value)
  }

  /** The statistics object read off a user record. */
  function StatsOf(u: User): (stats: map<string, int>)
    ensures StatsMatch(stats, u)
  {
    forall c ensures (c in StatKeys() <==> NumericField(u, c).Some?) {
      NumericFields(u, c);
    }
    map["totalScore" := u.totalScore,
        "challengesCompleted" := u.challengesCompleted,
        "totalCaloriesBurned" := u.totalCaloriesBurned,
        "streakDays" := u.streakDays,
        "isActive" := if u.isActive then 1 else 0]
  }

  /** A field both evaluators read alike: a numeric one, or one the user
      document lacks. */
  predicate Shared(u: User, c: string) {
    NumericField(u, c).Some? || UserField(u, c) == Undefined
  }

  /** Agreement: on a matching statistics object and a shared field, every
      operator other than `!=` gives the same verdict in both evaluators. */
  lemma RuleVerdictsAgree(u: User, stats: map<string, int>, r: Rule)
    requires StatsMatch(stats, u)
    requires Shared(u, r.condition)
    requires r.operator != "!="
    ensures RuleHolds(u, r) <==> RulePasses(stats, r)
  {
    assert (r.condition in stats <==> NumericField(u, r.condition).Some?);
    if r.condition in stats && r.operator in {">", ">=", "<", "<=", "=="} {
      assert Compare(UserField(u, r.condition), r.operator, r.value) ==
             Compare(Number(stats[r.condition]), r.operator, r.value);
      CompareNumbers(stats[r.condition], r.operator, r.value);
    }
  }

  /** Agreement on whole badges: with a non-empty rule list, no `!=` and
      only shared fields, the assignment run's test and the eligibility
      report coincide. */
  lemma BadgeVerdictsAgree(u: User, stats: map<string, int>, b: Badge)
    requires StatsMatch(stats, u)
    requires |b.rules| > 0
    requires forall i :: 0 <= i < |b.rules| ==> b.rules[i].operator != "!=" && Shared(u, b.rules[i].condition)
    ensures Qualifies(u, b) <==> Eligible(stats, b)
  {
    forall i | 0 <= i < |b.rules| ensures RuleHolds(u, b.rules[i]) <==> RulePasses(stats, b.rules[i]) {
      RuleVerdictsAgree(u, stats, b.rules[i]);
    }
  }

  /** Difference 1, the operator set: `!=` is a comparison for the
      assignment run and an unknown operator for the eligibility report. */
  lemma NotEqualOperatorDiffers(u: User, stats: map<string, int>, r: Rule)
    requires StatsMatch(stats, u)
    requires r.condition in stats
    requires r.operator == "!="
    ensures !RulePasses(stats, r)
    ensures RuleHolds(u, r) <==> stats[r.condition] != r.value
  {
    assert NumericField(u, r.condition).Some?;
  }

  /** Difference 2, a missing field: the eligibility report rejects the
      rule whatever the operator, the assignment run accepts it under `!=`. */
  lemma MissingFieldDiffers(u: User, stats: map<string, int>, r: Rule)
    requires StatsMatch(stats, u)
    requires UserField(u, r.condition) == Undefined
    ensures !RulePasses(stats, r)
    ensures RuleHolds(u, r) <==> r.operator == "!="
  {
    assert NumericField(u, r.condition).None?;
  }

  /** Difference 5, the other paths of the document: a string, a Date, an
      ObjectId or an array is not in the statistics, so the report rejects
      every rule on it, while the assignment run compares its number. */
  lemma CoercedFieldDiffers(u: User, stats: map<string, int>, r: Rule)
    requires StatsMatch(stats, u)
    requires NumericField(u, r.condition).None?
    ensures !RulePasses(stats, r)
    ensures RuleHolds(u, r) <==> Compare(UserField(u, r.condition), r.operator, r.value) == Some(true)
  {
  }

  /** Difference 3, an empty rule list: eligible for the report, never
      granted by the assignment run. */
  lemma EmptyRulesDiffer(u: User, stats: map<string, int>, b: Badge)
    requires |b.rules| == 0
    ensures Eligible(stats, b)
    ensures !Qualifies(u, b) && !Grants(u, b)
  {
  }

  /** Difference 4, inactive badges: the report never lists one, while the
      assignment run treats active and inactive badges alike. */
  lemma InactiveBadgesDiffer(u: User, stats: map<string, int>, badges: seq<Badge>, b: Badge)
    requires !b.isActive
    ensures b !in Filter(ActiveBadges(badges), x => Eligible(stats, x))
    ensures Grants(u, b) <==> Grants(u, b.(isActive := true))
  {
  }

  /** A user without friends meets `friends == 0`. */
  lemma EmptyFriendsEqualZero(u: User)
    requires u.friends == []
    ensures RuleHolds(u, Rule("friends", "==", 0))
  {
    assert UserField(u, "friends") == IdArray(u.friends);
    EmptyArrayIsZero(u.friends);
  }

  /** The differences are real: for every user without friends and with a
      score other than 3, and the statistics read off that user, the two
      evaluators disagree on each of four badges. */
  lemma EnginesDisagree(u: User)
    requires u.friends == [] && u.totalScore != 3
    ensures
      var stats := StatsOf(u);
      var notEqual := Badge(10, "ne", "d", "SCORE", [Rule("totalScore", "!=", 3)], 1, true, 1, 0);
      var missing := Badge(11, "mf", "d", "SCORE", [Rule("level", "!=", 3)], 1, true, 1, 0);
      var empty := Badge(12, "em", "d", "SCORE", [], 1, true, 1, 0);
      var coerced := Badge(13, "co", "d", "SOCIAL", [Rule("friends", "==", 0)], 1, true, 1, 0);
      && Qualifies(u, notEqual) && !Eligible(stats, notEqual)
      && Qualifies(u, missing) && !Eligible(stats, missing)
      && !Qualifies(u, empty) && Eligible(stats, empty)
      && Qualifies(u, coerced) && !Eligible(stats, coerced)
  {
    var stats := StatsOf(u);
    var notEqual := Rule("totalScore", "!=", 3);
    var missing := Rule("level", "!=", 3);
    var coerced := Rule("friends", "==", 0);
    NotEqualOperatorDiffers(u, stats, notEqual);
    SingleRule(u, stats, Badge(10, "ne", "d", "SCORE", [notEqual], 1, true, 1, 0));
    assert UserField(u, "level") == Undefined;
    MissingFieldDiffers(u, stats, missing);
    SingleRule(u, stats, Badge(11, "mf", "d", "SCORE", [missing], 1, true, 1, 0));
    EmptyFriendsEqualZero(u);
    assert NumericField(u, "friends").None?;
    CoercedFieldDiffers(u, stats, coerced);
    SingleRule(u, stats, Badge(13, "co", "d", "SOCIAL", [coerced], 1, true, 1, 0));
  }

  /** A one-rule badge is decided by its rule in both evaluators. */
  lemma SingleRule(u: User, stats: map<string, int>, b: Badge)
    requires |b.rules| == 1
    ensures Qualifies(u, b) <==> RuleHolds(u, b.rules[0])
    ensures Eligible(stats, b) <==> RulePasses(stats, b.rules[0])
  {
  }
}

=== FILE: session_middleware.dfy ===
/** The session gate: the `Authorization: Bearer <session id>` header is
    parsed, the session looked up, and its user attached to the request. */
module SessionMiddleware {
  import opened Common
  import Text
  import opened UserSchema
  import opened SessionService

  const BearerPrefix: string := "Bearer "

  /** `authHeader.substring(7)` once the header starts with "Bearer ";
      `None` for a missing header or any other prefix (case-sensitive). */
  function BearerToken(header: Option<string>): (r: Option<string>)
    ensures r.Some? <==> header.Some? && Text.StartsWith(header.value, BearerPrefix)
    ensures r.Some? ==> header.value == BearerPrefix + r.value
  {
    if header.None? || !Text.StartsWith(header.value, BearerPrefix) then None
    else
      assert header.value == header.value[..7] + header.value[7..];
      Some(header.value[7..])
  }

  /** A header built from a token gives the token back. */
  lemma BearerRoundTrip(token: string)
    ensures BearerToken(Some(BearerPrefix + token)) == Some(token)
  {
    var h := BearerPrefix + token;
    assert h[..7] == BearerPrefix;
    assert h[7..] == token;
  }

  /** Outcome of the gate: an answer, or the request admitted with the
      session and its populated user (`None` when that user is gone). */
  datatype Gate = Rejected(status: Status) | Admitted(user: Option<User>, session: Session)

  /** `sessionMiddleware`: 401 for a missing or non-Bearer header, 401 when
      no active session has the token as its id; otherwise admitted. */
  function SessionGate(sessions: seq<Session>, users: seq<User>, header: Option<string>, now: Millis)
    : (g: Gate)
    ensures g.Rejected? ==> g.status == Unauthorized
    ensures BearerToken(header).None? ==> g.Rejected?
    ensures g.Admitted? <==>
      && BearerToken(header).Some?
      && FindActiveSession(sessions, Text.ParseObjectId(BearerToken(header).value), now).Some?
    ensures g.Admitted? ==>
      && g.session in sessions && Active(g.session, now)
      && Text.ParseObjectId(BearerToken(header).value) == ObjectId(g.session.id)
      && g.user == FindUserById(users, ObjectId(g.session.user))
  {
    match BearerToken(header)
    case None => Rejected(Unauthorized)
    case Some(token) =>
      match FindActiveSession(sessions, Text.ParseObjectId(token), now)
      case None => Rejected(Unauthorized)
      case Some(s) => Admitted(FindUserById(users, ObjectId(s.user)), s)
  }

  /** Logging in and presenting the session id admits the request until the
      session expires. */
  lemma ActiveSessionAdmitted(sessions: seq<Session>, users: seq<User>, i: nat, now: Millis)
    requires i < |sessions| && Active(sessions[i], now) && IdsUnique(sessions)
    requires sessions[i].id < Text.Pow16(Text.ObjectIdHexLength)
    ensures var g := SessionGate(sessions, users, Some(BearerPrefix + Text.ObjectIdText(sessions[i].id)), now);
      g.Admitted? && g.session == sessions[i]
  {
    BearerRoundTrip(Text.ObjectIdText(sessions[i].id));
    Text.ObjectIdRoundTrip(sessions[i].id);
  }

  /** A lower-case scheme is refused whatever follows it. */
  lemma LowerCaseSchemeRejected(sessions: seq<Session>, users: seq<User>, token: string, now: Millis)
    ensures SessionGate(sessions, users, Some("bearer " + token), now) == Rejected(Unauthorized)
  {
    assert ("bearer " + token)[0] != BearerPrefix[0];
  }
}

=== FILE: session_service.dfy ===
/** Login sessions: the session document and the session service that
    finds, deletes and sweeps them by their expiration date. */
module SessionService {
  import opened Common
  import opened Collections

  /** A session: the bearer token is the text of its id; `user` is the id of
      the user it authenticates. */
  datatype Session = Session(id: Id, user: Id, expirationDate: Millis, createdAt: Millis)

  /** Active at `now`: its expiration date is strictly later. */
  predicate Active(s: Session, now: Millis) {
    s.expirationDate > now
  }

  /** Expired at `now`: its expiration date is strictly earlier. */
  predicate Expired(s: Session, now: Millis) {
    s.expirationDate < now
  }

  predicate IdsUnique(sessions: seq<Session>) {
    forall i, j :: 0 <= i < j < |sessions| ==> sessions[i].id != sessions[j].id
  }

  /** `createSession({user, expirationDate})`: appended under a fresh id. */
  function CreateSession(sessions: seq<Session>, user: Id, expirationDate: Millis, now: Millis)
    : (r: (seq<Session>, Session))
    ensures r.0 == sessions + [r.1]
    ensures forall i :: 0 <= i < |sessions| ==> sessions[i].id != r.1.id
    ensures r.1.user == user && r.1.expirationDate == expirationDate && r.1.createdAt == now
    ensures IdsUnique(sessions) ==> IdsUnique(r.0)
  {
    var s := Session(FreshId(sessions, (x: Session) => x.id), user, expirationDate, now);
    (sessions + [s], s)
  }

  /** `findActiveSession(sessionId)`: `None` for a malformed id; otherwise
      the session with this id if it is still active. */
  function FindActiveSession(sessions: seq<Session>, sessionId: RawId, now: Millis): (r: Option<Session>)
    ensures r.Some? ==> sessionId.ObjectId? && r.value in sessions && r.value.id == sessionId.id && Active(r.value, now)
    ensures r.None? <==>
      || !sessionId.ObjectId?
      || forall i :: 0 <= i < |sessions| ==> !(sessions[i].id == sessionId.id && Active(sessions[i], now))
  {
    if !sessionId.ObjectId? then None
    else
      match FindFirst(sessions, (s: Session) => s.id == sessionId.id && Active(s, now))
      case None => None
      case Some(k) => Some(sessions[k])
  }

  /** `deleteSession(sessionId)`: false for a malformed id, and true exactly
      when a session with this id was removed. */
  function DeleteSession(sessions: seq<Session>, sessionId: RawId): (r: (seq<Session>, bool))
    ensures r.1 <==> sessionId.ObjectId? && exists i :: 0 <= i < |sessions| && sessions[i].id == sessionId.id
    ensures r.1 ==> |r.0| == |sessions| - 1
    ensures !r.1 ==> r.0 == sessions
    ensures forall s :: s in r.0 ==> s in sessions
  {
    if !sessionId.ObjectId? then (sessions, false)
    else
      match RemoveFirst(sessions, (s: Session) => s.id == sessionId.id)
      case None => (sessions, false)
      case Some(rest) => (rest, true)
  }

  /** With unique ids, a deleted session can no longer be found. */
  lemma DeleteEndsSession(sessions: seq<Session>, id: Id, now: Millis)
    requires IdsUnique(sessions)
    ensures FindActiveSession(DeleteSession(sessions, ObjectId(id)).0, ObjectId(id), now).None?
  {
    var r := DeleteSession(sessions, ObjectId(id));
    if r.1 {
      var k := FindFirst(sessions, (s: Session) => s.id == id).value;
      assert r.0 == sessions[..k] + sessions[k + 1..];
      forall i | 0 <= i < |r.0| ensures r.0[i].id != id {
        if i < k {
          assert r.0[i] == sessions[i];
        } else {
          assert r.0[i] == sessions[i + 1];
        }
      }
    }
  }

  /** `cleanExpiredSessions()`: exactly the expired sessions are deleted,
      the others kept in order, and the count of deletions returned. */
  function CleanExpired(sessions: seq<Session>, now: Millis): (r: (seq<Session>, nat))
    ensures forall s :: s in r.0 ==> s in sessions && !Expired(s, now)
    ensures forall i :: 0 <= i < |sessions| && !Expired(sessions[i], now) ==> sessions[i] in r.0
    ensures r.1 == |sessions| - |r.0|
    ensures r.1 == Count(sessions, (s: Session) => Expired(s, now))
  {
    var kept := Filter(sessions, (s: Session) => !Expired(s, now));
    ExpiredPartition(sessions, now);
    (kept, |sessions| - |kept|)
  }

  lemma {:induction false} ExpiredPartition(sessions: seq<Session>, now: Millis)
    ensures Count(sessions, (s: Session) => Expired(s, now)) + |Filter(sessions, (s: Session) => !Expired(s, now))| == |sessions|
  {
    if |sessions| > 0 {
      ExpiredPartition(sessions[1..], now);
    }
  }

  /** A session expiring exactly now is neither active nor swept. */
  lemma ExpiryBoundary(sessions: seq<Session>, now: Millis, i: nat)
    requires i < |sessions| && sessions[i].expirationDate == now
    ensures FindActiveSession([sessions[i]], ObjectId(sessions[i].id), now).None?
    ensures sessions[i] in CleanExpired(sessions, now).0
  {
  }

  /** Sweeping never ends an active session: every lookup answers as before. */
  lemma CleanKeepsActive(sessions: seq<Session>, sessionId: RawId, now: Millis)
    ensures FindActiveSession(CleanExpired(sessions, now).0, sessionId, now) == FindActiveSession(sessions, sessionId, now)
  {
    if sessionId.ObjectId? {
      var p := (s: Session) => s.id == sessionId.id && Active(s, now);
      var q := (s: Session) => !Expired(s, now);
      FindInFilter(sessions, p, q);
      assert CleanExpired(sessions, now).0 == Filter(sessions, q);
    }
  }
}

=== FILE: store.dfy ===
/** The whole database a request handler sees: one collection per model,
    each in insertion order, and what a handler answers. */
module Store {
  import opened Common
  import opened UserSchema
  import opened GymSchema
  import opened ChallengeSchema
  import opened ParticipationSchema
  import opened InvitationSchema
  import BadgeSchema

  datatype Db = Db(
    users: seq<User>,
    gyms: seq<Gym>,
    challenges: seq<Challenge>,
    participations: seq<Participation>,
    invitations: seq<Invitation>,
    badges: seq<BadgeSchema.Badge>)

  /** The database after a request and the status code of the response. */
  datatype Reply = Reply(db: Db, status: Status)
}

=== FILE: text.dfy ===
/** The JavaScript string operations the schemas and middlewares rely on:
    `trim`, `toLowerCase` (ASCII letters only), `startsWith`, and the
    textual form of an ObjectId. */
module Text {
  import opened Common

  /** WhiteSpace and LineTerminator code points, which `String.prototype.trim` strips. */
  predicate IsJsSpace(c: char) {
    || c == '\t' || c == '\n' || c == '\U{000B}' || c == '\U{000C}' || c == '\r'
    || c == ' ' || c == '\U{00A0}' || c == '\U{1680}'
    || ('\U{2000}' <= c <= '\U{200A}')
    || c == '\U{2028}' || c == '\U{2029}' || c == '\U{202F}' || c == '\U{205F}'
    || c == '\U{3000}' || c == '\U{FEFF}'
  }

  function TrimStart(s: string): (r: string)
    ensures |r| <= |s| && r == s[|s| - |r|..]
    ensures |r| > 0 ==> !IsJsSpace(r[0])
    ensures forall i :: 0 <= i < |s| - |r| ==> IsJsSpace(s[i])
  {
    if |s| > 0 && IsJsSpace(s[0]) then TrimStart(s[1..]) else s
  }

  function TrimEnd(s: string): (r: string)
    ensures |r| <= |s| && r == s[..|r|]
    ensures |r| > 0 ==> !IsJsSpace(r[|r| - 1])
    ensures forall i :: |r| <= i < |s| ==> IsJsSpace(s[i])
  {
    if |s| > 0 && IsJsSpace(s[|s| - 1]) then TrimEnd(s[..|s| - 1]) else s
  }

  /** `r` is the part of `s` from index `a`, and only white space lies
      around it. */
  predicate MiddleAt(s: string, a: int, r: string) {
    && 0 <= a <= |s| - |r| && r == s[a..a + |r|]
    && (forall i :: 0 <= i < a ==> IsJsSpace(s[i]))
    && (forall i :: a + |r| <= i < |s| ==> IsJsSpace(s[i]))
  }

  /** `s.trim()`: the longest middle part without surrounding white space. */
  function Trim(s: string): (r: string)
    ensures |r| <= |s|
    ensures |r| > 0 ==> !IsJsSpace(r[0]) && !IsJsSpace(r[|r| - 1])
    ensures exists a :: MiddleAt(s, a, r)
  {
    TrimMiddle(s);
    TrimEnd(TrimStart(s))
  }

  /** Where the trimmed text sits in `s`. */
  lemma TrimMiddle(s: string)
    ensures MiddleAt(s, |s| - |TrimStart(s)|, TrimEnd(TrimStart(s)))
  {
    MiddleOfSuffix(s, TrimStart(s), TrimEnd(TrimStart(s)));
  }

  /** A prefix `r` of a suffix `t` of `s`, with only white space cut off on
      either side, sits in `s` where `t` starts. */
  lemma MiddleOfSuffix(s: string, t: string, r: string)
    requires |t| <= |s| && t == s[|s| - |t|..]
    requires |r| <= |t| && r == t[..|r|]
    requires forall i :: 0 <= i < |s| - |t| ==> IsJsSpace(s[i])
    requires forall i :: |r| <= i < |t| ==> IsJsSpace(t[i])
    ensures MiddleAt(s, |s| - |t|, r)
  {
    var a := |s| - |t|;
    assert r == s[a..a + |r|];
    forall i | a + |r| <= i < |s| ensures IsJsSpace(s[i]) {
      assert s[i] == t[i - a];
    }
  }

  /** Trimming twice is trimming once. */
  lemma TrimIdempotent(s: string)
    ensures Trim(Trim(s)) == Trim(s)
  {
    var r := Trim(s);
    if |r| > 0 {
      assert TrimStart(r) == r;
      assert TrimEnd(r) == r;
    }
  }

  /** A string made only of white space trims to the empty string. */
  lemma {:induction false} TrimAllSpace(s: string)
    requires forall i :: 0 <= i < |s| ==> IsJsSpace(s[i])
    ensures Trim(s) == ""
  {
    if |s| > 0 {
      TrimAllSpace(s[1..]);
    }
  }

  /** `toLowerCase` on ASCII letters; other code points are kept. */
  function LowerAscii(s: string): (r: string)
    ensures |r| == |s|
    ensures forall i :: 0 <= i < |s| ==> !('A' <= r[i] <= 'Z')
    ensures forall i :: 0 <= i < |s| && !('A' <= s[i] <= 'Z') ==> r[i] == s[i]
    ensures forall i :: 0 <= i < |s| && 'A' <= s[i] <= 'Z' ==> r[i] as int == s[i] as int + 32
  {
    if |s| == 0 then ""
    else
      var c := if 'A' <= s[0] <= 'Z' then (s[0] as int + 32) as char else s[0];
      [c] + LowerAscii(s[1..])
  }

  /** `s.startsWith(prefix)`, case-sensitive. */
  predicate StartsWith(s: string, prefix: string) {
    |prefix| <= |s| && s[..|prefix|] == prefix
  }

  // ---------------------------------------------------------------------
  // ObjectId text: 24 hexadecimal digits.

  const ObjectIdHexLength: nat := 24

  function Pow16(n: nat): (r: nat)
    ensures r > 0
  {
    if n == 0 then 1 else 16 * Pow16(n - 1)
  }

  predicate IsHexDigit(c: char) {
    ('0' <= c <= '9') || ('a' <= c <= 'f') || ('A' <= c <= 'F')
  }

  function HexValue(c: char): (v: nat)
    requires IsHexDigit(c)
    ensures v < 16
  {
    if '0' <= c <= '9' then c as int - '0' as int
    else if 'a' <= c <= 'f' then c as int - 'a' as int + 10
    else c as int - 'A' as int + 10
  }

  function HexDigit(v: nat): (c: char)
    requires v < 16
    ensures IsHexDigit(c) && HexValue(c) == v
  {
    if v < 10 then ('0' as int + v) as char else ('a' as int + v - 10) as char
  }

  /** Value of a string of hex digits, most significant first. */
  function HexToNat(s: string): (r: nat)
    requires forall i :: 0 <= i < |s| ==> IsHexDigit(s[i])
    ensures r < Pow16(|s|)
  {
    if |s| == 0 then 0
    else HexToNat(s[..|s| - 1]) * 16 + HexValue(s[|s| - 1])
  }

  /** `width` lower-case hex digits of `n`. */
  function NatToHex(n: nat, width: nat): (s: string)
    requires n < Pow16(width)
    ensures |s| == width
    ensures forall i :: 0 <= i < |s| ==> IsHexDigit(s[i])
    ensures HexToNat(s) == n
  {
    if width == 0 then ""
    else
      var s := NatToHex(n / 16, width - 1) + [HexDigit(n % 16)];
      assert s[..|s| - 1] == NatToHex(n / 16, width - 1);
      s
  }

  /** `isValidObjectId` followed by the cast a query applies to a string id. */
  function ParseObjectId(s: string): (r: RawId)
    ensures r.ObjectId? <==> |s| == ObjectIdHexLength && forall i :: 0 <= i < |s| ==> IsHexDigit(s[i])
  {
    if |s| == ObjectIdHexLength && forall i :: 0 <= i < |s| ==> IsHexDigit(s[i])
    then ObjectId(HexToNat(s))
    else Malformed
  }

  /** An id taken from a request body, as the handlers read it: an absent
      or empty (falsy) value is no id at all, so it meets the `!userId` and
      `ownerId || …` tests; any other text is read as an ObjectId. */
  function BodyId(s: Option<string>): (r: Option<RawId>)
    ensures r.None? <==> !Truthy(s)
    ensures r.Some? ==> (r.value.ObjectId? <==> |s.value| == ObjectIdHexLength && forall i :: 0 <= i < |s.value| ==> IsHexDigit(s.value[i]))
  {
    if Truthy(s) then Some(ParseObjectId(s.value)) else None
  }

  /** `ObjectId.toString()`. */
  function ObjectIdText(id: Id): (s: string)
    requires id < Pow16(ObjectIdHexLength)
    ensures |s| == ObjectIdHexLength
  {
    NatToHex(id, ObjectIdHexLength)
  }

  /** Printing an identifier and reading it back gives the identifier. */
  lemma ObjectIdRoundTrip(id: Id)
    requires id < Pow16(ObjectIdHexLength)
    ensures ParseObjectId(ObjectIdText(id)) == ObjectId(id)
  {
  }
}

=== FILE: user_controller.dfy ===
/** The user handlers: profile updates through a whitelist, the ranked
    leaderboard, the paged user listing and the friend list. */
module UserController {
  import opened Common
  import opened Collections
  import opened Store
  import opened UserSchema
  import UserService
  import Numbers
  import JsEquality
  import Text

  // ---------------------------------------------------------------------
  // updateProfile

  /** A JSON request body, by key; only string values are modelled. */
  type Body = map<string, string>

  /** The keys `updateProfile` copies when present (`!== undefined`). */
  function ProfileUpdateOf(body: Body): UserService.ProfileUpdate {
    UserService.ProfileUpdate(
      if "firstName" in body then Some(body["firstName"]) else None,
      if "lastName" in body then Some(body["lastName"]) else None)
  }

  /** `updateProfile`: only `firstName` and `lastName` reach the store,
      trimmed; the role, score, badges and every other field stay, whatever
      else the body holds. An unknown caller is a 404. */
  function UpdateProfile(db: Db, caller: User, body: Body): (r: Reply)
    ensures r.status == NotFound <==> FindUserById(db.users, ObjectId(caller.id)).None?
    ensures r.status in {NotFound, Ok}
    ensures r.status == NotFound ==> r.db == db
    ensures r.status == Ok ==>
      var k := IndexOf(db.users, caller.id).value;
      && |r.db.users| == |db.users|
      && r.db == db.(users := db.users[k := r.db.users[k]])
      && var u := r.db.users[k];
      && u.(firstName := db.users[k].firstName, lastName := db.users[k].lastName) == db.users[k]
      && u.firstName == (if "firstName" in body then Text.Trim(body["firstName"]) else db.users[k].firstName)
      && u.lastName == (if "lastName" in body then Text.Trim(body["lastName"]) else db.users[k].lastName)
  {
    match UserService.UpdateUser(db.users, ObjectId(caller.id), ProfileUpdateOf(body))
    case None => Reply(db, NotFound)
    case Some((users', _)) => Reply(db.(users := users'), Ok)
  }

  /** Keys outside the whitelist make no difference: two bodies that agree
      on `firstName` and `lastName` have the same effect. */
  lemma WhitelistIgnoresOtherKeys(db: Db, caller: User, a: Body, b: Body)
    requires ("firstName" in a <==> "firstName" in b) && ("lastName" in a <==> "lastName" in b)
    requires "firstName" in a ==> a["firstName"] == b["firstName"]
    requires "lastName" in a ==> a["lastName"] == b["lastName"]
    ensures UpdateProfile(db, caller, a) == UpdateProfile(db, caller, b)
  {
    assert ProfileUpdateOf(a) == ProfileUpdateOf(b);
  }

  // ---------------------------------------------------------------------
  // getLeaderboard

  /** One row of the leaderboard response. */
  datatype RankEntry = RankEntry(rank: nat, id: Id, firstName: string, lastName: string, totalScore: int, badges: nat)

  function Ranked(users: seq<User>): (r: seq<RankEntry>)
    ensures |r| == |users|
    ensures forall i :: 0 <= i < |r| ==>
      r[i] == RankEntry(i + 1, users[i].id, users[i].firstName, users[i].lastName, users[i].totalScore, |users[i].badges|)
  {
    seq(|users|, i requires 0 <= i < |users| =>
      RankEntry(i + 1, users[i].id, users[i].firstName, users[i].lastName, users[i].totalScore, |users[i].badges|))
  }

  /** The row shows an active user's id and score. */
  predicate RowOf(users: seq<User>, e: RankEntry) {
    exists u :: u in users && u.isActive && u.id == e.id && u.totalScore == e.totalScore
  }

  /** `getLeaderboard`: the active users by score, numbered from 1 in
      order, at most `parseInt(limit) || 10` of them. */
  function Leaderboard(db: Db, limit: Option<string>): (r: seq<RankEntry>)
    ensures forall i :: 0 <= i < |r| ==> r[i].rank == i + 1
    ensures forall i, j :: 0 <= i < j < |r| ==> r[i].totalScore >= r[j].totalScore
    ensures forall i :: 0 <= i < |r| ==> RowOf(db.users, r[i])
    ensures var n := Count(db.users, (u: User) => u.isActive);
      var l := Numbers.QueryNumber(limit, 10);
      var m := if l < 0 then -l else l;
      |r| == if m < n then m else n
  {
    var l := Numbers.QueryNumber(limit, 10);
    Board(db.users, l)
  }

  /** The ranked rows of the first `l` active users by score. */
  function Board(users: seq<User>, l: int): (r: seq<RankEntry>)
    requires l != 0
    ensures forall i :: 0 <= i < |r| ==> r[i].rank == i + 1
    ensures forall i, j :: 0 <= i < j < |r| ==> r[i].totalScore >= r[j].totalScore
    ensures forall i :: 0 <= i < |r| ==> RowOf(users, r[i])
    ensures var n := Count(users, (u: User) => u.isActive);
      var m := if l < 0 then -l else l;
      |r| == if m < n then m else n
  {
    var board := UserService.Leaderboard(users, l);
    var r := Ranked(board);
    assert forall i :: 0 <= i < |r| ==> board[i] in users && board[i].isActive;
    r
  }

  /** An active user missing from a board with a non-zero limit scores no
      more than any row on it. */
  lemma BoardKeepsBest(users: seq<User>, l: int, u: User)
    requires l != 0 && u in users && u.isActive
    requires forall e :: e in Board(users, l) ==> e.id != u.id
    ensures forall e :: e in Board(users, l) ==> e.totalScore >= u.totalScore
  {
    var board := UserService.Leaderboard(users, l);
    var r := Ranked(board);
    assert r == Board(users, l);
    assert u !in board by {
      forall i | 0 <= i < |board| ensures board[i] != u {
        assert r[i] in r;
      }
    }
    UserService.LeaderboardKeepsBest(users, l, u);
    forall e | e in r ensures e.totalScore >= u.totalScore {
      var i :| 0 <= i < |r| && r[i] == e;
      assert board[i] in board;
    }
  }

  /** No active user left off the leaderboard outscores a row on it. */
  lemma LeaderboardKeepsBest(db: Db, limit: Option<string>, u: User)
    requires u in db.users && u.isActive
    requires forall e :: e in Leaderboard(db, limit) ==> e.id != u.id
    ensures forall e :: e in Leaderboard(db, limit) ==> e.totalScore >= u.totalScore
  {
    BoardKeepsBest(db.users, Numbers.QueryNumber(limit, 10), u);
  }

  /** An absent, non-numeric or zero limit shows ten rows, or every active
      user when there are fewer. */
  lemma LeaderboardDefaultsToTen(db: Db, limit: Option<string>)
    requires limit.None? || Numbers.ParseInt(limit.value).None? || Numbers.ParseInt(limit.value) == Some(0)
    ensures var n := Count(db.users, (u: User) => u.isActive);
      |Leaderboard(db, limit)| == if n < 10 then n else 10
  {
  }

  /** A positive limit written in decimal shows that many rows at most. */
  lemma LeaderboardHonoursLimit(db: Db, n: nat)
    requires n > 0
    ensures var active := Count(db.users, (u: User) => u.isActive);
      |Leaderboard(db, Some(Numbers.IntText(n)))| == if n < active then n else active
  {
    Numbers.ParseIntRoundTrip(n);
    assert Numbers.QueryNumber(Some(Numbers.IntText(n)), 10) == n;
    assert |Leaderboard(db, Some(Numbers.IntText(n)))| == |UserService.Leaderboard(db.users, n)|;
  }

  // ---------------------------------------------------------------------
  // getAllUsers

  /** The query string of `getAllUsers`; `None` stands for an absent key. */
  datatype UserQuery = UserQuery(page: Option<string>, limit: Option<string>, role: Option<string>, isActive: Option<string>)

  /** The filters: a truthy role, and `isActive` whenever the key is given,
      true exactly for the text "true". */
  function FilterOf(q: UserQuery): (f: UserService.UserFilter)
    ensures f.role.Some? <==> Truthy(q.role)
    ensures f.role.Some? ==> f.role == q.role
    ensures f.isActive.Some? <==> q.isActive.Some?
    ensures f.isActive == Some(true) <==> q.isActive == Some("true")
  {
    UserService.UserFilter(
      if Truthy(q.role) then q.role else None,
      if q.isActive.Some? then Some(q.isActive.value == "true") else None)
  }

  /** How many users the page skips: `(page - 1) * limit`. */
  function SkipOf(page: int, limit: int): int {
    (page - 1) * limit
  }

  /** How many of `total` listed users a page shows once `skip` are passed
      over: all that remain, cut to the limit's absolute value unless the
      limit is 0, which `limit(0)` reads as no limit. */
  function PageSize(total: nat, skip: int, limit: int): nat {
    var rest := if skip < total then total - skip else 0;
    var m := if limit < 0 then -limit else limit;
    if limit != 0 && m < rest then m else rest
  }

  datatype UsersPage = UsersPage(status: Status, users: seq<User>, counts: UserService.UserCounts, page: int, limit: int)

  /** The matching users, newest first, `limit` of them after skipping
      `skip`; a negative skip is a 500. */
  function ListPage(db: Db, f: UserService.UserFilter, skip: int, limit: int): (r: (Status, seq<User>))
    ensures r.0 == InternalError <==> skip < 0
    ensures r.0 in {InternalError, Ok}
    ensures r.0 == InternalError ==> r.1 == []
    ensures r.0 == Ok ==>
      var all := UserService.UserListing(db.users, f);
      && |r.1| == PageSize(|all|, skip, limit)
      && (forall i :: 0 <= i < |r.1| ==> skip + i < |all| && r.1[i] == all[skip + i])
      && (forall u :: u in r.1 ==> u in db.users && UserService.MatchesFilter(u, f))
      && (limit != 0 ==> |r.1| <= if limit < 0 then -limit else limit)
  {
    match UserService.AllUsers(db.users, f, limit, skip)
    case None => (InternalError, [])
    case Some(users) =>
      var all := UserService.UserListing(db.users, f);
      assert forall u :: u in users ==> u in db.users && UserService.MatchesFilter(u, f) by {
        forall u | u in users ensures u in db.users && UserService.MatchesFilter(u, f) {
          var i :| 0 <= i < |users| && users[i] == u;
          assert users[i] == all[skip + i];
        }
      }
      (Ok, users)
  }

  /** `getAllUsers`: page `parseInt(page) || 1` of `parseInt(limit) || 20`
      users, skipping `(page - 1) * limit`; neither number can be 0, so a
      page never asks for "no limit", and a page below 1 is a 500. */
  function AllUsers(db: Db, q: UserQuery): (r: UsersPage)
    ensures r.page == Numbers.QueryNumber(q.page, 1) && r.limit == Numbers.QueryNumber(q.limit, 20)
    ensures r.page != 0 && r.limit != 0
    ensures r.status == InternalError <==> SkipOf(r.page, r.limit) < 0
    ensures r.status == Ok ==>
      var all := UserService.UserListing(db.users, FilterOf(q));
      var skip := SkipOf(r.page, r.limit);
      && r.counts == UserService.CountUsers(db.users)
      && |r.users| == PageSize(|all|, skip, r.limit)
      && (forall i :: 0 <= i < |r.users| ==> skip + i < |all| && r.users[i] == all[skip + i])
      && (forall u :: u in r.users ==> u in db.users && UserService.MatchesFilter(u, FilterOf(q)))
  {
    PageOf(db, FilterOf(q), Numbers.QueryNumber(q.page, 1), Numbers.QueryNumber(q.limit, 20))
  }

  /** Page `page` of `limit` users under the filter `f`. */
  function PageOf(db: Db, f: UserService.UserFilter, page: int, limit: int): (r: UsersPage)
    requires limit != 0
    ensures r.page == page && r.limit == limit
    ensures r.status == InternalError <==> SkipOf(page, limit) < 0
    ensures r.status == Ok ==>
      var all := UserService.UserListing(db.users, f);
      var skip := SkipOf(page, limit);
      && r.counts == UserService.CountUsers(db.users)
      && |r.users| == PageSize(|all|, skip, limit)
      && (forall i :: 0 <= i < |r.users| ==> skip + i < |all| && r.users[i] == all[skip + i])
      && (forall u :: u in r.users ==> u in db.users && UserService.MatchesFilter(u, f))
  {
    var (status, users) := ListPage(db, f, SkipOf(page, limit), limit);
    UsersPage(status, users, UserService.CountUsers(db.users), page, limit)
  }

  /** Without paging parameters the answer is the first twenty matching users. */
  lemma FirstPageByDefault(db: Db, q: UserQuery)
    requires q.page.None? && q.limit.None?
    ensures var r := AllUsers(db, q);
      var all := UserService.UserListing(db.users, FilterOf(q));
      && r.status == Ok
      && r.users == Take(all, 20)
  {
    var all := UserService.UserListing(db.users, FilterOf(q));
    var users := UserService.AllUsers(db.users, FilterOf(q), 20, 0).value;
    assert |users| == |Take(all, 20)|;
  }

  // ---------------------------------------------------------------------
  // addFriend and removeFriend

  /** The write of `addFriend` after the self test: an unknown friend is a
      404, an inactive one a 400, and a refusal of the service a 500. */
  function AddFriendChecked(db: Db, caller: User, friend: RawId): (r: Reply)
    ensures var found := FindUserById(db.users, friend);
      && (r.status == NotFound <==> found.None?)
      && (r.status == BadRequest <==> found.Some? && !found.value.isActive)
      && (r.status == InternalError <==>
            found.Some? && found.value.isActive && FindUserById(db.users, ObjectId(caller.id)).None?)
      && (r.status != Ok ==> r.db == db)
      && (r.status == Ok ==>
        var k := IndexOf(db.users, caller.id).value;
        && |r.db.users| == |db.users|
        && r.db == db.(users := db.users[k := r.db.users[k]])
        && r.db.users[k].(friends := db.users[k].friends) == db.users[k]
        && forall f :: f in r.db.users[k].friends <==> f in db.users[k].friends || f == friend.id)
  {
    match FindUserById(db.users, friend)
    case None => Reply(db, NotFound)
    case Some(f) =>
      if !f.isActive then Reply(db, BadRequest)
      else
        match UserService.AddFriend(db.users, ObjectId(caller.id), friend)
        case None => Reply(db, InternalError)
        case Some((users', _)) => Reply(db.(users := users'), Ok)
  }

  /** `addFriend` with the self test as written: the route parameter, a
      string, against the caller's `_id`, an ObjectId object. */
  function AddFriendAsWritten(db: Db, caller: User, friendId: string): (r: Reply)
    ensures r == AddFriendChecked(db, caller, Text.ParseObjectId(friendId))
  {
    JsEquality.ObjectNeverStrictlyEqual(JsEquality.JsString(friendId), caller.id);
    if JsEquality.StrictEquals(JsEquality.JsString(friendId), JsEquality.ObjectIdObject(caller.id)) then Reply(db, BadRequest)
    else AddFriendChecked(db, caller, Text.ParseObjectId(friendId))
  }

  /** `addFriend` with the self test comparing ids: the caller themself is a
      400, an unknown user a 404, an inactive one a 400; otherwise the
      friend joins the caller's list, once, and no other user changes. */
  function AddFriend(db: Db, caller: User, friendId: string): (r: Reply)
    ensures var friend := Text.ParseObjectId(friendId);
      var found := FindUserById(db.users, friend);
      && (r.status == NotFound <==> friend != ObjectId(caller.id) && found.None?)
      && (r.status == BadRequest <==> friend == ObjectId(caller.id) || (found.Some? && !found.value.isActive))
      && (r.status == InternalError <==>
            friend != ObjectId(caller.id) && found.Some? && found.value.isActive
            && FindUserById(db.users, ObjectId(caller.id)).None?)
      && (r.status != Ok ==> r.db == db)
      && (r.status == Ok ==>
        var k := IndexOf(db.users, caller.id).value;
        && |r.db.users| == |db.users|
        && r.db == db.(users := db.users[k := r.db.users[k]])
        && r.db.users[k].(friends := db.users[k].friends) == db.users[k]
        && forall f :: f in r.db.users[k].friends <==> f in db.users[k].friends || f == friend.id)
  {
    var friend := Text.ParseObjectId(friendId);
    if friend == ObjectId(caller.id) then Reply(db, BadRequest)
    else AddFriendChecked(db, caller, friend)
  }

  /** As written, an active caller who names their own id becomes their
      own friend, where the id comparison refuses with a 400. */
  lemma SelfFriendAccepted(db: Db, caller: User)
    requires caller.id < Text.Pow16(Text.ObjectIdHexLength)
    requires FindUserById(db.users, ObjectId(caller.id)).Some?
    requires FindUserById(db.users, ObjectId(caller.id)).value.isActive
    ensures var r := AddFriendAsWritten(db, caller, Text.ObjectIdText(caller.id));
      && r.status == Ok
      && caller.id in r.db.users[IndexOf(db.users, caller.id).value].friends
    ensures AddFriend(db, caller, Text.ObjectIdText(caller.id)).status == BadRequest
  {
    Text.ObjectIdRoundTrip(caller.id);
  }

  /** `removeFriend`: a malformed id or an unknown caller is a 404;
      otherwise the friend leaves the caller's list and nothing else
      changes. */
  function RemoveFriend(db: Db, caller: User, friendId: RawId): (r: Reply)
    ensures r.status == NotFound <==> !friendId.ObjectId? || FindUserById(db.users, ObjectId(caller.id)).None?
    ensures r.status in {NotFound, Ok}
    ensures r.status == NotFound ==> r.db == db
    ensures r.status == Ok ==>
      var k := IndexOf(db.users, caller.id).value;
      && |r.db.users| == |db.users|
      && r.db == db.(users := db.users[k := r.db.users[k]])
      && r.db.users[k].(friends := db.users[k].friends) == db.users[k]
      && forall f :: f in r.db.users[k].friends <==> f in db.users[k].friends && f != friendId.id
  {
    match UserService.RemoveFriend(db.users, ObjectId(caller.id), friendId)
    case None => Reply(db, NotFound)
    case Some((users', _)) => Reply(db.(users := users'), Ok)
  }

  /** Removing a friend just added gives back the caller's other friends. */
  lemma AddThenRemoveFriend(db: Db, caller: User, friendId: string)
    requires AddFriend(db, caller, friendId).status == Ok
    ensures var db' := AddFriend(db, caller, friendId).db;
      var k := IndexOf(db.users, caller.id).value;
      && RemoveFriend(db', caller, Text.ParseObjectId(friendId)).status == Ok
      && forall f :: f in RemoveFriend(db', caller, Text.ParseObjectId(friendId)).db.users[k].friends <==>
           f in db.users[k].friends && f != Text.ParseObjectId(friendId).id
  {
    var db' := AddFriend(db, caller, friendId).db;
    var k := IndexOf(db.users, caller.id).value;
    FindFirstAfterReplace(db.users, (x: User) => x.id == caller.id, k, db'.users[k]);
    assert IndexOf(db'.users, caller.id) == Some(k);
  }
}

=== FILE: user_schema.dfy ===
/** The user document: roles, profile, friend and badge lists and the
    aggregate statistics, with the defaults and the unique e-mail index of
    the user schema. */
module UserSchema {
  import opened Common
  import opened Collections
  import Text

  datatype Role = SuperAdmin | GymOwner | RegularUser {
    /** The enumeration's string value. */
    function Name(): string {
      match this
      case SuperAdmin => "SUPER_ADMIN"
      case GymOwner => "GYM_OWNER"
      case RegularUser => "USER"
    }
  }

  datatype User = User(
    id: Id,
    email: string,
    password: string,           // the stored hash
    firstName: string,
    lastName: string,
    role: Role,
    isActive: bool,
    badges: seq<Id>,
    totalScore: int,
    gymId: Option<Id>,
    friends: seq<Id>,
    challengesCompleted: int,
    totalCaloriesBurned: int,
    streakDays: int,
    lastActivityDate: Option<Millis>,
    createdAt: Millis)

  /** The stored form of an e-mail address (`lowercase: true, trim: true`).
      The same setters apply to the e-mail of a query filter. */
  function NormalizeEmail(email: string): string {
    Text.LowerAscii(Text.Trim(email))
  }

  /** The fields a create supplies; an absent one takes its schema default. */
  datatype UserFields = UserFields(
    email: string,
    password: string,
    firstName: string,
    lastName: string,
    role: Option<Role>,
    isActive: Option<bool>,
    totalScore: Option<int>)

  /** The `required` validators, on the values after the setters ran. */
  predicate FieldsValid(f: UserFields) {
    && NormalizeEmail(f.email) != ""
    && f.password != ""
    && Text.Trim(f.firstName) != ""
    && Text.Trim(f.lastName) != ""
  }

  predicate EmailsUnique(users: seq<User>) {
    forall i, j :: 0 <= i < j < |users| ==> users[i].email != users[j].email
  }

  predicate EmailTaken(users: seq<User>, email: string) {
    exists i :: 0 <= i < |users| && users[i].email == email
  }

  /** `userModel.create`: validation, then the unique index on `email`. */
  function Insert(users: seq<User>, f: UserFields, now: Millis): (r: Result<(seq<User>, User), WriteError>)
    ensures !FieldsValid(f) <==> r == Failure(ValidationFailed)
    ensures r == Failure(DuplicateKey) <==> FieldsValid(f) && EmailTaken(users, NormalizeEmail(f.email))
    ensures r.Success? ==>
      var (users', u) := r.value;
      && users' == users + [u]
      && (forall i :: 0 <= i < |users| ==> users[i].id != u.id)
      && u.email == NormalizeEmail(f.email)
      && u.role == (if f.role.Some? then f.role.value else RegularUser)
      && u.isActive == (if f.isActive.Some? then f.isActive.value else true)
      && u.totalScore == (if f.totalScore.Some? then f.totalScore.value else 0)
      && u.badges == [] && u.friends == [] && u.gymId.None?
      && u.challengesCompleted == 0 && u.totalCaloriesBurned == 0 && u.streakDays == 0
  {
    if !FieldsValid(f) then Failure(ValidationFailed)
    else
      var email := NormalizeEmail(f.email);
      if EmailTaken(users, email) then Failure(DuplicateKey)
      else
        var u := User(
          FreshId(users, (x: User) => x.id), email, f.password,
          Text.Trim(f.firstName), Text.Trim(f.lastName),
          f.role.GetOr(RegularUser), f.isActive.GetOr(true),
          [], f.totalScore.GetOr(0), None, [], 0, 0, 0, None, now);
        Success((users + [u], u))
  }

  /** The unique index keeps e-mail addresses unique. */
  lemma InsertKeepsEmailsUnique(users: seq<User>, f: UserFields, now: Millis)
    requires EmailsUnique(users)
    ensures Insert(users, f, now).Success? ==> EmailsUnique(Insert(users, f, now).value.0)
  {
    var r := Insert(users, f, now);
    if r.Success? {
      var users' := r.value.0;
      var u := r.value.1;
      forall i, j | 0 <= i < j < |users'| ensures users'[i].email != users'[j].email {
        if j == |users| {
          assert users'[j] == u;
          assert users'[i] == users[i];
          assert !EmailTaken(users, u.email);
        } else {
          assert users'[i] == users[i] && users'[j] == users[j];
        }
      }
    }
  }

  /** Index of the document with this id. */
  function IndexOf(users: seq<User>, id: Id): Option<nat> {
    FindFirst(users, (u: User) => u.id == id)
  }

  /** `findById` after the `isValidObjectId` guard. */
  function FindUserById(users: seq<User>, id: RawId): (r: Option<User>)
    ensures r.Some? ==> id.ObjectId? && r.value in users && r.value.id == id.id
    ensures r.None? <==> !id.ObjectId? || forall i :: 0 <= i < |users| ==> users[i].id != id.id
  {
    if !id.ObjectId? then None
    else
      match IndexOf(users, id.id)
      case None => None
      case Some(k) => Some(users[k])
  }
}

=== FILE: user_service.dfy ===
/** The user service: profile and aggregate updates, the friend list, the
    score leaderboard, the paged listing and the user counts. */
module UserService {
  import opened Common
  import opened Collections
  import opened Ordering
  import opened UserSchema
  import Text

  /** `findUser(email, password?)`: the first user with this e-mail (after
      the schema's setters) and, when a password is given, whose stored hash
      is the hash of it. */
  function FindUser(users: seq<User>, email: string, password: Option<string>, hash: string -> string)
    : (r: Option<User>)
    ensures r.Some? ==> r.value in users && r.value.email == NormalizeEmail(email)
    ensures r.Some? && Truthy(password) ==> r.value.password == hash(password.value)
    ensures r.None? <==> forall i :: 0 <= i < |users| ==>
      !(users[i].email == NormalizeEmail(email) && (Truthy(password) ==> users[i].password == hash(password.value)))
  {
    var p := (u: User) => u.email == NormalizeEmail(email) && (Truthy(password) ==> u.password == hash(password.value));
    match FindFirst(users, p)
    case None => None
    case Some(k) => Some(users[k])
  }

  /** `findByIdAndUpdate(id, ...)` with the update written as `change`. */
  function UpdateUserWith(users: seq<User>, id: Id, change: User -> User): (r: Option<(seq<User>, User)>)
    ensures r.None? <==> forall i :: 0 <= i < |users| ==> users[i].id != id
    ensures r.Some? ==>
      var k := IndexOf(users, id).value;
      r.value == (users[k := change(users[k])], change(users[k]))
  {
    UpdateFirst(users, (u: User) => u.id == id, change)
  }

  /** The fields `updateProfile` passes on; the `trim` setters apply. */
  datatype ProfileUpdate = ProfileUpdate(firstName: Option<string>, lastName: Option<string>)

  /** `updateUser(id, updates)`: `None` for a malformed or unknown id;
      otherwise the given names are written, trimmed, and nothing else. */
  function UpdateUser(users: seq<User>, id: RawId, p: ProfileUpdate): (r: Option<(seq<User>, User)>)
    ensures r.None? <==> !id.ObjectId? || forall i :: 0 <= i < |users| ==> users[i].id != id.id
    ensures r.Some? ==>
      var k := IndexOf(users, id.id).value;
      var u := r.value.1;
      && u.firstName == (if p.firstName.Some? then Text.Trim(p.firstName.value) else users[k].firstName)
      && u.lastName == (if p.lastName.Some? then Text.Trim(p.lastName.value) else users[k].lastName)
      && u.(firstName := users[k].firstName, lastName := users[k].lastName) == users[k]
      && r.value.0 == users[k := u]
  {
    if !id.ObjectId? then None
    else
      UpdateUserWith(users, id.id, (u: User) =>
        u.(firstName := if p.firstName.Some? then Text.Trim(p.firstName.value) else u.firstName,
           lastName := if p.lastName.Some? then Text.Trim(p.lastName.value) else u.lastName))
  }

  /** `addBadgeToUser(userId, badgeId)`: `$addToSet`, so the badge is listed
      once however often it is added; nothing else changes. */
  function AddBadgeToUser(users: seq<User>, userId: RawId, badgeId: Id): (r: Option<(seq<User>, User)>)
    ensures r.None? <==> !userId.ObjectId? || forall i :: 0 <= i < |users| ==> users[i].id != userId.id
    ensures r.Some? ==>
      var k := IndexOf(users, userId.id).value;
      var u := r.value.1;
      && badgeId in u.badges
      && (forall b :: b in u.badges <==> b in users[k].badges || b == badgeId)
      && (badgeId in users[k].badges ==> u.badges == users[k].badges)
      && (NoDup(users[k].badges) ==> NoDup(u.badges))
      && u.(badges := users[k].badges) == users[k]
      && r.value.0 == users[k := u]
  {
    if !userId.ObjectId? then None
    else UpdateUserWith(users, userId.id, (u: User) => u.(badges := AddToSet(u.badges, badgeId)))
  }

  /** Adding a badge twice is adding it once. */
  lemma AddBadgeIdempotent(users: seq<User>, userId: Id, badgeId: Id)
    requires AddBadgeToUser(users, ObjectId(userId), badgeId).Some?
    ensures var once := AddBadgeToUser(users, ObjectId(userId), badgeId).value.0;
      AddBadgeToUser(once, ObjectId(userId), badgeId).Some? &&
      AddBadgeToUser(once, ObjectId(userId), badgeId).value.0 == once
  {
    var k := IndexOf(users, userId).value;
    var once := AddBadgeToUser(users, ObjectId(userId), badgeId).value.0;
    assert IndexOf(once, userId) == Some(k) by {
      assert once[k].id == userId;
      assert forall j :: 0 <= j < k ==> once[j] == users[j];
    }
    assert once[k := once[k]] == once;
  }

  /** `updateUserScore(userId, points)`: `$inc`, exactly `points` more. */
  function UpdateUserScore(users: seq<User>, userId: RawId, points: int): (r: Option<(seq<User>, User)>)
    ensures r.None? <==> !userId.ObjectId? || forall i :: 0 <= i < |users| ==> users[i].id != userId.id
    ensures r.Some? ==>
      var k := IndexOf(users, userId.id).value;
      && r.value.1.totalScore == users[k].totalScore + points
      && r.value.1.(totalScore := users[k].totalScore) == users[k]
      && r.value.0 == users[k := r.value.1]
  {
    if !userId.ObjectId? then None
    else UpdateUserWith(users, userId.id, (u: User) => u.(totalScore := u.totalScore + points))
  }

  /** Two score increments add up. */
  lemma ScoreIncrementsAdd(users: seq<User>, userId: Id, a: int, b: int)
    requires UpdateUserScore(users, ObjectId(userId), a).Some?
    ensures var once := UpdateUserScore(users, ObjectId(userId), a).value.0;
      UpdateUserScore(once, ObjectId(userId), b).Some? &&
      UpdateUserScore(once, ObjectId(userId), b).value == UpdateUserScore(users, ObjectId(userId), a + b).value
  {
    var k := IndexOf(users, userId).value;
    var once := UpdateUserScore(users, ObjectId(userId), a).value.0;
    assert IndexOf(once, userId) == Some(k) by {
      assert once[k].id == userId;
      assert forall j :: 0 <= j < k ==> once[j] == users[j];
    }
    var x := users[k].(totalScore := users[k].totalScore + a + b);
    assert once[k := x] == users[k := x];
  }

  /** `addFriend(userId, friendId)`: `None` when either id is malformed, the
      user is unknown, or the friend is unknown or inactive; otherwise the
      friend is set-added to the user's own list and to no other. */
  function AddFriend(users: seq<User>, userId: RawId, friendId: RawId): (r: Option<(seq<User>, User)>)
    ensures r.None? <==>
      || !userId.ObjectId? || !friendId.ObjectId?
      || FindUserById(users, userId).None?
      || FindUserById(users, friendId).None?
      || !FindUserById(users, friendId).value.isActive
    ensures r.Some? ==>
      var k := IndexOf(users, userId.id).value;
      var u := r.value.1;
      && friendId.id in u.friends
      && (forall f :: f in u.friends <==> f in users[k].friends || f == friendId.id)
      && (NoDup(users[k].friends) ==> NoDup(u.friends))
      && u.(friends := users[k].friends) == users[k]
      && r.value.0 == users[k := u]
  {
    if !userId.ObjectId? || !friendId.ObjectId? then None
    else if FindUserById(users, userId).None? then None
    else
      var friend := FindUserById(users, friendId);
      if friend.None? || !friend.value.isActive then None
      else UpdateUserWith(users, userId.id, (u: User) => u.(friends := AddToSet(u.friends, friendId.id)))
  }

  /** Friendship is one-directional: adding a friend leaves every other
      user, the friend included, exactly as stored. */
  lemma AddFriendOneWay(users: seq<User>, userId: Id, friendId: Id, i: nat)
    requires AddFriend(users, ObjectId(userId), ObjectId(friendId)).Some?
    requires i < |users| && users[i].id != userId
    ensures AddFriend(users, ObjectId(userId), ObjectId(friendId)).value.0[i] == users[i]
  {
    var k := IndexOf(users, userId).value;
    assert users[k].id == userId;
  }

  /** `removeFriend(userId, friendId)`: `None` only for a malformed id or an
      unknown user; every occurrence of the friend leaves the user's list. */
  function RemoveFriend(users: seq<User>, userId: RawId, friendId: RawId): (r: Option<(seq<User>, User)>)
    ensures r.None? <==> !userId.ObjectId? || !friendId.ObjectId? || FindUserById(users, userId).None?
    ensures r.Some? ==>
      var k := IndexOf(users, userId.id).value;
      var u := r.value.1;
      && friendId.id !in u.friends
      && (forall f :: f in u.friends <==> f in users[k].friends && f != friendId.id)
      && u.(friends := users[k].friends) == users[k]
      && r.value.0 == users[k := u]
  {
    if !userId.ObjectId? || !friendId.ObjectId? then None
    else UpdateUserWith(users, userId.id, (u: User) => u.(friends := Pull(u.friends, friendId.id)))
  }

  /** Removing a friend just added leaves the other friends as they were. */
  lemma AddThenRemoveFriend(users: seq<User>, userId: Id, friendId: Id)
    requires AddFriend(users, ObjectId(userId), ObjectId(friendId)).Some?
    ensures var added := AddFriend(users, ObjectId(userId), ObjectId(friendId)).value.0;
      && RemoveFriend(added, ObjectId(userId), ObjectId(friendId)).Some?
      && forall f :: f in RemoveFriend(added, ObjectId(userId), ObjectId(friendId)).value.1.friends <==>
           f in FindUserById(users, ObjectId(userId)).value.friends && f != friendId
  {
    var k := IndexOf(users, userId).value;
    var added := AddFriend(users, ObjectId(userId), ObjectId(friendId)).value.0;
    assert IndexOf(added, userId) == Some(k) by {
      assert added[k].id == userId;
      assert forall j :: 0 <= j < k ==> added[j] == users[j];
    }
  }

  /** `getFriends(userId)`: the active users on the user's friend list, in
      store order; empty for an unknown user. */
  function Friends(users: seq<User>, userId: RawId): (r: seq<User>)
    ensures FindUserById(users, userId).None? ==> r == []
    ensures FindUserById(users, userId).Some? ==>
      forall v :: v in r <==> v in users && v.isActive && v.id in FindUserById(users, userId).value.friends
  {
    match FindUserById(users, userId)
    case None => []
    case Some(owner) =>
      if |owner.friends| == 0 then []
      else
        var r := Filter(users, (v: User) => v.isActive && v.id in owner.friends);
        assert forall v :: v in users && v.isActive && v.id in owner.friends ==> v in r by {
          forall v | v in users && v.isActive && v.id in owner.friends ensures v in r {
            var i :| 0 <= i < |users| && users[i] == v;
          }
        }
        r
  }

  /** The optional parts of an `updateUserStats` call. */
  datatype StatsUpdate = StatsUpdate(
    challengesCompleted: Option<int>,
    totalCaloriesBurned: Option<int>,
    streakDays: Option<int>,
    lastActivityDate: Option<Millis>)

  /** `updateUserStats(userId, stats)`: the two counters grow by the amounts
      given, streak and last activity are overwritten when given, and an
      absent field is left alone. */
  function UpdateUserStats(users: seq<User>, userId: Id, st: StatsUpdate): (r: Option<(seq<User>, User)>)
    ensures r.None? <==> forall i :: 0 <= i < |users| ==> users[i].id != userId
    ensures r.Some? ==>
      var k := IndexOf(users, userId).value;
      var old_ := users[k];
      var u := r.value.1;
      && u.challengesCompleted == old_.challengesCompleted + st.challengesCompleted.GetOr(0)
      && u.totalCaloriesBurned == old_.totalCaloriesBurned + st.totalCaloriesBurned.GetOr(0)
      && (st.streakDays.Some? ==> u.streakDays == st.streakDays.value)
      && (st.streakDays.None? ==> u.streakDays == old_.streakDays)
      && (st.lastActivityDate.Some? ==> u.lastActivityDate == st.lastActivityDate)
      && (st.lastActivityDate.None? ==> u.lastActivityDate == old_.lastActivityDate)
      && u.(challengesCompleted := old_.challengesCompleted, totalCaloriesBurned := old_.totalCaloriesBurned,
            streakDays := old_.streakDays, lastActivityDate := old_.lastActivityDate) == old_
      && r.value.0 == users[k := u]
  {
    UpdateUserWith(users, userId, (u: User) =>
      u.(challengesCompleted := u.challengesCompleted + st.challengesCompleted.GetOr(0),
         totalCaloriesBurned := u.totalCaloriesBurned + st.totalCaloriesBurned.GetOr(0),
         streakDays := st.streakDays.GetOr(u.streakDays),
         lastActivityDate := if st.lastActivityDate.Some? then st.lastActivityDate else u.lastActivityDate))
  }

  /** An update with no field changes nothing. */
  lemma EmptyStatsUpdateKeeps(users: seq<User>, userId: Id)
    requires exists i :: 0 <= i < |users| && users[i].id == userId
    ensures UpdateUserStats(users, userId, StatsUpdate(None, None, None, None)).value.0 == users
  {
    var k := IndexOf(users, userId).value;
    assert users[k := users[k]] == users;
  }

  // ---------------------------------------------------------------------
  // getLeaderboard

  /** Sort key of `sort({totalScore: -1})`. */
  function ScoreKey(u: User): seq<int> {
    [-u.totalScore]
  }

  /** `getLeaderboard(limit)`: active users only, highest score first, at
      most `limit` of them (`limit(0)` means no limit and a negative limit
      counts by its absolute value). */
  function Leaderboard(users: seq<User>, limit: int): (r: seq<User>)
    ensures forall u :: u in r ==> u in users && u.isActive
    ensures forall i, j :: 0 <= i < j < |r| ==> r[i].totalScore >= r[j].totalScore
    ensures var n := Count(users, (u: User) => u.isActive);
      |r| == if limit == 0 then n else var m := if limit < 0 then -limit else limit; if m < n then m else n
  {
    var active := Filter(users, (u: User) => u.isActive);
    var sorted := SortBy(active, ScoreKey);
    var r := Limit(sorted, limit);
    SortFilterMembers(users, (u: User) => u.isActive, ScoreKey);
    forall u | u in r ensures u in sorted {
      var i :| 0 <= i < |r| && r[i] == u;
      assert r[i] == sorted[i];
    }
    forall i, j | 0 <= i < j < |r| ensures r[i].totalScore >= r[j].totalScore {
      assert r[i] == sorted[i] && r[j] == sorted[j];
      LexLeqSingle(-sorted[i].totalScore, -sorted[j].totalScore);
    }
    r
  }

  /** The leaderboard keeps the best: an active user left off a limited board
      scores no more than anyone on it. */
  lemma LeaderboardKeepsBest(users: seq<User>, limit: int, u: User)
    requires limit != 0
    requires u in users && u.isActive && u !in Leaderboard(users, limit)
    ensures forall v :: v in Leaderboard(users, limit) ==> v.totalScore >= u.totalScore
  {
    var active := Filter(users, (x: User) => x.isActive);
    var m := if limit < 0 then -limit else limit;
    assert Leaderboard(users, limit) == Take(SortBy(active, ScoreKey), m);
    assert u in active;
    TakeSortedKeepsBest(active, ScoreKey, m, u);
    forall v | v in Leaderboard(users, limit) ensures v.totalScore >= u.totalScore {
      assert LexLeq(ScoreKey(v), ScoreKey(u));
    }
  }

  // ---------------------------------------------------------------------
  // getAllUsers

  /** The filters `getAllUsers` receives: a role name (any string; an
      unknown one matches nobody) and an activity flag. */
  datatype UserFilter = UserFilter(role: Option<string>, isActive: Option<bool>)

  predicate MatchesFilter(u: User, f: UserFilter) {
    && (f.role.Some? ==> u.role.Name() == f.role.value)
    && (f.isActive.Some? ==> u.isActive == f.isActive.value)
  }

  /** Sort key of `sort({createdAt: -1})`. */
  function NewestFirst(u: User): seq<int> {
    [-u.createdAt]
  }

  /** The matching users, newest first, before paging. */
  function UserListing(users: seq<User>, f: UserFilter): (r: seq<User>)
    ensures forall u :: u in r <==> u in users && MatchesFilter(u, f)
    ensures forall i, j :: 0 <= i < j < |r| ==> r[i].createdAt >= r[j].createdAt
    ensures |r| == Count(users, (u: User) => MatchesFilter(u, f))
  {
    var p := (u: User) => MatchesFilter(u, f);
    var r := SortBy(Filter(users, p), NewestFirst);
    SortFilterMembers(users, p, NewestFirst);
    forall i, j | 0 <= i < j < |r| ensures r[i].createdAt >= r[j].createdAt {
      LexLeqSingle(-r[i].createdAt, -r[j].createdAt);
    }
    r
  }

  /** `getAllUsers(filters, limit, skip)`: the query skips before it limits,
      whatever order the calls are chained in; a negative skip makes the
      query fail (`None`). */
  function AllUsers(users: seq<User>, f: UserFilter, limit: int, skip: int): (r: Option<seq<User>>)
    ensures r.None? <==> skip < 0
    ensures r.Some? ==>
      var all := UserListing(users, f);
      var rest := if skip < |all| then |all| - skip else 0;
      && |r.value| == (if limit == 0 then rest else var m := if limit < 0 then -limit else limit; if m < rest then m else rest)
      && forall i :: 0 <= i < |r.value| ==> r.value[i] == all[skip + i]
  {
    if skip < 0 then None
    else Some(Limit(Skip(UserListing(users, f), skip), limit))
  }

  // ---------------------------------------------------------------------
  // assignUserToGym / removeUserFromGym

  /** `assignUserToGym(userId, gymId)`: only the gym reference changes. */
  function AssignUserToGym(users: seq<User>, userId: Id, gymId: Id): (r: Option<(seq<User>, User)>)
    ensures r.None? <==> forall i :: 0 <= i < |users| ==> users[i].id != userId
    ensures r.Some? ==>
      var k := IndexOf(users, userId).value;
      && r.value.1.gymId == Some(gymId)
      && r.value.1.(gymId := users[k].gymId) == users[k]
      && r.value.0 == users[k := r.value.1]
  {
    UpdateUserWith(users, userId, (u: User) => u.(gymId := Some(gymId)))
  }

  /** `getUsersByGym(gymId)`: the users whose gym reference is `gymId`, in store order. */
  function UsersByGym(users: seq<User>, gymId: Id): (r: seq<User>)
    ensures forall u :: u in r <==> u in users && u.gymId == Some(gymId)
  {
    var r := Filter(users, (u: User) => u.gymId == Some(gymId));
    assert forall u :: u in users && u.gymId == Some(gymId) ==> u in r by {
      forall u | u in users && u.gymId == Some(gymId) ensures u in r {
        var i :| 0 <= i < |users| && users[i] == u;
      }
    }
    r
  }

  /** `removeUserFromGym(userId)`: `$unset` of the gym reference only. */
  function RemoveUserFromGym(users: seq<User>, userId: Id): (r: Option<(seq<User>, User)>)
    ensures r.None? <==> forall i :: 0 <= i < |users| ==> users[i].id != userId
    ensures r.Some? ==>
      var k := IndexOf(users, userId).value;
      && r.value.1.gymId.None?
      && r.value.1.(gymId := users[k].gymId) == users[k]
      && r.value.0 == users[k := r.value.1]
  {
    UpdateUserWith(users, userId, (u: User) => u.(gymId := None))
  }

  /** Removing a user from a gym undoes assigning a user who had none. */
  lemma RemoveUndoesAssign(users: seq<User>, userId: Id, gymId: Id)
    requires AssignUserToGym(users, userId, gymId).Some?
    requires FindUserById(users, ObjectId(userId)).value.gymId.None?
    ensures var once := AssignUserToGym(users, userId, gymId).value.0;
      RemoveUserFromGym(once, userId).Some? && RemoveUserFromGym(once, userId).value.0 == users
  {
    var k := IndexOf(users, userId).value;
    var once := AssignUserToGym(users, userId, gymId).value.0;
    assert IndexOf(once, userId) == Some(k) by {
      assert once[k].id == userId;
      assert forall j :: 0 <= j < k ==> once[j] == users[j];
    }
    var twice := RemoveUserFromGym(once, userId).value.0;
    assert twice[k] == users[k];
    assert twice == users;
  }

  // ---------------------------------------------------------------------
  // getUserStats

  datatype UserCounts = UserCounts(
    totalUsers: nat,
    activeUsers: nat,
    inactiveUsers: int,
    superAdmins: nat,
    gymOwners: nat,
    regularUsers: nat)

  /** `getUserStats()`: each count is its own `countDocuments`;
      `inactiveUsers` is the total less the active ones, which is the
      number of inactive users, and the three role counts partition the
      total. */
  function CountUsers(users: seq<User>): (r: UserCounts)
    ensures r.totalUsers == |users|
    ensures r.activeUsers == Count(users, (u: User) => u.isActive)
    ensures r.superAdmins == Count(users, (u: User) => u.role == SuperAdmin)
    ensures r.gymOwners == Count(users, (u: User) => u.role == GymOwner)
    ensures r.regularUsers == Count(users, (u: User) => u.role == RegularUser)
    ensures r.inactiveUsers == Count(users, (u: User) => !u.isActive)
    ensures r.activeUsers + r.inactiveUsers == r.totalUsers
    ensures r.superAdmins + r.gymOwners + r.regularUsers == r.totalUsers
  {
    var active := Count(users, (u: User) => u.isActive);
    ActivityPartition(users);
    var admins := Count(users, (u: User) => u.role == SuperAdmin);
    var owners := Count(users, (u: User) => u.role == GymOwner);
    var regular := Count(users, (u: User) => u.role == RegularUser);
    RolesPartition(users);
    UserCounts(|users|, active, |users| - active, admins, owners, regular)
  }

  lemma {:induction false} ActivityPartition(users: seq<User>)
    ensures Count(users, (u: User) => u.isActive) + Count(users, (u: User) => !u.isActive) == |users|
  {
    if |users| > 0 {
      ActivityPartition(users[1..]);
    }
  }

  lemma {:induction false} RolesPartition(users: seq<User>)
    ensures Count(users, (u: User) => u.role == SuperAdmin) + Count(users, (u: User) => u.role == GymOwner)
          + Count(users, (u: User) => u.role == RegularUser) == |users|
  {
    if |users| > 0 {
      RolesPartition(users[1..]);
    }
  }
}
